=== FILE: README.md ===
# laim plugin scripts — a Dafny model

This project models the decision logic of the command-line scripts that ship with the laim plugins, and proves properties of that model. The scripts are Python; the model restates each one in Dafny, one module per script:

- **iMessage reading** (`imessage-read.py`):
  - `AttributedBody` models the three-strategy text recovery from `attributedBody` blobs.
  - `IMessage` models contact resolution, message selection and the thread format.
- **Contacts** (people plugin):
  - `AddContact` models phone/email validation, nicknames, the YAML entry and its splice into `contacts.yaml`.
  - `LookupContact` models the two-pass contact search.
- **Contact discovery** (`discover-contact.py`): `DiscoverContact` models phone-list splitting, normalisation and the JSON result.
- **Status line** (`statusline.py`): `Statusline` models the progress bar, colour bands, duration formats and the session and context segments.
- **Databricks plugin library** (`_lib/auth.py`, `_lib/config.py`, `_lib/output.py`):
  - `DbAuth`, `DbConfig` and `DbOutput` model profile validation, token masking, the profile listing, and the JSON/CSV/table output formats.
  - `Ini` models the part of `configparser` the profile file needs.
  - `Values` models Python's `str()` of JSON values.
- **Databricks executors**:
  - `ExecCommon` models what `databricks_exec.py` and `db_execute.py` share: the language check, result formatting, exit codes and the REPL's line buffering.
  - `ExecConfig` models their configuration resolution and validation.
- **Permissions** (`db_permissions.py`): `DbPermissions` models the object-type table, the API calls chosen, ACL flattening and the listing of permission levels.
- **SharePoint pages** (`sp_pages.py`): `SpPages` models URL parsing, the `.aspx` rule, HTML stripping, canvas parsing, section grouping and the table output.
- **Web rendering** (`render_web.py`): `RenderWeb` models the presets, the `manim` command line and the run outcome.
- **Shared modules**: `Wrappers` (Option/Result), `Text` (the string methods the scripts use) and `Numerals` (decimal rendering and parsing).

Everything outside the process enters as a parameter:
- the file system, the environment, the clock;
- SQLite query results;
- HTTP responses and the Databricks SDK;
- UTF-8 decoding, `plistlib`, and the `manim` subprocess.

The two executor scripts carry the same code at different lines. The table cites `databricks_exec.py` for the shared parts. In `db_execute.py`:
- the language check is at 136-145;
- `OutputFormatter.format` is at 280-332;
- the exit-code rule is at 343 and 365;
- the REPL buffering is at 387-405.

Three orderings in the code are easy to misread:
- **Strategy order.** Text recovery tries the proximity match, then the longest readable run, then the `bplist` walk (`imessage-read.py:70-107`).
- **Proximity and the deny-list.** The proximity strategy is not checked against the metadata deny-list. It returns its run as is, even an empty one or a class name such as `NSMutableString` (`AttributedBody.MetadataNameReadable`).
- **Name before nickname.** `resolve_contact` checks each contact's name and then that contact's nicknames before moving on to the next contact, so an earlier contact's nickname beats a later contact's exact name (`IMessage.EarlierNicknameBeatsLaterName`). Only `lookup-contact.py` makes a separate exact pass over the whole directory first.

Each operation is a function or method with a named result and a contract. Lemmas relate each operation to a partner: an inverse, a reference definition, or an invariant. Python strings are `seq<char>`, and bytes are integers 0..255. Python's `//` and `%` appear only with positive divisors, so Dafny's operators agree with them.

## Model

| member | source | states |
|---|---|---|
| AttributedBody.SearchFrom | messaging-plugin/skills/messaging/scripts/platforms/imessage-read.py:70 | `re.search` semantics for `NSString.{1,20}?`: the reported marker position has a match and no earlier position does; the gap is the shortest that completes a match there |
| AttributedBody.FindProximity | messaging-plugin/skills/messaging/scripts/platforms/imessage-read.py:70 | the proximity pattern matches iff a match is reported, and the reported match is the leftmost one with the lazy (shortest) gap |
| AttributedBody.GroupBytes | messaging-plugin/skills/messaging/scripts/platforms/imessage-read.py:70-73 | the captured group is at least two readable bytes, sits right after the gap, and is greedy: the byte after it is unreadable or the buffer ends |
| AttributedBody.FirstProximityMatchUnique | messaging-plugin/skills/messaging/scripts/platforms/imessage-read.py:70 | the first match (leftmost marker, lazy gap) is unique |
| AttributedBody.ReadableRuns | messaging-plugin/skills/messaging/scripts/platforms/imessage-read.py:79 | every run `re.findall` returns has at least four bytes, all in `[\x20-\x7e\xc0-\xff]` |
| AttributedBody.RunSpans | messaging-plugin/skills/messaging/scripts/platforms/imessage-read.py:79 | the positions of the runs: each span lies after the scan start, has at least four readable bytes, and ends before the next span begins |
| AttributedBody.ReadableRunsAtSpans | messaging-plugin/skills/messaging/scripts/platforms/imessage-read.py:79 | the runs found are exactly the bytes at those spans, one for one and in the same order |
| AttributedBody.RunSpansMaximal | messaging-plugin/skills/messaging/scripts/platforms/imessage-read.py:79 | scanning from a run boundary, every span is a maximal readable run: it cannot be extended on either side |
| AttributedBody.RunSpansComplete | messaging-plugin/skills/messaging/scripts/platforms/imessage-read.py:79 | every maximal readable run of four or more bytes after the scan start is one of the spans |
| AttributedBody.FindallRuns | messaging-plugin/skills/messaging/scripts/platforms/imessage-read.py:79 | `re.findall` with a greedy `{4,}` class: the runs are exactly the maximal readable runs of length four or more, each once, in left-to-right order |
| AttributedBody.ReadableRunsComplete | messaging-plugin/skills/messaging/scripts/platforms/imessage-read.py:79 | every maximal readable run of four or more bytes is among the runs found |
| AttributedBody.LowerBytes | messaging-plugin/skills/messaging/scripts/platforms/imessage-read.py:84 | `bytes.lower()` maps exactly the ASCII capitals and keeps the length |
| AttributedBody.ContentRuns | messaging-plugin/skills/messaging/scripts/platforms/imessage-read.py:82-85 | a run survives the filter iff it was found and its lower-cased form holds none of the four metadata tokens |
| AttributedBody.ContentRunsSingle | messaging-plugin/skills/messaging/scripts/platforms/imessage-read.py:82-85 | one run is kept iff its lower-cased form holds no metadata token |
| AttributedBody.ContentRunsAppend | messaging-plugin/skills/messaging/scripts/platforms/imessage-read.py:82-85 | the filter works run by run, so it keeps the order of the runs it keeps |
| AttributedBody.Longest | messaging-plugin/skills/messaging/scripts/platforms/imessage-read.py:88 | `max(key=len)` over a list: nothing for an empty list; otherwise an element at least as long as every other, at the first position holding a longest one |
| AttributedBody.FirstLongest | messaging-plugin/skills/messaging/scripts/platforms/imessage-read.py:88 | `max(key=len)` picks a longest element, and the first of equal longest ones |
| AttributedBody.LongestContentRun | messaging-plugin/skills/messaging/scripts/platforms/imessage-read.py:79-88 | strategy 2 picks a found run without metadata tokens that is at least as long as every other such run, and the first such run in scan order; there is none iff every found run carries a token |
| AttributedBody.LongestRunText | messaging-plugin/skills/messaging/scripts/platforms/imessage-read.py:86-94 | strategy 2 yields the trimmed decoding of that run, and only when it is not blank |
| AttributedBody.FirstUsableObject | messaging-plugin/skills/messaging/scripts/platforms/imessage-read.py:102-105 | the first `$objects` entry that is a string longer than one character and not a class-name sentinel; none iff there is no such entry |
| AttributedBody.BplistText | messaging-plugin/skills/messaging/scripts/platforms/imessage-read.py:97-107 | strategy 3 answers only for a buffer starting `bplist` whose plist decodes, with a usable string |
| AttributedBody.ExtractText | messaging-plugin/skills/messaging/scripts/platforms/imessage-read.py:58-112 | empty data gives `None`; a result from the fallback strategies is never empty |
| AttributedBody.ExtractTextProximity | messaging-plugin/skills/messaging/scripts/platforms/imessage-read.py:70-75 | whenever the pattern matches, the result is the trimmed decoding of the greedy run after the first match, whatever the later strategies would give |
| AttributedBody.ExtractTextFallback | messaging-plugin/skills/messaging/scripts/platforms/imessage-read.py:77-107 | without a proximity match, a non-blank strategy-2 text wins; otherwise strategy 3 decides, so only a `bplist` buffer can still yield text |
| AttributedBody.ProximityIgnoresDenyList | messaging-plugin/skills/messaging/scripts/platforms/imessage-read.py:70-85 | strategy 1 returns any readable run after the marker, even one strategy 2 would reject |
| AttributedBody.MetadataNameReadable | messaging-plugin/skills/messaging/scripts/platforms/imessage-read.py:84 | `NSMutableString` is a deny-listed yet readable run, so strategy 1 can return it |
| AttributedBody.LongestRunWins | messaging-plugin/skills/messaging/scripts/platforms/imessage-read.py:79-92 | with no marker match and a unique longest non-metadata run that is not blank, that run (trimmed) is the text |
| IMessage.FirstMatchingNickname | messaging-plugin/skills/messaging/scripts/platforms/imessage-read.py:183-188 | the nickname found equals the identifier ignoring case and is one of the contact's nicknames |
| IMessage.FirstAnswering | messaging-plugin/skills/messaging/scripts/platforms/imessage-read.py:171-188 | the first contact, in directory order, that matches by name or nickname and has an iMessage address |
| IMessage.ResolveContact | messaging-plugin/skills/messaging/scripts/platforms/imessage-read.py:158-191 | an identifier starting `+` or holding `@` passes through; otherwise the first answering contact gives its display name and phone (or email); with none the identifier is returned twice |
| IMessage.EarlierNicknameBeatsLaterName | messaging-plugin/skills/messaging/scripts/platforms/imessage-read.py:171-188 | contacts are tried one at a time, name then nicknames, so an earlier contact's nickname beats a later contact's exact name |
| IMessage.Selected | messaging-plugin/skills/messaging/scripts/platforms/imessage-read.py:216-240 | a row is selected iff it belongs to the conversation's handle and, when a valid `--since` date is given, is not older; order is kept |
| IMessage.Window | messaging-plugin/skills/messaging/scripts/platforms/imessage-read.py:241-242 | the query window is the first `2 * limit` rows; SQLite reads a negative limit as no limit |
| IMessage.RowText | messaging-plugin/skills/messaging/scripts/platforms/imessage-read.py:249-254 | a non-blank `text` column is used; otherwise a non-empty `attributedBody` is decoded; with neither the text stays empty |
| IMessage.Admit | messaging-plugin/skills/messaging/scripts/platforms/imessage-read.py:256-269 | a row yields a message iff its text is not blank and it passes the case-insensitive keyword filter; the message carries that text, the handle and the date |
| IMessage.Admitted | messaging-plugin/skills/messaging/scripts/platforms/imessage-read.py:247-269 | every message comes from some row of the scan |
| IMessage.AdmittedAppend | messaging-plugin/skills/messaging/scripts/platforms/imessage-read.py:247-269 | the messages of two row blocks are those of each block in order |
| IMessage.StoppedEarly | messaging-plugin/skills/messaging/scripts/platforms/imessage-read.py:271-273 | once a prefix of the rows has produced `cap` messages, those are the first `cap` messages of all the rows |
| IMessage.Scan | messaging-plugin/skills/messaging/scripts/platforms/imessage-read.py:247-273 | the loop returns the first `limit` messages of the window (at most one for a negative limit, since the count is checked after appending) |
| IMessage.GetMessages | messaging-plugin/skills/messaging/scripts/platforms/imessage-read.py:194-276 | `get_messages` returns the first messages of the conversation's window, in window order |
| IMessage.ThreadFacts | messaging-plugin/skills/messaging/scripts/platforms/imessage-read.py:241-273 | at most `limit` messages for a positive limit, none for zero, at most one for a negative one; each is from the contact, not blank, and passes the keyword filter |
| IMessage.OlderRowsUnseen | messaging-plugin/skills/messaging/scripts/platforms/imessage-read.py:241-242 | rows beyond the first `2 * limit` of the conversation never appear, even when blank rows leave fewer than `limit` messages |
| IMessage.MessageLine | messaging-plugin/skills/messaging/scripts/platforms/imessage-read.py:290-294 | a line is `[date] sender: text`, with "Me" for own messages; newlines in the text become the ` ↵ ` marker, so no line breaks |
| IMessage.UnmarkMarked | messaging-plugin/skills/messaging/scripts/platforms/imessage-read.py:290 | marking line breaks loses nothing for a text without the arrow character: turning each marker back into a line break gives the text |
| IMessage.MessageLineReadsBack | messaging-plugin/skills/messaging/scripts/platforms/imessage-read.py:290-294 | after the `[date] sender: ` prefix, the line reads back as exactly the message text, each marker standing for a line break |
| IMessage.MessageLines | messaging-plugin/skills/messaging/scripts/platforms/imessage-read.py:290-294 | one line per message, in order |
| IMessage.ThreadLines | messaging-plugin/skills/messaging/scripts/platforms/imessage-read.py:284-294 | two header lines and a blank line, then one line per message |
| IMessage.FormatThread | messaging-plugin/skills/messaging/scripts/platforms/imessage-read.py:279-296 | an empty thread gives the "No messages found" sentence; otherwise the lines are joined by newlines |
| IMessage.FormatThreadLines | messaging-plugin/skills/messaging/scripts/platforms/imessage-read.py:284-296 | splitting the output at newlines gives back exactly those lines: count and contents |
| AddContact.DigitsOnly | people-plugin/skills/messaging/scripts/add-contact.py:34 | `re.sub(r'[^\d]', '', …)` leaves only digits |
| AddContact.NormaliseAu | people-plugin/skills/messaging/scripts/add-contact.py:35-40 | a digit string becomes `+614…` (twelve characters) iff it is ten digits starting `04` or eleven starting `614`; otherwise it is rejected |
| AddContact.ValidatePhone | people-plugin/skills/messaging/scripts/add-contact.py:27-41 | `None` or "" is rejected; a trimmed value starting `+` is accepted verbatim; any other value goes through the digit filter and the Australian rewrite; an accepted number starts with `+` |
| AddContact.ValidatePhoneIdempotent | people-plugin/skills/messaging/scripts/add-contact.py:27-41 | validating an accepted number again returns it unchanged |
| AddContact.AuLocalForm | people-plugin/skills/messaging/scripts/add-contact.py:35-36 | `04` + eight digits becomes `+614` + the same eight digits |
| AddContact.AuInternationalForm | people-plugin/skills/messaging/scripts/add-contact.py:37-38 | `614` + eight digits becomes `+614` + the same eight digits |
| AddContact.AuFormsAgree | people-plugin/skills/messaging/scripts/add-contact.py:35-38 | the local and the international form of one mobile validate to the same number |
| AddContact.LastIndexOf | people-plugin/skills/messaging/scripts/add-contact.py:48 | the position of the last `.`, with no `.` after it; none iff there is no `.` |
| AddContact.CheckEmail | people-plugin/skills/messaging/scripts/add-contact.py:48-49 | the split at the first `@` and the last `.` matches iff the address matches `^[a-zA-Z0-9._%+-]+@[a-zA-Z0-9.-]+\.[a-zA-Z]{2,}$` |
| AddContact.ValidateEmail | people-plugin/skills/messaging/scripts/add-contact.py:43-51 | the trimmed address is returned iff the input is given, non-empty and matches the pattern |
| AddContact.GenerateNicknames | people-plugin/skills/messaging/scripts/add-contact.py:69-77 | at most two nicknames: none for a name without words, else one per word up to two |
| AddContact.NicknamesOfWords | people-plugin/skills/messaging/scripts/add-contact.py:69-77 | for a name made of words joined by spaces: the only word, or the first and the last word |
| AddContact.NicknameLines | people-plugin/skills/messaging/scripts/add-contact.py:87-88 | one `      - nick` line per nickname, in order |
| AddContact.DefaultPlatform | people-plugin/skills/messaging/scripts/add-contact.py:110 | the personal default platform is `imessage` iff a phone is given, else `messenger` |
| AddContact.EntryLines | people-plugin/skills/messaging/scripts/add-contact.py:83-110 | the entry starts with the name line, the `nicknames:` line and one line per generated nickname, and ends with the default-platform line |
| AddContact.FieldLine | people-plugin/skills/messaging/scripts/add-contact.py:98-107 | a `key: "value"` line under a platform header is indented eight spaces and its next character is the key's first letter, which keeps the phone, email and username lines apart; after the key come `: "`, the value exactly, and a closing quote |
| AddContact.FormatContactYaml | people-plugin/skills/messaging/scripts/add-contact.py:79-112 | the text starts with `  - name: {name}` |
| AddContact.EntryLinesNoBreaks | people-plugin/skills/messaging/scripts/add-contact.py:83-110 | when no field holds a line break, no line of the entry does |
| AddContact.FormatContactYamlLines | people-plugin/skills/messaging/scripts/add-contact.py:112 | splitting the rendered entry at newlines gives back its lines |
| AddContact.PhoneBlocksIff | people-plugin/skills/messaging/scripts/add-contact.py:96-100 | the `whatsapp:` and `imessage:` headers appear iff a phone is given |
| AddContact.EmailLineIff | people-plugin/skills/messaging/scripts/add-contact.py:101-102 | the email line appears iff both a phone and an email are given: it lives only inside the iMessage block |
| AddContact.MessengerBlockIff | people-plugin/skills/messaging/scripts/add-contact.py:104-106 | the `messenger:` header appears iff a username is given |
| AddContact.AddContact | people-plugin/skills/messaging/scripts/add-contact.py:114-131 | with a template rule the entry goes before its first occurrence, after the trimmed text and a blank line, and everything from the rule on is kept; without one the result is exactly the trimmed text, a blank line, the entry and a newline; a missing file starts from the fixed header |
| AddContact.AddContactSplices | people-plugin/skills/messaging/scripts/add-contact.py:125-128 | with a rule, the result is exactly trimmed front, blank line, entry, blank line, then the text from the first rule on |
| AddContact.TemplateTailKept | people-plugin/skills/messaging/scripts/add-contact.py:125-128 | in that result the first rule is still the one that starts the kept tail |
| AddContact.SpliceFindsMarker | people-plugin/skills/messaging/scripts/add-contact.py:125-128 | when neither the front nor the entry holds the rule, the first rule of the spliced text is at the start of the kept tail |
| AddContact.AddContactKeepsTemplate | people-plugin/skills/messaging/scripts/add-contact.py:123-128 | adding an entry keeps the template section intact: the next addition finds the same section |
| LookupContact.NicknameEquals | people-plugin/skills/messaging/scripts/lookup-contact.py:140-142 | some nickname, lower-cased, equals the search text |
| LookupContact.NicknameContains | people-plugin/skills/messaging/scripts/lookup-contact.py:148-150 | the search text occurs in some lower-cased nickname |
| LookupContact.MatchesExactly | people-plugin/skills/messaging/scripts/lookup-contact.py:136-142 | a contact matches exactly iff its name or a nickname equals the search text, ignoring case |
| LookupContact.MatchesPartly | people-plugin/skills/messaging/scripts/lookup-contact.py:146-150 | a contact matches partly iff the search text occurs in its lower-cased name or in a nickname |
| LookupContact.ExactPass | people-plugin/skills/messaging/scripts/lookup-contact.py:134-142 | the first contact, in directory order, that matches exactly; none iff no contact does |
| LookupContact.PartialPass | people-plugin/skills/messaging/scripts/lookup-contact.py:145-150 | the first contact that matches partly; none iff no contact does |
| LookupContact.FindContact | people-plugin/skills/messaging/scripts/lookup-contact.py:130-152 | an exact match anywhere wins, and the first such contact is returned; only without one does the substring pass run, again first-wins |
| LookupContact.ExactIsPartial | people-plugin/skills/messaging/scripts/lookup-contact.py:134-150 | an exact match is also a substring match |
| LookupContact.FindContactNone | people-plugin/skills/messaging/scripts/lookup-contact.py:144-152 | nothing is found iff no contact matches even partly |
| LookupContact.ExactBeatsEarlierPartial | people-plugin/skills/messaging/scripts/lookup-contact.py:134-150 | an exact match on a later contact beats a substring match on an earlier one |
| LookupContact.Lookup | people-plugin/skills/messaging/scripts/lookup-contact.py:162-180 | the result is "found" iff a contact is found, with its name, nicknames, GitHub handle and work keywords and the defaults `personal` and "" for a missing context and relationship; otherwise it carries the search text |
| LookupContact.ExitCode | people-plugin/skills/messaging/scripts/lookup-contact.py:183 | the exit status is 0 iff the contact was found, else 1 |
| DiscoverContact.NonEmptyItems | messaging-plugin/skills/messaging/scripts/discover-contact.py:87 | the kept items are trimmed and non-empty |
| DiscoverContact.SplitPhones | messaging-plugin/skills/messaging/scripts/discover-contact.py:85-87 | empty output gives no numbers; every number is trimmed, non-empty and free of `,` |
| DiscoverContact.SplitPhonesJoin | messaging-plugin/skills/messaging/scripts/discover-contact.py:85-87 | a list of such numbers, printed comma-separated, splits back to the same list |
| DiscoverContact.NormalisePhone | messaging-plugin/skills/messaging/scripts/discover-contact.py:98-102 | the result holds only digits and `+`; it is empty iff the filtered number is; it ends with everything after the filtered number's first character and is at most two characters longer; a number already starting with `+` stays as filtered. Local04Rewritten, WrongLength04Filtered, Prefix614 and OtherShapesFiltered give the result for each of the four branches |
| DiscoverContact.AgreesWithValidation | messaging-plugin/skills/messaging/scripts/discover-contact.py:98-102 | whenever contact validation accepts the filtered digits, discovery gives the same number |
| DiscoverContact.OtherShapesFiltered | messaging-plugin/skills/messaging/scripts/discover-contact.py:98-102 | a filtered number starting neither `04` nor `614` is kept as filtered |
| DiscoverContact.NormalisePhones | messaging-plugin/skills/messaging/scripts/discover-contact.py:96-104 | at most one result per number, none of them empty; every non-empty normal form of an input is among the results and every result is the normal form of some input |
| DiscoverContact.NormalisePhonesAppend | messaging-plugin/skills/messaging/scripts/discover-contact.py:96-104 | the loop works number by number, so results keep input order |
| DiscoverContact.NormaliseSingle | messaging-plugin/skills/messaging/scripts/discover-contact.py:103-104 | a number is dropped iff it holds no digit and no `+`; otherwise its normal form is the one result |
| DiscoverContact.NormalisePhoneIdempotent | messaging-plugin/skills/messaging/scripts/discover-contact.py:98-102 | normalising twice equals normalising once |
| DiscoverContact.LocalFormAgrees | messaging-plugin/skills/messaging/scripts/discover-contact.py:99-100 | for `04` + eight digits, discovery and contact validation give the same number |
| DiscoverContact.Local04Rewritten | messaging-plugin/skills/messaging/scripts/discover-contact.py:99-100 | every filtered number of exactly ten characters starting `04` becomes `+61` followed by all but its leading `0` |
| DiscoverContact.WrongLength04Filtered | messaging-plugin/skills/messaging/scripts/discover-contact.py:99-104 | a filtered number starting `04` whose length is not ten is kept as filtered |
| DiscoverContact.Prefix614 | messaging-plugin/skills/messaging/scripts/discover-contact.py:101-102 | every filtered number starting `614`, of any length (the three-digit `614` included), gets a `+` in front |
| DiscoverContact.Short614Rejected | people-plugin/skills/messaging/scripts/add-contact.py:37-40 | contact validation rejects that same `614` |
| DiscoverContact.First | messaging-plugin/skills/messaging/scripts/discover-contact.py:133 | the first element, or none for an empty list |
| DiscoverContact.FormatDiscoveryResult | messaging-plugin/skills/messaging/scripts/discover-contact.py:117-142 | found iff a person was found; source absent iff not found; the messenger hint present iff requested, naming "this contact" only when one was found; the not-found branch carries the fixed message and no name, phone, e-mail or lists; the found branch carries name, first phone and email (or none) and the full lists |
| DiscoverContact.ExitCode | messaging-plugin/skills/messaging/scripts/discover-contact.py:158 | the exit status is 0 iff the person was found |
| Statusline.Filled | statusline-plugin/scripts/statusline.py:195-199 | zero blocks for no usage, at least one for any usage, all at 100% or more, never more than the width; below full, exactly the ceiling of `pct` percent of the width |
| Statusline.FilledMonotone | statusline-plugin/scripts/statusline.py:195-199 | more usage never shows fewer blocks |
| Statusline.MakeBar | statusline-plugin/scripts/statusline.py:193-200 | exactly `width` symbols, the filled ones first, then the empty ones |
| Statusline.BarShowsUsage | statusline-plugin/scripts/statusline.py:193-200 | a bar shows a filled block iff there is any usage, and no empty block iff all blocks are filled, which 100% guarantees |
| Statusline.BarColor | statusline-plugin/scripts/statusline.py:203-209 | green iff below half the threshold (floored), yellow from there up to the threshold, red from the threshold on |
| Statusline.BarColorMonotone | statusline-plugin/scripts/statusline.py:203-209 | with a non-negative threshold the colour only escalates as usage grows |
| Statusline.ColorBands | statusline-plugin/scripts/statusline.py:410-420 | the context bar (threshold 40) changes colour at 20 and 40; the session and weekly bars (threshold 80) at 40 and 80 |
| Statusline.ReadSeconds | statusline-plugin/scripts/statusline.py:221 | `{n}s` reads back as `n` seconds |
| Statusline.ReadMinutes | statusline-plugin/scripts/statusline.py:220 | `{m}m` reads back as `m` minutes |
| Statusline.ReadHoursMinutes | statusline-plugin/scripts/statusline.py:218 | `{h}h{m}m` reads back as `h` hours and `m` minutes |
| Statusline.RenderSecondsReads | statusline-plugin/scripts/statusline.py:212-221 | a rendered duration reads back as the duration cut to whole minutes once it reaches a minute: no hour or minute is rounded up or lost |
| Statusline.HoursMinutesArith | statusline-plugin/scripts/statusline.py:216-217 | whole hours plus the whole minutes of the rest are the whole minutes |
| Statusline.FormatDuration | statusline-plugin/scripts/statusline.py:212-221 | the text reads back as the whole seconds of `ms` cut to whole minutes; it ends in `s` iff under a minute; for non-negative `ms` it is in the unpadded canonical spelling, so by CanonicalUnique it is the only such text for that duration |
| Statusline.ShowReads | statusline-plugin/scripts/statusline.py:212-221 | each spelling (`{n}s`, `{m}m`, `{h}h{m}m`, the last with `{m:02d}` when padded) reads back as the seconds it stands for |
| Statusline.ShapesDistinct | statusline-plugin/scripts/statusline.py:212-221 | two in-range spellings for the same number of seconds are the same spelling: seconds under a minute, minutes under an hour, an hour field only from one hour on, minutes beside it under 60 |
| Statusline.ShowUnique | statusline-plugin/scripts/statusline.py:212-221 | two in-range spellings read as the same duration iff they are the same text |
| Statusline.CanonicalUnique | statusline-plugin/scripts/statusline.py:212-221 | reading is one-to-one on canonical texts: two canonical texts read as the same duration iff they are equal, which rules out spellings such as `90m`, `0h05m` or `1h030m` |
| Statusline.RenderCanonical | statusline-plugin/scripts/statusline.py:212-221 | every rendered non-negative duration is in the unpadded canonical spelling |
| Statusline.SessionRemaining | statusline-plugin/scripts/statusline.py:250-264 | at least five characters; for usage 0-100 exactly five, reading back (trimmed) as the remaining part of the 300-minute window, floored to minutes; for any usage the trimmed text is in the padded canonical spelling (`{h}h{mm}m` from one hour on, `{m}m` below), so by CanonicalUnique it is the only such text for that time |
| Statusline.SessionSplit | statusline-plugin/scripts/statusline.py:255-258 | for usage 0-100 the hours are 0-5 and the minutes 0-59, and together they make the remaining minutes |
| Statusline.SessionFacts | statusline-plugin/scripts/statusline.py:250-264 | the session countdown's width, its read-back value for usage 0-100, and its padded canonical spelling for any usage, proved once for SessionRemaining |
| Statusline.SessionCanonical | statusline-plugin/scripts/statusline.py:257-263 | whatever the usage, the countdown is `{h}h{mm}m` with at least one hour, or `{m}m` with minutes under 60: the padded canonical spelling |
| Statusline.SessionShown | statusline-plugin/scripts/statusline.py:260-263 | the unpadded text has no outer blanks, fits five characters and reads back as the remaining minutes |
| Statusline.ContextTimeRemaining | statusline-plugin/scripts/statusline.py:356-377 | "0s" when the estimate is not positive; otherwise the text reads back as the estimated seconds (a quarter of the remaining tokens at 75 per second) cut to whole minutes; it is always in the unpadded canonical spelling, so by CanonicalUnique it is the only such text for that time |
| Statusline.ContextPercent | statusline-plugin/scripts/statusline.py:410 | zero for a non-positive window size; within 0-100 for non-negative totals; below 100, the floor of the share in use; 100 once the window is full |
| Statusline.SessionOverrunShowsTime | statusline-plugin/scripts/statusline.py:254-264 | as written, 101% usage shows `  57m` left |
| Statusline.SessionRemainingCapped | statusline-plugin/scripts/statusline.py:250-264 | with usage capped at 100%, an overrun shows no time left, and up to 100% the text is unchanged |
| DbAuth.MaskToken | databricks-plugin/skills/databricks/scripts/_lib/auth.py:75-87 | "****" for a token shorter than 12 characters (the empty one included); otherwise eleven characters: the first four, "...", the last four |
| DbAuth.MaskHidesMiddle | databricks-plugin/skills/databricks/scripts/_lib/auth.py:85-87 | two long tokens agreeing on their first and last four characters mask alike, so nothing else is exposed |
| DbAuth.CheckProfile | databricks-plugin/skills/databricks/scripts/_lib/auth.py:50-70 | no file is reported first, then an unknown profile (listing the sections), then a missing `host` or `token` |
| DbAuth.CheckProfileValid | databricks-plugin/skills/databricks/scripts/_lib/auth.py:50-72 | valid iff the file exists, the profile is a section or `DEFAULT`, and host and token are both present and non-empty |
| DbAuth.EmptyHostFirst | databricks-plugin/skills/databricks/scripts/_lib/auth.py:66-70 | with both host and token empty, the empty host is the one reported |
| DbAuth.ValidateProfile | databricks-plugin/skills/databricks/scripts/_lib/auth.py:40-72 | the flag is true iff the check chain says valid; the fixed message without a file; "is valid" for a valid profile |
| DbAuth.TokenForProfile | databricks-plugin/skills/databricks/scripts/_lib/auth.py:18-37 | no token without a file or an unknown profile; otherwise the profile's `token` option |
| DbAuth.AuthHeader | databricks-plugin/skills/databricks/scripts/_lib/auth.py:90-104 | an error iff there is no token or it is empty, with the fixed message; otherwise exactly one `Authorization: Bearer <token>` header |
| DbAuth.ValidProfileHasHeader | databricks-plugin/skills/databricks/scripts/_lib/auth.py:40-104 | a profile that validates always yields a header carrying its token |
| DbConfig.ReadProfiles | databricks-plugin/skills/databricks/scripts/_lib/config.py:35-65 | no profiles without a file; otherwise every section in file order with the host, token and cluster read for it, then `DEFAULT` when the file has default options |
| DbConfig.DefaultProfile | databricks-plugin/skills/databricks/scripts/_lib/config.py:76-105 | a non-empty environment value wins, then the plugin setting, then `DEFAULT` if present, then the first profile, then `DEFAULT` |
| DbConfig.DefaultProfileNonEmpty | databricks-plugin/skills/databricks/scripts/_lib/config.py:76-105 | the chosen name is never empty when the plugin setting and the profile names are not |
| DbConfig.DefaultProfileExists | databricks-plugin/skills/databricks/scripts/_lib/config.py:97-105 | with nothing configured the choice is an existing profile, or `DEFAULT` only when there are none |
| DbConfig.WorkspaceProfile | databricks-plugin/skills/databricks/scripts/_lib/config.py:147-157 | accepted iff the requested (else default) profile is a known profile or `DEFAULT`, and then that profile is used |
| DbConfig.ShowHost | databricks-plugin/skills/databricks/scripts/_lib/config.py:177-180 | a host not on `cloud.databricks.com` is shown as is; a missing one as "None" |
| DbConfig.ShowHostWorkspace | databricks-plugin/skills/databricks/scripts/_lib/config.py:179-180 | `https://<name>.cloud.databricks.com` is shown as `<name>` for a name without `/` |
| DbConfig.HasToken | databricks-plugin/skills/databricks/scripts/_lib/config.py:181 | "Yes" iff the token is present and non-empty, else "No" |
| DbConfig.ProfileLines | databricks-plugin/skills/databricks/scripts/_lib/config.py:176-182 | one line per profile, in order |
| DbConfig.ProfileLineShape | databricks-plugin/skills/databricks/scripts/_lib/config.py:182 | each line starts with the profile's name cell and ends with its token cell |
| DbConfig.ProfilesTable | databricks-plugin/skills/databricks/scripts/_lib/config.py:162-184 | the fixed message for no profiles; otherwise the header, the rule and the profile lines joined by line breaks |
| DbConfig.ProfilesTableLines | databricks-plugin/skills/databricks/scripts/_lib/config.py:171-184 | the table reads back as exactly two header lines plus one line per profile |
| DbOutput.Get | databricks-plugin/skills/databricks/scripts/_lib/output.py:73 | absent iff the key is not a column of the row; otherwise a value stored under that key |
| DbOutput.Normalize | databricks-plugin/skills/databricks/scripts/_lib/output.py:128-153 | a single item becomes one record; a list maps item by item in order, a dictionary kept, an object by its fields, a scalar as `{"value": x}` |
| DbOutput.Quote | databricks-plugin/skills/databricks/scripts/_lib/output.py:76-77 | a cell holding `,` or `"` is wrapped in quotes; any other cell, line breaks included, is left as is |
| DbOutput.CsvCells | databricks-plugin/skills/databricks/scripts/_lib/output.py:72-78 | one cell per column, missing and `None` rendering empty |
| DbOutput.FormatCsv | databricks-plugin/skills/databricks/scripts/_lib/output.py:53-81 | "" for falsy data; otherwise the header of column names and one line per record |
| DbOutput.QuotedFieldEscape | databricks-plugin/skills/databricks/scripts/_lib/output.py:77 | the doubled-quote escaping reads back as the original cell, up to the closing quote |
| DbOutput.ParseRecordJoin | databricks-plugin/skills/databricks/scripts/_lib/output.py:70-79 | a rendered CSV record reads back as its cells: the quoting is a faithful encoding |
| DbOutput.ParseCsvLines | databricks-plugin/skills/databricks/scripts/_lib/output.py:70-81 | every rendered record reads back as its cells |
| DbOutput.FormatCsvReadsBack | databricks-plugin/skills/databricks/scripts/_lib/output.py:53-81 | without line breaks in cells the document has one line per record plus the header and reads back as the column names and the cell texts |
| DbOutput.DocumentSplits | databricks-plugin/skills/databricks/scripts/_lib/output.py:68-81 | when no column name or cell text holds a line break, splitting the joined document at newlines gives back the header line and one line per record |
| DbOutput.DocumentParses | databricks-plugin/skills/databricks/scripts/_lib/output.py:68-79 | the header line reads back as the column names and each record line as the texts of its cells, quoting undone |
| DbOutput.LineBreakSplitsRecord | databricks-plugin/skills/databricks/scripts/_lib/output.py:76-79 | a cell holding a line break is not quoted, so a one-record document spans three lines |
| DbOutput.Cell | databricks-plugin/skills/databricks/scripts/_lib/output.py:103 | a table cell never exceeds 50 characters |
| DbOutput.ColumnWidth | databricks-plugin/skills/databricks/scripts/_lib/output.py:100-104 | the width is at least the header and every truncated cell, and equals one of them |
| DbOutput.MaxFold | databricks-plugin/skills/databricks/scripts/_lib/output.py:101-104 | the running `max` over the cell lengths ends at least as large as its start and every length, and equal to one of them |
| DbOutput.TableLines | databricks-plugin/skills/databricks/scripts/_lib/output.py:107-123 | the header, the separator, then one line per record: records plus two lines |
| DbOutput.FormatTable | databricks-plugin/skills/databricks/scripts/_lib/output.py:84-125 | "No data" for falsy data; otherwise the table lines joined by line breaks |
| DbOutput.TableLinesAligned | databricks-plugin/skills/databricks/scripts/_lib/output.py:100-123 | with at least one column every line of the table has the same length |
| DbOutput.NoColumnsMisaligned | databricks-plugin/skills/databricks/scripts/_lib/output.py:110-114 | with an empty column list the header (four characters) and separator (two) differ |
| DbOutput.FormatOutput | databricks-plugin/skills/databricks/scripts/_lib/output.py:15-36 | "json" goes to JSON, "csv" to CSV, anything else to the table |
| ExecCommon.CheckLanguage | databricks-executor-plugin/skills/databricks-executor/scripts/databricks_exec.py:162-181 | accepted iff the ASCII-lowercased language is python, sql, scala or r, and then the lowercased name is kept; otherwise the fixed `ValueError` message naming the language as given |
| ExecCommon.CheckLanguageStable | databricks-executor-plugin/skills/databricks-executor/scripts/databricks_exec.py:172-181 | an accepted language is accepted again unchanged |
| ExecCommon.ExitCode | databricks-executor-plugin/skills/databricks-executor/scripts/databricks_exec.py:371-379 | 1 iff the result type is `error` or the status is `Error`, else 0 |
| ExecCommon.FileExitCode | databricks-executor-plugin/skills/databricks-executor/scripts/databricks_exec.py:382-401 | a missing file exits with 1; otherwise as for a command |
| ExecCommon.TerminalStates | databricks-executor-plugin/skills/databricks-executor/scripts/databricks_exec.py:281-288 | polling stops exactly at Finished, Error and Cancelled; Running, Queued and unknown states go on |
| ExecCommon.Headers | databricks-executor-plugin/skills/databricks-executor/scripts/databricks_exec.py:344 | one header per schema column: its name, else `col<i>` |
| ExecCommon.Cell | databricks-executor-plugin/skills/databricks-executor/scripts/databricks_exec.py:347-355 | `None` renders as the format's placeholder (empty in CSV, "NULL" in text); any other value as its `str()` |
| ExecCommon.CsvTable | databricks-executor-plugin/skills/databricks-executor/scripts/databricks_exec.py:343-348 | the header line and one line per row, no cap |
| ExecCommon.TextTable | databricks-executor-plugin/skills/databricks-executor/scripts/databricks_exec.py:350-357 | the header, a 60-dash rule, at most the first hundred rows, and a "... (N more rows)" line exactly when rows are left out |
| ExecCommon.Format | databricks-executor-plugin/skills/databricks-executor/scripts/databricks_exec.py:316-368 | an error result gives its error text whatever the format; a table in JSON or CSV bypasses the parts; otherwise the parts joined by line breaks, or "(No output)" when there are none |
| ExecCommon.FailureReported | databricks-executor-plugin/skills/databricks-executor/scripts/databricks_exec.py:324-330 | every result that exits with 1 prints a text starting "ERROR: " |
| ExecCommon.ErrorLines | databricks-executor-plugin/skills/databricks-executor/scripts/databricks_exec.py:324-330 | the error text is the summary line (default "Unknown error"), plus the cause line exactly when the cause is non-empty |
| ExecCommon.EmptyTextResult | databricks-executor-plugin/skills/databricks-executor/scripts/databricks_exec.py:332-335 | a text result without truthy data prints "(No output)" |
| ExecCommon.TextTableCapped | databricks-executor-plugin/skills/databricks-executor/scripts/databricks_exec.py:354-357 | a text table never has more than 103 lines, and up to a hundred rows exactly rows plus two |
| ExecCommon.NullCells | databricks-executor-plugin/skills/databricks-executor/scripts/databricks_exec.py:347-355 | `None` renders empty in CSV and as "NULL" in text |
| ExecCommon.Collect | databricks-executor-plugin/skills/databricks-executor/scripts/databricks_exec.py:427-438 | a block's lines are the non-empty ones up to the first empty line, which is dropped; none when the input ends first |
| ExecCommon.Repl | databricks-executor-plugin/skills/databricks-executor/scripts/databricks_exec.py:404-442 | the commands run are never blank |
| ExecCommon.Then | databricks-executor-plugin/skills/databricks-executor/scripts/databricks_exec.py:440-442 | a blank command is skipped, any other runs before the rest |
| ExecCommon.ExitAtStart | databricks-executor-plugin/skills/databricks-executor/scripts/databricks_exec.py:423-425 | `exit` or `quit` in any case at the start of a command ends the session with nothing run |
| ExecCommon.SingleLine | databricks-executor-plugin/skills/databricks-executor/scripts/databricks_exec.py:430-431 | a first line not ending in `:`, `\\` or `,` runs on its own |
| ExecCommon.Block | databricks-executor-plugin/skills/databricks-executor/scripts/databricks_exec.py:427-440 | a continued first line gathers the following non-empty lines, closed by an empty line that is discarded, into one command; an exit word inside the block is just a line |
| ExecCommon.CollectBlock | databricks-executor-plugin/skills/databricks-executor/scripts/databricks_exec.py:433-436 | the gathering stops at the first empty line and leaves the rest |
| ExecCommon.UnclosedBlock | databricks-executor-plugin/skills/databricks-executor/scripts/databricks_exec.py:416-421 | a block the input never closes is not run |
| ExecConfig.FromEnvironment | databricks-executor-plugin/skills/databricks-executor/scripts/databricks_exec.py:61-76 | the profile is the given one, else `DATABRICKS_PROFILE`, else `DEFAULT` |
| ExecConfig.FromFile | databricks-executor-plugin/skills/databricks-executor/scripts/databricks_exec.py:82-106 | without a file nothing changes; a set value is kept; an unknown profile falls back to `DEFAULT` |
| ExecConfig.Resolve | databricks-executor-plugin/skills/databricks-executor/scripts/databricks_exec.py:68-80 | the file is consulted only while the host or the token is still missing |
| ExecConfig.ResolvePrecedence | databricks-executor-plugin/skills/databricks-executor/scripts/databricks_exec.py:61-106 | a command-line value beats the environment, which beats the file |
| ExecConfig.FileClusterIgnored | databricks-executor-plugin/skills/databricks-executor/scripts/databricks_exec.py:79-80 | with host and token known, a cluster only the file names stays missing; without them it is read from the file |
| ExecConfig.UnknownProfileUsesDefault | databricks-executor-plugin/skills/databricks-executor/scripts/databricks_exec.py:92-99 | a profile the file lacks resolves against `DEFAULT` |
| ExecConfig.Missing | databricks-executor-plugin/skills/databricks-executor/scripts/databricks_exec.py:110-116 | the missing settings in the order host, token, cluster: empty iff all are set, and each named iff it is missing |
| ExecConfig.Validate | databricks-executor-plugin/skills/databricks-executor/scripts/databricks_exec.py:108-122 | an error iff some setting is missing, with the fixed message listing them |
| ExecConfig.MissingHostFirst | databricks-executor-plugin/skills/databricks-executor/scripts/databricks_exec.py:111-112 | a missing host is always named first |
| ExecConfig.FindProfile | databricks-plugin/skills/databricks/scripts/db_execute.py:58-59 | found iff the name is a profile, with that profile's data |
| ExecConfig.TrimSlashes | databricks-plugin/skills/databricks/scripts/db_execute.py:69-70 | a prefix of the host, ending in no slash, and only slashes removed |
| ExecConfig.TrimSlashesIdempotent | databricks-plugin/skills/databricks/scripts/db_execute.py:69-70 | trimming twice equals trimming once |
| ExecConfig.ResolveExecutor | databricks-plugin/skills/databricks/scripts/db_execute.py:40-70 | the profile is the given one, else the default; explicit values are kept, the host with its trailing slashes removed; an unlisted profile fills nothing |
| ExecConfig.ExecutorFillsFromProfile | databricks-plugin/skills/databricks/scripts/db_execute.py:58-66 | a listed profile fills every missing setting from its own entry: token and cluster as stored, the host with trailing slashes removed |
| ExecConfig.ValidateExecutor | databricks-plugin/skills/databricks/scripts/db_execute.py:72-86 | an error iff some setting is missing, with the message naming the profile |
| ExecConfig.ExecutorHostTrimmed | databricks-plugin/skills/databricks/scripts/db_execute.py:68-70 | a resolved host never ends in a slash |
| DbPermissions.Find | databricks-plugin/skills/databricks/scripts/db_permissions.py:34-47 | found iff the key is listed, with the prefix listed for it |
| DbPermissions.ObjectPrefix | databricks-plugin/skills/databricks/scripts/db_permissions.py:54-58 | accepted iff the ASCII-lowercased type is a key of the object-type table, giving that key and its prefix; otherwise the "Unknown object type" message with the lowercased type |
| DbPermissions.ObjectTypesDistinct | databricks-plugin/skills/databricks/scripts/db_permissions.py:34-47 | the table's keys are distinct, so a type has one prefix |
| DbPermissions.ListedTypeAccepted | databricks-plugin/skills/databricks/scripts/db_permissions.py:34-58 | every listed type, in any case, is accepted with its own prefix |
| DbPermissions.MethodNamesInjective | databricks-plugin/skills/databricks/scripts/db_permissions.py:62-73 | the derived method and parameter names determine the prefix they came from |
| DbPermissions.GenericType | databricks-plugin/skills/databricks/scripts/db_permissions.py:68 | the generic call's type has no `-`, keeps the length, and is unchanged when it had none |
| DbPermissions.ChooseCall | databricks-plugin/skills/databricks/scripts/db_permissions.py:60-74 | the specific method, with the `<prefix>_id` parameter, iff the client has it; otherwise the generic call with `-` turned into `_` |
| DbPermissions.GetCall | databricks-plugin/skills/databricks/scripts/db_permissions.py:50-74 | rejected iff the type is unknown; a specific call is `get_<prefix>_permissions` |
| DbPermissions.Classify | databricks-plugin/skills/databricks/scripts/db_permissions.py:120-127 | a user iff the principal holds `@`, then named verbatim; a group otherwise, verbatim unless it starts with `group:` |
| DbPermissions.GroupPrefixDropped | databricks-plugin/skills/databricks/scripts/db_permissions.py:123-124 | `group:<name>` names the group `<name>` |
| DbPermissions.GroupRemovedEverywhere | databricks-plugin/skills/databricks/scripts/db_permissions.py:124 | every occurrence of `group:` is removed, not just the leading one |
| DbPermissions.UpdateCall | databricks-plugin/skills/databricks/scripts/db_permissions.py:97-141 | an unknown type is reported before an invalid level; otherwise the principal is classified and a specific call is `update_<prefix>_permissions` |
| DbPermissions.PrincipalOf | databricks-plugin/skills/databricks/scripts/db_permissions.py:82 | the user, else the group, else the service principal, else "N/A", empty names skipped |
| DbPermissions.EntryRows | databricks-plugin/skills/databricks/scripts/db_permissions.py:83-88 | one row per permission of the entry, under its principal |
| DbPermissions.AclRows | databricks-plugin/skills/databricks/scripts/db_permissions.py:80-88 | as many rows as permissions in the whole list |
| DbPermissions.AclRowsAppend | databricks-plugin/skills/databricks/scripts/db_permissions.py:81-88 | the rows of two lists are the rows of each, in order |
| DbPermissions.AclRowsOrigin | databricks-plugin/skills/databricks/scripts/db_permissions.py:81-88 | the k-th permission of the i-th entry lands at a fixed place: after all permissions of the entries before it |
| DbPermissions.GetListing | databricks-plugin/skills/databricks/scripts/db_permissions.py:76-90 | the "No permissions configured" message iff the list is empty; otherwise one row per permission, each the dictionary of the matching access-control row |
| DbPermissions.LevelsCall | databricks-plugin/skills/databricks/scripts/db_permissions.py:154-171 | rejected iff the type is unknown; the levels method, with a placeholder id, is called iff the client has it |
| DbPermissions.LevelRows | databricks-plugin/skills/databricks/scripts/db_permissions.py:173-194 | the levels the SDK returned, one row each with `N/A` for missing fields; without any, exactly the seven common levels in order |
| DbPermissions.CommonLevelsOrder | databricks-plugin/skills/databricks/scripts/db_permissions.py:184-192 | the fallback list runs from CAN_VIEW to IS_OWNER |
| SpPages.TakeUntil | m365-sharepoint-plugin/skills/sharepoint/scripts/sp_pages.py:78 | the longest prefix free of the stop characters, followed by a stop character or the end (`split(".")[0]`, and the cut at `?` or `#`) |
| SpPages.AfterLast | m365-sharepoint-plugin/skills/sharepoint/scripts/sp_pages.py:76 | the text after the last given character (`rpartition(c)[2]`): a suffix free of it, preceded by it unless it is the whole text |
| SpPages.StripControls | m365-sharepoint-plugin/skills/sharepoint/scripts/sp_pages.py:76 | `urlsplit` strips the C0 controls and the space from the front: what is dropped is all `<= ' '`, and what remains starts above the space |
| SpPages.Clean | m365-sharepoint-plugin/skills/sharepoint/scripts/sp_pages.py:76 | deleting tabs, carriage returns and line feeds leaves none and adds no character |
| SpPages.CleanUrl | m365-sharepoint-plugin/skills/sharepoint/scripts/sp_pages.py:76 | the URL `urlsplit` works on holds no tab, carriage return or line feed and does not start with a control or space |
| SpPages.CleanUrlIdempotent | m365-sharepoint-plugin/skills/sharepoint/scripts/sp_pages.py:76 | cleaning a cleaned URL changes nothing |
| SpPages.LeadingControlsIgnored | m365-sharepoint-plugin/skills/sharepoint/scripts/sp_pages.py:76 | controls and spaces before a URL do not change what it parses to |
| SpPages.UnsafeCharacterIgnored | m365-sharepoint-plugin/skills/sharepoint/scripts/sp_pages.py:76 | a tab, carriage return or line feed anywhere in a URL does not change what it parses to |
| SpPages.SplitScheme | m365-sharepoint-plugin/skills/sharepoint/scripts/sp_pages.py:76 | what follows the scheme is a suffix of the URL: the whole URL when there is no scheme, and otherwise everything after the `:` that ends the scheme |
| SpPages.SchemeHttps | m365-sharepoint-plugin/skills/sharepoint/scripts/sp_pages.py:76 | `https://…` splits into the scheme `https` and `//…` |
| SpPages.SplitNetloc | m365-sharepoint-plugin/skills/sharepoint/scripts/sp_pages.py:76-77 | after `//` the network location runs to the first `/`, `?` or `#`, and the rest follows unchanged; without `//` there is none |
| SpPages.CheckBracketedHost | m365-sharepoint-plugin/skills/sharepoint/scripts/sp_pages.py:76 | a bracketed host is accepted exactly when it is an IPvFuture literal (`v`, hex digits, `.`, more) if it starts with `v`, and an IPv6 address otherwise |
| SpPages.BracketedHostChecked | m365-sharepoint-plugin/skills/sharepoint/scripts/sp_pages.py:76 | `[host]` followed by nothing or by `:port` is accepted or refused exactly as its host is |
| SpPages.TextBeforeBracketRejected | m365-sharepoint-plugin/skills/sharepoint/scripts/sp_pages.py:76 | text between the user part and `[` is refused as an invalid IPv6 URL |
| SpPages.CheckNetloc | m365-sharepoint-plugin/skills/sharepoint/scripts/sp_pages.py:76-77 | a network location without brackets passes, and one with only one of `[` and `]` is refused as an invalid IPv6 URL |
| SpPages.DropParams | m365-sharepoint-plugin/skills/sharepoint/scripts/sp_pages.py:76-79 | the path `urlparse` gives back is a prefix of the split path, and the whole of it when there is no `;` |
| SpPages.DropParamsOf | m365-sharepoint-plugin/skills/sharepoint/scripts/sp_pages.py:76-79 | a `;` in the last segment cuts it and everything after; a `;` in an earlier segment stays |
| SpPages.ParseSiteUrl | m365-sharepoint-plugin/skills/sharepoint/scripts/sp_pages.py:67-81 | the tenant holds no `.` and the path no `?` or `#` |
| SpPages.ParsedPartsSafe | m365-sharepoint-plugin/skills/sharepoint/scripts/sp_pages.py:67-81 | the tenant and the path hold no tab, carriage return or line feed |
| SpPages.ParseWithoutBrackets | m365-sharepoint-plugin/skills/sharepoint/scripts/sp_pages.py:67-81 | a URL without `[` or `]` always parses |
| SpPages.ParseSharePointUrl | m365-sharepoint-plugin/skills/sharepoint/scripts/sp_pages.py:67-81 | `<controls>https://<tenant>.sharepoint.com<path>` with any query or fragment gives back the tenant and the path with tabs, carriage returns and line feeds deleted and `;` parameters cut; without brackets in the tenant always, with one bracket never (invalid IPv6 URL), with both exactly when the bracketed host passes the checks |
| SpPages.EnsureAspx | m365-sharepoint-plugin/skills/sharepoint/scripts/sp_pages.py:144-145 | the result ends in `.aspx`; it is the name itself iff the name already did, otherwise the name plus `.aspx` |
| SpPages.EnsureAspxIdempotent | m365-sharepoint-plugin/skills/sharepoint/scripts/sp_pages.py:273-274 | normalising twice is normalising once, and a name with the extension is kept |
| SpPages.CommandsIgnoreExtension | m365-sharepoint-plugin/skills/sharepoint/scripts/sp_pages.py:261-306 | the generated edit, section and text commands are the same for a page named with or without `.aspx` |
| SpPages.TagEnd | m365-sharepoint-plugin/skills/sharepoint/scripts/sp_pages.py:213 | a tag opening at `<` closes at the first `>` after at least one other character |
| SpPages.RemoveTags | m365-sharepoint-plugin/skills/sharepoint/scripts/sp_pages.py:213 | no longer than the input and built only from its characters |
| SpPages.RemoveTagsPlain | m365-sharepoint-plugin/skills/sharepoint/scripts/sp_pages.py:213 | text without `<` is left unchanged |
| SpPages.StripHtmlPlain | m365-sharepoint-plugin/skills/sharepoint/scripts/sp_pages.py:211-214 | text without `<` is only trimmed |
| SpPages.RemoveTagsLeavesNoTag | m365-sharepoint-plugin/skills/sharepoint/scripts/sp_pages.py:213 | every `<` left in the result is followed at once by `>` or by no `>` at all, so no tag remains |
| SpPages.RemoveTagsTag | m365-sharepoint-plugin/skills/sharepoint/scripts/sp_pages.py:213 | a tag followed by text is removed, and the rest is stripped as on its own |
| SpPages.EscapeQuotes | m365-sharepoint-plugin/skills/sharepoint/scripts/sp_pages.py:277 | text without `"` is unchanged |
| SpPages.EscapeHead | m365-sharepoint-plugin/skills/sharepoint/scripts/sp_pages.py:277 | each `"` becomes a backtick and a quote and every other character stays, as in the second text command at line 303 |
| SpPages.EscapeRoundTrip | m365-sharepoint-plugin/skills/sharepoint/scripts/sp_pages.py:277-303 | undoing the escape gives back the text: nothing is lost |
| SpPages.EscapedQuotesGuarded | m365-sharepoint-plugin/skills/sharepoint/scripts/sp_pages.py:277-303 | every quote in the escaped text is preceded by a backtick |
| SpPages.PsRead | m365-sharepoint-plugin/skills/sharepoint/scripts/sp_pages.py:283 | how PowerShell reads a double-quoted argument: a found closing quote is a quote character in the text |
| SpPages.EscapeQuotesLetsTextOut | m365-sharepoint-plugin/skills/sharepoint/scripts/sp_pages.py:303-306 | the text `` `" x `` escapes to `` ``" x ``, and the argument then closes after one character, leaving ` x` to the command line |
| SpPages.EscapeQuotesLeavesExpansion | m365-sharepoint-plugin/skills/sharepoint/scripts/sp_pages.py:277-283 | a `$(...)` in the text is left as it is, so the argument holds an expansion rather than the text |
| SpPages.EscapePs | m365-sharepoint-plugin/skills/sharepoint/scripts/sp_pages.py:277-303 | the escaping the commands need: never shorter than the text, and the identity on text without backticks, `$` or quotes |
| SpPages.EscapePsReadsBack | m365-sharepoint-plugin/skills/sharepoint/scripts/sp_pages.py:277-306 | with that escaping, the argument reads back as exactly the text and closes at the quote put after it |
| SpPages.EscapesAgree | m365-sharepoint-plugin/skills/sharepoint/scripts/sp_pages.py:277-303 | both escapings agree on text whose only special characters are ASCII quotes |
| SpPages.ParseItem | m365-sharepoint-plugin/skills/sharepoint/scripts/sp_pages.py:182-204 | a control keeps its id and section index (0 when missing); type 4 is a Text part with its HTML and stripped text; type 3 carries its title; any other type keeps the item; outside type 4 the kind is the web part id when there is one |
| SpPages.ParseCanvas | m365-sharepoint-plugin/skills/sharepoint/scripts/sp_pages.py:164-208 | nothing for an empty or undecodable canvas; otherwise one web part per item, in order |
| SpPages.Indices | m365-sharepoint-plugin/skills/sharepoint/scripts/sp_pages.py:233-243 | each section index of the page once, and only those |
| SpPages.InSection | m365-sharepoint-plugin/skills/sharepoint/scripts/sp_pages.py:233-243 | only web parts of that section |
| SpPages.Grouped | m365-sharepoint-plugin/skills/sharepoint/scripts/sp_pages.py:233-243 | one group per section in order of first appearance, holding that section's web parts in order |
| SpPages.InSectionAbsent | m365-sharepoint-plugin/skills/sharepoint/scripts/sp_pages.py:233-243 | a section nothing belongs to has no web parts |
| SpPages.GroupedSnoc | m365-sharepoint-plugin/skills/sharepoint/scripts/sp_pages.py:234-241 | one more web part updates the grouping exactly as one loop step does |
| SpPages.GroupedSnocKnown | m365-sharepoint-plugin/skills/sharepoint/scripts/sp_pages.py:241 | a web part of a known section is appended to that section's group |
| SpPages.GroupedSnocNew | m365-sharepoint-plugin/skills/sharepoint/scripts/sp_pages.py:236-241 | a web part of a new section opens a group at the end |
| SpPages.GroupSections | m365-sharepoint-plugin/skills/sharepoint/scripts/sp_pages.py:232-243 | the loop computes the grouping |
| SpPages.GroupedPlacesEachOnce | m365-sharepoint-plugin/skills/sharepoint/scripts/sp_pages.py:233-243 | each web part is in the group of its own section and in no other |
| SpPages.Clip | m365-sharepoint-plugin/skills/sharepoint/scripts/sp_pages.py:318-321 | a cell is a prefix of at most 20 characters, the whole text when it is short enough |
| SpPages.RowCells | m365-sharepoint-plugin/skills/sharepoint/scripts/sp_pages.py:321 | one clipped cell per key of the first item, a missing key empty |
| SpPages.FormatOutput | m365-sharepoint-plugin/skills/sharepoint/scripts/sp_pages.py:309-325 | JSON for "json"; a table for "table" and a non-empty list of dictionaries; `str()` otherwise |
| SpPages.TableLines | m365-sharepoint-plugin/skills/sharepoint/scripts/sp_pages.py:314-322 | the header, a rule of dashes exactly as long as the header, and one line per item |
| SpPages.TableCellsClipped | m365-sharepoint-plugin/skills/sharepoint/scripts/sp_pages.py:318-321 | every row line joins one cell of at most 20 characters per key of the first item |
| RenderWeb.FindPreset | manim-web-plugin/skills/manim-web/scripts/render_web.py:20-63 | found iff the name is a preset, with that preset's settings |
| RenderWeb.ChooseSettings | manim-web-plugin/skills/manim-web/scripts/render_web.py:174-186 | without a preset the command-line settings; with a preset its quality, frame rate, format and transparency, the output directory and file still from the command line; an unknown preset is rejected |
| RenderWeb.PresetOverridesCli | manim-web-plugin/skills/manim-web/scripts/render_web.py:175-180 | with a preset, the command-line quality, frame rate, format and transparency make no difference |
| RenderWeb.PresetsSetFps | manim-web-plugin/skills/manim-web/scripts/render_web.py:20-63 | every preset has a non-zero frame rate and a format |
| RenderWeb.BuildCommand | manim-web-plugin/skills/manim-web/scripts/render_web.py:66-106 | `manim` and the quality first, the scene file and name last; the length is four plus two per truthy frame rate, format, directory and file, plus one for transparency |
| RenderWeb.BuildCommandReadsBack | manim-web-plugin/skills/manim-web/scripts/render_web.py:77-106 | the flags appear in the order `--fps`, `--format`, `-t`, `--media_dir`, `-o`, each iff its setting is truthy, and reading the line back gives exactly the settings |
| RenderWeb.ReadsFlags | manim-web-plugin/skills/manim-web/scripts/render_web.py:82-100 | the flags of a command read back as the truthy settings |
| RenderWeb.ZeroFpsOmitted | manim-web-plugin/skills/manim-web/scripts/render_web.py:83-84 | a frame rate of 0 is dropped like no frame rate |
| RenderWeb.BuildCommandFps | manim-web-plugin/skills/manim-web/scripts/render_web.py:82-84 | a frame rate is passed right after the quality |
| RenderWeb.Run | manim-web-plugin/skills/manim-web/scripts/render_web.py:117-215 | a bad choice exits with 2; listing presets exits with 0; a missing scene argument or scene file exits with 1; a command is built iff all those pass, and it exits with 0 on a dry run, otherwise with `manim`'s status, or 1 when `manim` cannot be started |
| RenderWeb.RunUsesPreset | manim-web-plugin/skills/manim-web/scripts/render_web.py:174-198 | with a preset, the command runs with the preset's quality and frame rate |
| RenderWeb.PresetLinesAligned | manim-web-plugin/skills/manim-web/scripts/render_web.py:109-114 | each preset line pads the name to twelve columns so the descriptions line up |

## Left out

- The command-line plumbing of every script is not modelled: argument parsing, `main`, help text, printing to stdout and stderr, and JSON output. The decision rules inside `main` are modelled where they choose a result or an exit status.
- The iMessage store access is left out because it is I/O: the SQLite connection, the SQL text, `check_fda_access`, the Apple-epoch and local-time conversion of dates, and `strptime`. Rows are a given newest-first sequence, and `since` is an optional integer bound.
- UTF-8 decoding with `errors='ignore'` and `plistlib.loads` are library decoders. They enter as the oracle functions of `AttributedBody.Decoders`. The `try`/`except` that turns any error into `None` has no counterpart: the model's functions cannot fail, and a failing `plistlib` is the oracle returning nothing.
- Python's Unicode `lower()`, `strip()` and `split()` are restricted to ASCII, because case folding and the Unicode whitespace table are outside the model.
- Loading the contacts directory is left out because it is file parsing: `load_contacts`, the YAML and regex scraping, `contact_exists` and `get_contacts_path`. The parsed contacts are a parameter.
- AddContact.AddContact: the validation chain of `main` (which arguments are required, the duplicate check, the messages printed) is not modelled. Only the named helpers and the text splice are.
- LookupContact.Lookup: the found result omits the `platforms` and `default_platform` dictionaries, which are copied from the parsed contact without any decision.
- DiscoverContact: the `osascript` call and the regex that collects e-mail addresses from its output are left out. The address book's output enters as the phone list and the e-mail list.
- The status line's other segments are left out: `get_usage` and its token refresh, the git status subprocess, `format_tokens`, the cost display and `get_week_remaining`. They involve the network, subprocesses, floating point or the wall clock.
- Configuration loading is left out: `~/.databrickscfg` arrives parsed (`Ini.Config`), and the environment and the plugin's `config.yaml` arrive as values. `get_profile_host` and the SDK check of `get_workspace_client` are left out too.
- DbConfig.DefaultProfileNonEmpty: holds only when the plugin's `default_profile` and the profile names are non-empty, because the code returns those values as they are.
- DbOutput.FormatOutput: JSON serialisation (`json.dumps` with `default=str`) is a parameter. `print_error`, `print_success` and `print_warning` only print.
- Floating-point values in JSON data are not part of `Values.Value`, because their `str()` rendering is outside the model.
- Values.Value: lists and nested objects inside a cell are not modelled, because their `str()` rendering is Python's `repr`, which is outside the model.
- All Databricks REST and SDK traffic is left out: `api_request`, creating and destroying execution contexts, submitting commands, polling with `sleep`, and the permission API calls and their error messages. A command result, the SDK's answers and whether the client has a method are parameters.
- ExecCommon.Repl: a keyboard interrupt discarding the current input is not modelled, because it is an event rather than an input line. Reading the file for `run_file` is a parameter (`ExecCommon.FileExitCode`).
- SharePoint HTTP and authentication are left out (`get_auth`, `requests`, `get_page_content`, page listing). JSON decoding and encoding of the canvas are parameters.
- SpPages.ParseSiteUrl: `urlparse` is modelled as in Python 3.12, the version whose `urlsplit` strips leading controls, deletes tabs and line breaks and checks bracketed hosts. Only the tenant and the path are returned; the query, fragment and `;` parameters are dropped.
- SpPages.CheckBracketedHost: whether a text is an IPv4 or IPv6 address (`ipaddress.ip_address`) is the parameter `address`, because address parsing is outside the model.
- SpPages.CheckNetloc: the check `_checknetloc` makes on a network location with non-ASCII characters (NFKC normalisation must not introduce `/`, `?`, `#`, `@` or `:`) is not modelled, because Unicode normalisation is outside the model; such a URL is accepted here where Python raises.
- AddContact.DigitsOnly: keeps only the ASCII digits `0`-`9`. Python's `\d` also matches every other Unicode decimal digit (Arabic-Indic, full-width and so on), which `re.sub` would keep; the model's digit table is ASCII only.
- DiscoverContact.PhoneChar: the same restriction for `[^\d+]`: only ASCII digits and `+` are kept, where Python would also keep other Unicode decimal digits.
- Ini.GetOption: `configparser.ConfigParser` applies `BasicInterpolation` on `get`, so a `%(name)s` reference in a value is expanded and a lone `%` raises an error. The model returns the stored value as it is, because interpolation is outside the model.
- IMessage.MessageLineReadsBack: holds only for message text without the `↵` character; a text that already holds ` ↵ ` cannot be told apart from a marked line break.
- SpPages.PsRead: reads PowerShell's double-quoted strings only as far as the escaping needs. The `` `u{…} `` escape is taken as a plain `u`, and a `$` counts as an expansion when a letter, digit, `_`, `(`, `{`, `?`, `^` or `$` follows it. What an expansion evaluates to is not modelled. The generated commands keep the escaping the code has (`EscapeQuotes`); `EscapePs` is the corrected escaping, stated next to it.
- RenderWeb.Run: the `manim` subprocess is a parameter giving its exit status, or nothing when it cannot be started. An empty `--format ""` is not a valid choice and is rejected with the other bad choices.

## Findings

| source | as written | input that shows it | evidently intended | confidence | as-written member | corrected member |
|---|---|---|---|---|---|---|
| statusline-plugin/scripts/statusline.py:254-264 | the remaining minutes are `(100 - pct) * 300 // 100`, with no cap on `pct`; for usage over 100% they go negative, and `// 60` and `% 60` then floor into a positive minute count | `session_pct = 101`: remaining minutes -3, hours -1, minutes 57, shown as `  57m` | an overrun session shows no time left | not executed | Statusline.SessionOverrunShowsTime | Statusline.SessionRemainingCapped |
| m365-sharepoint-plugin/skills/sharepoint/scripts/sp_pages.py:277-306 | text put into the `-Text "…"` argument only gets `"` replaced by `` `" ``; backticks and `$` are left alone | the text `` `" x ``: it becomes `` ``" x ``, PowerShell reads `` `` `` as one backtick, and the quote then ends the argument, so ` x` runs as part of the command; the text `$(pwd)` is evaluated, not shown | the argument holds exactly the user's text | not executed | SpPages.EscapeQuotesLetsTextOut | SpPages.EscapePsReadsBack |

=== FILE: add_contact.dfy ===
/**
  Adding a contact to the contacts directory: input validation, nickname
  generation, rendering of the YAML entry and splicing it into the
  directory text ahead of its template section.
 */
module AddContact {
  import opened Wrappers
  import opened Text

  // ---------------------------------------------------------------------------
  // Phone numbers
  // ---------------------------------------------------------------------------

  /** `re.sub(r'[^\d]', '', s)`. */
  function DigitsOnly(s: string): (r: string)
    ensures forall i :: 0 <= i < |r| ==> IsDigit(r[i])
  {
    Filter(s, IsDigit)
  }

  /** An Australian mobile in international form without its `+`: eleven
      digits starting `614`. */
  predicate AuInternational(d: string) {
    |d| == 11 && StartsWith(d, "614") && forall i :: 0 <= i < |d| ==> IsDigit(d[i])
  }

  /** The Australian mobile shapes a number without `+` may take: ten
      digits starting `04`, or eleven starting `614`; both become `+614…`. */
  function NormaliseAu(clean: string): (r: Option<string>)
    requires forall i :: 0 <= i < |clean| ==> IsDigit(clean[i])
    ensures r.Some? ==> |r.value| == 12 && r.value[0] == '+' && AuInternational(r.value[1..])
    ensures r.Some? <==> (StartsWith(clean, "04") && |clean| == 10) || (StartsWith(clean, "614") && |clean| == 11)
  {
    if StartsWith(clean, "04") && |clean| == 10 then
      var r := "+61" + clean[1..];
      assert r[1..] == "61" + clean[1..];
      Some(r)
    else if StartsWith(clean, "614") && |clean| == 11 then
      assert ("+" + clean)[1..] == clean;
      Some("+" + clean)
    else None
  }

  /** `validate_phone`. A trimmed value starting with `+` is accepted as is;
      otherwise only the two Australian mobile shapes are accepted, both
      rewritten to `+614…`. */
  function ValidatePhone(phone: Option<string>): (r: Option<string>)
    ensures phone.None? || phone.value == "" ==> r.None?
    ensures r.Some? ==> |r.value| > 0 && r.value[0] == '+'
    ensures phone.Some? && phone.value != "" && StartsWith(Strip(phone.value), "+") ==>
              r == Some(Strip(phone.value))
    ensures phone.Some? && phone.value != "" && !StartsWith(Strip(phone.value), "+") ==>
              r == NormaliseAu(DigitsOnly(Strip(phone.value)))
  {
    if phone.None? || phone.value == "" then None
    else
      var p := Strip(phone.value);
      if StartsWith(p, "+") then Some(p)
      else NormaliseAu(DigitsOnly(p))
  }

  /** A validated number validates to itself. */
  lemma ValidatePhoneIdempotent(phone: Option<string>)
    requires ValidatePhone(phone).Some?
    ensures ValidatePhone(ValidatePhone(phone)) == ValidatePhone(phone)
  {
    var r := ValidatePhone(phone).value;
    var p := Strip(phone.value);
    if StartsWith(p, "+") {
      StripIdempotent(phone.value);
    } else {
      assert IsDigit(r[1..][10]);
      PlusNumberStable(r);
    }
  }

  /** A `+` number ending in a digit has nothing to trim, so it is
      accepted unchanged. */
  lemma PlusNumberStable(r: string)
    requires |r| > 1 && r[0] == '+' && IsDigit(r[|r| - 1])
    ensures ValidatePhone(Some(r)) == Some(r)
  {
    assert Strip(r) == r;
  }

  /** A string of digits is left alone by trimming and by the digit filter. */
  lemma DigitsUntouched(d: string)
    requires |d| > 0 && forall i :: 0 <= i < |d| ==> IsDigit(d[i])
    ensures Strip(d) == d && DigitsOnly(d) == d && !StartsWith(d, "+")
  {
    assert IsDigit(d[0]) && IsDigit(d[|d| - 1]);
  }

  /** An Australian mobile in local form: ten digits starting `04`. */
  predicate AuLocal(d: string) {
    |d| == 10 && StartsWith(d, "04") && forall i :: 0 <= i < |d| ==> IsDigit(d[i])
  }

  /** A local-form digit string is rewritten to `+61` and its tail. */
  lemma LocalNormalises(d: string)
    requires AuLocal(d)
    ensures ValidatePhone(Some(d)) == Some("+61" + d[1..])
  {
    DigitsUntouched(d);
  }

  /** An international-form digit string only gains its `+`. */
  lemma IntlNormalises(d: string)
    requires AuInternational(d)
    ensures ValidatePhone(Some(d)) == Some("+" + d)
  {
    DigitsUntouched(d);
    assert !StartsWith(d, "04") by {
      assert d[1] == d[..3][1] == '1';
    }
  }

  lemma LocalShape(rest: string)
    requires |rest| == 8 && forall i :: 0 <= i < |rest| ==> IsDigit(rest[i])
    ensures AuLocal("04" + rest) && ("04" + rest)[1..] == "4" + rest
  {
    var d := "04" + rest;
    assert d[..2] == "04";
    assert forall i :: 0 <= i < |d| ==> IsDigit(d[i]);
    assert d[1..] == "4" + rest;
  }

  lemma IntlShape(rest: string)
    requires |rest| == 8 && forall i :: 0 <= i < |rest| ==> IsDigit(rest[i])
    ensures AuInternational("614" + rest)
  {
    var d := "614" + rest;
    assert d[..3] == "614";
    assert forall i :: 0 <= i < |d| ==> IsDigit(d[i]);
  }

  /** The local form `04…` of an Australian mobile becomes `+614…`. */
  lemma AuLocalForm(rest: string)
    requires |rest| == 8 && forall i :: 0 <= i < |rest| ==> IsDigit(rest[i])
    ensures ValidatePhone(Some("04" + rest)) == Some("+614" + rest)
  {
    LocalShape(rest);
    LocalNormalises("04" + rest);
    PlusPrefix(rest);
  }

  /** The international form `614…` without its `+` becomes `+614…`. */
  lemma AuInternationalForm(rest: string)
    requires |rest| == 8 && forall i :: 0 <= i < |rest| ==> IsDigit(rest[i])
    ensures ValidatePhone(Some("614" + rest)) == Some("+614" + rest)
  {
    IntlShape(rest);
    IntlNormalises("614" + rest);
    PlusPrefix(rest);
  }

  lemma PlusPrefix(rest: string)
    ensures "+" + ("614" + rest) == "+614" + rest
    ensures "+61" + ("4" + rest) == "+614" + rest
  {
    assert "+614" == "+" + "614" == "+61" + "4";
    AppendAssoc("+", "614", rest);
    AppendAssoc("+61", "4", rest);
  }

  /** The local and the international form of an Australian mobile are
      accepted as the same number. */
  lemma AuFormsAgree(rest: string)
    requires |rest| == 8 && forall i :: 0 <= i < |rest| ==> IsDigit(rest[i])
    ensures ValidatePhone(Some("04" + rest)) == ValidatePhone(Some("614" + rest)) == Some("+614" + rest)
  {
    AuLocalForm(rest);
    AuInternationalForm(rest);
  }

  // ---------------------------------------------------------------------------
  // Email addresses: ^[a-zA-Z0-9._%+-]+@[a-zA-Z0-9.-]+\.[a-zA-Z]{2,}$
  // ---------------------------------------------------------------------------

  predicate LocalChar(c: char) {
    IsAsciiLetter(c) || IsDigit(c) || c == '.' || c == '_' || c == '%' || c == '+' || c == '-'
  }

  predicate DomainChar(c: char) {
    IsAsciiLetter(c) || IsDigit(c) || c == '.' || c == '-'
  }

  /** `e` matches the pattern with the `@` at `a` and the `.` before the
      top-level label at `k`. */
  predicate EmailSplit(e: string, a: int, k: int) {
    && 0 < a && a + 1 < k && k + 2 < |e|
    && e[a] == '@' && e[k] == '.'
    && (forall i :: 0 <= i < a ==> LocalChar(e[i]))
    && (forall i :: a < i < k ==> DomainChar(e[i]))
    && (forall i :: k < i < |e| ==> IsAsciiLetter(e[i]))
  }

  /** The regular expression, as a statement about some split of `e`. */
  ghost predicate MatchesEmailPattern(e: string) {
    exists a, k :: EmailSplit(e, a, k)
  }

  /** Index of the last `c` in `s`. */
  function LastIndexOf(s: string, c: char): (r: Option<nat>)
    ensures r.Some? ==> r.value < |s| && s[r.value] == c
                        && forall j :: r.value < j < |s| ==> s[j] != c
    ensures r.None? ==> c !in s
  {
    if |s| == 0 then None
    else if s[|s| - 1] == c then Some(|s| - 1)
    else LastIndexOf(s[..|s| - 1], c)
  }

  /** The `@` of a split is an occurrence of `@` in the address. */
  lemma SplitAtSign(e: string, a: int, k: int)
    ensures EmailSplit(e, a, k) ==> IsFactorAt(e, "@", a)
  {
    if EmailSplit(e, a, k) {
      assert e[a..a + 1] == [e[a]];
    }
  }

  /** The pattern test: the first `@` and the last `.` are the only
      candidates for the split. */
  function CheckEmail(e: string): (b: bool)
    ensures b <==> MatchesEmailPattern(e)
  {
    match IndexOf(e, "@")
    case None =>
      assert !MatchesEmailPattern(e) by {
        forall a, k ensures !EmailSplit(e, a, k) {
          SplitAtSign(e, a, k);
        }
      }
      false
    case Some(a) =>
      match LastIndexOf(e, '.')
      case None => false
      case Some(k) =>
        assert MatchesEmailPattern(e) ==> EmailSplit(e, a, k) by {
          if MatchesEmailPattern(e) {
            var a', k' :| EmailSplit(e, a', k');
            assert IsFactorAt(e, "@", a');
            assert e[a..a + 1] == "@";
          }
        }
        EmailSplit(e, a, k)
  }

  /** `validate_email`: the trimmed address when it matches the pattern. */
  function ValidateEmail(email: Option<string>): (r: Option<string>)
    ensures r.Some? <==> email.Some? && email.value != "" && MatchesEmailPattern(Strip(email.value))
    ensures r.Some? ==> r.value == Strip(email.value)
  {
    if email.None? || email.value == "" then None
    else
      var e := Strip(email.value);
      if CheckEmail(e) then Some(e) else None
  }

  // ---------------------------------------------------------------------------
  // Nicknames and the YAML entry
  // ---------------------------------------------------------------------------

  /** `generate_nicknames`: the first word, then the last word when there
      are at least two. */
  function GenerateNicknames(name: string): (r: seq<string>)
    ensures |r| <= 2
    ensures |r| == if |Words(name)| >= 2 then 2 else |Words(name)|
  {
    FirstAndLast(Words(name))
  }

  function FirstAndLast(parts: seq<string>): seq<string> {
    if |parts| == 0 then []
    else if |parts| == 1 then [parts[0]]
    else [parts[0], parts[|parts| - 1]]
  }

  /** A name made of words gets its first and last word as nicknames. */
  lemma NicknamesOfWords(ws: seq<string>)
    requires |ws| >= 1 && forall i :: 0 <= i < |ws| ==> IsWord(ws[i])
    ensures GenerateNicknames(Join(" ", ws)) == if |ws| == 1 then [ws[0]] else [ws[0], ws[|ws| - 1]]
  {
    WordsOfJoin(ws);
    NicknamesOfSplit(Join(" ", ws), ws);
  }

  lemma NicknamesOfSplit(name: string, ws: seq<string>)
    requires |ws| >= 1 && Words(name) == ws
    ensures GenerateNicknames(name) == if |ws| == 1 then [ws[0]] else [ws[0], ws[|ws| - 1]]
  {
    assert GenerateNicknames(name) == FirstAndLast(ws);
  }

  const DEFAULT_CONTEXT: string := "personal"

  /** The optional arguments of `format_contact_yaml`; "" is not given. */
  datatype Entry = Entry(
    name: string,
    phone: string,
    email: string,
    messenger: string,
    context: string,
    relationship: string)

  function NicknameLines(nicks: seq<string>): (r: seq<string>)
    ensures |r| == |nicks|
    ensures forall i :: 0 <= i < |nicks| ==> r[i] == "      - " + nicks[i]
  {
    seq(|nicks|, i requires 0 <= i < |nicks| => "      - " + nicks[i])
  }

  const WHATSAPP_LINE: string := "      whatsapp:"
  const IMESSAGE_LINE: string := "      imessage:"
  const MESSENGER_LINE: string := "      messenger:"

  /** A deep `key: "value"` line under a platform header; its first
      non-blank character is the key's first letter. */
  function FieldLine(key: string, value: string): (r: string)
    requires key != ""
    ensures |r| == 8 + |key| + 3 + |value| + 1 && r[..8] == "        " && r[8] == key[0]
    ensures r[8..8 + |key|] == key && r[8 + |key|..8 + |key| + 3] == ": \""
    ensures r[8 + |key| + 3..|r| - 1] == value && r[|r| - 1] == '"'
  {
    "        " + key + ": \"" + value + "\""
  }

  function PhoneLine(phone: string): string { FieldLine("phone", phone) }
  function EmailLine(email: string): string { FieldLine("email", email) }
  function UsernameLine(username: string): string { FieldLine("username", username) }

  function PhoneLines(e: Entry): seq<string> {
    if e.phone == "" then []
    else
      [WHATSAPP_LINE, PhoneLine(e.phone), IMESSAGE_LINE, PhoneLine(e.phone)]
      + (if e.email != "" then [EmailLine(e.email)] else [])
  }

  function MessengerLines(e: Entry): seq<string> {
    if e.messenger == "" then []
    else [MESSENGER_LINE, UsernameLine(e.messenger)]
  }

  /** The personal default platform: iMessage exactly when a phone is
      given. */
  function DefaultPlatform(e: Entry): (r: string)
    ensures r == "imessage" <==> e.phone != ""
  {
    if e.phone != "" then "imessage" else "messenger"
  }

  /** The lines before the platform blocks. */
  function HeadLines(e: Entry): seq<string> {
    NameLines(e) + NicknameLines(GenerateNicknames(e.name)) + ContextLines(e)
  }

  function NameLines(e: Entry): seq<string> {
    ["  - name: " + e.name, "    nicknames:"]
  }

  function ContextLines(e: Entry): seq<string> {
    ["    context: " + e.context, "    relationship: \"" + e.relationship + "\"", "    platforms:"]
  }

  function TailLines(e: Entry): seq<string> {
    ["    default_platform:", "      personal: " + DefaultPlatform(e)]
  }

  /** The lines of the entry. */
  function EntryLines(e: Entry): (r: seq<string>)
    ensures |r| >= 7
    ensures r[0] == "  - name: " + e.name && r[1] == "    nicknames:"
    ensures forall i :: 0 <= i < |GenerateNicknames(e.name)| ==>
              r[2 + i] == "      - " + GenerateNicknames(e.name)[i]
    ensures r[|r| - 1] == "      personal: " + DefaultPlatform(e)
  {
    var h := HeadLines(e);
    var t := TailLines(e);
    HeadLinesFront(e);
    var r := h + PhoneLines(e) + MessengerLines(e) + t;
    assert forall i :: 0 <= i < |h| ==> r[i] == h[i];
    assert r[|r| - 1] == t[1];
    r
  }

  lemma HeadLinesFront(e: Entry)
    ensures var h := HeadLines(e);
            var nicks := GenerateNicknames(e.name);
            && |h| == |nicks| + 5
            && h[0] == "  - name: " + e.name && h[1] == "    nicknames:"
            && forall i :: 0 <= i < |nicks| ==> h[2 + i] == "      - " + nicks[i]
  {
    var nicks := GenerateNicknames(e.name);
    assert HeadLines(e) == NameLines(e) + NicknameLines(nicks) + ContextLines(e);
  }

  /** `format_contact_yaml`. */
  function FormatContactYaml(e: Entry): (r: string)
    ensures StartsWith(r, "  - name: " + e.name)
  {
    var lines := EntryLines(e);
    JoinHead("\n", lines);
    Join("\n", lines)
  }

  predicate NoBreaks(lines: seq<string>) {
    forall i :: 0 <= i < |lines| ==> '\n' !in lines[i]
  }

  /** Fields without line breaks: the condition for the entry to read back
      line by line. */
  predicate SingleLineFields(e: Entry) {
    && '\n' !in e.name && '\n' !in e.phone && '\n' !in e.email
    && '\n' !in e.messenger && '\n' !in e.context && '\n' !in e.relationship
  }

  lemma NicknamesNoBreaks(name: string)
    ensures NoBreaks(GenerateNicknames(name))
  {
    var nicks := GenerateNicknames(name);
    forall i | 0 <= i < |nicks| ensures '\n' !in nicks[i] {
      assert nicks[i] in Words(name);
      assert IsSpace('\n');
    }
  }

  lemma NicknameLinesNoBreaks(nicks: seq<string>)
    requires NoBreaks(nicks)
    ensures NoBreaks(NicknameLines(nicks))
  {
    var ls := NicknameLines(nicks);
    forall i | 0 <= i < |ls| ensures '\n' !in ls[i] {
      assert ls[i] == "      - " + nicks[i];
    }
  }

  lemma HeadLinesNoBreaks(e: Entry)
    requires SingleLineFields(e)
    ensures NoBreaks(HeadLines(e))
  {
    var nicks := GenerateNicknames(e.name);
    NicknamesNoBreaks(e.name);
    NicknameLinesNoBreaks(nicks);
    NameLinesNoBreaks(e);
    ContextLinesNoBreaks(e);
    NoBreaksAppend(NameLines(e), NicknameLines(nicks));
    NoBreaksAppend(NameLines(e) + NicknameLines(nicks), ContextLines(e));
  }

  lemma NameLinesNoBreaks(e: Entry)
    requires '\n' !in e.name
    ensures NoBreaks(NameLines(e))
  {
    PlainFieldLine("  - name: ", e.name);
  }

  lemma ContextLinesNoBreaks(e: Entry)
    requires '\n' !in e.context && '\n' !in e.relationship
    ensures NoBreaks(ContextLines(e))
  {
    PlainFieldLine("    context: ", e.context);
    QuotedFieldLine("    relationship: ", e.relationship);
  }

  lemma PlatformLinesNoBreaks(e: Entry)
    requires SingleLineFields(e)
    ensures NoBreaks(PhoneLines(e)) && NoBreaks(MessengerLines(e)) && NoBreaks(TailLines(e))
  {
    PhoneLinesNoBreaks(e);
    MessengerLinesNoBreaks(e);
    assert '\n' !in DefaultPlatform(e);
  }

  lemma PhoneLinesNoBreaks(e: Entry)
    requires SingleLineFields(e)
    ensures NoBreaks(PhoneLines(e))
  {
    QuotedFieldLine("        phone: ", e.phone);
    QuotedFieldLine("        email: ", e.email);
  }

  lemma MessengerLinesNoBreaks(e: Entry)
    requires SingleLineFields(e)
    ensures NoBreaks(MessengerLines(e))
  {
    QuotedFieldLine("        username: ", e.messenger);
  }

  lemma PlainFieldLine(name: string, value: string)
    requires '\n' !in name && '\n' !in value
    ensures '\n' !in name + value
  {
  }

  /** A field line `name"value"` breaks no line when its value does not. */
  lemma QuotedFieldLine(name: string, value: string)
    requires '\n' !in name && '\n' !in value
    ensures '\n' !in name + "\"" + value + "\""
  {
  }

  lemma NoBreaksAppend(a: seq<string>, b: seq<string>)
    requires NoBreaks(a) && NoBreaks(b)
    ensures NoBreaks(a + b)
  {
    assert forall i :: |a| <= i < |a + b| ==> (a + b)[i] == b[i - |a|];
  }

  lemma EntryLinesNoBreaks(e: Entry)
    requires SingleLineFields(e)
    ensures NoBreaks(EntryLines(e))
  {
    HeadLinesNoBreaks(e);
    PlatformLinesNoBreaks(e);
    NoBreaksAppend(HeadLines(e), PhoneLines(e));
    NoBreaksAppend(HeadLines(e) + PhoneLines(e), MessengerLines(e));
    NoBreaksAppend(HeadLines(e) + PhoneLines(e) + MessengerLines(e), TailLines(e));
  }

  /** Reading the rendered entry back line by line gives its lines, as
      long as no field holds a line break (nicknames never do: they are
      words). */
  lemma FormatContactYamlLines(e: Entry)
    requires SingleLineFields(e)
    ensures SplitOn(FormatContactYaml(e), '\n') == EntryLines(e)
  {
    EntryLinesNoBreaks(e);
    SplitOnJoin('\n', EntryLines(e));
  }

  /** Lines of the shape `<8 spaces><key>: …`. */
  predicate DeepLine(x: string) {
    |x| > 8 && x[..8] == "        "
  }

  /** A line that is neither a platform header nor a deep line: it breaks
      off from six spaces early, or carries `-` or `p` after them. */
  predicate FixedShape(x: string) {
    |x| > 6 && (x[2] != ' ' || x[4] != ' ' || x[6] == '-' || x[6] == 'p')
  }

  lemma FixedShapeDistinct(x: string)
    requires FixedShape(x)
    ensures x != WHATSAPP_LINE && x != IMESSAGE_LINE && x != MESSENGER_LINE
    ensures !DeepLine(x)
  {
    assert WHATSAPP_LINE[6] == 'w' && IMESSAGE_LINE[6] == 'i' && MESSENGER_LINE[6] == 'm';
  }

  predicate AllFixedShape(lines: seq<string>) {
    forall i :: 0 <= i < |lines| ==> FixedShape(lines[i])
  }

  lemma AllFixedShapeAppend(a: seq<string>, b: seq<string>)
    requires AllFixedShape(a) && AllFixedShape(b)
    ensures AllFixedShape(a + b)
  {
    assert forall i :: |a| <= i < |a + b| ==> (a + b)[i] == b[i - |a|];
  }

  lemma HeadLinesShape(e: Entry)
    ensures forall i :: 0 <= i < |HeadLines(e)| ==> FixedShape(HeadLines(e)[i])
  {
    var nicks := NicknameLines(GenerateNicknames(e.name));
    NameLinesShape(e);
    NicknameLinesShape(GenerateNicknames(e.name));
    ContextLinesShape(e);
    AllFixedShapeAppend(NameLines(e), nicks);
    AllFixedShapeAppend(NameLines(e) + nicks, ContextLines(e));
  }

  lemma NameLinesShape(e: Entry)
    ensures AllFixedShape(NameLines(e))
  {
    var a := NameLines(e);
    assert FixedShape(a[0]) by { assert a[0][2] == '-'; }
    assert FixedShape(a[1]) by { assert a[1][4] == 'n'; }
  }

  lemma NicknameLinesShape(ns: seq<string>)
    ensures AllFixedShape(NicknameLines(ns))
  {
    var nicks := NicknameLines(ns);
    forall i | 0 <= i < |nicks| ensures FixedShape(nicks[i]) {
      assert nicks[i][6] == '-';
    }
  }

  lemma ContextLinesShape(e: Entry)
    ensures AllFixedShape(ContextLines(e))
  {
    var b := ContextLines(e);
    assert FixedShape(b[0]) by { assert b[0][4] == 'c'; }
    assert FixedShape(b[1]) by { assert b[1][4] == 'r'; }
    assert FixedShape(b[2]) by { assert b[2][4] == 'p'; }
  }

  lemma TailLinesShape(e: Entry)
    ensures forall i :: 0 <= i < |TailLines(e)| ==> FixedShape(TailLines(e)[i])
  {
    var t := TailLines(e);
    assert t[0][4] == 'd';
    assert t[1][6] == 'p';
  }

  /** No line outside the platform blocks can be taken for one of their
      lines. */
  lemma FixedLinesDistinct(e: Entry, x: string)
    ensures x in HeadLines(e) + TailLines(e) ==>
              x != WHATSAPP_LINE && x != IMESSAGE_LINE && x != MESSENGER_LINE && !DeepLine(x)
  {
    if x in HeadLines(e) + TailLines(e) {
      HeadLinesShape(e);
      TailLinesShape(e);
      if x in HeadLines(e) {
        var i :| 0 <= i < |HeadLines(e)| && HeadLines(e)[i] == x;
      } else {
        assert x in TailLines(e);
        var i :| 0 <= i < |TailLines(e)| && TailLines(e)[i] == x;
      }
      FixedShapeDistinct(x);
    }
  }

  lemma EntryLinesMembers(e: Entry, x: string)
    ensures x in EntryLines(e) <==> x in HeadLines(e) + TailLines(e) || x in PhoneLines(e) || x in MessengerLines(e)
  {
  }

  /** The WhatsApp and iMessage blocks appear exactly when a phone is
      given. */
  lemma PhoneBlocksIff(e: Entry)
    ensures IMESSAGE_LINE in EntryLines(e) <==> e.phone != ""
    ensures WHATSAPP_LINE in EntryLines(e) <==> e.phone != ""
  {
    if e.phone == "" {
      forall x | x in HeadLines(e) + TailLines(e) ensures x != IMESSAGE_LINE && x != WHATSAPP_LINE {
        FixedLinesDistinct(e, x);
      }
      EntryLinesMembers(e, IMESSAGE_LINE);
      EntryLinesMembers(e, WHATSAPP_LINE);
    } else {
      assert PhoneLines(e)[0] == WHATSAPP_LINE && PhoneLines(e)[2] == IMESSAGE_LINE;
      EntryLinesMembers(e, IMESSAGE_LINE);
      EntryLinesMembers(e, WHATSAPP_LINE);
    }
  }

  /** The email line appears exactly when both a phone and an email are
      given: it belongs to the iMessage block. */
  lemma EmailLineIff(e: Entry)
    ensures EmailLine(e.email) in EntryLines(e) <==> e.phone != "" && e.email != ""
  {
    var m := EmailLine(e.email);
    EntryLinesMembers(e, m);
    FixedLinesDistinct(e, m);
    assert DeepLine(m);
    EmailNotMessenger(e);
    EmailInPhoneLines(e);
  }

  lemma EmailNotMessenger(e: Entry)
    ensures EmailLine(e.email) !in MessengerLines(e)
  {
    var m := EmailLine(e.email);
    assert m[6] != MESSENGER_LINE[6];
    assert m[8] != UsernameLine(e.messenger)[8];
  }

  lemma EmailInPhoneLines(e: Entry)
    ensures EmailLine(e.email) in PhoneLines(e) <==> e.phone != "" && e.email != ""
  {
    var m := EmailLine(e.email);
    if e.phone == "" {
    } else if e.email == "" {
      var p := PhoneLine(e.phone);
      assert PhoneLines(e) == [WHATSAPP_LINE, p, IMESSAGE_LINE, p];
      assert m != p by {
        assert m[8] != p[8];
      }
      assert m[6] != WHATSAPP_LINE[6] && m[6] != IMESSAGE_LINE[6];
    } else {
      assert PhoneLines(e)[4] == m;
    }
  }

  /** The iMessage/WhatsApp block holds its two headers and deep lines. */
  lemma PhoneLinesShape(e: Entry)
    ensures forall x :: x in PhoneLines(e) ==> x == WHATSAPP_LINE || x == IMESSAGE_LINE || DeepLine(x)
  {
  }

  /** The Messenger block appears exactly when a username is given. */
  lemma MessengerBlockIff(e: Entry)
    ensures MESSENGER_LINE in EntryLines(e) <==> e.messenger != ""
  {
    var m := MESSENGER_LINE;
    EntryLinesMembers(e, m);
    MessengerNotPhoneLine(e);
    FixedLinesDistinct(e, m);
    assert e.messenger != "" ==> MessengerLines(e)[0] == m;
  }

  lemma MessengerNotPhoneLine(e: Entry)
    ensures MESSENGER_LINE !in PhoneLines(e)
  {
    var m := MESSENGER_LINE;
    assert !DeepLine(m) by {
      assert m[..8][6] == 'm';
    }
    assert m != WHATSAPP_LINE && m != IMESSAGE_LINE by {
      assert m[6] == 'm' && WHATSAPP_LINE[6] == 'w' && IMESSAGE_LINE[6] == 'i';
    }
    PhoneLinesShape(e);
  }

  // ---------------------------------------------------------------------------
  // Splicing into the directory
  // ---------------------------------------------------------------------------

  /** The rule that opens the template section of the directory file. */
  const MARKER: string := "# " + Repeat('=', 76)

  /** The text of a directory file that does not exist yet. */
  const NEW_DIRECTORY: string :=
    "# Contacts Directory\n# This file is loaded when the messaging skill needs to resolve a contact.\n\ncontacts:\n"

  /** The string-splicing part of `add_contact`: `existing` is the current
      file text, `None` when the file does not exist. */
  function AddContact(existing: Option<string>, entry: string): (r: string)
    // With a template section, the entry goes right before its first rule
    // and everything from that rule on is kept verbatim.
    ensures IndexOf(existing.GetOr(NEW_DIRECTORY), MARKER).Some? ==>
              var content := existing.GetOr(NEW_DIRECTORY);
              var i := IndexOf(content, MARKER).value;
              && StartsWith(r, StripRight(content[..i]) + "\n\n" + entry + "\n\n")
              && |r| >= |content| - i
              && r[|r| - (|content| - i)..] == content[i..]
    // Without one, the entry is appended after the trimmed text, with a
    // final newline.
    ensures IndexOf(existing.GetOr(NEW_DIRECTORY), MARKER).None? ==>
              && StartsWith(r, StripRight(existing.GetOr(NEW_DIRECTORY)) + "\n\n")
              && EndsWith(r, entry + "\n")
              && |r| == |StripRight(existing.GetOr(NEW_DIRECTORY))| + 2 + |entry| + 1
  {
    var content := existing.GetOr(NEW_DIRECTORY);
    match IndexOf(content, MARKER)
    case Some(i) =>
      var front := StripRight(content[..i]) + "\n\n" + entry + "\n\n";
      var r := front + content[i..];
      assert r[..|front|] == front;
      r
    case None =>
      var front := StripRight(content) + "\n\n";
      var r := front + entry + "\n";
      assert r[..|front|] == front;
      r
  }

  /** No rule starts within the text a splice puts before the template
      section, given that neither the kept text nor the entry holds one. */
  lemma NoMarkerInFront(p: string, entry: string, after: string, q: int)
    requires !Contains(p, MARKER) && !Contains(entry, MARKER)
    requires 0 <= q < |p| + |entry| + 4
    ensures !IsFactorAt(p + "\n\n" + entry + "\n\n" + after, MARKER, q)
  {
    FactorInFront(p, entry, after, q);
  }

  /** A rule starting within the spliced front lies inside the kept text
      or inside the entry: the line breaks around them cannot be part of
      one. */
  lemma FactorInFront(p: string, entry: string, after: string, q: int)
    requires 0 <= q < |p| + |entry| + 4
    ensures IsFactorAt(p + "\n\n" + entry + "\n\n" + after, MARKER, q) ==>
              Contains(p, MARKER) || Contains(entry, MARKER)
  {
    var r3 := [] + ['\n'] + after;
    var r2 := entry + ['\n'] + r3;
    var r1 := [] + ['\n'] + r2;
    SpliceShape(p, entry, after);
    assert '\n' !in MARKER by {
      assert MARKER[0] == '#' && MARKER[1] == ' ';
      assert forall k :: 2 <= k < |MARKER| ==> MARKER[k] == '=';
    }
    assert !IsFactorAt(r3, MARKER, 0) by {
      assert r3[0] == '\n' && MARKER[0] == '#';
      assert |MARKER| <= |r3| ==> r3[0..|MARKER|][0] == r3[0];
    }
    if IsFactorAt(p + ['\n'] + r1, MARKER, q) {
      FactorAroundChar(p, '\n', r1, MARKER, q);
      if q + |MARKER| <= |p| {
        ContainsWitness(p, MARKER, q);
      } else {
        FactorAroundChar([], '\n', r2, MARKER, q - |p| - 1);
        FactorAroundChar(entry, '\n', r3, MARKER, q - |p| - 2);
        if q - |p| - 2 + |MARKER| <= |entry| {
          ContainsWitness(entry, MARKER, q - |p| - 2);
        } else {
          assert false;
        }
      }
    }
  }

  lemma SpliceShape(p: string, entry: string, after: string)
    ensures p + "\n\n" + entry + "\n\n" + after
            == p + ['\n'] + ([] + ['\n'] + (entry + ['\n'] + ([] + ['\n'] + after)))
  {
  }

  /** The text before the first rule, and any prefix of it, holds no rule. */
  lemma NoMarkerBeforeFirst(content: string, i: nat, p: string)
    requires IndexOf(content, MARKER) == Some(i)
    requires |p| <= i && p == content[..|p|]
    ensures !Contains(p, MARKER)
  {
    forall q | 0 <= q
      ensures !IsFactorAt(p, MARKER, q)
    {
      FactorOfPrefix(content, p, MARKER, q);
    }
  }

  /** An occurrence in a prefix is an occurrence in the whole text. */
  lemma FactorOfPrefix(content: string, p: string, sub: string, q: int)
    requires |p| <= |content| && p == content[..|p|]
    ensures IsFactorAt(p, sub, q) ==> IsFactorAt(content, sub, q)
  {
    if IsFactorAt(p, sub, q) {
      assert content[q..q + |sub|] == p[q..q + |sub|];
    }
  }

  /** Splicing keeps the template section where the next splice will find
      it: the result's first rule starts the same template section. */
  lemma AddContactKeepsTemplate(existing: Option<string>, entry: string)
    requires IndexOf(existing.GetOr(NEW_DIRECTORY), MARKER).Some?
    requires !Contains(entry, MARKER)
    ensures var content := existing.GetOr(NEW_DIRECTORY);
            var r := AddContact(existing, entry);
            IndexOf(r, MARKER).Some?
            && r[IndexOf(r, MARKER).value..] == content[IndexOf(content, MARKER).value..]
  {
    AddContactSplices(existing, entry);
    TemplateTailKept(existing.GetOr(NEW_DIRECTORY), entry);
  }

  /** Splicing an entry without a rule in front of a text's first rule
      leaves that rule the first one, with the same tail. */
  lemma TemplateTailKept(content: string, entry: string)
    requires IndexOf(content, MARKER).Some? && !Contains(entry, MARKER)
    ensures var i := IndexOf(content, MARKER).value;
            var p := StripRight(content[..i]);
            var r := p + "\n\n" + entry + "\n\n" + content[i..];
            IndexOf(r, MARKER) == Some(|p| + |entry| + 4) && r[|p| + |entry| + 4..] == content[i..]
  {
    var i := IndexOf(content, MARKER).value;
    var p := StripRight(content[..i]);
    var after := content[i..];
    NoMarkerBeforeFirst(content, i, p);
    assert IsFactorAt(after, MARKER, 0) by {
      assert content[i..i + |MARKER|] == MARKER;
      assert after[..|MARKER|] == content[i..i + |MARKER|];
    }
    SpliceFindsMarker(p, entry, after);
  }

  /** With a template section, the result is the trimmed front, the entry
      and the kept tail, joined by blank lines. */
  lemma AddContactSplices(existing: Option<string>, entry: string)
    requires IndexOf(existing.GetOr(NEW_DIRECTORY), MARKER).Some?
    ensures var content := existing.GetOr(NEW_DIRECTORY);
            var i := IndexOf(content, MARKER).value;
            AddContact(existing, entry) == StripRight(content[..i]) + "\n\n" + entry + "\n\n" + content[i..]
  {
  }

  /** In a spliced text the first rule is the one that starts the kept
      tail, when neither the front nor the entry holds one. */
  lemma SpliceFindsMarker(p: string, entry: string, after: string)
    requires !Contains(p, MARKER) && !Contains(entry, MARKER)
    requires IsFactorAt(after, MARKER, 0)
    ensures var r := p + "\n\n" + entry + "\n\n" + after;
            var start := |p| + |entry| + 4;
            IndexOf(r, MARKER) == Some(start) && r[start..] == after
  {
    var r := p + "\n\n" + entry + "\n\n" + after;
    var start := |p| + |entry| + 4;
    assert r[start..] == after;
    forall q | 0 <= q < start
      ensures !IsFactorAt(r, MARKER, q)
    {
      NoMarkerInFront(p, entry, after, q);
    }
    assert IsFactorAt(r, MARKER, start) by {
      SuffixSlice(r, start, after, |MARKER|);
    }
    IndexOfIs(r, MARKER, start);
  }

  lemma SuffixSlice(r: string, start: nat, after: string, n: nat)
    requires start <= |r| && r[start..] == after && n <= |after|
    ensures r[start..start + n] == after[..n]
  {
    assert forall k :: 0 <= k < n ==> r[start + k] == after[k];
  }
}

=== FILE: attributed_body.dfy ===
/**
  Recovery of message text from the `attributedBody` column of the iMessage
  store: an NSKeyedArchiver / NSAttributedString blob that is scanned as raw
  bytes, never fully decoded.

  Three strategies run in a fixed order and the first that yields a value
  wins:
    1. proximity: the readable run that follows the `NSString` marker within
       1-20 bytes (its result is returned as is, even when empty);
    2. longest readable run that carries no archive metadata token (only a
       non-blank result is accepted);
    3. for a buffer starting with `bplist`, the first usable string of the
       `$objects` table.
  UTF-8 decoding with `errors='ignore'` and `plistlib.loads` are library
  decoders; they enter as the oracle functions of `Decoders`.
 */
module AttributedBody {
  import opened Wrappers
  import opened Text

  type Byte = b: int | 0 <= b < 256

  /** The byte class `[\x20-\x7e\xc0-\xff]`. */
  predicate Readable(b: Byte) {
    (0x20 <= b <= 0x7E) || 0xC0 <= b
  }

  /** Line feed: the one byte the regex `.` does not match. */
  const NEWLINE: Byte := 0x0A

  /** The bytes of an ASCII literal. */
  function Ascii(s: string): (r: seq<Byte>)
    requires forall i :: 0 <= i < |s| ==> s[i] as int < 128
    ensures |r| == |s|
    ensures forall i :: 0 <= i < |s| ==> r[i] == s[i] as int
  {
    seq(|s|, i requires 0 <= i < |s| => s[i] as int as Byte)
  }

  const NSSTRING: seq<Byte> := Ascii("NSString")
  const BPLIST: seq<Byte> := Ascii("bplist")

  /** Lower-cased tokens whose presence marks a run as archive metadata. */
  const METADATA_TOKENS: seq<seq<Byte>> :=
    [Ascii("nsstring"), Ascii("nsmutablestring"), Ascii("nsattributed"), Ascii("streamtyped")]

  /** `$objects` entries that are class-name sentinels, not message text. */
  const PLIST_SENTINELS: seq<string> := ["$null", "NSString", "NSMutableString"]

  /** An entry of the `$objects` table as far as the scan cares. */
  datatype PlistObject = PlistString(s: string) | PlistOther

  /** The library decoders the scan calls.
      `utf8`: `bytes.decode('utf-8', errors='ignore')` (never fails);
      `plistObjects`: `plistlib.loads(data)['$objects']` when the buffer parses
      to a dictionary holding that key, `None` for every failure. */
  datatype Decoders = Decoders(
    utf8: seq<Byte> -> string,
    plistObjects: seq<Byte> -> Option<seq<PlistObject>>)

  // ---------------------------------------------------------------------------
  // Readable runs
  // ---------------------------------------------------------------------------

  /** End of the maximal readable run that starts at `i`. */
  function RunEnd(data: seq<Byte>, i: nat): (e: nat)
    requires i <= |data|
    ensures i <= e <= |data|
    ensures forall k :: i <= k < e ==> Readable(data[k])
    ensures e < |data| ==> !Readable(data[e])
    decreases |data| - i
  {
    if i < |data| && Readable(data[i]) then RunEnd(data, i + 1) else i
  }

  /** `data[a..b]` is a maximal run of readable bytes. */
  ghost predicate MaximalRun(data: seq<Byte>, a: int, b: int) {
    && 0 <= a <= b <= |data|
    && (forall k :: a <= k < b ==> Readable(data[k]))
    && (a == 0 || !Readable(data[a - 1]))
    && (b == |data| || !Readable(data[b]))
  }

  lemma RunEndOfMaximal(data: seq<Byte>, a: nat, b: nat)
    requires MaximalRun(data, a, b)
    ensures RunEnd(data, a) == b
  {
  }

  // ---------------------------------------------------------------------------
  // Strategy 1: rb'NSString.{1,20}?([\x20-\x7e\xc0-\xff]{2,})'
  // ---------------------------------------------------------------------------

  /** A match of the proximity pattern with the marker at `p` and a lazy gap
      of `k` bytes: the gap holds no newline and at least two readable bytes
      follow it. */
  predicate MatchesAt(data: seq<Byte>, p: int, k: int) {
    && 0 <= p
    && 1 <= k <= 20
    && p + |NSSTRING| + k <= |data|
    && data[p..p + |NSSTRING|] == NSSTRING
    && (forall j :: p + |NSSTRING| <= j < p + |NSSTRING| + k ==> data[j] != NEWLINE)
    && RunEnd(data, p + |NSSTRING| + k) >= p + |NSSTRING| + k + 2
  }

  /** The match `re.search` reports: the leftmost marker position that
      matches at all, and there the shortest gap (the lazy `{1,20}?`). */
  ghost predicate FirstProximityMatch(data: seq<Byte>, p: int, k: int) {
    && MatchesAt(data, p, k)
    && (forall p', k' :: 0 <= p' < p ==> !MatchesAt(data, p', k'))
    && (forall k' :: k' < k ==> !MatchesAt(data, p, k'))
  }

  ghost predicate NoProximityMatch(data: seq<Byte>) {
    forall p, k :: !MatchesAt(data, p, k)
  }

  datatype ProximityMatch = ProximityMatch(pos: nat, gap: nat)

  /** The shortest gap, at least `k`, that completes a match at `p`. */
  function LazyGap(data: seq<Byte>, p: nat, k: nat): (r: Option<nat>)
    decreases 21 - k
    ensures r.Some? ==> k <= r.value && MatchesAt(data, p, r.value)
    ensures r.Some? ==> forall k' :: k <= k' < r.value ==> !MatchesAt(data, p, k')
    ensures r.None? ==> forall k' :: k <= k' ==> !MatchesAt(data, p, k')
  {
    if k > 20 then None
    else if MatchesAt(data, p, k) then Some(k)
    else LazyGap(data, p, k + 1)
  }

  /** `re.search` scanning marker positions from `p` on. */
  function SearchFrom(data: seq<Byte>, p: nat): (r: Option<ProximityMatch>)
    decreases |data| - p
    ensures r.Some? ==> p <= r.value.pos && MatchesAt(data, r.value.pos, r.value.gap)
    ensures r.Some? ==> forall k' :: k' < r.value.gap ==> !MatchesAt(data, r.value.pos, k')
    ensures r.Some? ==> forall p', k' :: p <= p' < r.value.pos ==> !MatchesAt(data, p', k')
    ensures r.None? ==> forall p', k' :: p <= p' ==> !MatchesAt(data, p', k')
  {
    if p >= |data| then NoMatchPast(data, p); None
    else match LazyGap(data, p, 1)
      case Some(k) =>
        assert forall k' :: k' < 1 ==> !MatchesAt(data, p, k');
        Some(ProximityMatch(p, k))
      case None =>
        assert forall k' :: !MatchesAt(data, p, k');
        SearchFrom(data, p + 1)
  }

  /** No marker fits at or after the end of the buffer. */
  lemma NoMatchPast(data: seq<Byte>, p: nat)
    requires p >= |data|
    ensures forall p', k' :: p <= p' ==> !MatchesAt(data, p', k')
  {
  }

  /** The proximity match of the whole buffer: exactly the match `re.search`
      reports, and `None` exactly when the pattern matches nowhere. */
  function FindProximity(data: seq<Byte>): (r: Option<ProximityMatch>)
    ensures r.Some? ==> FirstProximityMatch(data, r.value.pos, r.value.gap)
    ensures r.None? <==> NoProximityMatch(data)
  {
    SearchFrom(data, 0)
  }

  /** The bytes captured by the group: the maximal readable run after the gap. */
  function GroupBytes(data: seq<Byte>, m: ProximityMatch): (g: seq<Byte>)
    requires MatchesAt(data, m.pos, m.gap)
    ensures |g| >= 2
    ensures forall i :: 0 <= i < |g| ==> Readable(g[i])
    ensures m.pos + |NSSTRING| + m.gap + |g| <= |data|
    ensures g == data[m.pos + |NSSTRING| + m.gap..m.pos + |NSSTRING| + m.gap + |g|]
    ensures m.pos + |NSSTRING| + m.gap + |g| == |data| || !Readable(data[m.pos + |NSSTRING| + m.gap + |g|])
  {
    var start := m.pos + |NSSTRING| + m.gap;
    data[start..RunEnd(data, start)]
  }

  // ---------------------------------------------------------------------------
  // Strategy 2: longest readable run without metadata tokens
  // ---------------------------------------------------------------------------

  /** `re.findall(rb'[\x20-\x7e\xc0-\xff]{4,}', data[i:])` for `i` at a run
      boundary: the maximal readable runs of length at least four. */
  function ReadableRuns(data: seq<Byte>, i: nat): (rs: seq<seq<Byte>>)
    requires i <= |data|
    decreases |data| - i
    ensures forall j :: 0 <= j < |rs| ==> |rs[j]| >= 4
    ensures forall j :: 0 <= j < |rs| ==> forall k :: 0 <= k < |rs[j]| ==> Readable(rs[j][k])
  {
    if i == |data| then []
    else if !Readable(data[i]) then ReadableRuns(data, i + 1)
    else
      var e := RunEnd(data, i);
      if e - i >= 4 then [data[i..e]] + ReadableRuns(data, e) else ReadableRuns(data, e)
  }

  /** Every maximal readable run of length at least four is found. */
  lemma {:induction false} ReadableRunsComplete(data: seq<Byte>, i: nat, a: nat, b: nat)
    requires i <= a
    requires MaximalRun(data, a, b) && b - a >= 4
    ensures data[a..b] in ReadableRuns(data, i)
    decreases |data| - i
  {
    if !Readable(data[i]) {
      ReadableRunsComplete(data, i + 1, a, b);
    } else if i == a {
      RunEndOfMaximal(data, a, b);
    } else {
      var e := RunEnd(data, i);
      assert !Readable(data[a - 1]);
      ReadableRunsComplete(data, e, a, b);
    }
  }

  /** The start and end of a run in the buffer. */
  type Span = (nat, nat)

  /** Where the runs `ReadableRuns` finds lie: the start and end of each,
      in buffer order, disjoint and at least four bytes long. */
  function RunSpans(data: seq<Byte>, i: nat): (sp: seq<Span>)
    requires i <= |data|
    decreases |data| - i
    ensures forall j :: 0 <= j < |sp| ==> i <= sp[j].0 && sp[j].0 + 4 <= sp[j].1 <= |data|
    ensures forall j, k :: 0 <= j < |sp| && sp[j].0 <= k < sp[j].1 ==> Readable(data[k])
    ensures forall j, j' :: 0 <= j < j' < |sp| ==> sp[j].1 < sp[j'].0
  {
    if i == |data| then []
    else if !Readable(data[i]) then RunSpans(data, i + 1)
    else
      var e := RunEnd(data, i);
      var rest := RunSpans(data, e);
      if e - i >= 4 then SpanCons(data, i, e, rest); [(i, e)] + rest else rest
  }

  /** The spans lie at or after `i`, each is a run of at least four readable
      bytes, and each ends before the next begins. */
  predicate SpansFrom(data: seq<Byte>, i: nat, sp: seq<Span>) {
    && (forall j :: 0 <= j < |sp| ==> i <= sp[j].0 && sp[j].0 + 4 <= sp[j].1 <= |data|)
    && (forall j, k :: 0 <= j < |sp| && sp[j].0 <= k < sp[j].1 ==> Readable(data[k]))
    && (forall j, j' :: 0 <= j < j' < |sp| ==> sp[j].1 < sp[j'].0)
  }

  /** A maximal run from `i` to `e` put in front of the spans after `e`. */
  lemma SpanCons(data: seq<Byte>, i: nat, e: nat, rest: seq<Span>)
    requires i + 4 <= e <= |data| && forall k :: i <= k < e ==> Readable(data[k])
    requires e < |data| ==> !Readable(data[e])
    requires SpansFrom(data, e, rest)
    ensures SpansFrom(data, i, [(i, e)] + rest)
  {
    var sp := [(i, e)] + rest;
    forall j | 0 <= j < |rest| ensures e < rest[j].0 {
      assert Readable(data[rest[j].0]);
    }
    assert forall j :: 1 <= j < |sp| ==> sp[j] == rest[j - 1];
  }

  /** `i` does not fall strictly inside a readable run. */
  predicate AtRunBoundary(data: seq<Byte>, i: nat) {
    i == 0 || i >= |data| || !Readable(data[i - 1]) || !Readable(data[i])
  }

  /** The runs found are the bytes at the spans, one for one. */
  lemma {:induction false} ReadableRunsAtSpans(data: seq<Byte>, i: nat)
    requires i <= |data|
    ensures var rs := ReadableRuns(data, i);
            var sp := RunSpans(data, i);
            |rs| == |sp| && forall j :: 0 <= j < |sp| ==> rs[j] == data[sp[j].0..sp[j].1]
    decreases |data| - i
  {
    if i < |data| {
      if !Readable(data[i]) {
        ReadableRunsAtSpans(data, i + 1);
      } else {
        ReadableRunsAtSpans(data, RunEnd(data, i));
      }
    }
  }

  /** Scanning from a run boundary, every span is a maximal run. */
  lemma {:induction false} RunSpansMaximal(data: seq<Byte>, i: nat)
    requires i <= |data| && AtRunBoundary(data, i)
    ensures forall j :: 0 <= j < |RunSpans(data, i)| ==> MaximalRun(data, RunSpans(data, i)[j].0, RunSpans(data, i)[j].1)
    decreases |data| - i
  {
    if i < |data| {
      if !Readable(data[i]) {
        RunSpansMaximal(data, i + 1);
      } else {
        var e := RunEnd(data, i);
        RunSpansMaximal(data, e);
        assert MaximalRun(data, i, e);
        var rest := RunSpans(data, e);
        assert RunSpans(data, i) == if e - i >= 4 then [(i, e)] + rest else rest;
      }
    }
  }

  /** Every maximal run of four or more bytes from `i` on is a span. */
  lemma {:induction false} RunSpansComplete(data: seq<Byte>, i: nat, a: nat, b: nat)
    requires i <= a
    requires MaximalRun(data, a, b) && b - a >= 4
    ensures (a, b) in RunSpans(data, i)
    decreases |data| - i
  {
    if !Readable(data[i]) {
      RunSpansComplete(data, i + 1, a, b);
    } else if i == a {
      RunEndOfMaximal(data, a, b);
    } else {
      var e := RunEnd(data, i);
      assert !Readable(data[a - 1]);
      RunSpansComplete(data, e, a, b);
    }
  }

  /** `re.findall` over the whole buffer: the runs found are exactly the
      maximal readable runs of four or more bytes, each once, in buffer
      order. */
  lemma FindallRuns(data: seq<Byte>)
    ensures var rs := ReadableRuns(data, 0);
            var sp := RunSpans(data, 0);
            && |rs| == |sp|
            && (forall j :: 0 <= j < |sp| ==> rs[j] == data[sp[j].0..sp[j].1])
            && (forall j, j' :: 0 <= j < j' < |sp| ==> sp[j].0 < sp[j'].0)
            && forall a: nat, b: nat :: (a, b) in sp <==> MaximalRun(data, a, b) && b - a >= 4
  {
    var sp := RunSpans(data, 0);
    ReadableRunsAtSpans(data, 0);
    RunSpansMaximal(data, 0);
    forall a: nat, b: nat | MaximalRun(data, a, b) && b - a >= 4 ensures (a, b) in sp {
      RunSpansComplete(data, 0, a, b);
    }
  }

  function LowerByte(b: Byte): Byte {
    if 0x41 <= b <= 0x5A then b + 0x20 else b
  }

  /** `bytes.lower()`: maps only the ASCII capitals. */
  function LowerBytes(s: seq<Byte>): (r: seq<Byte>)
    ensures |r| == |s|
    ensures forall i :: 0 <= i < |s| ==> r[i] == LowerByte(s[i])
  {
    seq(|s|, i requires 0 <= i < |s| => LowerByte(s[i]))
  }

  /** The run, lower-cased, contains one of the metadata tokens. */
  predicate HasMetadataToken(run: seq<Byte>) {
    exists j :: 0 <= j < |METADATA_TOKENS| && Contains(LowerBytes(run), METADATA_TOKENS[j])
  }

  /** The runs that survive the metadata deny-list, in their original order. */
  function ContentRuns(runs: seq<seq<Byte>>): (rs: seq<seq<Byte>>)
    ensures |rs| <= |runs|
    ensures forall x :: x in rs <==> x in runs && !HasMetadataToken(x)
  {
    FilterMembers(runs, NoMetadataToken);
    Filter(runs, NoMetadataToken)
  }

  predicate NoMetadataToken(run: seq<Byte>) {
    !HasMetadataToken(run)
  }

  /** The filter works run by run: what one run contributes does not depend
      on its neighbours. */
  lemma ContentRunsSingle(x: seq<Byte>)
    ensures ContentRuns([x]) == if HasMetadataToken(x) then [] else [x]
  {
    assert [x][1..] == [];
  }

  /** Filtering keeps the order of the runs: the filter of a concatenation
      is the concatenation of the filters. */
  lemma ContentRunsAppend(a: seq<seq<Byte>>, b: seq<seq<Byte>>)
    ensures ContentRuns(a + b) == ContentRuns(a) + ContentRuns(b)
  {
    FilterAppend(a, b, NoMetadataToken);
  }

  /** Index of the first longest element: `max(rs, key=len)`. */
  function FirstLongest(rs: seq<seq<Byte>>): (i: nat)
    requires |rs| > 0
    ensures i < |rs|
    ensures forall j :: 0 <= j < |rs| ==> |rs[j]| <= |rs[i]|
    ensures forall j :: 0 <= j < i ==> |rs[j]| < |rs[i]|
  {
    if |rs| == 1 then 0
    else
      var k := FirstLongest(rs[1..]);
      if |rs[0]| >= |rs[1..][k]| then 0 else 1 + k
  }

  /** The run strategy 2 picks: the first longest content run. */
  function LongestContentRun(data: seq<Byte>): (r: Option<seq<Byte>>)
    ensures r.Some? ==> |r.value| >= 4 && !HasMetadataToken(r.value)
    ensures r.Some? ==> forall k :: 0 <= k < |r.value| ==> Readable(r.value[k])
    ensures r.Some? ==> r.value in ReadableRuns(data, 0)
    ensures r.Some? ==> forall x :: x in ReadableRuns(data, 0) && !HasMetadataToken(x) ==> |x| <= |r.value|
    ensures r.None? <==> forall x :: x in ReadableRuns(data, 0) ==> HasMetadataToken(x)
    // `max(key=len)` keeps the first of equally long runs.
    ensures r == Longest(ContentRuns(ReadableRuns(data, 0)))
  {
    var runs := ContentRuns(ReadableRuns(data, 0));
    var r := Longest(runs);
    assert r.Some? ==> r.value in ReadableRuns(data, 0);
    r
  }

  /** `max(runs, key=len)` when there is a run: a longest one, and of
      equally long ones the first. */
  function Longest(runs: seq<seq<Byte>>): (r: Option<seq<Byte>>)
    ensures r.None? <==> |runs| == 0
    ensures r.Some? ==> r.value in runs && forall x :: x in runs ==> |x| <= |r.value|
    ensures r.Some? ==>
              exists j :: 0 <= j < |runs| && runs[j] == r.value && forall k :: 0 <= k < j ==> |runs[k]| < |r.value|
  {
    if |runs| == 0 then None
    else
      var i := FirstLongest(runs);
      assert runs[i] in runs;
      Some(runs[i])
  }

  /** Strategy 2: the decoded, trimmed longest content run, accepted only when
      it is not blank (a blank one does not fall back to the next run). */
  function LongestRunText(data: seq<Byte>, dec: Decoders): (r: Option<string>)
    ensures r.Some? ==> |r.value| > 0
    ensures r.Some? ==> LongestContentRun(data).Some? && r.value == Strip(dec.utf8(LongestContentRun(data).value))
    ensures LongestContentRun(data).Some? && !IsBlank(dec.utf8(LongestContentRun(data).value)) ==> r.Some?
  {
    match LongestContentRun(data)
    case None => None
    case Some(run) =>
      var t := Strip(dec.utf8(run));
      if |t| > 0 then Some(t) else None
  }

  // ---------------------------------------------------------------------------
  // Strategy 3: `$objects` walk of a binary plist
  // ---------------------------------------------------------------------------

  /** A `$objects` entry that is taken as the message text. */
  predicate UsableObject(o: PlistObject) {
    o.PlistString? && |o.s| > 1 && o.s !in PLIST_SENTINELS
  }

  /** The first usable entry of the object table. */
  function FirstUsableObject(objs: seq<PlistObject>): (r: Option<string>)
    ensures r.Some? ==> (exists i :: 0 <= i < |objs| && UsableObject(objs[i]) && objs[i].s == r.value
                                 && forall j :: 0 <= j < i ==> !UsableObject(objs[j]))
    ensures r.None? <==> forall i :: 0 <= i < |objs| ==> !UsableObject(objs[i])
  {
    if |objs| == 0 then None
    else if UsableObject(objs[0]) then Some(objs[0].s)
    else
      var r := FirstUsableObject(objs[1..]);
      assert r.Some? ==> (exists i :: 0 < i < |objs| && UsableObject(objs[i]) && objs[i].s == r.value
                                  && forall j :: 0 <= j < i ==> !UsableObject(objs[j])) by {
        if r.Some? {
          var i :| 0 <= i < |objs| - 1 && UsableObject(objs[1..][i]) && objs[1..][i].s == r.value
                && forall j :: 0 <= j < i ==> !UsableObject(objs[1..][j]);
          assert forall j :: 0 <= j < i + 1 ==> !UsableObject(objs[j]) by {
            forall j | 0 <= j < i + 1 ensures !UsableObject(objs[j]) {
              if j > 0 {
                assert objs[j] == objs[1..][j - 1];
              }
            }
          }
          assert objs[i + 1] == objs[1..][i];
        }
      }
      r
  }

  /** Strategy 3: only for a `bplist` buffer whose object table decodes. */
  function BplistText(data: seq<Byte>, dec: Decoders): (r: Option<string>)
    ensures r.Some? ==> StartsWith(data, BPLIST) && dec.plistObjects(data).Some?
    ensures r.Some? ==> |r.value| > 1 && r.value !in PLIST_SENTINELS
    ensures StartsWith(data, BPLIST) && dec.plistObjects(data).Some? ==>
              r == FirstUsableObject(dec.plistObjects(data).value)
  {
    if !StartsWith(data, BPLIST) then None
    else match dec.plistObjects(data)
      case None => None
      case Some(objs) =>
        var r := FirstUsableObject(objs);
        assert r.Some? ==> |r.value| > 1 && r.value !in PLIST_SENTINELS;
        r
  }

  // ---------------------------------------------------------------------------
  // The extractor
  // ---------------------------------------------------------------------------

  /** `extract_text_from_attributed_body`. No exception can escape: the
      decoders never fail, and a failed plist parse is `None`. */
  function ExtractText(data: seq<Byte>, dec: Decoders): (r: Option<string>)
    ensures |data| == 0 ==> r.None?
    ensures r.Some? && FindProximity(data).None? ==> |r.value| > 0
  {
    if |data| == 0 then None
    else match FindProximity(data)
      case Some(m) =>
        Some(Strip(dec.utf8(GroupBytes(data, m))))
      case None =>
        var t := LongestRunText(data, dec);
        if t.Some? then t else BplistText(data, dec)
  }

  lemma FirstProximityMatchUnique(data: seq<Byte>, p: int, k: int, p': int, k': int)
    requires FirstProximityMatch(data, p, k) && FirstProximityMatch(data, p', k')
    ensures p == p' && k == k'
  {
  }

  /** Strategy 1 wins whenever the pattern matches anywhere: the result is
      the trimmed decoding of the captured run, unchecked against the
      metadata tokens. */
  lemma ExtractTextProximity(data: seq<Byte>, dec: Decoders, p: int, k: int)
    requires FirstProximityMatch(data, p, k)
    ensures ExtractText(data, dec)
              == Some(Strip(dec.utf8(data[p + |NSSTRING| + k..RunEnd(data, p + |NSSTRING| + k)])))
  {
    var m := FindProximity(data).value;
    FirstProximityMatchUnique(data, p, k, m.pos, m.gap);
  }

  /** Without a proximity match, strategy 2's non-blank text wins; failing
      that, strategy 3 decides, so only a `bplist` buffer can yield text. */
  lemma ExtractTextFallback(data: seq<Byte>, dec: Decoders)
    requires NoProximityMatch(data)
    ensures LongestRunText(data, dec).Some? ==> ExtractText(data, dec) == LongestRunText(data, dec)
    ensures LongestRunText(data, dec).None? ==> ExtractText(data, dec) == BplistText(data, dec)
    ensures ExtractText(data, dec).Some? && LongestRunText(data, dec).None? ==> StartsWith(data, BPLIST)
  {
    if |data| == 0 {
      assert !StartsWith(data, BPLIST);
    }
  }

  // ---------------------------------------------------------------------------
  // Consequences
  // ---------------------------------------------------------------------------

  /** Strategy 1 does not consult the deny-list: whatever readable run
      closes a buffer right after the marker and a one-byte gap is the result,
      metadata class name or not. */
  lemma ProximityIgnoresDenyList(name: seq<Byte>, dec: Decoders)
    requires |name| >= 2 && forall k :: 0 <= k < |name| ==> Readable(name[k])
    ensures ExtractText(NSSTRING + [0x01] + name, dec) == Some(Strip(dec.utf8(name)))
  {
    var data := NSSTRING + [0x01] + name;
    var start := |NSSTRING| + 1;
    assert RunEnd(data, start) == |data| && data[start..|data|] == name by {
      assert |NSSTRING| == 8 && data[8] == 1;
      assert data[start..] == name;
      RunEndOfMaximal(data, start, |data|);
    }
    assert FirstProximityMatch(data, 0, 1) by {
      assert |NSSTRING| == 8 && data[8] == 1;
      assert data[0..8] == NSSTRING;
      assert MatchesAt(data, 0, 1);
      assert forall k' :: k' < 1 ==> !MatchesAt(data, 0, k');
    }
    ExtractTextProximity(data, dec, 0, 1);
  }

  /** A class name the deny-list rejects is readable, so the proximity
      strategy returns it. */
  lemma MetadataNameReadable()
    ensures HasMetadataToken(Ascii("NSMutableString"))
    ensures |Ascii("NSMutableString")| >= 2
    ensures forall k :: 0 <= k < |Ascii("NSMutableString")| ==> Readable(Ascii("NSMutableString")[k])
  {
    var name := Ascii("NSMutableString");
    var low := LowerBytes(name);
    assert low == METADATA_TOKENS[1];
    assert IsFactorAt(low, METADATA_TOKENS[1], 0);
    LettersReadable("NSMutableString");
  }

  predicate IsLetter(c: char) {
    ('A' <= c <= 'Z') || ('a' <= c <= 'z')
  }

  /** Every ASCII letter is a readable byte. */
  lemma LettersReadable(s: string)
    requires forall i :: 0 <= i < |s| ==> IsLetter(s[i])
    ensures (forall i :: 0 <= i < |s| ==> s[i] as int < 128)
            && forall k :: 0 <= k < |Ascii(s)| ==> Readable(Ascii(s)[k])
  {
  }

  /** A buffer without the marker, whose longest readable run is plain text,
      yields that run: the scan of strategy 2. */
  lemma LongestRunWins(data: seq<Byte>, dec: Decoders, run: seq<Byte>)
    requires NoProximityMatch(data)
    requires run in ReadableRuns(data, 0) && !HasMetadataToken(run)
    requires forall x :: x in ReadableRuns(data, 0) && x != run ==> |x| < |run|
    requires !IsBlank(dec.utf8(run))
    ensures ExtractText(data, dec) == Some(Strip(dec.utf8(run)))
  {
    var c := LongestContentRun(data);
    assert c.Some?;
    assert c.value == run;
    ExtractTextFallback(data, dec);
  }
}

=== FILE: db_auth.dfy ===
/**
  Authentication helpers of the Databricks scripts: token masking, the
  validation of a profile of `~/.databrickscfg`, and the bearer header.
  The configuration file is a parameter: `None` when it does not exist.
 */
module DbAuth {
  import opened Wrappers
  import opened Ini

  // ---------------------------------------------------------------------------
  // `mask_token`
  // ---------------------------------------------------------------------------

  const MASK: string := "****"

  /** Tokens shorter than twelve characters are hidden entirely; longer ones
      show their first and last four characters around `...`. */
  function MaskToken(token: string): (r: string)
    ensures |token| < 12 ==> r == MASK
    ensures |token| >= 12 ==> |r| == 11 && r[..4] == token[..4] && r[4..7] == "..." && r[7..] == token[|token| - 4..]
  {
    if token == "" || |token| < 12 then MASK
    else token[..4] + "..." + token[|token| - 4..]
  }

  /** The mask depends on nothing but the first and last four characters:
      two tokens that agree there are masked alike, whatever lies between. */
  lemma MaskHidesMiddle(a: string, b: string)
    requires |a| >= 12 && |b| >= 12
    requires a[..4] == b[..4] && a[|a| - 4..] == b[|b| - 4..]
    ensures MaskToken(a) == MaskToken(b)
  {
  }

  // ---------------------------------------------------------------------------
  // `validate_profile`
  // ---------------------------------------------------------------------------

  /** The outcome of each step of the validation chain. */
  datatype ProfileCheck =
    | Valid
    | NoConfigFile
    | UnknownProfile(available: seq<string>)
    | MissingOption(option: string)
    | EmptyHost
    | EmptyToken

  /** The checks in their order: the file, the profile, the presence of
      `host` then `token`, then their emptiness, `host` first. */
  function CheckProfile(file: Option<Config>, profile: string): (r: ProfileCheck)
    ensures file.None? ==> r == NoConfigFile
    ensures file.Some? && !InConfig(file.value, profile) ==> r == UnknownProfile(SectionNames(file.value))
    ensures r.MissingOption? ==> r.option == "host" || r.option == "token"
  {
    match file
    case None => NoConfigFile
    case Some(c) =>
      if !InConfig(c, profile) then UnknownProfile(SectionNames(c))
      else
        match GetOption(c, profile, "host")
        case None => MissingOption("host")
        case Some(host) =>
          match GetOption(c, profile, "token")
          case None => MissingOption("token")
          case Some(token) =>
            if host == "" then EmptyHost
            else if token == "" then EmptyToken
            else Valid
  }

  /** A profile is valid exactly when the file exists, the profile is a
      section or `DEFAULT`, and both options are present and non-empty. */
  lemma CheckProfileValid(file: Option<Config>, profile: string)
    ensures CheckProfile(file, profile) == Valid <==>
              && file.Some? && InConfig(file.value, profile)
              && GetOption(file.value, profile, "host").Some? && GetOption(file.value, profile, "host").value != ""
              && GetOption(file.value, profile, "token").Some? && GetOption(file.value, profile, "token").value != ""
  {
  }

  /** An empty host is reported even when the token is empty too. */
  lemma EmptyHostFirst(c: Config, profile: string)
    requires InConfig(c, profile)
    requires GetOption(c, profile, "host") == Some("") && GetOption(c, profile, "token") == Some("")
    ensures CheckProfile(Some(c), profile) == EmptyHost
  {
  }

  function Quoted(profile: string): string {
    "Profile '" + profile + "'"
  }

  function JoinComma(names: seq<string>): string {
    if |names| == 0 then ""
    else if |names| == 1 then names[0]
    else names[0] + ", " + JoinComma(names[1..])
  }

  /** `validate_profile`: the verdict and its message. */
  function ValidateProfile(file: Option<Config>, profile: string): (r: (bool, string))
    ensures r.0 <==> CheckProfile(file, profile) == Valid
    ensures file.None? ==> r.1 == "~/.databrickscfg not found. Run /db:setup to configure."
    ensures r.0 ==> r.1 == Quoted(profile) + " is valid"
  {
    match CheckProfile(file, profile)
    case Valid => (true, Quoted(profile) + " is valid")
    case NoConfigFile => (false, "~/.databrickscfg not found. Run /db:setup to configure.")
    case UnknownProfile(names) => (false, Quoted(profile) + " not found. Available: " + JoinComma(names))
    case MissingOption(o) => (false, Quoted(profile) + " missing required option: " + o)
    case EmptyHost => (false, Quoted(profile) + " has empty host")
    case EmptyToken => (false, Quoted(profile) + " has empty token")
  }

  // ---------------------------------------------------------------------------
  // `get_token_for_profile` and `get_auth_header`
  // ---------------------------------------------------------------------------

  /** The token option, `None` when the file, the section or the option is
      missing. */
  function TokenForProfile(file: Option<Config>, profile: string): (t: Option<string>)
    ensures file.None? ==> t.None?
    ensures t.Some? ==> file.Some? && InConfig(file.value, profile) && t == GetOption(file.value, profile, "token")
  {
    match file
    case None => None
    case Some(c) => if InConfig(c, profile) then GetOption(c, profile, "token") else None
  }

  /** The header, or the error raised when there is no usable token. */
  function AuthHeader(file: Option<Config>, profile: string): (r: Result<map<string, string>, string>)
    ensures r.Err? <==> TokenForProfile(file, profile).None? || TokenForProfile(file, profile).value == ""
    ensures r.Err? ==> r.error == "No token found for profile '" + profile + "'"
    ensures r.Ok? ==> r.value == map["Authorization" := "Bearer " + TokenForProfile(file, profile).value]
  {
    match TokenForProfile(file, profile)
    case None => Err("No token found for profile '" + profile + "'")
    case Some(t) =>
      if t == "" then Err("No token found for profile '" + profile + "'")
      else Ok(map["Authorization" := "Bearer " + t])
  }

  /** A profile that validates yields a header carrying its token. */
  lemma ValidProfileHasHeader(file: Option<Config>, profile: string)
    requires ValidateProfile(file, profile).0
    ensures AuthHeader(file, profile).Ok?
    ensures AuthHeader(file, profile).value["Authorization"] == "Bearer " + GetOption(file.value, profile, "token").value
  {
    CheckProfileValid(file, profile);
  }
}

=== FILE: db_config.dfy ===
/**
  Profile handling of the Databricks scripts: the profiles read from
  `~/.databrickscfg`, the choice of the default profile, the profile check
  made before building a workspace client, and the profile table. The
  environment variable, the plugin configuration and the configuration
  file are parameters.
 */
module DbConfig {
  import opened Wrappers
  import opened Text
  import opened Ini

  /** The three options the scripts read from a profile. */
  datatype ProfileData = ProfileData(host: Option<string>, token: Option<string>, clusterId: Option<string>)

  type Profiles = seq<(string, ProfileData)>

  function ReadProfile(c: Config, name: string): ProfileData
    requires InConfig(c, name)
  {
    ProfileData(GetOption(c, name, "host"), GetOption(c, name, "token"), GetOption(c, name, "cluster_id"))
  }

  /** `get_profiles`: every named section in file order, then `DEFAULT`
      when the file has default options. */
  function ReadProfiles(file: Option<Config>): (ps: Profiles)
    ensures file.None? ==> ps == []
    ensures file.Some? ==>
              var c := file.value;
              && |ps| == |c.sections| + (if |c.defaults| > 0 then 1 else 0)
              && (forall i :: 0 <= i < |c.sections| ==> ps[i] == SectionProfile(c, i))
              && (|c.defaults| > 0 ==> ps[|ps| - 1] == (DEFAULT, ReadProfile(c, DEFAULT)))
  {
    match file
    case None => []
    case Some(c) =>
      var named := seq(|c.sections|, i requires 0 <= i < |c.sections| => SectionProfile(c, i));
      if |c.defaults| > 0 then named + [(DEFAULT, ReadProfile(c, DEFAULT))] else named
  }

  /** The i-th section's name with the host, token and cluster read for it. */
  function SectionProfile(c: Config, i: nat): (p: (string, ProfileData))
    requires i < |c.sections|
    ensures p.0 == c.sections[i].0 && InConfig(c, p.0) && p.1 == ReadProfile(c, p.0)
  {
    assert HasSection(c, c.sections[i].0) by { assert SectionNames(c)[i] == c.sections[i].0; }
    (c.sections[i].0, ReadProfile(c, c.sections[i].0))
  }

  // ---------------------------------------------------------------------------
  // `get_default_profile`
  // ---------------------------------------------------------------------------

  /** The precedence: a non-empty `DATABRICKS_PROFILE`, then the plugin
      configuration's `default_profile` (given as `Some` when the key is
      present), then `DEFAULT` when there is such a profile, then the first
      profile, and `DEFAULT` when there is none. */
  function DefaultProfile(env: Option<string>, pluginDefault: Option<string>, ps: Profiles): (r: string)
    ensures env.Some? && env.value != "" ==> r == env.value
    ensures (env.None? || env.value == "") && pluginDefault.Some? ==> r == pluginDefault.value
    ensures (env.None? || env.value == "") && pluginDefault.None? ==>
              if DEFAULT in Firsts(ps) then r == DEFAULT
              else if |ps| > 0 then r == ps[0].0
              else r == DEFAULT
  {
    if env.Some? && env.value != "" then env.value
    else if pluginDefault.Some? then pluginDefault.value
    else if DEFAULT in Firsts(ps) then DEFAULT
    else if |ps| > 0 then ps[0].0
    else DEFAULT
  }

  /** The chosen profile is never empty, provided the plugin setting and the
      profile names are not. */
  lemma DefaultProfileNonEmpty(env: Option<string>, pluginDefault: Option<string>, ps: Profiles)
    requires pluginDefault.Some? ==> pluginDefault.value != ""
    requires forall i :: 0 <= i < |ps| ==> ps[i].0 != ""
    ensures DefaultProfile(env, pluginDefault, ps) != ""
  {
  }

  /** When nothing is configured the choice is one of the profiles, or
      `DEFAULT` when there are none. */
  lemma DefaultProfileExists(ps: Profiles)
    ensures var r := DefaultProfile(None, None, ps);
            r in Firsts(ps) || (r == DEFAULT && |ps| == 0)
  {
    if DEFAULT !in Firsts(ps) && |ps| > 0 {
      assert Firsts(ps)[0] == ps[0].0;
    }
  }

  // ---------------------------------------------------------------------------
  // The profile check of `get_workspace_client`
  // ---------------------------------------------------------------------------

  function JoinComma(names: seq<string>): string {
    Join(", ", names)
  }

  /** The profile a client is built for, or the error raised: a profile
      that is neither listed nor `DEFAULT` is rejected. */
  function WorkspaceProfile(profile: Option<string>, defaultProfile: string, ps: Profiles): (r: Result<string, string>)
    ensures r.Ok? <==> (var p := profile.GetOr(defaultProfile); p in Firsts(ps) || p == DEFAULT)
    ensures r.Ok? ==> r.value == profile.GetOr(defaultProfile)
  {
    var p := profile.GetOr(defaultProfile);
    if p !in Firsts(ps) && p != DEFAULT then
      Err("Profile '" + p + "' not found in ~/.databrickscfg. Available profiles: " + JoinComma(Firsts(ps)))
    else Ok(p)
  }

  // ---------------------------------------------------------------------------
  // `list_profiles_table`
  // ---------------------------------------------------------------------------

  const NO_PROFILES: string := "No profiles found in ~/.databrickscfg"
  const TABLE_HEADER: string := "| Profile | Host | Has Token |"
  const TABLE_RULE: string := "|---------|------|-----------|"
  const CLOUD_SUFFIX: string := ".cloud.databricks.com"
  const HTTPS: string := "https://"

  /** The displayed host: `None` shows as "None"; a host on
      `cloud.databricks.com` loses its scheme and that suffix. */
  function ShowHost(host: Option<string>): (r: string)
    ensures host.None? ==> r == "None"
    ensures host.Some? && !Contains(host.value, "cloud.databricks.com") ==> r == host.value
  {
    match host
    case None => "None"
    case Some(h) =>
      if h != "" && Contains(h, "cloud.databricks.com") then Replace(Replace(h, HTTPS, ""), CLOUD_SUFFIX, "")
      else h
  }

  function HasToken(token: Option<string>): (r: string)
    ensures r == "Yes" <==> token.Some? && token.value != ""
    ensures r == "Yes" || r == "No"
  {
    if token.Some? && token.value != "" then "Yes" else "No"
  }

  function ProfileLine(p: (string, ProfileData)): string {
    "| " + p.0 + " | " + ShowHost(p.1.host) + " | " + HasToken(p.1.token) + " |"
  }

  function ProfileLines(ps: Profiles): (ls: seq<string>)
    ensures |ls| == |ps| && forall i :: 0 <= i < |ps| ==> ls[i] == ProfileLine(ps[i])
  {
    seq(|ps|, i requires 0 <= i < |ps| => ProfileLine(ps[i]))
  }

  /** `list_profiles_table`: a fixed message when there are no profiles,
      otherwise two header lines and one line per profile, in order. */
  function ProfilesTable(ps: Profiles): (r: string)
    ensures |ps| == 0 ==> r == NO_PROFILES
    ensures |ps| > 0 ==> r == Join("\n", [TABLE_HEADER, TABLE_RULE] + ProfileLines(ps))
  {
    if |ps| == 0 then NO_PROFILES
    else Join("\n", [TABLE_HEADER, TABLE_RULE] + ProfileLines(ps))
  }

  /** A line of the table starts with the profile name and ends with its
      token flag. */
  lemma ProfileLineShape(p: (string, ProfileData))
    ensures StartsWith(ProfileLine(p), "| " + p.0 + " | ")
    ensures EndsWith(ProfileLine(p), " | " + HasToken(p.1.token) + " |")
  {
    var l := ProfileLine(p);
    var a := "| " + p.0 + " | ";
    var b := " | " + HasToken(p.1.token) + " |";
    assert l == a + ShowHost(p.1.host) + b;
    assert l[..|a|] == a;
    assert l[|l| - |b|..] == b;
  }

  /** The table reads back line by line as its header and one line per
      profile, when no name or host holds a line break. */
  lemma ProfilesTableLines(ps: Profiles)
    requires |ps| > 0
    requires forall i :: 0 <= i < |ps| ==> '\n' !in ProfileLine(ps[i])
    ensures SplitOn(ProfilesTable(ps), '\n') == [TABLE_HEADER, TABLE_RULE] + ProfileLines(ps)
    ensures |SplitOn(ProfilesTable(ps), '\n')| == |ps| + 2
  {
    var ls := [TABLE_HEADER, TABLE_RULE] + ProfileLines(ps);
    assert forall i :: 0 <= i < |ls| ==> '\n' !in ls[i];
    SplitOnJoin('\n', ls);
  }

  // ---------------------------------------------------------------------------
  // Host shortening
  // ---------------------------------------------------------------------------

  /** A pattern holding a character the text lacks does not occur in it. */
  lemma AbsentByChar(s: string, pat: string, c: char)
    requires c in pat && c !in s
    ensures !Contains(s, pat)
  {
  }

  /** Removing a suffix that starts with `.` from a text whose front part
      has no `.` leaves the front part. */
  lemma {:induction false} DropDottedSuffix(w: string)
    requires '.' !in w
    ensures Replace(w + CLOUD_SUFFIX, CLOUD_SUFFIX, "") == w
    decreases |w|
  {
    var s := w + CLOUD_SUFFIX;
    if |w| == 0 {
      assert s == CLOUD_SUFFIX;
      assert s[|CLOUD_SUFFIX|..] == [];
    } else {
      assert s[..|CLOUD_SUFFIX|] != CLOUD_SUFFIX by {
        assert s[0] == w[0];
      }
      assert s[1..] == w[1..] + CLOUD_SUFFIX;
      DropDottedSuffix(w[1..]);
      assert [w[0]] + w[1..] == w;
    }
  }

  /** Dropping the scheme from a text with no other `/`. */
  lemma DropScheme(rest: string)
    requires '/' !in rest
    ensures Replace(HTTPS + rest, HTTPS, "") == rest
  {
    var h := HTTPS + rest;
    assert h[..|HTTPS|] == HTTPS;
    assert h[|HTTPS|..] == rest;
    AbsentByChar(rest, HTTPS, '/');
    ReplaceAbsent(rest, HTTPS, "");
  }

  lemma WorkspaceHostIsCloud(name: string)
    ensures Contains(HTTPS + name + CLOUD_SUFFIX, "cloud.databricks.com")
  {
    var h := HTTPS + name + CLOUD_SUFFIX;
    var k := |HTTPS| + |name| + 1;
    assert h[k..k + 20] == CLOUD_SUFFIX[1..];
    assert IsFactorAt(h, "cloud.databricks.com", k);
    ContainsWitness(h, "cloud.databricks.com", k);
  }

  /** A workspace URL `https://<name>.cloud.databricks.com` is shown as its
      bare workspace name. */
  lemma ShowHostWorkspace(name: string)
    requires '.' !in name && '/' !in name
    ensures ShowHost(Some(HTTPS + name + CLOUD_SUFFIX)) == name
  {
    var rest := name + CLOUD_SUFFIX;
    assert HTTPS + name + CLOUD_SUFFIX == HTTPS + rest;
    assert '/' !in rest by {
      assert forall i :: |name| <= i < |rest| ==> rest[i] == CLOUD_SUFFIX[i - |name|];
    }
    WorkspaceHostIsCloud(name);
    DropScheme(rest);
    DropDottedSuffix(name);
  }
}

=== FILE: db_output.dfy ===
/**
  Output formatting shared by the Databricks scripts: normalisation of the
  input to a list of records, CSV rendering (a field is quoted when it holds
  a comma or a double quote, as rule 6 of section 2 of RFC 4180 asks, but
  not when it holds a line break, which rule 6 also asks; an inner double
  quote is doubled, as rule 7 asks), the markdown table, and the dispatch
  on the requested format.
 */
module DbOutput {
  import opened Wrappers
  import opened Text
  import opened Values

  /** A dictionary, in key order. */
  type Record = seq<(string, Value)>

  /** One input item: a dictionary, an object that converts to one
      (`as_dict()` or `vars()`), or a plain scalar. */
  datatype Item = Dict(rec: Record) | Object(fields: Record) | Scalar(v: Value)

  /** The input: a single item or a list/tuple of them. */
  datatype Data = Single(item: Item) | Many(items: seq<Item>)

  /** `bool(data)`: empty dictionaries and lists and falsy scalars are
      falsy; objects are truthy. */
  predicate DataTruthy(d: Data) {
    match d
    case Single(Dict(r)) => |r| > 0
    case Single(Object(_)) => true
    case Single(Scalar(v)) => Truthy(v)
    case Many(items) => |items| > 0
  }

  /** `row.get(col)`: the value under the first occurrence of the key. */
  function Get(r: Record, key: string): (v: Option<Value>)
    ensures v.None? <==> key !in Firsts(r)
    ensures v.Some? ==> exists i :: 0 <= i < |r| && r[i] == (key, v.value)
  {
    if |r| == 0 then None
    else if r[0].0 == key then Some(r[0].1)
    else
      var v := Get(r[1..], key);
      assert Firsts(r) == [r[0].0] + Firsts(r[1..]);
      assert v.Some? ==> exists i :: 0 <= i < |r| && r[i] == (key, v.value) by {
        if v.Some? {
          var i :| 0 <= i < |r[1..]| && r[1..][i] == (key, v.value);
          assert r[i + 1] == (key, v.value);
        }
      }
      v
  }

  // ---------------------------------------------------------------------------
  // `_normalize_to_dicts`
  // ---------------------------------------------------------------------------

  function ItemRecord(it: Item): (r: Record)
    ensures it.Scalar? ==> r == [("value", it.v)]
    ensures it.Dict? ==> r == it.rec
    ensures it.Object? ==> r == it.fields
  {
    match it
    case Dict(r) => r
    case Object(r) => r
    case Scalar(v) => [("value", v)]
  }

  /** A single item becomes a one-record list; a list is mapped item by
      item, in order. */
  function Normalize(d: Data): (rows: seq<Record>)
    ensures d.Single? ==> rows == [ItemRecord(d.item)]
    ensures d.Many? ==> |rows| == |d.items| && forall i :: 0 <= i < |rows| ==> rows[i] == ItemRecord(d.items[i])
  {
    match d
    case Single(it) => [ItemRecord(it)]
    case Many(items) => seq(|items|, i requires 0 <= i < |items| => ItemRecord(items[i]))
  }

  /** Columns: the explicit list, else the keys of the first record. */
  function Columns(rows: seq<Record>, columns: Option<seq<string>>): seq<string>
    requires |rows| > 0
  {
    columns.GetOr(Firsts(rows[0]))
  }

  // ---------------------------------------------------------------------------
  // CSV
  // ---------------------------------------------------------------------------

  /** The doubled-quote escaping inside a quoted field. */
  function Escape(s: string): (r: string)
    ensures '"' !in s ==> r == s
  {
    ReplaceChar(s, '"', "\"\"")
  }

  /** A field holding `,` or `"` is quoted, with inner quotes doubled; any
      other field, line breaks included, is written as is. */
  function Quote(s: string): (r: string)
    ensures (',' in s || '"' in s) ==> |r| >= 2 && r[0] == '"' && r[|r| - 1] == '"'
    ensures !(',' in s || '"' in s) ==> r == s
  {
    if ',' in s || '"' in s then "\"" + Escape(s) + "\"" else s
  }

  /** The text of one CSV cell: missing and `None` render empty. */
  function CsvText(v: Option<Value>): string {
    match v
    case None => ""
    case Some(VNone) => ""
    case Some(x) => Render(x)
  }

  function CsvCells(row: Record, cols: seq<string>): (cells: seq<string>)
    ensures |cells| == |cols|
    ensures forall j :: 0 <= j < |cols| ==> cells[j] == CsvText(Get(row, cols[j]))
  {
    seq(|cols|, j requires 0 <= j < |cols| => CsvText(Get(row, cols[j])))
  }

  function QuoteAll(cells: seq<string>): (r: seq<string>)
    ensures |r| == |cells| && forall j :: 0 <= j < |cells| ==> r[j] == Quote(cells[j])
  {
    seq(|cells|, j requires 0 <= j < |cells| => Quote(cells[j]))
  }

  function CsvLine(row: Record, cols: seq<string>): string {
    Join(",", QuoteAll(CsvCells(row, cols)))
  }

  function CsvLines(rows: seq<Record>, cols: seq<string>): (ls: seq<string>)
    ensures |ls| == |rows| && forall i :: 0 <= i < |rows| ==> ls[i] == CsvLine(rows[i], cols)
  {
    seq(|rows|, i requires 0 <= i < |rows| => CsvLine(rows[i], cols))
  }

  /** `format_csv`: nothing for empty input; otherwise a header of the
      (unquoted) column names and one line per record. */
  function FormatCsv(d: Data, columns: Option<seq<string>>): (r: string)
    ensures !DataTruthy(d) ==> r == ""
    ensures DataTruthy(d) ==>
              var rows := Normalize(d);
              r == Join("\n", [Join(",", Columns(rows, columns))] + CsvLines(rows, Columns(rows, columns)))
  {
    if !DataTruthy(d) then ""
    else
      var rows := Normalize(d);
      if |rows| == 0 then ""
      else
        var cols := Columns(rows, columns);
        Join("\n", [Join(",", cols)] + CsvLines(rows, cols))
  }

  // ---------------------------------------------------------------------------
  // Reading a CSV record back (RFC 4180, section 2, rules 4-7)
  // ---------------------------------------------------------------------------

  /** The body of a quoted field, up to its closing quote, with doubled
      quotes undone; also returns what follows the closing quote. */
  function QuotedField(t: string): (r: Option<(string, string)>)
    ensures r.Some? ==> |r.value.1| < |t|
    decreases |t|
  {
    if |t| == 0 then None
    else if t[0] == '"' then
      if |t| > 1 && t[1] == '"' then
        match QuotedField(t[2..])
        case None => None
        case Some((f, rest)) => Some(("\"" + f, rest))
      else Some(("", t[1..]))
    else
      match QuotedField(t[1..])
      case None => None
      case Some((f, rest)) => Some(([t[0]] + f, rest))
  }

  /** The end of an unquoted field: the first `,`, or the end of the text. */
  function FieldEnd(s: string): (e: nat)
    ensures e <= |s| && ',' !in s[..e]
    ensures e < |s| ==> s[e] == ','
  {
    if |s| == 0 || s[0] == ',' then 0
    else
      var e := FieldEnd(s[1..]) + 1;
      assert s[..e] == [s[0]] + s[1..][..e - 1];
      e
  }

  /** The fields of one record, or `None` when it is not well formed. */
  function ParseRecord(s: string): (r: Option<seq<string>>)
    ensures r.Some? ==> |r.value| >= 1
    decreases |s|
  {
    if |s| > 0 && s[0] == '"' then
      match QuotedField(s[1..])
      case None => None
      case Some((f, rest)) =>
        if rest == "" then Some([f])
        else if rest[0] != ',' then None
        else
          match ParseRecord(rest[1..])
          case None => None
          case Some(fs) => Some([f] + fs)
    else
      var e := FieldEnd(s);
      if '"' in s[..e] then None
      else if e == |s| then Some([s])
      else
        match ParseRecord(s[e + 1..])
        case None => None
        case Some(fs) => Some([s[..e]] + fs)
  }

  /** The escaped body of a field, closed by a quote, reads back as the
      field, leaving the rest untouched. */
  lemma {:induction false} QuotedFieldEscape(s: string, rest: string)
    requires rest == "" || rest[0] != '"'
    ensures QuotedField(Escape(s) + ("\"" + rest)) == Some((s, rest))
    decreases |s|
  {
    var close := "\"" + rest;
    if |s| == 0 {
      assert Escape(s) + close == close;
      assert close[1..] == rest;
    } else {
      QuotedFieldEscape(s[1..], rest);
      EscapeStep(s, close);
      assert [s[0]] + s[1..] == s;
    }
  }

  /** One step of reading an escaped body: a doubled quote or any other
      character is taken and reading goes on after it. */
  lemma EscapeStep(s: string, close: string)
    requires |s| > 0
    ensures var t' := Escape(s[1..]) + close;
            QuotedField(t').Some? ==>
              QuotedField(Escape(s) + close) == Some(([s[0]] + QuotedField(t').value.0, QuotedField(t').value.1))
  {
    var t' := Escape(s[1..]) + close;
    var head := if s[0] == '"' then "\"\"" else [s[0]];
    EscapeCons(s);
    AppendAssoc(head, Escape(s[1..]), close);
    if s[0] == '"' {
      QuotedFieldDoubled(t');
    } else {
      QuotedFieldPlain(s[0], t');
    }
  }

  lemma EscapeCons(s: string)
    requires |s| > 0
    ensures Escape(s) == (if s[0] == '"' then "\"\"" else [s[0]]) + Escape(s[1..])
  {
  }

  lemma QuotedFieldDoubled(t: string)
    ensures QuotedField(t).Some? ==>
              QuotedField("\"\"" + t) == Some(("\"" + QuotedField(t).value.0, QuotedField(t).value.1))
  {
    assert ("\"\"" + t)[2..] == t;
  }

  lemma QuotedFieldPlain(c: char, t: string)
    requires c != '"'
    ensures QuotedField(t).Some? ==>
              QuotedField([c] + t) == Some(([c] + QuotedField(t).value.0, QuotedField(t).value.1))
  {
    assert ([c] + t)[1..] == t;
  }

  /** One quoted field followed by the rest of the record. */
  lemma ParseQuotedHead(c: string, tail: string)
    requires ',' in c || '"' in c
    requires tail == "" || tail[0] == ','
    ensures var s := Quote(c) + tail;
            |s| > 0 && s[0] == '"' && QuotedField(s[1..]) == Some((c, tail))
  {
    var s := Quote(c) + tail;
    assert s == "\"" + (Escape(c) + ("\"" + tail));
    assert s[1..] == Escape(c) + ("\"" + tail);
    QuotedFieldEscape(c, tail);
  }

  /** One unquoted field followed by `,` and the rest of the record. */
  lemma ParsePlainHead(c: string, more: string)
    requires ',' !in c && '"' !in c
    ensures FieldEnd(c + "," + more) == |c|
    ensures (c + "," + more)[..|c|] == c && (c + "," + more)[|c| + 1..] == more
  {
    var s := c + "," + more;
    assert s[|c|] == ',';
    assert s[..|c|] == c;
  }

  lemma ParseQuotedOnly(c: string)
    requires ',' in c || '"' in c
    ensures ParseRecord(Quote(c)) == Some([c])
  {
    ParseQuotedHead(c, "");
    assert Quote(c) + "" == Quote(c);
  }

  lemma ParseQuotedCons(c: string, more: string, fs: seq<string>)
    requires ',' in c || '"' in c
    requires ParseRecord(more) == Some(fs)
    ensures ParseRecord(Quote(c) + "," + more) == Some([c] + fs)
  {
    var tail := "," + more;
    var s := Quote(c) + tail;
    assert Quote(c) + "," + more == s;
    ParseQuotedHead(c, tail);
    assert tail != "" && tail[0] == ',' && tail[1..] == more;
    assert ParseRecord(s) == Some([c] + fs);
  }

  lemma ParsePlainOnly(c: string)
    requires ',' !in c && '"' !in c
    ensures ParseRecord(c) == Some([c])
  {
    assert FieldEnd(c) == |c|;
    assert c[..|c|] == c;
    if |c| > 0 {
      assert c[0] != '"';
    }
  }

  lemma ParsePlainCons(c: string, more: string, fs: seq<string>)
    requires ',' !in c && '"' !in c
    requires ParseRecord(more) == Some(fs)
    ensures ParseRecord(c + "," + more) == Some([c] + fs)
  {
    var s := c + "," + more;
    ParsePlainHead(c, more);
    if |c| > 0 {
      assert s[0] == c[0];
    }
  }

  /** A record of one field. */
  lemma ParseOnly(c: string)
    ensures ParseRecord(Quote(c)) == Some([c])
  {
    if ',' in c || '"' in c {
      ParseQuotedOnly(c);
    } else {
      ParsePlainOnly(c);
    }
  }

  /** A field in front of a well-formed record. */
  lemma ParseCons(c: string, more: string, fs: seq<string>)
    requires ParseRecord(more) == Some(fs)
    ensures ParseRecord(Quote(c) + "," + more) == Some([c] + fs)
  {
    if ',' in c || '"' in c {
      ParseQuotedCons(c, more, fs);
    } else {
      ParsePlainCons(c, more, fs);
    }
  }

  /** Rendering cells as a CSV record and reading the record back gives
      the cells: the quoting is a faithful encoding. */
  lemma {:induction false} ParseRecordJoin(cells: seq<string>)
    requires |cells| >= 1
    ensures ParseRecord(Join(",", QuoteAll(cells))) == Some(cells)
    decreases |cells|
  {
    var q := QuoteAll(cells);
    if |cells| == 1 {
      assert Join(",", q) == Quote(cells[0]);
      assert cells == [cells[0]];
      ParseOnly(cells[0]);
    } else {
      var more := Join(",", QuoteAll(cells[1..]));
      assert q[1..] == QuoteAll(cells[1..]);
      assert Join(",", q) == Quote(cells[0]) + "," + more;
      ParseRecordJoin(cells[1..]);
      ParseCons(cells[0], more, cells[1..]);
      assert [cells[0]] + cells[1..] == cells;
    }
  }

  /** The rows of a CSV document, each read back as fields. */
  function ParseCsv(lines: seq<string>): Option<seq<seq<string>>> {
    if |lines| == 0 then Some([])
    else
      match ParseRecord(lines[0])
      case None => None
      case Some(fs) =>
        match ParseCsv(lines[1..])
        case None => None
        case Some(rest) => Some([fs] + rest)
  }

  /** No cell and no column name holds a line break, and the column names
      need no quoting. */
  predicate PlainDocument(rows: seq<Record>, cols: seq<string>) {
    && (forall j :: 0 <= j < |cols| ==> '\n' !in cols[j] && ',' !in cols[j] && '"' !in cols[j])
    && forall i, j :: 0 <= i < |rows| && 0 <= j < |cols| ==> '\n' !in CsvText(Get(rows[i], cols[j]))
  }

  lemma QuoteKeepsLines(c: string)
    requires '\n' !in c
    ensures '\n' !in Quote(c)
  {
    ReplaceCharAvoids(c, '"', "\"\"", '\n');
  }

  lemma CsvLineNoBreak(row: Record, cols: seq<string>)
    requires forall j :: 0 <= j < |cols| ==> '\n' !in CsvText(Get(row, cols[j]))
    ensures '\n' !in CsvLine(row, cols)
  {
    var q := QuoteAll(CsvCells(row, cols));
    forall j | 0 <= j < |q| ensures '\n' !in q[j] {
      QuoteKeepsLines(CsvCells(row, cols)[j]);
    }
    JoinAvoids(",", q, '\n');
  }

  /** The cell texts of every record. */
  function CellTable(rows: seq<Record>, cols: seq<string>): (t: seq<seq<string>>)
    ensures |t| == |rows| && forall i :: 0 <= i < |rows| ==> t[i] == CsvCells(rows[i], cols)
  {
    seq(|rows|, i requires 0 <= i < |rows| => CsvCells(rows[i], cols))
  }

  /** The fields of every record of a plain document. */
  lemma {:induction false} ParseCsvLines(rows: seq<Record>, cols: seq<string>)
    requires |cols| >= 1
    ensures ParseCsv(CsvLines(rows, cols)) == Some(CellTable(rows, cols))
    decreases |rows|
  {
    if |rows| > 0 {
      ParseRecordJoin(CsvCells(rows[0], cols));
      assert CsvLines(rows, cols)[1..] == CsvLines(rows[1..], cols);
      ParseCsvLines(rows[1..], cols);
      assert CellTable(rows, cols) == [CsvCells(rows[0], cols)] + CellTable(rows[1..], cols);
    }
  }

  /** Reading a plain CSV document back line by line gives the header and,
      for each record, the text of its cells: one line per record and one
      field per column. */
  lemma FormatCsvReadsBack(d: Data, columns: Option<seq<string>>)
    requires DataTruthy(d)
    requires var rows := Normalize(d); |Columns(rows, columns)| >= 1 && PlainDocument(rows, Columns(rows, columns))
    ensures var rows := Normalize(d);
            var cols := Columns(rows, columns);
            var lines := SplitOn(FormatCsv(d, columns), '\n');
            && |lines| == |rows| + 1
            && ParseCsv(lines) == Some([cols] + CellTable(rows, cols))
  {
    var rows := Normalize(d);
    var cols := Columns(rows, columns);
    DocumentSplits(rows, cols);
    DocumentParses(rows, cols);
  }

  /** A document whose cells hold no line break splits into its lines. */
  lemma DocumentSplits(rows: seq<Record>, cols: seq<string>)
    requires |cols| >= 1 && PlainDocument(rows, cols)
    ensures var lines := [Join(",", cols)] + CsvLines(rows, cols);
            SplitOn(Join("\n", lines), '\n') == lines
  {
    var lines := [Join(",", cols)] + CsvLines(rows, cols);
    JoinAvoids(",", cols, '\n');
    forall i | 0 <= i < |rows| ensures '\n' !in CsvLine(rows[i], cols) {
      CsvLineNoBreak(rows[i], cols);
    }
    assert forall i :: 0 <= i < |lines| ==> '\n' !in lines[i];
    SplitOnJoin('\n', lines);
  }

  /** The header line reads back as the column names and each record line
      as its cells. */
  lemma DocumentParses(rows: seq<Record>, cols: seq<string>)
    requires |cols| >= 1 && PlainDocument(rows, cols)
    ensures ParseCsv([Join(",", cols)] + CsvLines(rows, cols)) == Some([cols] + CellTable(rows, cols))
  {
    var lines := [Join(",", cols)] + CsvLines(rows, cols);
    assert cols == QuoteAll(cols);
    ParseRecordJoin(cols);
    ParseCsvLines(rows, cols);
    assert lines[1..] == CsvLines(rows, cols);
  }

  /** A line break inside a cell is not quoted: the record spills over two
      lines of the document. */
  lemma LineBreakSplitsRecord()
    ensures var d := Single(Dict([("a", VStr("x\ny"))]));
            |SplitOn(FormatCsv(d, None), '\n')| == 3
  {
    LineBreakCsvText();
    SplitOnJoin('\n', ["a", "x", "y"]);
  }

  lemma LineBreakCsvLine(row: Record)
    requires row == [("a", VStr("x\ny"))]
    ensures CsvLines([row], ["a"]) == ["x\ny"]
  {
    assert Get(row, "a") == Some(VStr("x\ny"));
    assert CsvCells(row, ["a"]) == ["x\ny"];
    assert Quote("x\ny") == "x\ny";
    assert QuoteAll(["x\ny"]) == ["x\ny"];
    assert CsvLine(row, ["a"]) == "x\ny";
  }

  lemma LineBreakCsvText()
    ensures FormatCsv(Single(Dict([("a", VStr("x\ny"))])), None) == Join("\n", ["a", "x", "y"])
  {
    var row: Record := [("a", VStr("x\ny"))];
    var d := Single(Dict(row));
    LineBreakCsvLine(row);
    assert FormatCsv(d, None) == Join("\n", ["a", "x\ny"]) by {
      assert Normalize(d) == [row];
      assert Firsts(row) == ["a"];
      assert Join(",", ["a"]) == "a";
    }
    assert Join("\n", ["a", "x\ny"]) == "a\nx\ny";
    assert Join("\n", ["a", "x", "y"]) == "a\nx\ny";
  }

  // ---------------------------------------------------------------------------
  // Markdown table
  // ---------------------------------------------------------------------------

  const NO_DATA: string := "No data"
  const CELL_LIMIT: nat := 50

  /** `str(row.get(col, ""))[:50]`: here `None` renders as "None". */
  function Cell(row: Record, col: string): (r: string)
    ensures |r| <= CELL_LIMIT
  {
    var v := Get(row, col);
    Prefix(if v.None? then "" else Render(v.value), CELL_LIMIT)
  }

  /** The width of a column: the longest of its header and its cells. */
  function ColumnWidth(rows: seq<Record>, col: string): (w: nat)
    ensures w >= |col|
    ensures forall i :: 0 <= i < |rows| ==> w >= |Cell(rows[i], col)|
    ensures w == |col| || exists i :: 0 <= i < |rows| && w == |Cell(rows[i], col)|
  {
    var ls := CellLengths(rows, col);
    var w := MaxFold(|col|, ls);
    assert w == |col| || exists i :: 0 <= i < |rows| && w == |Cell(rows[i], col)| by {
      if w != |col| {
        var k :| 0 <= k < |ls| && w == ls[k];
      }
    }
    w
  }

  function CellLengths(rows: seq<Record>, col: string): (ls: seq<nat>)
    ensures |ls| == |rows| && forall i :: 0 <= i < |rows| ==> ls[i] == |Cell(rows[i], col)|
  {
    seq(|rows|, i requires 0 <= i < |rows| => |Cell(rows[i], col)|)
  }

  /** The width loop over one column: `w = max(w, x)` for each length in
      turn, so the result is the start or one of the lengths, whichever is
      largest. */
  function MaxFold(w: nat, xs: seq<nat>): (r: nat)
    ensures r >= w && forall i :: 0 <= i < |xs| ==> r >= xs[i]
    ensures r == w || exists i :: 0 <= i < |xs| && r == xs[i]
    decreases |xs|
  {
    if |xs| == 0 then w
    else
      var m := if xs[0] > w then xs[0] else w;
      var r := MaxFold(m, xs[1..]);
      assert forall i :: 1 <= i < |xs| ==> r >= xs[i] by {
        forall i | 1 <= i < |xs| ensures r >= xs[i] {
          assert xs[i] == xs[1..][i - 1];
        }
      }
      assert r == w || exists i :: 0 <= i < |xs| && r == xs[i] by {
        if r != m {
          var k :| 0 <= k < |xs[1..]| && r == xs[1..][k];
          assert r == xs[k + 1];
        } else if m != w {
          assert r == xs[0];
        }
      }
      r
  }

  function Widths(rows: seq<Record>, cols: seq<string>): (ws: seq<nat>)
    ensures |ws| == |cols| && forall j :: 0 <= j < |cols| ==> ws[j] == ColumnWidth(rows, cols[j])
  {
    seq(|cols|, j requires 0 <= j < |cols| => ColumnWidth(rows, cols[j]))
  }

  function Padded(cells: seq<string>, ws: seq<nat>): (r: seq<string>)
    requires |cells| == |ws| && forall j :: 0 <= j < |cells| ==> |cells[j]| <= ws[j]
    ensures |r| == |cells| && forall j :: 0 <= j < |r| ==> |r[j]| == ws[j] && r[j] == LJust(cells[j], ws[j])
  {
    seq(|cells|, j requires 0 <= j < |cells| => LJust(cells[j], ws[j]))
  }

  function Dashes(ws: seq<nat>): (r: seq<string>)
    ensures |r| == |ws| && forall j :: 0 <= j < |r| ==> |r[j]| == ws[j] + 2 && r[j] == Repeat('-', ws[j] + 2)
  {
    seq(|ws|, j requires 0 <= j < |ws| => Repeat('-', ws[j] + 2))
  }

  function RowCells(row: Record, cols: seq<string>): (cells: seq<string>)
    ensures |cells| == |cols| && forall j :: 0 <= j < |cols| ==> cells[j] == Cell(row, cols[j])
  {
    seq(|cols|, j requires 0 <= j < |cols| => Cell(row, cols[j]))
  }

  function BoxLine(cells: seq<string>): string {
    "| " + Join(" | ", cells) + " |"
  }

  function HeaderLine(rows: seq<Record>, cols: seq<string>): string {
    BoxLine(Padded(cols, Widths(rows, cols)))
  }

  function SeparatorLine(rows: seq<Record>, cols: seq<string>): string {
    "|" + Join("|", Dashes(Widths(rows, cols))) + "|"
  }

  function RowLine(rows: seq<Record>, cols: seq<string>, row: Record): string
    requires row in rows
  {
    var ws := Widths(rows, cols);
    BoxLine(Padded(RowCells(row, cols), ws))
  }

  function TableLines(rows: seq<Record>, cols: seq<string>): (ls: seq<string>)
    ensures |ls| == |rows| + 2
    ensures ls[0] == HeaderLine(rows, cols) && ls[1] == SeparatorLine(rows, cols)
    ensures forall i :: 0 <= i < |rows| ==> ls[i + 2] == RowLine(rows, cols, rows[i])
  {
    var body := seq(|rows|, i requires 0 <= i < |rows| => RowLine(rows, cols, rows[i]));
    var ls := [HeaderLine(rows, cols), SeparatorLine(rows, cols)] + body;
    assert forall i :: 0 <= i < |rows| ==> ls[i + 2] == body[i];
    ls
  }

  /** `format_table`: "No data" for empty input, otherwise the header, the
      separator and one line per record. */
  function FormatTable(d: Data, columns: Option<seq<string>>): (r: string)
    ensures !DataTruthy(d) ==> r == NO_DATA
    ensures DataTruthy(d) ==> var rows := Normalize(d); r == Join("\n", TableLines(rows, Columns(rows, columns)))
  {
    if !DataTruthy(d) then NO_DATA
    else
      var rows := Normalize(d);
      if |rows| == 0 then NO_DATA
      else Join("\n", TableLines(rows, Columns(rows, columns)))
  }

  function SumWidths(ws: seq<nat>): nat {
    if |ws| == 0 then 0 else ws[0] + SumWidths(ws[1..])
  }

  lemma {:induction false} SumLengthsOfWidths(parts: seq<string>, ws: seq<nat>, k: nat)
    requires |parts| == |ws| && forall j :: 0 <= j < |ws| ==> |parts[j]| == ws[j] + k
    ensures SumLengths(parts) == SumWidths(ws) + k * |ws|
  {
    if |ws| > 0 {
      SumLengthsOfWidths(parts[1..], ws[1..], k);
    }
  }

  /** A boxed line of cells padded to the widths. */
  lemma BoxLineLength(cells: seq<string>, ws: seq<nat>)
    requires |cells| == |ws| >= 1 && forall j :: 0 <= j < |ws| ==> |cells[j]| == ws[j]
    ensures |BoxLine(cells)| == SumWidths(ws) + 3 * |ws| + 1
  {
    SumLengthsOfWidths(cells, ws, 0);
    JoinLength(" | ", cells);
  }

  lemma SeparatorLength(rows: seq<Record>, cols: seq<string>)
    requires |cols| >= 1
    ensures |SeparatorLine(rows, cols)| == SumWidths(Widths(rows, cols)) + 3 * |cols| + 1
  {
    DashLineLength(Dashes(Widths(rows, cols)), Widths(rows, cols));
  }

  /** A rule of dash runs, each two wider than its column. */
  lemma DashLineLength(ds: seq<string>, ws: seq<nat>)
    requires |ds| == |ws| >= 1 && forall j :: 0 <= j < |ws| ==> |ds[j]| == ws[j] + 2
    ensures |"|" + Join("|", ds) + "|"| == SumWidths(ws) + 3 * |ws| + 1
  {
    SumLengthsOfWidths(ds, ws, 2);
    JoinLength("|", ds);
  }

  lemma RowLineLength(rows: seq<Record>, cols: seq<string>, i: nat)
    requires |cols| >= 1 && i < |rows|
    ensures |RowLine(rows, cols, rows[i])| == SumWidths(Widths(rows, cols)) + 3 * |cols| + 1
  {
    var ws := Widths(rows, cols);
    BoxLineLength(Padded(RowCells(rows[i], cols), ws), ws);
  }

  lemma HeaderLength(rows: seq<Record>, cols: seq<string>)
    requires |cols| >= 1
    ensures |HeaderLine(rows, cols)| == SumWidths(Widths(rows, cols)) + 3 * |cols| + 1
  {
    var ws := Widths(rows, cols);
    BoxLineLength(Padded(cols, ws), ws);
  }

  /** Every line of a table with at least one column has the same length:
      the widths, plus three characters per column, plus one. */
  lemma TableLinesAligned(rows: seq<Record>, cols: seq<string>)
    requires |cols| >= 1
    ensures forall i :: 0 <= i < |TableLines(rows, cols)| ==>
              |TableLines(rows, cols)[i]| == SumWidths(Widths(rows, cols)) + 3 * |cols| + 1
  {
    var n := SumWidths(Widths(rows, cols)) + 3 * |cols| + 1;
    var ls := TableLines(rows, cols);
    HeaderLength(rows, cols);
    SeparatorLength(rows, cols);
    forall i | 2 <= i < |ls| ensures |ls[i]| == n {
      RowLineLength(rows, cols, i - 2);
    }
  }

  /** With no columns at all the header and the separator differ in
      length. */
  lemma NoColumnsMisaligned(rows: seq<Record>)
    ensures |HeaderLine(rows, [])| == 4 && |SeparatorLine(rows, [])| == 2
  {
  }

  // ---------------------------------------------------------------------------
  // `format_output`
  // ---------------------------------------------------------------------------

  /** The dispatch: "json" and "csv" by name, anything else a table. JSON
      serialisation is a parameter. */
  function FormatOutput(d: Data, format: string, columns: Option<seq<string>>, json: Data -> string): (r: string)
    ensures format == "json" ==> r == json(d)
    ensures format == "csv" ==> r == FormatCsv(d, columns)
    ensures format != "json" && format != "csv" ==> r == FormatTable(d, columns)
  {
    if format == "json" then json(d)
    else if format == "csv" then FormatCsv(d, columns)
    else FormatTable(d, columns)
  }
}

=== FILE: db_permissions.dfy ===
/**
  The permission commands of the Databricks plugin: the table of object
  types, the SDK method names derived from it, the classification of a
  principal, the flattening of an access-control list into rows, and the
  list of permission levels. The SDK client is a parameter: which methods
  it offers, which levels it accepts, and what it returns.
 */
module DbPermissions {
  import opened Wrappers
  import opened Text
  import opened Values
  import opened DbOutput

  // ---------------------------------------------------------------------------
  // Object types
  // ---------------------------------------------------------------------------

  /** `OBJECT_TYPE_MAP`: CLI object type to SDK method prefix, in order. */
  const OBJECT_TYPES: seq<(string, string)> := [
    ("clusters", "cluster"),
    ("cluster-policies", "cluster_policy"),
    ("directories", "directory"),
    ("experiments", "experiment"),
    ("jobs", "job"),
    ("models", "model"),
    ("notebooks", "notebook"),
    ("pipelines", "pipeline"),
    ("registered-models", "registered_model"),
    ("repos", "repo"),
    ("serving-endpoints", "serving_endpoint"),
    ("sql/warehouses", "sql_warehouse")]

  function Find(table: seq<(string, string)>, key: string): (r: Option<string>)
    ensures r.Some? <==> key in Firsts(table)
    ensures r.Some? ==> exists i :: 0 <= i < |table| && table[i] == (key, r.value)
  {
    if |table| == 0 then None
    else if table[0].0 == key then
      assert Firsts(table)[0] == key;
      Some(table[0].1)
    else
      assert Firsts(table) == [table[0].0] + Firsts(table[1..]);
      var r := Find(table[1..], key);
      if r.Some? then
        var i :| 0 <= i < |table[1..]| && table[1..][i] == (key, r.value);
        assert table[i + 1] == (key, r.value);
        r
      else r
  }

  /** The lower-cased object type and its method prefix, or the error
      printed for an unknown type. */
  function ObjectPrefix(objectType: string): (r: Result<(string, string), string>)
    ensures r.Ok? <==> Lower(objectType) in Firsts(OBJECT_TYPES)
    ensures r.Ok? ==> r.value.0 == Lower(objectType) && (r.value.0, r.value.1) in OBJECT_TYPES
    ensures r.Err? ==> r.error == "Unknown object type: " + Lower(objectType)
  {
    var t := Lower(objectType);
    match Find(OBJECT_TYPES, t)
    case None => Err("Unknown object type: " + t)
    case Some(p) =>
      var i :| 0 <= i < |OBJECT_TYPES| && OBJECT_TYPES[i] == (t, p);
      Ok((t, p))
  }

  /** The second line printed by `get` for an unknown type. */
  const VALID_TYPES: string := "Valid types: " + Join(", ", Firsts(OBJECT_TYPES))

  /** The table keys are distinct, so each maps to one prefix. */
  lemma ObjectTypesDistinct()
    ensures forall i, j :: 0 <= i < j < |OBJECT_TYPES| ==> OBJECT_TYPES[i].0 != OBJECT_TYPES[j].0
  {
  }

  /** Every listed type is accepted, in any ASCII case, with its own
      prefix. */
  lemma ListedTypeAccepted(objectType: string, i: nat)
    requires i < |OBJECT_TYPES| && Lower(objectType) == OBJECT_TYPES[i].0
    ensures ObjectPrefix(objectType) == Ok((OBJECT_TYPES[i].0, OBJECT_TYPES[i].1))
  {
    ObjectTypesDistinct();
    var r := ObjectPrefix(objectType);
    assert Firsts(OBJECT_TYPES)[i] == OBJECT_TYPES[i].0;
    var j :| 0 <= j < |OBJECT_TYPES| && OBJECT_TYPES[j] == (r.value.0, r.value.1);
    assert i == j;
  }

  // ---------------------------------------------------------------------------
  // SDK method names
  // ---------------------------------------------------------------------------

  function GetMethod(prefix: string): string { "get_" + prefix + "_permissions" }
  function UpdateMethod(prefix: string): string { "update_" + prefix + "_permissions" }
  function LevelsMethod(prefix: string): string { "get_" + prefix + "_permission_levels" }
  function ParamName(prefix: string): string { prefix + "_id" }

  /** The method names tell their prefixes apart. */
  lemma MethodNamesInjective(p: string, q: string)
    ensures GetMethod(p) == GetMethod(q) ==> p == q
    ensures UpdateMethod(p) == UpdateMethod(q) ==> p == q
    ensures LevelsMethod(p) == LevelsMethod(q) ==> p == q
    ensures ParamName(p) == ParamName(q) ==> p == q
  {
    if GetMethod(p) == GetMethod(q) {
      assert p == GetMethod(p)[4..|GetMethod(p)| - 12];
      assert q == GetMethod(q)[4..|GetMethod(q)| - 12];
    }
    if UpdateMethod(p) == UpdateMethod(q) {
      assert p == UpdateMethod(p)[7..|UpdateMethod(p)| - 12];
      assert q == UpdateMethod(q)[7..|UpdateMethod(q)| - 12];
    }
    if LevelsMethod(p) == LevelsMethod(q) {
      assert p == LevelsMethod(p)[4..|LevelsMethod(p)| - 18];
      assert q == LevelsMethod(q)[4..|LevelsMethod(q)| - 18];
    }
    if ParamName(p) == ParamName(q) {
      assert p == ParamName(p)[..|ParamName(p)| - 3];
      assert q == ParamName(q)[..|ParamName(q)| - 3];
    }
  }

  /** The object type given to the generic SDK call: every `-` becomes `_`. */
  function GenericType(objectType: string): (r: string)
    ensures '-' !in r
    ensures '-' !in objectType ==> r == objectType
    ensures |r| == |objectType|
  {
    LengthKept(objectType);
    ReplaceChar(objectType, '-', "_")
  }

  lemma {:induction false} LengthKept(s: string)
    ensures |ReplaceChar(s, '-', "_")| == |s|
  {
    if |s| > 0 {
      LengthKept(s[1..]);
    }
  }

  /** A call to the SDK: the type-specific method with its id parameter,
      or the generic method with the object type. */
  datatype Call =
    | Specific(name: string, param: string, objectId: string)
    | Generic(objectType: string, objectId: string)

  /** The call `get`, `update` or `levels` makes, given the method name it
      looks for and whether the client has it. */
  function ChooseCall(name: string, prefix: string, objectType: string, objectId: string, has: string -> bool): (c: Call)
    ensures has(name) <==> c.Specific?
    ensures c.Specific? ==> c == Specific(name, ParamName(prefix), objectId)
    ensures c.Generic? ==> c == Generic(GenericType(objectType), objectId)
  {
    if has(name) then Specific(name, ParamName(prefix), objectId)
    else Generic(GenericType(objectType), objectId)
  }

  /** `cmd_get`'s choice of call, or the unknown-type error. */
  function GetCall(objectType: string, objectId: string, has: string -> bool): (r: Result<Call, string>)
    ensures r.Ok? <==> Lower(objectType) in Firsts(OBJECT_TYPES)
    ensures r.Ok? && r.value.Specific? ==> r.value.name == GetMethod(ObjectPrefix(objectType).value.1)
    ensures r.Ok? && r.value.Generic? ==> r.value.objectType == GenericType(Lower(objectType))
  {
    match ObjectPrefix(objectType)
    case Err(e) => Err(e)
    case Ok((t, p)) => Ok(ChooseCall(GetMethod(p), p, t, objectId, has))
  }

  // ---------------------------------------------------------------------------
  // `cmd_update`
  // ---------------------------------------------------------------------------

  /** Who a permission is granted to. */
  datatype Principal = User(name: string) | Group(name: string)

  /** A principal with `@` is a user; any other is a group, with every
      occurrence of `group:` removed when it starts with one. */
  function Classify(principal: string): (p: Principal)
    ensures p.User? <==> '@' in principal
    ensures p.User? ==> p.name == principal
    ensures p.Group? && !StartsWith(principal, "group:") ==> p.name == principal
  {
    if '@' in principal then User(principal)
    else if StartsWith(principal, "group:") then Group(Replace(principal, "group:", ""))
    else Group(principal)
  }

  /** A `group:` prefix is dropped. */
  lemma GroupPrefixDropped(name: string)
    requires '@' !in name && !Contains(name, "group:")
    ensures Classify("group:" + name) == Group(name)
  {
    var s := "group:" + name;
    assert '@' !in s by {
      assert forall k :: 6 <= k < |s| ==> s[k] == name[k - 6];
    }
    assert s[..6] == "group:" && s[6..] == name;
    ReplaceAbsent(name, "group:", "");
  }

  /** The removal is not limited to the prefix: a later `group:` goes too. */
  lemma GroupRemovedEverywhere()
    ensures Classify("group:a/group:b") == Group("a/b")
  {
    var s := "group:a/group:b";
    assert s[..6] == "group:";
    assert s[6..] == "a/group:b";
    assert '@' !in s by {
      assert forall k :: 0 <= k < |s| ==> s[k] != '@';
    }
    assert StartsWith(s, "group:");
    InnerGroupRemoved();
  }

  lemma InnerGroupRemoved()
    ensures Replace("a/group:b", "group:", "") == "a/b"
  {
    assert Replace("group:b", "group:", "") == "b" by {
      assert "group:b"[..6] == "group:";
      assert "group:b"[6..] == "b";
    }
    assert Replace("/group:b", "group:", "") == "/b" by {
      assert "/group:b"[..6] != "group:";
      assert "/group:b"[1..] == "group:b";
    }
    assert "a/group:b"[..6] != "group:";
    assert "a/group:b"[1..] == "/group:b";
  }

  /** `cmd_update`: the call and the principal, or the first error: an
      unknown type, then a level the SDK rejects. */
  function UpdateCall(objectType: string, objectId: string, principal: string, level: string,
                      validLevel: string -> bool, has: string -> bool): (r: Result<(Call, Principal), string>)
    ensures !(Lower(objectType) in Firsts(OBJECT_TYPES)) ==> r == Err("Unknown object type: " + Lower(objectType))
    ensures Lower(objectType) in Firsts(OBJECT_TYPES) && !validLevel(level) ==> r == Err("Invalid permission level: " + level)
    ensures r.Ok? <==> Lower(objectType) in Firsts(OBJECT_TYPES) && validLevel(level)
    ensures r.Ok? ==> r.value.1 == Classify(principal)
    ensures r.Ok? && r.value.0.Specific? ==> r.value.0.name == UpdateMethod(ObjectPrefix(objectType).value.1)
  {
    match ObjectPrefix(objectType)
    case Err(e) => Err(e)
    case Ok((t, p)) =>
      if !validLevel(level) then Err("Invalid permission level: " + level)
      else Ok((ChooseCall(UpdateMethod(p), p, t, objectId, has), Classify(principal)))
  }

  // ---------------------------------------------------------------------------
  // Access-control lists
  // ---------------------------------------------------------------------------

  /** One permission of an entry; `level` is `None` when unset. */
  datatype Permission = Permission(level: Option<string>, inherited: bool)

  /** One access-control entry; a missing permission list is empty. */
  datatype AclEntry = AclEntry(user: Option<string>, group: Option<string>,
                               servicePrincipal: Option<string>, permissions: seq<Permission>)

  predicate Set(v: Option<string>) { v.Some? && v.value != "" }

  /** The first non-empty of the user, group and service principal. */
  function PrincipalOf(a: AclEntry): (r: string)
    ensures Set(a.user) ==> r == a.user.value
    ensures !Set(a.user) && Set(a.group) ==> r == a.group.value
    ensures !Set(a.user) && !Set(a.group) && Set(a.servicePrincipal) ==> r == a.servicePrincipal.value
    ensures !Set(a.user) && !Set(a.group) && !Set(a.servicePrincipal) ==> r == "N/A"
  {
    if Set(a.user) then a.user.value
    else if Set(a.group) then a.group.value
    else if Set(a.servicePrincipal) then a.servicePrincipal.value
    else "N/A"
  }

  function PermissionRow(principal: string, p: Permission): Record {
    [("principal", VStr(principal)),
     ("permission", VStr(p.level.GetOr("N/A"))),
     ("inherited", VStr(if p.inherited then "Yes" else "No"))]
  }

  function EntryRows(a: AclEntry): (rs: seq<Record>)
    ensures |rs| == |a.permissions|
    ensures forall k :: 0 <= k < |rs| ==> rs[k] == PermissionRow(PrincipalOf(a), a.permissions[k])
  {
    seq(|a.permissions|, k requires 0 <= k < |a.permissions| => PermissionRow(PrincipalOf(a), a.permissions[k]))
  }

  function CountPermissions(acl: seq<AclEntry>): nat {
    if |acl| == 0 then 0 else |acl[0].permissions| + CountPermissions(acl[1..])
  }

  /** The rows of `cmd_get`: each entry's permissions, in order. */
  function AclRows(acl: seq<AclEntry>): (rs: seq<Record>)
    ensures |rs| == CountPermissions(acl)
  {
    if |acl| == 0 then [] else EntryRows(acl[0]) + AclRows(acl[1..])
  }

  lemma {:induction false} AclRowsAppend(a: seq<AclEntry>, b: seq<AclEntry>)
    ensures AclRows(a + b) == AclRows(a) + AclRows(b)
    decreases |a|
  {
    if |a| == 0 {
      assert a + b == b;
    } else {
      assert (a + b)[1..] == a[1..] + b;
      AclRowsAppend(a[1..], b);
    }
  }

  /** Every row carries the principal of the entry it came from: the rows
      of entry `i` follow those of the entries before it. */
  lemma {:induction false} AclRowsOrigin(acl: seq<AclEntry>, i: nat, k: nat)
    requires i < |acl| && k < |acl[i].permissions|
    ensures CountPermissions(acl[..i]) + k < |AclRows(acl)|
    ensures AclRows(acl)[CountPermissions(acl[..i]) + k] == PermissionRow(PrincipalOf(acl[i]), acl[i].permissions[k])
  {
    assert acl == acl[..i] + [acl[i]] + acl[i + 1..];
    AclRowsAppend(acl[..i] + [acl[i]], acl[i + 1..]);
    AclRowsAppend(acl[..i], [acl[i]]);
    assert AclRows([acl[i]]) == EntryRows(acl[i]) by {
      assert [acl[i]][1..] == [];
    }
  }

  /** What `cmd_get` prints on success: a fixed line for an empty list,
      otherwise the rows handed to the output formatter. */
  datatype Listing = NoPermissions(message: string) | Rows(data: Data)

  function GetListing(objectType: string, objectId: string, acl: seq<AclEntry>): (l: Listing)
    ensures |acl| == 0 <==> l.NoPermissions?
    ensures l.NoPermissions? ==> l.message == "No permissions configured for " + objectType + "/" + objectId
    ensures l.Rows? ==> l.data.Many? && |l.data.items| == CountPermissions(acl)
    ensures l.Rows? ==> forall i :: 0 <= i < |l.data.items| ==> l.data.items[i] == Dict(AclRows(acl)[i])
  {
    if |acl| == 0 then NoPermissions("No permissions configured for " + objectType + "/" + objectId)
    else
      var rows := AclRows(acl);
      Rows(Many(seq(|rows|, i requires 0 <= i < |rows| => Dict(rows[i]))))
  }

  // ---------------------------------------------------------------------------
  // `cmd_levels`
  // ---------------------------------------------------------------------------

  /** The lookup `cmd_levels` makes: the type-specific levels method with a
      placeholder id when the client has one, and no lookup otherwise. */
  function LevelsCall(objectType: string, has: string -> bool): (r: Result<Option<Call>, string>)
    ensures r.Ok? <==> Lower(objectType) in Firsts(OBJECT_TYPES)
    ensures r.Ok? ==> (r.value.Some? <==> has(LevelsMethod(ObjectPrefix(objectType).value.1)))
    ensures r.Ok? && r.value.Some? ==>
              var p := ObjectPrefix(objectType).value.1;
              r.value.value == Specific(LevelsMethod(p), ParamName(p), "dummy")
  {
    match ObjectPrefix(objectType)
    case Err(e) => Err(e)
    case Ok((_, p)) =>
      if has(LevelsMethod(p)) then Ok(Some(Specific(LevelsMethod(p), ParamName(p), "dummy"))) else Ok(None)
  }

  /** A permission level described by the SDK. */
  datatype LevelInfo = LevelInfo(level: Option<string>, description: Option<string>)

  const COMMON_LEVELS: seq<(string, string)> := [
    ("CAN_VIEW", "View only"),
    ("CAN_READ", "Read access"),
    ("CAN_RUN", "Can execute/run"),
    ("CAN_EDIT", "Edit access"),
    ("CAN_MANAGE", "Full management"),
    ("CAN_MANAGE_RUN", "Manage runs"),
    ("IS_OWNER", "Owner")]

  function LevelRow(level: string, description: string): Record {
    [("level", VStr(level)), ("description", VStr(description))]
  }

  /** The rows listed: the SDK's levels when it returned some, otherwise
      the seven common levels in their fixed order. A missing or empty
      field shows as `N/A`. */
  function LevelRows(result: Option<seq<LevelInfo>>): (rs: seq<Record>)
    ensures result.Some? && |result.value| > 0 ==> |rs| == |result.value|
    ensures result.None? || |result.value| == 0 ==>
              |rs| == 7 && forall i :: 0 <= i < 7 ==> rs[i] == LevelRow(COMMON_LEVELS[i].0, COMMON_LEVELS[i].1)
    ensures result.Some? && |result.value| > 0 ==>
              forall i :: 0 <= i < |rs| ==>
                rs[i] == LevelRow(result.value[i].level.GetOr("N/A"),
                                  if Set(result.value[i].description) then result.value[i].description.value else "N/A")
  {
    if result.Some? && |result.value| > 0 then
      var ls := result.value;
      seq(|ls|, i requires 0 <= i < |ls| =>
        LevelRow(ls[i].level.GetOr("N/A"), if Set(ls[i].description) then ls[i].description.value else "N/A"))
    else
      seq(7, i requires 0 <= i < 7 => LevelRow(COMMON_LEVELS[i].0, COMMON_LEVELS[i].1))
  }

  /** The fallback list starts with the weakest level and ends with
      ownership. */
  lemma CommonLevelsOrder()
    ensures LevelRows(None)[0] == LevelRow("CAN_VIEW", "View only")
    ensures LevelRows(None)[6] == LevelRow("IS_OWNER", "Owner")
  {
  }
}

=== FILE: discover_contact.dfy ===
/**
  Contact discovery from the macOS address book: the pure part of reading
  the phone list the address-book script prints, the normalisation of
  Australian numbers, and the shape of the result object.
 */
module DiscoverContact {
  import opened Wrappers
  import opened Text
  import AddContact

  // ---------------------------------------------------------------------------
  // Phone list
  // ---------------------------------------------------------------------------

  /** The trimmed, non-empty items of the comma-separated list. */
  function NonEmptyItems(items: seq<string>): (r: seq<string>)
    ensures |r| <= |items|
    ensures forall i :: 0 <= i < |r| ==> r[i] != "" && Strip(r[i]) == r[i]
  {
    if |items| == 0 then []
    else
      var p := Strip(items[0]);
      assert Strip(p) == p by { StripIdempotent(items[0]); }
      if p != "" then [p] + NonEmptyItems(items[1..]) else NonEmptyItems(items[1..])
  }

  /** Splitting the script output (already trimmed) on `,`. */
  function SplitPhones(raw: string): (r: seq<string>)
    ensures raw == "" ==> r == []
    ensures forall i :: 0 <= i < |r| ==> r[i] != "" && Strip(r[i]) == r[i] && ',' !in r[i]
  {
    if raw == "" then []
    else
      var items := SplitOn(raw, ',');
      var r := NonEmptyItems(items);
      assert forall i :: 0 <= i < |r| ==> ',' !in r[i] by {
        NonEmptyItemsAvoid(items, ',');
      }
      r
  }

  lemma {:induction false} NonEmptyItemsAvoid(items: seq<string>, c: char)
    requires forall i :: 0 <= i < |items| ==> c !in items[i]
    ensures forall i :: 0 <= i < |NonEmptyItems(items)| ==> c !in NonEmptyItems(items)[i]
  {
    if |items| > 0 {
      NonEmptyItemsAvoid(items[1..], c);
      StripAvoids(items[0], c);
    }
  }

  /** A list of trimmed, non-empty, comma-free numbers, printed with `,`
      separators, reads back as the same list. */
  lemma SplitPhonesJoin(phones: seq<string>)
    requires |phones| >= 1
    requires forall i :: 0 <= i < |phones| ==> phones[i] != "" && Strip(phones[i]) == phones[i] && ',' !in phones[i]
    ensures SplitPhones(Join(",", phones)) == phones
  {
    SplitOnJoin(',', phones);
    JoinNonEmpty(phones);
    NonEmptyItemsKeeps(phones);
  }

  lemma JoinNonEmpty(phones: seq<string>)
    requires |phones| >= 1 && phones[0] != ""
    ensures Join(",", phones) != ""
  {
    if |phones| > 1 {
      assert Join(",", phones) == phones[0] + "," + Join(",", phones[1..]);
    }
  }

  lemma {:induction false} NonEmptyItemsKeeps(items: seq<string>)
    requires forall i :: 0 <= i < |items| ==> items[i] != "" && Strip(items[i]) == items[i]
    ensures NonEmptyItems(items) == items
  {
    if |items| > 0 {
      NonEmptyItemsKeeps(items[1..]);
    }
  }

  // ---------------------------------------------------------------------------
  // Normalisation
  // ---------------------------------------------------------------------------

  predicate PhoneChar(c: char) {
    IsDigit(c) || c == '+'
  }

  /** One number: drop everything but digits and `+`, then rewrite the
      Australian shapes. Unlike the validation used when adding a contact,
      a `614` prefix gets its `+` whatever the length. */
  function NormalisePhone(phone: string): (r: string)
    ensures forall i :: 0 <= i < |r| ==> PhoneChar(r[i])
    // Nothing is invented: the number is empty exactly when nothing was kept.
    ensures r == "" <==> Filter(phone, PhoneChar) == ""
    // The kept characters stay in order; at most the leading one is replaced
    // and at most two are added in front.
    ensures var clean := Filter(phone, PhoneChar);
            |clean| > 0 ==> EndsWith(r, clean[1..]) && |r| <= |clean| + 2
    // A number already written with `+` is only filtered.
    ensures StartsWith(Filter(phone, PhoneChar), "+") ==> r == Filter(phone, PhoneChar)
  {
    var clean := Filter(phone, PhoneChar);
    if StartsWith(clean, "04") && |clean| == 10 then
      assert clean[0] == clean[..2][0] == '0';
      "+61" + clean[1..]
    else if StartsWith(clean, "614") then
      assert clean[0] == clean[..3][0] == '6';
      "+" + clean
    else clean
  }

  /** The normalisation loop: each number normalised, empty results
      dropped, order kept. */
  function NormalisePhones(phones: seq<string>): (r: seq<string>)
    ensures |r| <= |phones|
    ensures forall i :: 0 <= i < |r| ==> r[i] != ""
    // Every non-empty normal form is kept, and nothing else appears.
    ensures forall j :: 0 <= j < |phones| && NormalisePhone(phones[j]) != "" ==> NormalisePhone(phones[j]) in r
    ensures forall x :: x in r ==> exists j :: 0 <= j < |phones| && x == NormalisePhone(phones[j])
  {
    if |phones| == 0 then []
    else
      var p := NormalisePhone(phones[0]);
      var rest := NormalisePhones(phones[1..]);
      assert forall j :: 1 <= j < |phones| ==> phones[j] == phones[1..][j - 1];
      assert forall x :: x in rest ==> exists j :: 0 <= j < |phones| && x == NormalisePhone(phones[j]) by {
        forall x | x in rest
          ensures exists j :: 0 <= j < |phones| && x == NormalisePhone(phones[j])
        {
          var k :| 0 <= k < |phones[1..]| && x == NormalisePhone(phones[1..][k]);
          assert x == NormalisePhone(phones[k + 1]);
        }
      }
      if p != "" then [p] + rest else rest
  }

  /** The loop handles the list piecewise, so results come out in input
      order. */
  lemma {:induction false} NormalisePhonesAppend(a: seq<string>, b: seq<string>)
    ensures NormalisePhones(a + b) == NormalisePhones(a) + NormalisePhones(b)
  {
    if |a| > 0 {
      assert (a + b)[0] == a[0];
      assert (a + b)[1..] == a[1..] + b;
      NormalisePhonesAppend(a[1..], b);
    } else {
      assert a + b == b;
    }
  }

  /** A number is dropped exactly when it holds no digit and no `+`;
      otherwise its normal form is kept. */
  lemma NormaliseSingle(phone: string)
    ensures NormalisePhones([phone]) == [] <==> Filter(phone, PhoneChar) == ""
    ensures NormalisePhones([phone]) == if NormalisePhone(phone) == "" then [] else [NormalisePhone(phone)]
  {
    assert [phone][1..] == [];
  }

  /** On the two Australian mobile shapes that contact validation accepts,
      discovery produces the same international number. */
  lemma AgreesWithValidation(phone: string)
    requires forall i :: 0 <= i < |Filter(phone, PhoneChar)| ==> IsDigit(Filter(phone, PhoneChar)[i])
    requires AddContact.NormaliseAu(Filter(phone, PhoneChar)).Some?
    ensures AddContact.NormaliseAu(Filter(phone, PhoneChar)) == Some(NormalisePhone(phone))
  {
  }

  /** A number in neither Australian shape is only filtered. */
  lemma OtherShapesFiltered(phone: string)
    requires !StartsWith(Filter(phone, PhoneChar), "04") && !StartsWith(Filter(phone, PhoneChar), "614")
    ensures NormalisePhone(phone) == Filter(phone, PhoneChar)
  {
  }

  /** Normalising an already normalised number changes nothing. */
  lemma NormalisePhoneIdempotent(phone: string)
    ensures NormalisePhone(NormalisePhone(phone)) == NormalisePhone(phone)
  {
    var r := NormalisePhone(phone);
    assert Filter(r, PhoneChar) == r;
    if |r| > 0 {
      var clean := Filter(phone, PhoneChar);
      if (StartsWith(clean, "04") && |clean| == 10) || StartsWith(clean, "614") {
        assert r[0] == '+';
        assert !StartsWith(r, "04") && !StartsWith(r, "614");
      }
    }
  }

  /** Both tools turn the local form of an Australian mobile into the same
      international number. */
  lemma LocalFormAgrees(rest: string)
    requires |rest| == 8 && forall i :: 0 <= i < |rest| ==> IsDigit(rest[i])
    ensures Some(NormalisePhone("04" + rest)) == AddContact.ValidatePhone(Some("04" + rest))
  {
    AddContact.AuLocalForm(rest);
    LocalFormDiscovered(rest);
  }

  lemma LocalFormDiscovered(rest: string)
    requires |rest| == 8 && forall i :: 0 <= i < |rest| ==> IsDigit(rest[i])
    ensures NormalisePhone("04" + rest) == "+614" + rest
  {
    var s := "04" + rest;
    assert Filter(s, PhoneChar) == s by {
      assert forall i :: 0 <= i < |s| ==> PhoneChar(s[i]);
    }
    assert s[..2] == "04";
    assert "+61" + s[1..] == "+614" + rest by {
      assert s[1..] == "4" + rest;
    }
  }

  /** A ten-character `04…` number, whatever else it holds, becomes
      `+61` followed by all but its leading `0`. */
  lemma Local04Rewritten(phone: string)
    requires StartsWith(Filter(phone, PhoneChar), "04") && |Filter(phone, PhoneChar)| == 10
    ensures NormalisePhone(phone) == "+61" + Filter(phone, PhoneChar)[1..]
  {
  }

  /** A `04…` number of any length other than ten is only filtered. */
  lemma WrongLength04Filtered(phone: string)
    requires StartsWith(Filter(phone, PhoneChar), "04") && |Filter(phone, PhoneChar)| != 10
    ensures NormalisePhone(phone) == Filter(phone, PhoneChar)
  {
  }

  /** A `614…` number of any length gets a `+` in front, so discovery
      accepts the short "614" … */
  lemma Prefix614(phone: string)
    requires StartsWith(Filter(phone, PhoneChar), "614")
    ensures NormalisePhone(phone) == "+" + Filter(phone, PhoneChar)
  {
    var clean := Filter(phone, PhoneChar);
    assert !StartsWith(clean, "04") by { assert clean[1] == clean[..3][1] == '1'; }
  }

  /** …which adding a contact rejects. */
  lemma Short614Rejected()
    ensures AddContact.ValidatePhone(Some("614")).None?
  {
    var s := "614";
    assert forall i :: 0 <= i < |s| ==> IsDigit(s[i]);
    AddContact.DigitsUntouched(s);
    assert !AddContact.NormaliseAu(s).Some?;
  }

  // ---------------------------------------------------------------------------
  // Result shape
  // ---------------------------------------------------------------------------

  /** What the address-book search returns when it finds the person. */
  datatype Discovered = Discovered(name: string, phones: seq<string>, emails: seq<string>)

  const SOURCE: string := "macos_contacts"
  const NOT_FOUND_MESSAGE: string := "Contact not found in macOS Contacts"
  const HINT_NOT_FOUND: string := "To find Messenger username, search Facebook friends list"
  const HINT_FOUND: string := "To find Messenger username, search Facebook friends list for this contact"

  /** The result object; absent keys are `None`. */
  datatype DiscoveryResult = DiscoveryResult(
    found: bool,
    source: Option<string>,
    message: Option<string>,
    name: Option<string>,
    phone: Option<string>,
    allPhones: Option<seq<string>>,
    email: Option<string>,
    allEmails: Option<seq<string>>,
    messengerHint: Option<string>)

  function First(xs: seq<string>): (r: Option<string>)
    ensures r.None? <==> |xs| == 0
    ensures r.Some? ==> r.value == xs[0]
  {
    if |xs| == 0 then None else Some(xs[0])
  }

  /** `format_discovery_result`. */
  function FormatDiscoveryResult(d: Option<Discovered>, hint: bool): (r: DiscoveryResult)
    ensures r.found <==> d.Some?
    ensures r.source.None? <==> d.None?
    ensures r.messengerHint.Some? <==> hint
    // The hint names "this contact" only when one was found.
    ensures hint ==> r.messengerHint == Some(if d.None? then HINT_NOT_FOUND else HINT_FOUND)
    ensures d.None? ==> && r.message == Some(NOT_FOUND_MESSAGE) && r.name.None?
                        && r.phone.None? && r.allPhones.None? && r.email.None? && r.allEmails.None?
    ensures d.Some? ==> && r.source == Some(SOURCE) && r.name == Some(d.value.name)
                        && r.phone == First(d.value.phones) && r.allPhones == Some(d.value.phones)
                        && r.email == First(d.value.emails) && r.allEmails == Some(d.value.emails)
                        && r.message.None?
  {
    match d
    case None =>
      DiscoveryResult(false, None, Some(NOT_FOUND_MESSAGE), None, None, None, None, None,
                      if hint then Some(HINT_NOT_FOUND) else None)
    case Some(x) =>
      DiscoveryResult(true, Some(SOURCE), None, Some(x.name), First(x.phones), Some(x.phones),
                      First(x.emails), Some(x.emails), if hint then Some(HINT_FOUND) else None)
  }

  /** The exit status of the script: 0 exactly when the person was found. */
  function ExitCode(r: DiscoveryResult): (code: int)
    ensures code == 0 <==> r.found
  {
    if r.found then 0 else 1
  }
}

=== FILE: exec_common.dfy ===
/**
  The command-execution scripts of the two Databricks plugins, which carry
  the same code for everything below: the language check of the execution
  context, the formatting of a command result, the exit-code rule, the
  terminal command states, and the line buffering of the interactive loop.
  The REST calls and polling are outside the model: a command result is a
  parameter, and so is the JSON/`repr` rendering of structured data.
 */
module ExecCommon {
  import opened Wrappers
  import opened Text
  import opened Numerals
  import opened Values

  // ---------------------------------------------------------------------------
  // Language check
  // ---------------------------------------------------------------------------

  const SUPPORTED_LANGUAGES: seq<string> := ["python", "sql", "scala", "r"]

  lemma LowerCharIdempotent(c: char)
    ensures LowerChar(LowerChar(c)) == LowerChar(c)
  {
  }

  lemma LowerIdempotent(s: string)
    ensures Lower(Lower(s)) == Lower(s)
  {
    forall i | 0 <= i < |s|
      ensures LowerChar(LowerChar(s[i])) == LowerChar(s[i])
    {
      LowerCharIdempotent(s[i]);
    }
  }

  /** The lower-cased language, or the `ValueError` message. */
  function CheckLanguage(language: string): (r: Result<string, string>)
    ensures r.Ok? <==> Lower(language) in SUPPORTED_LANGUAGES
    ensures r.Ok? ==> r.value == Lower(language)
    ensures r.Err? ==> r.error == "Unsupported language: " + language + ". Supported: python, sql, scala, r"
  {
    var l := Lower(language);
    if l in SUPPORTED_LANGUAGES then Ok(l)
    else Err("Unsupported language: " + language + ". Supported: python, sql, scala, r")
  }

  /** An accepted language is accepted again unchanged, and the check
      ignores ASCII case. */
  lemma CheckLanguageStable(language: string)
    requires CheckLanguage(language).Ok?
    ensures CheckLanguage(CheckLanguage(language).value) == CheckLanguage(language)
  {
    LowerIdempotent(language);
  }

  // ---------------------------------------------------------------------------
  // Command results
  // ---------------------------------------------------------------------------

  /** A schema column; the name may be missing. */
  datatype Column = Column(name: Option<string>)

  /** The `data` field of the result: a scalar, a list of rows, or absent. */
  datatype Payload = Scalar(v: Value) | Rows(rows: seq<seq<Value>>) | Absent

  /** The parts of a command-status response the formatter reads; `None`
      stands for a missing key. */
  datatype CommandResult = CommandResult(
    status: Option<string>,
    resultType: Option<string>,
    summary: Option<string>,
    cause: Option<string>,
    schema: seq<Column>,
    data: Payload)

  /** The library renderings the formatter relies on. */
  datatype Renderers = Renderers(
    json: (seq<Column>, seq<seq<Value>>) -> string,
    repr: seq<seq<Value>> -> string)

  predicate IsError(r: CommandResult) {
    r.status == Some("Error") || r.resultType == Some("error")
  }

  /** The exit status of running a command: 1 exactly for an error result
      or an `Error` status. */
  function ExitCode(r: CommandResult): (code: int)
    ensures code == 1 <==> IsError(r)
    ensures code == 0 <==> !IsError(r)
  {
    if r.resultType == Some("error") || r.status == Some("Error") then 1 else 0
  }

  /** Running a file that does not exist also exits with 1. */
  function FileExitCode(r: Option<CommandResult>): (code: int)
    ensures r.None? ==> code == 1
    ensures r.Some? ==> code == ExitCode(r.value)
  {
    match r
    case None => 1
    case Some(x) => ExitCode(x)
  }

  /** The states at which polling stops. */
  predicate Terminal(status: string) {
    status in ["Finished", "Error", "Cancelled"]
  }

  lemma TerminalStates(status: string)
    ensures Terminal(status) <==> status == "Finished" || status == "Error" || status == "Cancelled"
    ensures !Terminal("Running") && !Terminal("Queued") && !Terminal("")
  {
  }

  // ---------------------------------------------------------------------------
  // Formatting
  // ---------------------------------------------------------------------------

  const NO_OUTPUT: string := "(No output)"
  const IMAGE_NOTE: string := "[Image output - not displayable in terminal]"
  const ROW_CAP: nat := 100

  function ErrorText(r: CommandResult): string {
    var summary := r.summary.GetOr("Unknown error");
    var cause := r.cause.GetOr("");
    if cause != "" then "ERROR: " + summary + "\n" + cause else "ERROR: " + summary
  }

  /** `col.get("name", f"col{i}")`. */
  function Headers(schema: seq<Column>): (hs: seq<string>)
    ensures |hs| == |schema|
    ensures forall i :: 0 <= i < |schema| ==> hs[i] == schema[i].name.GetOr("col" + NatToString(i))
  {
    seq(|schema|, i requires 0 <= i < |schema| => schema[i].name.GetOr("col" + NatToString(i)))
  }

  /** A rendered cell: `None` becomes the format's placeholder (empty in
      CSV, "NULL" in text), anything else its `str()`. */
  function Cell(v: Value, none: string): (r: string)
    ensures v.VNone? ==> r == none
    ensures !v.VNone? ==> r == Render(v)
  {
    if v.VNone? then none else Render(v)
  }

  function CsvRow(row: seq<Value>): string {
    Join(",", seq(|row|, j requires 0 <= j < |row| => Cell(row[j], "")))
  }

  function TextRow(row: seq<Value>): string {
    Join("\t", seq(|row|, j requires 0 <= j < |row| => Cell(row[j], "NULL")))
  }

  function TableRows(p: Payload): seq<seq<Value>> {
    if p.Rows? then p.rows else []
  }

  /** The CSV rendering of a table: header and one line per row, with no
      quoting at all. */
  function CsvTable(schema: seq<Column>, rows: seq<seq<Value>>): (ls: seq<string>)
    ensures |ls| == |rows| + 1 && ls[0] == Join(",", Headers(schema))
    ensures forall i :: 0 <= i < |rows| ==> ls[i + 1] == CsvRow(rows[i])
  {
    [Join(",", Headers(schema))] + seq(|rows|, i requires 0 <= i < |rows| => CsvRow(rows[i]))
  }

  /** The text rendering of a table: header, a 60-dash rule, at most the
      first hundred rows, and a count of the rows left out. */
  function TextTable(schema: seq<Column>, rows: seq<seq<Value>>): (ls: seq<string>)
    ensures |ls| == 2 + (if |rows| > ROW_CAP then ROW_CAP + 1 else |rows|)
    ensures ls[0] == Join("\t", Headers(schema)) && ls[1] == Repeat('-', 60)
    ensures forall i :: 0 <= i < |rows| && i < ROW_CAP ==> ls[i + 2] == TextRow(rows[i])
    ensures |rows| > ROW_CAP ==> ls[|ls| - 1] == "... (" + NatToString(|rows| - ROW_CAP) + " more rows)"
  {
    var shown := Prefix(rows, ROW_CAP);
    [Join("\t", Headers(schema)), Repeat('-', 60)]
      + seq(|shown|, i requires 0 <= i < |shown| => TextRow(shown[i]))
      + (if |rows| > ROW_CAP then ["... (" + NatToString(|rows| - ROW_CAP) + " more rows)"] else [])
  }

  /** What a text-like result contributes: its data when truthy. */
  function DataParts(p: Payload, ren: Renderers): seq<string> {
    match p
    case Scalar(v) => if Truthy(v) then [Render(v)] else []
    case Rows(rows) => if |rows| > 0 then [ren.repr(rows)] else []
    case Absent => []
  }

  /** The output parts of a successful result in the text format. */
  function OutputParts(r: CommandResult, ren: Renderers): seq<string> {
    if r.resultType == Some("text") then DataParts(r.data, ren)
    else if r.resultType == Some("table") then
      var rows := TableRows(r.data);
      if |r.schema| > 0 && |rows| > 0 then TextTable(r.schema, rows) else []
    else if r.resultType == Some("images") then [IMAGE_NOTE]
    else DataParts(r.data, ren)
  }

  /** `OutputFormatter.format`. */
  function Format(r: CommandResult, format: string, ren: Renderers): (out: string)
    // Errors win over every format.
    ensures IsError(r) ==> out == ErrorText(r)
    // Tables in JSON or CSV bypass the text parts.
    ensures !IsError(r) && r.resultType == Some("table") && format == "json" ==>
              out == ren.json(r.schema, TableRows(r.data))
    ensures !IsError(r) && r.resultType == Some("table") && format == "csv" ==>
              out == Join("\n", CsvTable(r.schema, TableRows(r.data)))
    // Otherwise the parts, or a fixed note when there are none.
    ensures !IsError(r) && !(r.resultType == Some("table") && (format == "json" || format == "csv")) ==>
              out == if |OutputParts(r, ren)| == 0 then NO_OUTPUT else Join("\n", OutputParts(r, ren))
  {
    if r.status == Some("Error") || r.resultType == Some("error") then ErrorText(r)
    else if r.resultType == Some("table") && format == "json" then ren.json(r.schema, TableRows(r.data))
    else if r.resultType == Some("table") && format == "csv" then Join("\n", CsvTable(r.schema, TableRows(r.data)))
    else
      var parts := OutputParts(r, ren);
      if |parts| == 0 then NO_OUTPUT else Join("\n", parts)
  }

  /** A failing command always prints its error line first. */
  lemma FailureReported(r: CommandResult, format: string, ren: Renderers)
    requires ExitCode(r) == 1
    ensures StartsWith(Format(r, format, ren), "ERROR: ")
  {
    var summary := r.summary.GetOr("Unknown error");
    var cause := r.cause.GetOr("");
    var e := "ERROR: " + summary;
    if cause != "" {
      assert ErrorText(r) == e + ("\n" + cause);
    }
  }

  /** The error text is the summary line, then the cause line when there is
      a cause. */
  lemma ErrorLines(r: CommandResult)
    requires IsError(r)
    requires '\n' !in r.summary.GetOr("Unknown error") && '\n' !in r.cause.GetOr("")
    ensures var lines := SplitOn(ErrorText(r), '\n');
            && lines[0] == "ERROR: " + r.summary.GetOr("Unknown error")
            && |lines| == if r.cause.GetOr("") != "" then 2 else 1
  {
    var first := "ERROR: " + r.summary.GetOr("Unknown error");
    var cause := r.cause.GetOr("");
    if cause != "" {
      assert ErrorText(r) == Join("\n", [first, cause]);
      SplitOnJoin('\n', [first, cause]);
    } else {
      assert ErrorText(r) == Join("\n", [first]);
      SplitOnJoin('\n', [first]);
    }
  }

  /** A text result with no data prints the fixed note. */
  lemma EmptyTextResult(r: CommandResult, format: string, ren: Renderers)
    requires !IsError(r) && r.resultType == Some("text")
    requires r.data.Absent? || (r.data.Scalar? && !Truthy(r.data.v))
    ensures Format(r, format, ren) == NO_OUTPUT
  {
  }

  /** A text table shows at most the first hundred rows. */
  lemma TextTableCapped(schema: seq<Column>, rows: seq<seq<Value>>)
    ensures |TextTable(schema, rows)| <= ROW_CAP + 3
    ensures |rows| <= ROW_CAP ==> |TextTable(schema, rows)| == |rows| + 2
  {
  }

  /** `None` cells differ between the two renderings: empty in CSV, "NULL"
      in text. */
  lemma NullCells()
    ensures CsvRow([VNone, VStr("a")]) == ",a"
    ensures TextRow([VNone, VStr("a")]) == "NULL\ta"
  {
    assert Render(VStr("a")) == "a";
    assert seq(2, j requires 0 <= j < 2 => Cell([VNone, VStr("a")][j], "")) == ["", "a"];
    assert Join(",", ["", "a"]) == "" + "," + "a";
    assert seq(2, j requires 0 <= j < 2 => Cell([VNone, VStr("a")][j], "NULL")) == ["NULL", "a"];
    assert Join("\t", ["NULL", "a"]) == "NULL" + "\t" + "a";
  }

  // ---------------------------------------------------------------------------
  // Interactive loop
  // ---------------------------------------------------------------------------

  /** `exit` or `quit`, in any ASCII case. */
  predicate IsExitWord(line: string) {
    Lower(line) == "exit" || Lower(line) == "quit"
  }

  /** A first line ending in `:`, `\` or `,` opens a multi-line block. */
  predicate Continues(line: string) {
    EndsWith(line, ":") || EndsWith(line, "\\") || EndsWith(line, ",")
  }

  /** The rest of a block: lines up to the first empty one, which is
      dropped; `None` when the input ends first. */
  function Collect(input: seq<string>): (r: Option<(seq<string>, seq<string>)>)
    ensures r.Some? ==> |r.value.1| < |input|
    ensures r.Some? ==> forall i :: 0 <= i < |r.value.0| ==> r.value.0[i] != ""
    ensures r.Some? ==> input == r.value.0 + [""] + r.value.1
    ensures r.None? ==> forall i :: 0 <= i < |input| ==> input[i] != ""
  {
    if |input| == 0 then None
    else if input[0] == "" then
      assert input == [] + [""] + input[1..];
      Some(([], input[1..]))
    else
      match Collect(input[1..])
      case None => None
      case Some((more, rest)) =>
        assert input == [input[0]] + more + [""] + rest;
        Some(([input[0]] + more, rest))
  }

  /** How a session ends: an exit word, or the end of the input. */
  datatype Ending = ExitWord | EndOfInput

  /** The commands a session runs, in order, and how it ends. */
  datatype Session = Session(commands: seq<string>, ending: Ending)

  /** `run_repl` over the lines typed. An exit word ends the session only
      at the start of a command; a first line that does not continue runs
      alone; a block runs when an empty line closes it; a blank command is
      skipped. */
  function Repl(input: seq<string>): (s: Session)
    ensures forall i :: 0 <= i < |s.commands| ==> !IsBlank(s.commands[i])
    decreases |input|
  {
    if |input| == 0 then Session([], EndOfInput)
    else
      var first := input[0];
      if IsExitWord(first) then Session([], ExitWord)
      else if !Continues(first) then
        Then(first, Repl(input[1..]))
      else
        match Collect(input[1..])
        case None => Session([], EndOfInput)
        case Some((more, rest)) => Then(Join("\n", [first] + more), Repl(rest))
  }

  /** Run a command, unless it is blank, before the rest of the session. */
  function Then(command: string, rest: Session): (s: Session)
    requires forall i :: 0 <= i < |rest.commands| ==> !IsBlank(rest.commands[i])
    ensures forall i :: 0 <= i < |s.commands| ==> !IsBlank(s.commands[i])
    ensures s.ending == rest.ending
    ensures IsBlank(command) ==> s == rest
    ensures !IsBlank(command) ==> s.commands == [command] + rest.commands
  {
    if IsBlank(command) then rest else Session([command] + rest.commands, rest.ending)
  }

  /** An exit word at the start of a command ends the session at once. */
  lemma ExitAtStart(word: string, rest: seq<string>)
    requires IsExitWord(word)
    ensures Repl([word] + rest) == Session([], ExitWord)
  {
  }

  /** A non-blank line that does not continue runs on its own. */
  lemma SingleLine(line: string, rest: seq<string>)
    requires !IsExitWord(line) && !Continues(line) && !IsBlank(line)
    ensures Repl([line] + rest).commands == [line] + Repl(rest).commands
  {
    assert ([line] + rest)[1..] == rest;
  }

  /** A block: the opening line and the following non-empty lines, up to
      an empty line, run as one command joined by line breaks. An exit
      word inside the block is part of the command. */
  lemma Block(first: string, body: seq<string>, rest: seq<string>)
    requires !IsExitWord(first) && Continues(first)
    requires forall i :: 0 <= i < |body| ==> body[i] != ""
    ensures Repl([first] + body + [""] + rest).commands == [Join("\n", [first] + body)] + Repl(rest).commands
  {
    var input := [first] + body + [""] + rest;
    assert input[1..] == body + [""] + rest;
    CollectBlock(body, rest);
    var cmd := Join("\n", [first] + body);
    assert !IsBlank(cmd) by {
      assert first[|first| - 1] in ":\\,";
      assert cmd[..|first|] == first by {
        if |body| > 0 {
          assert cmd == first + "\n" + Join("\n", body);
        }
      }
      assert cmd[|first| - 1] == first[|first| - 1];
    }
  }

  lemma {:induction false} CollectBlock(body: seq<string>, rest: seq<string>)
    requires forall i :: 0 <= i < |body| ==> body[i] != ""
    ensures Collect(body + [""] + rest) == Some((body, rest))
    decreases |body|
  {
    var input := body + [""] + rest;
    if |body| == 0 {
      assert input == [""] + rest;
      assert input[1..] == rest;
    } else {
      assert input[0] == body[0];
      assert input[1..] == body[1..] + [""] + rest;
      CollectBlock(body[1..], rest);
      assert [body[0]] + body[1..] == body;
    }
  }

  /** The input ending inside a block drops the block. */
  lemma UnclosedBlock(first: string, body: seq<string>)
    requires !IsExitWord(first) && Continues(first)
    requires forall i :: 0 <= i < |body| ==> body[i] != ""
    ensures Repl([first] + body) == Session([], EndOfInput)
  {
    assert ([first] + body)[1..] == body;
    CollectUnclosed(body);
  }

  lemma {:induction false} CollectUnclosed(body: seq<string>)
    requires forall i :: 0 <= i < |body| ==> body[i] != ""
    ensures Collect(body) == None
    decreases |body|
  {
    if |body| > 0 {
      CollectUnclosed(body[1..]);
    }
  }
}

=== FILE: exec_config.dfy ===
/**
  Where the two command-execution scripts take the workspace host, the
  token and the cluster from, and the check that all three were found.
  The executor plugin's `DatabricksConfig` tries the command line, then the
  environment, then `~/.databrickscfg`; the Databricks plugin's
  `ExecutorConfig` tries the command line, then its profile list. The
  environment, the parsed file and the profile list are parameters.
 */
module ExecConfig {
  import opened Wrappers
  import opened Text
  import opened Ini
  import opened DbConfig

  /** A setting is usable when present and non-empty. */
  predicate Set(v: Option<string>) {
    v.Some? && v.value != ""
  }

  /** `a or b` on optional strings. */
  function OrElse(a: Option<string>, b: Option<string>): (r: Option<string>)
    ensures Set(a) ==> r == a
    ensures !Set(a) ==> r == b
  {
    if Set(a) then a else b
  }

  /** The three settings and the profile they were looked up under. */
  datatype Settings = Settings(profile: string, host: Option<string>, token: Option<string>, clusterId: Option<string>)

  // ---------------------------------------------------------------------------
  // `DatabricksConfig`
  // ---------------------------------------------------------------------------

  /** The settings after the command line and the environment. */
  function FromEnvironment(host: Option<string>, token: Option<string>, clusterId: Option<string>,
                           profile: Option<string>, env: map<string, string>): (s: Settings)
    ensures Set(profile) ==> s.profile == profile.value
    ensures !Set(profile) ==> s.profile == if "DATABRICKS_PROFILE" in env then env["DATABRICKS_PROFILE"] else DEFAULT
  {
    Settings(
      if Set(profile) then profile.value
      else if "DATABRICKS_PROFILE" in env then env["DATABRICKS_PROFILE"] else DEFAULT,
      OrElse(host, Lookup(env, "DATABRICKS_HOST")),
      OrElse(token, Lookup(env, "DATABRICKS_TOKEN")),
      OrElse(clusterId, Lookup(env, "DATABRICKS_CLUSTER_ID")))
  }

  function Lookup(env: map<string, string>, key: string): (v: Option<string>)
    ensures v.Some? <==> key in env
    ensures v.Some? ==> v.value == env[key]
  {
    if key in env then Some(env[key]) else None
  }

  /** `section.get(key, "").strip()`. */
  function FileValue(c: Config, section: string, key: string): string
    requires InConfig(c, section)
  {
    Strip(GetOption(c, section, key).GetOr(""))
  }

  /** `_load_from_config_file`: an unknown profile falls back to `DEFAULT`,
      which `configparser` always reports present; the missing settings are
      then read from the section. */
  function FromFile(s: Settings, file: Option<Config>): (r: Settings)
    ensures file.None? ==> r == s
    ensures Set(s.host) ==> r.host == s.host
    ensures Set(s.token) ==> r.token == s.token
    ensures Set(s.clusterId) ==> r.clusterId == s.clusterId
    ensures file.Some? ==> r.profile == if InConfig(file.value, s.profile) then s.profile else DEFAULT
  {
    match file
    case None => s
    case Some(c) =>
      var p := if InConfig(c, s.profile) then s.profile else DEFAULT;
      Settings(
        p,
        if Set(s.host) then s.host else Some(FileValue(c, p, "host")),
        if Set(s.token) then s.token else Some(FileValue(c, p, "token")),
        if Set(s.clusterId) then s.clusterId else Some(FileValue(c, p, "cluster_id")))
  }

  /** `DatabricksConfig(...)`: the file is read only while the host or the
      token is still missing. */
  function Resolve(host: Option<string>, token: Option<string>, clusterId: Option<string>,
                   profile: Option<string>, env: map<string, string>, file: Option<Config>): (r: Settings)
    ensures var e := FromEnvironment(host, token, clusterId, profile, env);
            r == if Set(e.host) && Set(e.token) then e else FromFile(e, file)
  {
    var e := FromEnvironment(host, token, clusterId, profile, env);
    if !Set(e.host) || !Set(e.token) then FromFile(e, file) else e
  }

  /** The command line beats the environment, which beats the file. */
  lemma ResolvePrecedence(host: Option<string>, token: Option<string>, clusterId: Option<string>,
                          profile: Option<string>, env: map<string, string>, file: Option<Config>)
    ensures var r := Resolve(host, token, clusterId, profile, env, file);
            && (Set(host) ==> r.host == host)
            && (!Set(host) && "DATABRICKS_HOST" in env && env["DATABRICKS_HOST"] != "" ==> r.host == Some(env["DATABRICKS_HOST"]))
            && (Set(token) ==> r.token == token)
            && (!Set(token) && "DATABRICKS_TOKEN" in env && env["DATABRICKS_TOKEN"] != "" ==> r.token == Some(env["DATABRICKS_TOKEN"]))
            && (Set(clusterId) ==> r.clusterId == clusterId)
  {
  }

  /** Once the host and token are known without the file, the file's
      cluster is never consulted, so a cluster that only the file names
      stays missing. */
  lemma FileClusterIgnored(host: string, token: string, c: Config)
    requires host != "" && token != ""
    requires InConfig(c, DEFAULT) && FileValue(c, DEFAULT, "cluster_id") != ""
    ensures Resolve(Some(host), Some(token), None, None, map[], Some(c)).clusterId == None
    ensures Resolve(None, None, None, None, map[], Some(c)).clusterId == Some(FileValue(c, DEFAULT, "cluster_id"))
  {
  }

  /** A profile missing from the file resolves against `DEFAULT`. */
  lemma UnknownProfileUsesDefault(profile: string, c: Config)
    requires profile != "" && !HasSection(c, profile) && profile != DEFAULT
    ensures var r := Resolve(None, None, None, Some(profile), map[], Some(c));
            r.profile == DEFAULT && r.host == Some(FileValue(c, DEFAULT, "host"))
  {
  }

  // ---------------------------------------------------------------------------
  // `validate`
  // ---------------------------------------------------------------------------

  /** The descriptions of the missing settings, in the order host, token,
      cluster, each taken from `notes`. */
  function Missing(s: Settings, notes: seq<string>): (m: seq<string>)
    requires |notes| == 3
    ensures |m| <= 3
    ensures |m| == 0 <==> Set(s.host) && Set(s.token) && Set(s.clusterId)
    ensures !Set(s.host) ==> m[0] == notes[0]
    ensures notes[0] != notes[1] && notes[0] != notes[2] && notes[1] != notes[2] ==>
              && (notes[0] in m <==> !Set(s.host))
              && (notes[1] in m <==> !Set(s.token))
              && (notes[2] in m <==> !Set(s.clusterId))
  {
    (if Set(s.host) then [] else [notes[0]])
      + (if Set(s.token) then [] else [notes[1]])
      + (if Set(s.clusterId) then [] else [notes[2]])
  }

  const EXEC_NOTES: seq<string> := [
    "host (DATABRICKS_HOST or --host)",
    "token (DATABRICKS_TOKEN or --token)",
    "cluster_id (DATABRICKS_CLUSTER_ID or --cluster-id)"]

  const PROFILE_NOTES: seq<string> := [
    "host (configure in ~/.databrickscfg or use --host)",
    "token (configure in ~/.databrickscfg or use --token)",
    "cluster_id (configure in ~/.databrickscfg or use --cluster-id)"]

  /** `DatabricksConfig.validate`: the `ValueError` message, if any. */
  function Validate(s: Settings): (r: Option<string>)
    ensures r.None? <==> Set(s.host) && Set(s.token) && Set(s.clusterId)
    ensures r.Some? ==> r.value == "Missing required configuration: " + Join(", ", Missing(s, EXEC_NOTES))
                                   + "\nProvide via CLI arguments, environment variables, or ~/.databrickscfg"
  {
    var m := Missing(s, EXEC_NOTES);
    if |m| == 0 then None
    else Some("Missing required configuration: " + Join(", ", m)
              + "\nProvide via CLI arguments, environment variables, or ~/.databrickscfg")
  }

  /** A missing host is always named first. */
  lemma MissingHostFirst(s: Settings, notes: seq<string>)
    requires |notes| == 3 && !Set(s.host)
    ensures StartsWith(Join(", ", Missing(s, notes)), notes[0])
  {
    var m := Missing(s, notes);
    if |m| > 1 {
      assert Join(", ", m) == notes[0] + (", " + Join(", ", m[1..]));
    }
  }

  // ---------------------------------------------------------------------------
  // `ExecutorConfig`
  // ---------------------------------------------------------------------------

  /** The first profile of that name, as a dictionary lookup. */
  function FindProfile(ps: Profiles, name: string): (r: Option<ProfileData>)
    ensures r.Some? <==> name in Firsts(ps)
    ensures r.Some? ==> exists i :: 0 <= i < |ps| && ps[i] == (name, r.value)
  {
    if |ps| == 0 then None
    else if ps[0].0 == name then
      assert Firsts(ps)[0] == name;
      Some(ps[0].1)
    else
      var r := FindProfile(ps[1..], name);
      assert Firsts(ps) == [ps[0].0] + Firsts(ps[1..]);
      if r.Some? then
        var i :| 0 <= i < |ps[1..]| && ps[1..][i] == (name, r.value);
        assert ps[i + 1] == (name, r.value);
        r
      else r
  }

  /** `host.rstrip('/')`: drops every trailing slash and nothing else. */
  function TrimSlashes(h: string): (r: string)
    ensures |r| <= |h| && r == h[..|r|]
    ensures |r| > 0 ==> r[|r| - 1] != '/'
    ensures forall i :: |r| <= i < |h| ==> h[i] == '/'
    decreases |h|
  {
    if |h| > 0 && h[|h| - 1] == '/' then TrimSlashes(h[..|h| - 1]) else h
  }

  /** Trimming twice trims no more. */
  lemma TrimSlashesIdempotent(h: string)
    ensures TrimSlashes(TrimSlashes(h)) == TrimSlashes(h)
  {
  }

  /** `ExecutorConfig(...)`: the profile named, or the default profile; the
      missing settings come from that profile when it is listed; a present
      host loses its trailing slashes. */
  function ResolveExecutor(profile: Option<string>, defaultProfile: string, host: Option<string>,
                           token: Option<string>, clusterId: Option<string>, ps: Profiles): (r: Settings)
    ensures r.profile == if Set(profile) then profile.value else defaultProfile
    ensures Set(host) ==> r.host == Some(TrimSlashes(host.value))
    ensures Set(token) ==> r.token == token
    ensures Set(clusterId) ==> r.clusterId == clusterId
    ensures r.profile !in Firsts(ps) ==> r.token == token && r.clusterId == clusterId
  {
    var p := if Set(profile) then profile.value else defaultProfile;
    var d := FindProfile(ps, p);
    var h := if d.Some? then OrElse(host, d.value.host) else host;
    var t := if d.Some? then OrElse(token, d.value.token) else token;
    var k := if d.Some? then OrElse(clusterId, d.value.clusterId) else clusterId;
    Settings(p, if Set(h) then Some(TrimSlashes(h.value)) else h, t, k)
  }

  /** A listed profile fills every missing setting from its own entry. */
  lemma ExecutorFillsFromProfile(p: string, ps: Profiles)
    requires p != "" && p in Firsts(ps)
    ensures var r := ResolveExecutor(Some(p), DEFAULT, None, None, None, ps);
            exists i :: 0 <= i < |ps| && ps[i].0 == p && r.token == ps[i].1.token && r.clusterId == ps[i].1.clusterId
                        && r.host == (if Set(ps[i].1.host) then Some(TrimSlashes(ps[i].1.host.value)) else ps[i].1.host)
  {
    var d := FindProfile(ps, p);
    var i :| 0 <= i < |ps| && ps[i] == (p, d.value);
  }

  /** `ExecutorConfig.validate`: the message names the profile. */
  function ValidateExecutor(s: Settings): (r: Option<string>)
    ensures r.None? <==> Set(s.host) && Set(s.token) && Set(s.clusterId)
    ensures r.Some? ==> r.value == "Missing required configuration: " + Join(", ", Missing(s, PROFILE_NOTES))
                                   + "\nConfigure via ~/.databrickscfg profile [" + s.profile + "] or CLI arguments"
  {
    var m := Missing(s, PROFILE_NOTES);
    if |m| == 0 then None
    else Some("Missing required configuration: " + Join(", ", m)
              + "\nConfigure via ~/.databrickscfg profile [" + s.profile + "] or CLI arguments")
  }

  /** A resolved host never ends in a slash. */
  lemma ExecutorHostTrimmed(profile: Option<string>, defaultProfile: string, host: Option<string>,
                            token: Option<string>, clusterId: Option<string>, ps: Profiles)
    ensures var r := ResolveExecutor(profile, defaultProfile, host, token, clusterId, ps);
            Set(r.host) ==> r.host.value[|r.host.value| - 1] != '/'
  {
  }
}

=== FILE: imessage.dfy ===
/**
  The read side of the iMessage platform: resolving a contact name to an
  iMessage address, selecting the messages of one conversation from the
  message store, and rendering them as a thread.

  The message store (`chat.db`) is SQLite; its query is modelled by its
  result: the message rows of the store in the order `ORDER BY m.date DESC`
  gives them, together with the handle id and the raw date the `WHERE`
  clause tests.
 */
module IMessage {
  import opened Wrappers
  import opened Text
  import opened Numerals
  import AttributedBody

  // ---------------------------------------------------------------------------
  // Contact resolution
  // ---------------------------------------------------------------------------

  /** A contacts-directory entry as resolution reads it. `name` is absent
      when the entry has no `name` key; an absent or empty iMessage phone or
      email is "". */
  datatype Contact = Contact(
    name: Option<string>,
    nicknames: seq<string>,
    imessagePhone: string,
    imessageEmail: string)

  /** `imessage.get("phone") or imessage.get("email")`. */
  function Address(c: Contact): string {
    if c.imessagePhone != "" then c.imessagePhone else c.imessageEmail
  }

  /** An identifier used as an address without lookup: it starts with `+`
      or contains `@`. */
  predicate LooksLikeAddress(id: string) {
    StartsWith(id, "+") || '@' in id
  }

  /** The name compared against the identifier: "" when the key is absent. */
  function NameKey(c: Contact): string {
    c.name.GetOr("")
  }

  predicate NameMatches(id: string, c: Contact) {
    Lower(id) == Lower(NameKey(c))
  }

  predicate NicknameMatches(id: string, c: Contact) {
    exists j :: 0 <= j < |c.nicknames| && Lower(id) == Lower(c.nicknames[j])
  }

  /** A contact that settles the lookup: it matches by name or nickname and
      has an iMessage address. */
  predicate Answers(id: string, c: Contact) {
    Address(c) != "" && (NameMatches(id, c) || NicknameMatches(id, c))
  }

  /** The first nickname of `c` that matches `id`. */
  function FirstMatchingNickname(id: string, nicks: seq<string>): (r: string)
    requires exists j :: 0 <= j < |nicks| && Lower(id) == Lower(nicks[j])
    ensures Lower(id) == Lower(r)
    ensures exists j :: 0 <= j < |nicks| && nicks[j] == r
                       && forall j' :: 0 <= j' < j ==> Lower(id) != Lower(nicks[j'])
  {
    if Lower(id) == Lower(nicks[0]) then nicks[0]
    else
      var r := FirstMatchingNickname(id, nicks[1..]);
      assert exists j :: 0 < j < |nicks| && nicks[j] == r
                         && forall j' :: 0 <= j' < j ==> Lower(id) != Lower(nicks[j']) by {
        var j :| 0 <= j < |nicks| - 1 && nicks[1..][j] == r
                 && forall j' :: 0 <= j' < j ==> Lower(id) != Lower(nicks[1..][j']);
        assert forall j' :: 0 <= j' < j + 1 ==> Lower(id) != Lower(nicks[j']) by {
          forall j' | 0 <= j' < j + 1 ensures Lower(id) != Lower(nicks[j']) {
            if j' > 0 {
              assert nicks[j'] == nicks[1..][j' - 1];
            }
          }
        }
        assert nicks[j + 1] == nicks[1..][j];
      }
      r
  }

  /** The display name of an answering contact: its name on a name match;
      on a nickname match its name, or the nickname when it has none. */
  function DisplayName(id: string, c: Contact): string
    requires Answers(id, c)
  {
    if NameMatches(id, c) then NameKey(c)
    else c.name.GetOr(FirstMatchingNickname(id, c.nicknames))
  }

  /** The first answering contact at or after `k`. */
  function FirstAnswering(id: string, contacts: seq<Contact>, k: nat): (r: Option<nat>)
    decreases |contacts| - k
    ensures r.Some? ==> k <= r.value < |contacts| && Answers(id, contacts[r.value])
    ensures r.Some? ==> forall j :: k <= j < r.value ==> !Answers(id, contacts[j])
    ensures r.None? ==> forall j :: k <= j < |contacts| ==> !Answers(id, contacts[j])
  {
    if k >= |contacts| then None
    else if Answers(id, contacts[k]) then Some(k)
    else FirstAnswering(id, contacts, k + 1)
  }

  /** `resolve_contact`: (display name, iMessage address). */
  function ResolveContact(id: string, contacts: seq<Contact>): (r: (string, string))
    // An address-shaped identifier passes through untouched.
    ensures LooksLikeAddress(id) ==> r == (id, id)
    // Otherwise the first answering contact decides, whatever later
    // contacts match.
    ensures !LooksLikeAddress(id) ==>
              forall i :: 0 <= i < |contacts| && Answers(id, contacts[i])
                          && (forall j :: 0 <= j < i ==> !Answers(id, contacts[j])) ==>
                r == (DisplayName(id, contacts[i]), Address(contacts[i]))
    // With no answering contact the identifier is returned as is.
    ensures (forall i :: 0 <= i < |contacts| ==> !Answers(id, contacts[i])) ==> r == (id, id)
    // A resolved address is never empty unless the identifier was.
    ensures r.1 == "" ==> id == ""
  {
    if LooksLikeAddress(id) then (id, id)
    else match FirstAnswering(id, contacts, 0)
      case Some(i) =>
        assert forall i' :: (0 <= i' < |contacts| && Answers(id, contacts[i'])
                             && (forall j :: 0 <= j < i' ==> !Answers(id, contacts[j]))) ==> i' == i;
        (DisplayName(id, contacts[i]), Address(contacts[i]))
      case None => (id, id)
  }

  /** Each contact is tried by name, then by its own nicknames, before the
      next contact is looked at: a nickname of an earlier contact wins over
      the exact name of a later one. */
  lemma EarlierNicknameBeatsLaterName(id: string, first: Contact, second: Contact)
    requires !LooksLikeAddress(id)
    requires Address(first) != "" && NicknameMatches(id, first)
    requires Address(second) != "" && NameMatches(id, second)
    ensures ResolveContact(id, [first, second]).1 == Address(first)
  {
    assert Answers(id, [first, second][0]);
  }

  // ---------------------------------------------------------------------------
  // Message selection
  // ---------------------------------------------------------------------------

  /** A row of the message query. `text` is the `text` column (NULL is
      `None`), `body` the `attributedBody` blob, `date` the formatted local
      date SQLite produces, `rawDate` the Apple-epoch nanoseconds and
      `handle` the joined handle id. */
  datatype Row = Row(
    text: Option<string>,
    body: Option<seq<AttributedBody.Byte>>,
    fromMe: bool,
    date: string,
    rawDate: int,
    handle: string)

  datatype Message = Message(text: string, fromMe: bool, date: string, contact: string)

  /** The `WHERE` clause: the conversation's handle and, when a valid
      `since` date was given, no earlier than its timestamp. */
  predicate InQuery(row: Row, contactId: string, since: Option<int>) {
    row.handle == contactId && (since.None? || row.rawDate >= since.value)
  }

  /** The rows the `WHERE` clause keeps, in their order. */
  function Selected(rows: seq<Row>, contactId: string, since: Option<int>): (r: seq<Row>)
    ensures |r| <= |rows|
    ensures forall row :: row in r <==> row in rows && InQuery(row, contactId, since)
  {
    if |rows| == 0 then []
    else if InQuery(rows[0], contactId, since) then [rows[0]] + Selected(rows[1..], contactId, since)
    else Selected(rows[1..], contactId, since)
  }

  /** `LIMIT limit * 2`; SQLite reads a negative limit as no limit. */
  function Window(rows: seq<Row>, limit: int): (r: seq<Row>)
    ensures limit >= 0 ==> r == Prefix(rows, limit * 2)
    ensures limit < 0 ==> r == rows
  {
    if limit * 2 < 0 then rows else Prefix(rows, limit * 2)
  }

  /** `not text or text.strip() == ''`. */
  predicate Empty(text: Option<string>) {
    text.None? || IsBlank(text.value)
  }

  /** The text of a row: the `text` column, or when that is empty and the
      blob is non-empty, what the blob scan recovers. */
  function RowText(row: Row, dec: AttributedBody.Decoders): (r: Option<string>)
    ensures !Empty(row.text) ==> r == row.text
    ensures Empty(row.text) && row.body.Some? && |row.body.value| > 0 ==>
              r == AttributedBody.ExtractText(row.body.value, dec)
    ensures Empty(row.text) && (row.body.None? || |row.body.value| == 0) ==> Empty(r)
  {
    if Empty(row.text) && row.body.Some? && |row.body.value| > 0 then
      AttributedBody.ExtractText(row.body.value, dec)
    else
      row.text
  }

  /** The keyword filter: none given (`None` or ""), or contained in the
      text ignoring ASCII case. */
  predicate KeywordOk(text: string, keyword: string) {
    keyword == "" || Contains(Lower(text), Lower(keyword))
  }

  /** The message a row contributes, if any. */
  function Admit(row: Row, keyword: string, dec: AttributedBody.Decoders): (r: Option<Message>)
    ensures r.Some? <==> !Empty(RowText(row, dec)) && KeywordOk(RowText(row, dec).value, keyword)
    ensures r.Some? ==> r.value.text == RowText(row, dec).value
    ensures r.Some? ==> r.value.contact == row.handle && r.value.date == row.date
                        && r.value.fromMe == row.fromMe
  {
    var t := RowText(row, dec);
    if Empty(t) || !KeywordOk(t.value, keyword) then None
    else Some(Message(t.value, row.fromMe, row.date, row.handle))
  }

  /** The messages rows contribute, in row order. */
  function Admitted(rows: seq<Row>, keyword: string, dec: AttributedBody.Decoders): (r: seq<Message>)
    ensures |r| <= |rows|
    ensures forall m :: m in r ==> exists row :: row in rows && Admit(row, keyword, dec) == Some(m)
  {
    if |rows| == 0 then []
    else
      var rest := Admitted(rows[1..], keyword, dec);
      match Admit(rows[0], keyword, dec)
      case Some(m) => [m] + rest
      case None => rest
  }

  lemma {:induction false} AdmittedAppend(a: seq<Row>, b: seq<Row>, keyword: string, dec: AttributedBody.Decoders)
    ensures Admitted(a + b, keyword, dec) == Admitted(a, keyword, dec) + Admitted(b, keyword, dec)
  {
    if |a| == 0 {
      assert a + b == b;
    } else {
      assert (a + b)[0] == a[0];
      assert (a + b)[1..] == a[1..] + b;
      AdmittedAppend(a[1..], b, keyword, dec);
      match Admit(a[0], keyword, dec)
      case Some(m) =>
        assert [m] + (Admitted(a[1..], keyword, dec) + Admitted(b, keyword, dec))
            == ([m] + Admitted(a[1..], keyword, dec)) + Admitted(b, keyword, dec);
      case None =>
    }
  }

  /** Extending the scanned rows by one adds that row's message, if any. */
  lemma AdmittedStep(rows: seq<Row>, i: nat, keyword: string, dec: AttributedBody.Decoders)
    requires i < |rows|
    ensures Admit(rows[i], keyword, dec).Some? ==>
              Admitted(rows[..i + 1], keyword, dec)
                == Admitted(rows[..i], keyword, dec) + [Admit(rows[i], keyword, dec).value]
    ensures Admit(rows[i], keyword, dec).None? ==>
              Admitted(rows[..i + 1], keyword, dec) == Admitted(rows[..i], keyword, dec)
  {
    assert rows[..i + 1] == rows[..i] + [rows[i]];
    AdmittedAppend(rows[..i], [rows[i]], keyword, dec);
  }

  /** Once the messages of a prefix of the rows reach `cap`, they are the
      first `cap` messages of all the rows. */
  lemma StoppedEarly(rows: seq<Row>, i: nat, keyword: string, dec: AttributedBody.Decoders, cap: nat)
    requires i <= |rows|
    requires |Admitted(rows[..i], keyword, dec)| == cap
    ensures Admitted(rows[..i], keyword, dec) == Prefix(Admitted(rows, keyword, dec), cap)
  {
    assert rows == rows[..i] + rows[i..];
    AdmittedAppend(rows[..i], rows[i..], keyword, dec);
  }

  /** The number of messages after which the loop stops: `limit`, and for a
      limit below one the first message already stops it. */
  function Cap(limit: int): nat {
    if limit >= 1 then limit else 1
  }

  /** The messages `get_messages` returns: the first `Cap(limit)` messages
      among the rows of the query window, in window order. */
  function Thread(rows: seq<Row>, contactId: string, limit: int, keyword: string,
                  since: Option<int>, dec: AttributedBody.Decoders): seq<Message>
  {
    Prefix(Admitted(Window(Selected(rows, contactId, since), limit), keyword, dec), Cap(limit))
  }

  /** `get_messages`: scans the window newest first and stops as soon as
      `limit` messages are collected. */
  method GetMessages(rows: seq<Row>, contactId: string, limit: int, keyword: string,
                     since: Option<int>, dec: AttributedBody.Decoders)
    returns (msgs: seq<Message>)
    ensures msgs == Thread(rows, contactId, limit, keyword, since, dec)
  {
    var window := Window(Selected(rows, contactId, since), limit);
    msgs := Scan(window, limit, keyword, dec);
  }

  /** The loop of `get_messages` over the rows of the query window. */
  method Scan(window: seq<Row>, limit: int, keyword: string, dec: AttributedBody.Decoders)
    returns (msgs: seq<Message>)
    ensures msgs == Prefix(Admitted(window, keyword, dec), Cap(limit))
  {
    msgs := [];
    var i := 0;
    while i < |window|
      invariant 0 <= i <= |window|
      invariant msgs == Admitted(window[..i], keyword, dec)
      invariant |msgs| < Cap(limit)
    {
      var next := Admit(window[i], keyword, dec);
      AdmittedStep(window, i, keyword, dec);
      if next.Some? {
        msgs := msgs + [next.value];
        assert msgs == Admitted(window[..i + 1], keyword, dec);
        if |msgs| >= limit {
          StoppedEarly(window, i + 1, keyword, dec, Cap(limit));
          return;
        }
      } else {
        assert msgs == Admitted(window[..i + 1], keyword, dec);
      }
      i := i + 1;
    }
    assert window[..i] == window;
  }

  /** What a returned thread holds: at most `limit` messages (none for a
      zero limit, at most one for a negative one), every one from the
      conversation, not blank, and passing the keyword filter. */
  lemma ThreadFacts(rows: seq<Row>, contactId: string, limit: int, keyword: string,
                    since: Option<int>, dec: AttributedBody.Decoders)
    ensures limit >= 1 ==> |Thread(rows, contactId, limit, keyword, since, dec)| <= limit
    ensures limit == 0 ==> Thread(rows, contactId, limit, keyword, since, dec) == []
    ensures limit < 0 ==> |Thread(rows, contactId, limit, keyword, since, dec)| <= 1
    ensures forall m :: m in Thread(rows, contactId, limit, keyword, since, dec) ==>
              m.contact == contactId && !IsBlank(m.text) && KeywordOk(m.text, keyword)
  {
    var window := Window(Selected(rows, contactId, since), limit);
    var all := Admitted(window, keyword, dec);
    forall m | m in Thread(rows, contactId, limit, keyword, since, dec)
      ensures m.contact == contactId && !IsBlank(m.text) && KeywordOk(m.text, keyword)
    {
      assert m in all;
      var row :| row in window && Admit(row, keyword, dec) == Some(m);
      assert row in Selected(rows, contactId, since);
    }
  }

  lemma {:induction false} SelectedAppend(a: seq<Row>, b: seq<Row>, contactId: string, since: Option<int>)
    ensures Selected(a + b, contactId, since) == Selected(a, contactId, since) + Selected(b, contactId, since)
  {
    if |a| == 0 {
      assert a + b == b;
    } else {
      assert (a + b)[0] == a[0];
      assert (a + b)[1..] == a[1..] + b;
      SelectedAppend(a[1..], b, contactId, since);
      if InQuery(a[0], contactId, since) {
        assert [a[0]] + (Selected(a[1..], contactId, since) + Selected(b, contactId, since))
            == ([a[0]] + Selected(a[1..], contactId, since)) + Selected(b, contactId, since);
      }
    }
  }

  /** The window reaches back `2 * limit` rows of the conversation: older
      rows never show, even when blank rows left fewer than `limit`
      messages. */
  lemma OlderRowsUnseen(rows: seq<Row>, older: seq<Row>, contactId: string, limit: int,
                        keyword: string, since: Option<int>, dec: AttributedBody.Decoders)
    requires limit >= 0
    requires |Selected(rows, contactId, since)| >= 2 * limit
    ensures Thread(rows + older, contactId, limit, keyword, since, dec)
            == Thread(rows, contactId, limit, keyword, since, dec)
  {
    var sel := Selected(rows, contactId, since);
    SelectedAppend(rows, older, contactId, since);
    assert Prefix(sel + Selected(older, contactId, since), limit * 2) == Prefix(sel, limit * 2);
  }

  // ---------------------------------------------------------------------------
  // Output
  // ---------------------------------------------------------------------------

  /** The marker a newline inside a message becomes: " ↵ ". */
  const NEWLINE_MARK: string := " \U{21B5} "

  function Sender(m: Message, contactName: string): string {
    if m.fromMe then "Me" else contactName
  }

  /** One thread line: `[date] sender: text`, newlines in the text marked. */
  function MessageLine(m: Message, contactName: string): (line: string)
    ensures StartsWith(line, "[" + m.date + "] " + Sender(m, contactName) + ": ")
    ensures '\n' !in m.date && '\n' !in contactName ==> '\n' !in line
  {
    var prefix := "[" + m.date + "] " + Sender(m, contactName) + ": ";
    var line := prefix + ReplaceChar(m.text, '\n', NEWLINE_MARK);
    assert line[..|prefix|] == prefix;
    line
  }

  /** The reverse of the newline marking: each ` ↵ ` back to a line break. */
  function UnmarkLines(s: string): string
    decreases |s|
  {
    if |s| == 0 then ""
    else if |s| >= 3 && s[..3] == NEWLINE_MARK then "\n" + UnmarkLines(s[3..])
    else [s[0]] + UnmarkLines(s[1..])
  }

  /** A marked text never starts with the arrow itself. */
  lemma MarkedHead(t: string)
    requires '\U{21B5}' !in t
    ensures var r := ReplaceChar(t, '\n', NEWLINE_MARK); |r| > 0 ==> r[0] != '\U{21B5}'
  {
  }

  /** A text without the arrow character reads back from its marked form. */
  lemma {:induction false} UnmarkMarked(t: string)
    requires '\U{21B5}' !in t
    ensures UnmarkLines(ReplaceChar(t, '\n', NEWLINE_MARK)) == t
    decreases |t|
  {
    if |t| > 0 {
      var rest := ReplaceChar(t[1..], '\n', NEWLINE_MARK);
      assert '\U{21B5}' !in t[1..] by {
        assert forall c :: c in t[1..] ==> c in t;
      }
      UnmarkMarked(t[1..]);
      if t[0] == '\n' {
        assert (NEWLINE_MARK + rest)[..3] == NEWLINE_MARK;
        assert (NEWLINE_MARK + rest)[3..] == rest;
      } else {
        MarkedHead(t[1..]);
        var r := [t[0]] + rest;
        assert r[1..] == rest;
        assert |r| >= 3 ==> r[1] != NEWLINE_MARK[1];
      }
      assert [t[0]] + t[1..] == t;
    }
  }

  /** The text part of a thread line reads back as the message text: after
      the `[date] sender: ` prefix, each ` ↵ ` stands for a line break. */
  lemma MessageLineReadsBack(m: Message, contactName: string)
    requires '\U{21B5}' !in m.text
    ensures var prefix := "[" + m.date + "] " + Sender(m, contactName) + ": ";
            var line := MessageLine(m, contactName);
            |prefix| <= |line| && line[..|prefix|] == prefix && UnmarkLines(line[|prefix|..]) == m.text
  {
    var prefix := "[" + m.date + "] " + Sender(m, contactName) + ": ";
    var marked := ReplaceChar(m.text, '\n', NEWLINE_MARK);
    assert (prefix + marked)[|prefix|..] == marked;
    UnmarkMarked(m.text);
  }

  function MessageLines(msgs: seq<Message>, contactName: string): (r: seq<string>)
    ensures |r| == |msgs|
    ensures forall i :: 0 <= i < |msgs| ==> r[i] == MessageLine(msgs[i], contactName)
  {
    seq(|msgs|, i requires 0 <= i < |msgs| => MessageLine(msgs[i], contactName))
  }

  /** The lines of a non-empty thread: two header lines, a blank line, then
      one line per message. */
  function ThreadLines(msgs: seq<Message>, contactName: string, contactId: string): (r: seq<string>)
    ensures |r| == |msgs| + 3
    ensures r[2] == ""
    ensures forall i :: 0 <= i < |msgs| ==> r[i + 3] == MessageLine(msgs[i], contactName)
  {
    ["Conversation with " + contactName + " (" + contactId + ") via iMessage",
     "Showing " + NatToString(|msgs|) + " messages (most recent first):",
     ""] + MessageLines(msgs, contactName)
  }

  /** `format_output`. */
  function FormatThread(msgs: seq<Message>, contactName: string, contactId: string): (r: string)
    ensures |msgs| == 0 ==> r == "No messages found with " + contactName + " (" + contactId + ")"
    ensures |msgs| > 0 ==> r == Join("\n", ThreadLines(msgs, contactName, contactId))
  {
    if |msgs| == 0 then "No messages found with " + contactName + " (" + contactId + ")"
    else Join("\n", ThreadLines(msgs, contactName, contactId))
  }

  /** When the contact's name, id and the dates hold no newline, the thread
      splits back into exactly its lines: one per message after the three
      header lines, whatever newlines the message texts held. */
  lemma FormatThreadLines(msgs: seq<Message>, contactName: string, contactId: string)
    requires |msgs| > 0
    requires '\n' !in contactName && '\n' !in contactId
    requires forall i :: 0 <= i < |msgs| ==> '\n' !in msgs[i].date
    ensures SplitOn(FormatThread(msgs, contactName, contactId), '\n') == ThreadLines(msgs, contactName, contactId)
    ensures |SplitOn(FormatThread(msgs, contactName, contactId), '\n')| == |msgs| + 3
  {
    var lines := ThreadLines(msgs, contactName, contactId);
    assert '\n' !in NatToString(|msgs|);
    forall i | 0 <= i < |lines| ensures '\n' !in lines[i] {
      if i >= 3 {
        assert lines[i] == MessageLine(msgs[i - 3], contactName);
      }
    }
    SplitOnJoin('\n', lines);
  }
}

=== FILE: ini.dfy ===
/**
  The parsed `~/.databrickscfg` file as Python's `configparser` presents
  it: named sections in file order, plus the `[DEFAULT]` section, whose
  options every other section inherits. Reading and parsing the file is
  outside the model.
 */
module Ini {
  import opened Wrappers

  type Options = map<string, string>

  datatype Config = Config(sections: seq<(string, Options)>, defaults: Options)

  const DEFAULT: string := "DEFAULT"

  /** `config.sections()`: the named sections, in file order; `[DEFAULT]`
      is never one of them. */
  function SectionNames(c: Config): (ns: seq<string>)
    ensures |ns| == |c.sections| && forall i :: 0 <= i < |ns| ==> ns[i] == c.sections[i].0
  {
    seq(|c.sections|, i requires 0 <= i < |c.sections| => c.sections[i].0)
  }

  /** What `configparser` guarantees of its sections: distinct names, none
      of them `DEFAULT`. */
  predicate WellFormed(c: Config) {
    && (forall i, j :: 0 <= i < j < |c.sections| ==> c.sections[i].0 != c.sections[j].0)
    && forall i :: 0 <= i < |c.sections| ==> c.sections[i].0 != DEFAULT
  }

  /** `config.has_section(name)`: false for `DEFAULT`. */
  predicate HasSection(c: Config, name: string) {
    name in SectionNames(c)
  }

  /** `name in config`: the named sections and `DEFAULT`. */
  predicate InConfig(c: Config, name: string) {
    HasSection(c, name) || name == DEFAULT
  }

  function SectionOptions(c: Config, name: string): (o: Option<Options>)
    ensures o.Some? <==> HasSection(c, name)
  {
    FindSection(c.sections, name)
  }

  function FindSection(ss: seq<(string, Options)>, name: string): (o: Option<Options>)
    ensures o.Some? <==> exists i :: 0 <= i < |ss| && ss[i].0 == name
  {
    if |ss| == 0 then None
    else if ss[0].0 == name then Some(ss[0].1)
    else
      var o := FindSection(ss[1..], name);
      assert (exists i :: 0 <= i < |ss| && ss[i].0 == name) ==> (exists i :: 0 <= i < |ss[1..]| && ss[1..][i].0 == name) by {
        if exists i :: 0 <= i < |ss| && ss[i].0 == name {
          var i :| 0 <= i < |ss| && ss[i].0 == name;
          assert ss[1..][i - 1].0 == name;
        }
      }
      o
  }

  /** `config.get(section, key)` for a section that exists: the section's
      own option, else the inherited `DEFAULT` one, else `None`. */
  function GetOption(c: Config, section: string, key: string): (v: Option<string>)
    requires InConfig(c, section)
    ensures section == DEFAULT ==> (v.Some? <==> key in c.defaults)
    ensures v.None? ==> key !in c.defaults
  {
    var own := if section == DEFAULT then None else SectionOptions(c, section);
    if own.Some? && key in own.value then Some(own.value[key])
    else if key in c.defaults then Some(c.defaults[key])
    else None
  }
}

=== FILE: lookup_contact.dfy ===
/**
  Looking a contact up by name or nickname in the contacts directory: a
  pass for case-insensitive exact matches over the whole directory, then,
  only when that finds nothing, a pass for case-insensitive substring
  matches. Parsing of the directory file is outside the model: the parsed
  contacts are a parameter.
 */
module LookupContact {
  import opened Wrappers
  import opened Text

  /** A parsed directory entry; absent optional fields are `None`. */
  datatype Person = Person(
    name: string,
    nicknames: seq<string>,
    context: Option<string>,
    relationship: Option<string>,
    github: Option<string>,
    workKeywords: seq<string>)

  // ---------------------------------------------------------------------------
  // The two matching tests (the search text is already lower-cased)
  // ---------------------------------------------------------------------------

  /** The contact's name or one of its nicknames equals the search text. */
  ghost predicate ExactMatch(p: Person, q: string) {
    Lower(p.name) == q || exists i :: 0 <= i < |p.nicknames| && Lower(p.nicknames[i]) == q
  }

  /** The search text occurs in the contact's name or in one of its
      nicknames. */
  ghost predicate PartialMatch(p: Person, q: string) {
    Contains(Lower(p.name), q) || exists i :: 0 <= i < |p.nicknames| && Contains(Lower(p.nicknames[i]), q)
  }

  /** The nickname loop of the exact pass. */
  function NicknameEquals(nicks: seq<string>, q: string): (b: bool)
    ensures b <==> exists i :: 0 <= i < |nicks| && Lower(nicks[i]) == q
  {
    if |nicks| == 0 then false
    else if Lower(nicks[0]) == q then true
    else
      assert forall i :: 1 <= i < |nicks| ==> nicks[i] == nicks[1..][i - 1];
      NicknameEquals(nicks[1..], q)
  }

  /** The nickname loop of the substring pass. */
  function NicknameContains(nicks: seq<string>, q: string): (b: bool)
    ensures b <==> exists i :: 0 <= i < |nicks| && Contains(Lower(nicks[i]), q)
  {
    if |nicks| == 0 then false
    else if Contains(Lower(nicks[0]), q) then true
    else
      assert forall i :: 1 <= i < |nicks| ==> nicks[i] == nicks[1..][i - 1];
      NicknameContains(nicks[1..], q)
  }

  /** One contact in the exact pass: its name first, then its nicknames. */
  function MatchesExactly(p: Person, q: string): (b: bool)
    ensures b <==> ExactMatch(p, q)
  {
    Lower(p.name) == q || NicknameEquals(p.nicknames, q)
  }

  /** One contact in the substring pass: its name first, then its
      nicknames. */
  function MatchesPartly(p: Person, q: string): (b: bool)
    ensures b <==> PartialMatch(p, q)
  {
    Contains(Lower(p.name), q) || NicknameContains(p.nicknames, q)
  }

  // ---------------------------------------------------------------------------
  // The two passes
  // ---------------------------------------------------------------------------

  /** The exact pass: the index of the first contact that matches exactly. */
  function ExactPass(contacts: seq<Person>, q: string): (r: Option<nat>)
    ensures r.Some? ==> r.value < |contacts| && ExactMatch(contacts[r.value], q)
                        && forall j :: 0 <= j < r.value ==> !ExactMatch(contacts[j], q)
    ensures r.None? ==> forall j :: 0 <= j < |contacts| ==> !ExactMatch(contacts[j], q)
  {
    if |contacts| == 0 then None
    else if MatchesExactly(contacts[0], q) then Some(0)
    else
      match ExactPass(contacts[1..], q)
      case None => None
      case Some(i) => Some(i + 1)
  }

  /** The substring pass: the index of the first contact that matches
      partly. */
  function PartialPass(contacts: seq<Person>, q: string): (r: Option<nat>)
    ensures r.Some? ==> r.value < |contacts| && PartialMatch(contacts[r.value], q)
                        && forall j :: 0 <= j < r.value ==> !PartialMatch(contacts[j], q)
    ensures r.None? ==> forall j :: 0 <= j < |contacts| ==> !PartialMatch(contacts[j], q)
  {
    if |contacts| == 0 then None
    else if MatchesPartly(contacts[0], q) then Some(0)
    else
      match PartialPass(contacts[1..], q)
      case None => None
      case Some(i) => Some(i + 1)
  }

  /** `find_contact`. An exact match anywhere in the directory wins; the
      substring pass runs only when there is none; within a pass the first
      contact in directory order wins. */
  function FindContact(contacts: seq<Person>, search: string): (r: Option<Person>)
    ensures var q := Lower(search);
            (exists j :: 0 <= j < |contacts| && ExactMatch(contacts[j], q)) ==>
              exists i :: 0 <= i < |contacts| && r == Some(contacts[i]) && ExactMatch(contacts[i], q)
                          && forall j :: 0 <= j < i ==> !ExactMatch(contacts[j], q)
    ensures var q := Lower(search);
            (forall j :: 0 <= j < |contacts| ==> !ExactMatch(contacts[j], q)) ==>
              (r.None? <==> forall j :: 0 <= j < |contacts| ==> !PartialMatch(contacts[j], q))
              && (r.Some? ==> exists i :: 0 <= i < |contacts| && r == Some(contacts[i]) && PartialMatch(contacts[i], q)
                                          && forall j :: 0 <= j < i ==> !PartialMatch(contacts[j], q))
  {
    var q := Lower(search);
    match ExactPass(contacts, q)
    case Some(i) => Some(contacts[i])
    case None =>
      match PartialPass(contacts, q)
      case Some(i) => Some(contacts[i])
      case None => None
  }

  /** An exact match implies a substring match. */
  lemma ExactIsPartial(p: Person, q: string)
    requires ExactMatch(p, q)
    ensures PartialMatch(p, q)
  {
    if Lower(p.name) == q {
      ContainsWitness(q, q, 0);
    } else {
      var i :| 0 <= i < |p.nicknames| && Lower(p.nicknames[i]) == q;
      ContainsWitness(q, q, 0);
    }
  }

  /** Nothing is found exactly when no contact matches even partly. */
  lemma FindContactNone(contacts: seq<Person>, search: string)
    ensures FindContact(contacts, search).None? <==>
              forall j :: 0 <= j < |contacts| ==> !PartialMatch(contacts[j], Lower(search))
  {
    var q := Lower(search);
    if exists j :: 0 <= j < |contacts| && ExactMatch(contacts[j], q) {
      var j :| 0 <= j < |contacts| && ExactMatch(contacts[j], q);
      ExactIsPartial(contacts[j], q);
    }
  }

  /** An exact match on a later contact beats a substring match on an
      earlier one. */
  lemma ExactBeatsEarlierPartial(contacts: seq<Person>, search: string, i: nat, j: nat)
    requires i < j < |contacts|
    requires PartialMatch(contacts[i], Lower(search)) && !ExactMatch(contacts[i], Lower(search))
    requires ExactMatch(contacts[j], Lower(search))
    requires forall k :: 0 <= k < j ==> !ExactMatch(contacts[k], Lower(search))
    ensures FindContact(contacts, search) == Some(contacts[j])
  {
  }

  // ---------------------------------------------------------------------------
  // The result printed by `main`
  // ---------------------------------------------------------------------------

  datatype LookupResult =
    | Found(name: string, nicknames: seq<string>, context: string, relationship: string,
            github: Option<string>, workKeywords: seq<string>)
    | NotFound(searchedFor: string)

  /** The result object: the contact's fields with their defaults filled in,
      or the search text when nothing was found. */
  function Lookup(contacts: seq<Person>, search: string): (r: LookupResult)
    ensures r.Found? <==> FindContact(contacts, search).Some?
    ensures r.NotFound? ==> r.searchedFor == search
    ensures r.Found? ==> var p := FindContact(contacts, search).value;
                         && r.name == p.name && r.nicknames == p.nicknames
                         && r.context == p.context.GetOr("personal")
                         && r.relationship == p.relationship.GetOr("")
                         && r.github == p.github && r.workKeywords == p.workKeywords
  {
    match FindContact(contacts, search)
    case None => NotFound(search)
    case Some(p) =>
      Found(p.name, p.nicknames, p.context.GetOr("personal"), p.relationship.GetOr(""), p.github, p.workKeywords)
  }

  /** The process exit status. */
  function ExitCode(r: LookupResult): (code: int)
    ensures code == 0 <==> r.Found?
    ensures code == 0 || code == 1
  {
    if r.Found? then 0 else 1
  }
}

=== FILE: numerals.dfy ===
/** Decimal rendering of integers: Python's `str(n)` and `f'{n:02d}'`. */
module Numerals {
  import opened Text

  function DigitChar(d: nat): (c: char)
    requires d < 10
    ensures IsDigit(c)
  {
    ('0' as int + d) as char
  }

  function DigitValue(c: char): (d: nat)
    requires IsDigit(c)
    ensures d < 10
  {
    c as int - '0' as int
  }

  predicate AllDigits(s: string) {
    forall i :: 0 <= i < |s| ==> IsDigit(s[i])
  }

  /** `str(n)` for `n >= 0`: only digits, and no leading zero unless the
      number is zero itself. */
  function NatToString(n: nat): (r: string)
    ensures |r| >= 1 && AllDigits(r)
    ensures |r| > 1 ==> r[0] != '0'
    decreases n
  {
    if n < 10 then [DigitChar(n)] else NatToString(n / 10) + [DigitChar(n % 10)]
  }

  /** The value of a string of decimal digits (the inverse of `NatToString`). */
  function ParseNat(s: string): nat
    requires AllDigits(s)
  {
    if |s| == 0 then 0 else ParseNat(s[..|s| - 1]) * 10 + DigitValue(s[|s| - 1])
  }

  /** Rendering then parsing gives the number back, so `NatToString` is
      injective: different numbers never render alike. */
  lemma {:induction false} ParseNatToString(n: nat)
    ensures ParseNat(NatToString(n)) == n
    decreases n
  {
    if n >= 10 {
      var s := NatToString(n);
      assert s[..|s| - 1] == NatToString(n / 10);
      ParseNatToString(n / 10);
    }
  }

  lemma NatToStringInjective(a: nat, b: nat)
    requires NatToString(a) == NatToString(b)
    ensures a == b
  {
    ParseNatToString(a);
    ParseNatToString(b);
  }

  /** `str(i)` for any integer: a minus sign, then the magnitude. */
  function IntToString(i: int): (r: string)
    ensures |r| >= 1
    ensures (r[0] == '-') == (i < 0)
  {
    if i < 0 then "-" + NatToString(-i) else NatToString(i)
  }

  /** `f'{n:02d}'` for `n >= 0`: zero-padded to at least two digits. */
  function Pad2(n: nat): (r: string)
    ensures |r| >= 2 && AllDigits(r)
    ensures n < 100 ==> |r| == 2
  {
    NatToStringSmall(n);
    if n < 10 then "0" + NatToString(n) else NatToString(n)
  }

  lemma NatToStringSmall(n: nat)
    ensures n < 10 ==> |NatToString(n)| == 1
    ensures n >= 10 ==> |NatToString(n)| >= 2
    ensures 10 <= n < 100 ==> |NatToString(n)| == 2
  {
    if n >= 10 {
      assert NatToString(n) == NatToString(n / 10) + [DigitChar(n % 10)];
    }
  }

  /** A zero-padded rendering reads back as the number. */
  lemma ParsePad2(n: nat)
    ensures ParseNat(Pad2(n)) == n
  {
    ParseNatToString(n);
    if n < 10 {
      var s := Pad2(n);
      assert s == "0" + [DigitChar(n)];
      assert s[..|s| - 1] == "0";
      assert ParseNat("0") == ParseNat("") * 10 + 0;
    }
  }

  /** A character that is not a digit occurs in no string of digits. */
  lemma NotInDigits(s: string, c: char)
    requires AllDigits(s) && !IsDigit(c)
    ensures c !in s
  {
  }
}

=== FILE: render_web.dfy ===
/**
  The web renderer of the Manim plugin: the presets, the `manim` command
  line built from the chosen settings, and the outcome of a run. Whether
  the scene file exists and how `manim` exits are parameters; the process
  itself is outside the model.
 */
module RenderWeb {
  import opened Wrappers
  import opened Text
  import opened Numerals

  // ---------------------------------------------------------------------------
  // Settings and presets
  // ---------------------------------------------------------------------------

  /** The settings `build_command` takes besides the scene. */
  datatype Settings = Settings(
    quality: string,
    fps: Option<int>,
    format: Option<string>,
    transparent: bool,
    outputDir: Option<string>,
    outputFile: Option<string>)

  datatype Preset = Preset(quality: string, fps: int, format: string, transparent: bool, description: string)

  const PRESETS: seq<(string, Preset)> := [
    ("splash", Preset("h", 60, "webm", true, "Splash screen (1080p, 60fps, transparent WebM)")),
    ("splash-gif", Preset("m", 30, "gif", true, "Splash screen GIF fallback (720p, 30fps)")),
    ("loading", Preset("l", 30, "gif", true, "Loading spinner (480p, 30fps, small file)")),
    ("hero", Preset("k", 60, "webm", false, "Hero section video (4K, 60fps)")),
    ("preview", Preset("l", 15, "gif", false, "Quick preview (480p, 15fps)")),
    ("social", Preset("m", 30, "gif", false, "Social media (720p, 30fps, no transparency)"))]

  function FindPreset(ps: seq<(string, Preset)>, name: string): (r: Option<Preset>)
    ensures r.Some? ==> exists i :: 0 <= i < |ps| && ps[i] == (name, r.value)
    ensures r.None? ==> forall i :: 0 <= i < |ps| ==> ps[i].0 != name
  {
    if |ps| == 0 then None
    else if ps[0].0 == name then Some(ps[0].1)
    else
      var r := FindPreset(ps[1..], name);
      if r.Some? then
        var i :| 0 <= i < |ps[1..]| && ps[1..][i] == (name, r.value);
        assert ps[i + 1] == (name, r.value);
        r
      else r
  }

  /** The settings a run uses: a preset replaces the quality, frame rate,
      format and transparency given on the command line; the output
      directory and file always come from the command line. A preset name
      outside the table is rejected, as the argument parser's choices do. */
  function ChooseSettings(preset: Option<string>, cli: Settings): (r: Result<Settings, string>)
    ensures preset.None? ==> r == Ok(cli)
    ensures preset.Some? && FindPreset(PRESETS, preset.value).None? ==> r.Err?
    ensures preset.Some? && FindPreset(PRESETS, preset.value).Some? ==>
              var p := FindPreset(PRESETS, preset.value).value;
              r == Ok(Settings(p.quality, Some(p.fps), Some(p.format), p.transparent, cli.outputDir, cli.outputFile))
  {
    match preset
    case None => Ok(cli)
    case Some(name) =>
      match FindPreset(PRESETS, name)
      case None => Err("invalid choice: '" + name + "'")
      case Some(p) => Ok(Settings(p.quality, Some(p.fps), Some(p.format), p.transparent, cli.outputDir, cli.outputFile))
  }

  /** With a preset, the command-line quality, frame rate, format and
      transparency make no difference. */
  lemma PresetOverridesCli(name: string, a: Settings, b: Settings)
    requires a.outputDir == b.outputDir && a.outputFile == b.outputFile
    ensures ChooseSettings(Some(name), a) == ChooseSettings(Some(name), b)
  {
  }

  /** Every preset sets a frame rate, so its `--fps` flag is always
      passed. */
  lemma PresetsSetFps(i: nat)
    requires i < |PRESETS|
    ensures PRESETS[i].1.fps > 0 && PRESETS[i].1.format != ""
  {
  }

  // ---------------------------------------------------------------------------
  // `build_command`
  // ---------------------------------------------------------------------------

  predicate HasFps(s: Settings) { s.fps.Some? && s.fps.value != 0 }
  predicate Given(v: Option<string>) { v.Some? && v.value != "" }

  function FpsPart(s: Settings): seq<string> {
    if HasFps(s) then ["--fps", IntToString(s.fps.value)] else []
  }
  function FormatPart(s: Settings): seq<string> {
    if Given(s.format) then ["--format", s.format.value] else []
  }
  function TransparentPart(s: Settings): seq<string> {
    if s.transparent then ["-t"] else []
  }
  function DirPart(s: Settings): seq<string> {
    if Given(s.outputDir) then ["--media_dir", s.outputDir.value] else []
  }
  function FilePart(s: Settings): seq<string> {
    if Given(s.outputFile) then ["-o", s.outputFile.value] else []
  }

  /** The flags between the quality and the scene, in their fixed order. */
  function Flags(s: Settings): seq<string> {
    FpsPart(s) + (FormatPart(s) + (TransparentPart(s) + (DirPart(s) + FilePart(s))))
  }

  /** `build_command`: `manim`, the quality, the flags whose settings are
      truthy, then the scene file and scene name. */
  function BuildCommand(sceneFile: string, sceneName: string, s: Settings): (cmd: seq<string>)
    ensures |cmd| == 4 + (if HasFps(s) then 2 else 0) + (if Given(s.format) then 2 else 0)
                       + (if s.transparent then 1 else 0) + (if Given(s.outputDir) then 2 else 0)
                       + (if Given(s.outputFile) then 2 else 0)
    ensures cmd[..2] == ["manim", "-q" + s.quality]
    ensures cmd[|cmd| - 2..] == [sceneFile, sceneName]
  {
    ["manim", "-q" + s.quality] + Flags(s) + [sceneFile, sceneName]
  }

  /** The flags of a command line, read back: the frame rate as written
      and the other settings. */
  datatype FlagReading = FlagReading(
    fps: Option<string>,
    format: Option<string>,
    transparent: bool,
    outputDir: Option<string>,
    outputFile: Option<string>)

  /** What a whole command line says. */
  datatype Reading = Reading(sceneFile: string, sceneName: string, quality: string, flags: FlagReading)

  /** Reads one optional flag with a value at the front of `args`. */
  function TakeValue(args: seq<string>, flag: string): (r: (Option<string>, seq<string>))
    ensures |r.1| <= |args|
    ensures r.0.Some? <==> |args| >= 2 && args[0] == flag
    ensures r.0.Some? ==> r.0.value == args[1] && r.1 == args[2..]
    ensures r.0.None? ==> r.1 == args
  {
    if |args| >= 2 && args[0] == flag then (Some(args[1]), args[2..]) else (None, args)
  }

  // The flags are read one kind at a time, in the order `build_command`
  // writes them; anything left over makes the line unreadable.

  function ReadOutputFile(args: seq<string>): Option<FlagReading> {
    var (file, rest) := TakeValue(args, "-o");
    if |rest| != 0 then None else Some(FlagReading(None, None, false, None, file))
  }

  function ReadOutputDir(args: seq<string>): Option<FlagReading> {
    var (dir, rest) := TakeValue(args, "--media_dir");
    match ReadOutputFile(rest)
    case None => None
    case Some(r) => Some(r.(outputDir := dir))
  }

  function ReadTransparent(args: seq<string>): Option<FlagReading> {
    var t := |args| > 0 && args[0] == "-t";
    match ReadOutputDir(if t then args[1..] else args)
    case None => None
    case Some(r) => Some(r.(transparent := t))
  }

  function ReadFormat(args: seq<string>): Option<FlagReading> {
    var (format, rest) := TakeValue(args, "--format");
    match ReadTransparent(rest)
    case None => None
    case Some(r) => Some(r.(format := format))
  }

  function ReadFlags(args: seq<string>): Option<FlagReading> {
    var (fps, rest) := TakeValue(args, "--fps");
    match ReadFormat(rest)
    case None => None
    case Some(r) => Some(r.(fps := fps))
  }

  /** Reads a `manim` command line of the shape `build_command` makes; the
      last two words are the scene. */
  function ReadCommand(cmd: seq<string>): Option<Reading> {
    if |cmd| < 4 || cmd[0] != "manim" || !StartsWith(cmd[1], "-q") then None
    else match ReadFlags(cmd[2..|cmd| - 2])
      case None => None
      case Some(f) => Some(Reading(cmd[|cmd| - 2], cmd[|cmd| - 1], cmd[1][2..], f))
  }

  /** The flags a command line built from `s` should carry: a zero frame
      rate and empty texts count as absent. */
  function ExpectedFlags(s: Settings): FlagReading {
    FlagReading(
      if HasFps(s) then Some(IntToString(s.fps.value)) else None,
      if Given(s.format) then s.format else None,
      s.transparent,
      if Given(s.outputDir) then s.outputDir else None,
      if Given(s.outputFile) then s.outputFile else None)
  }

  function Expected(sceneFile: string, sceneName: string, s: Settings): Reading {
    Reading(sceneFile, sceneName, s.quality, ExpectedFlags(s))
  }

  lemma ReadsOutputFile(s: Settings)
    ensures ReadOutputFile(FilePart(s)) == Some(FlagReading(None, None, false, None, ExpectedFlags(s).outputFile))
  {
  }

  lemma ReadsOutputDir(s: Settings)
    ensures ReadOutputDir(DirPart(s) + FilePart(s))
            == Some(FlagReading(None, None, false, ExpectedFlags(s).outputDir, ExpectedFlags(s).outputFile))
  {
    ReadsOutputFile(s);
    if Given(s.outputDir) {
      assert (DirPart(s) + FilePart(s))[2..] == FilePart(s);
    }
  }

  lemma ReadsTransparent(s: Settings)
    ensures ReadTransparent(TransparentPart(s) + (DirPart(s) + FilePart(s)))
            == Some(ExpectedFlags(s).(fps := None, format := None))
  {
    ReadsOutputDir(s);
    var c := DirPart(s) + FilePart(s);
    if s.transparent {
      assert (TransparentPart(s) + c)[1..] == c;
    } else {
      assert TransparentPart(s) + c == c;
      assert "--media_dir" != "-t" && "-o" != "-t";
    }
  }

  lemma ReadsFormat(s: Settings)
    ensures ReadFormat(FormatPart(s) + (TransparentPart(s) + (DirPart(s) + FilePart(s))))
            == Some(ExpectedFlags(s).(fps := None))
  {
    ReadsTransparent(s);
    var b := TransparentPart(s) + (DirPart(s) + FilePart(s));
    if Given(s.format) {
      assert (FormatPart(s) + b)[2..] == b;
    } else {
      assert FormatPart(s) + b == b;
      assert "-t" != "--format" && "--media_dir" != "--format" && "-o" != "--format";
    }
  }

  lemma ReadsFlags(s: Settings)
    ensures ReadFlags(Flags(s)) == Some(ExpectedFlags(s))
  {
    ReadsFormat(s);
    var a := FormatPart(s) + (TransparentPart(s) + (DirPart(s) + FilePart(s)));
    if HasFps(s) {
      assert (FpsPart(s) + a)[2..] == a;
    } else {
      assert FpsPart(s) + a == a;
      assert "--format" != "--fps" && "-t" != "--fps" && "--media_dir" != "--fps" && "-o" != "--fps";
    }
  }

  /** The command line carries exactly the settings it was built from:
      reading it back gives them, with falsy settings left out. */
  lemma BuildCommandReadsBack(sceneFile: string, sceneName: string, s: Settings)
    ensures ReadCommand(BuildCommand(sceneFile, sceneName, s)) == Some(Expected(sceneFile, sceneName, s))
  {
    var cmd := BuildCommand(sceneFile, sceneName, s);
    assert cmd[2..|cmd| - 2] == Flags(s);
    assert cmd[1][2..] == s.quality;
    assert StartsWith(cmd[1], "-q");
    ReadsFlags(s);
  }

  /** A frame rate of 0 is dropped like no frame rate at all. */
  lemma ZeroFpsOmitted(sceneFile: string, sceneName: string, s: Settings)
    requires s.fps == Some(0)
    ensures BuildCommand(sceneFile, sceneName, s) == BuildCommand(sceneFile, sceneName, s.(fps := None))
  {
  }

  // ---------------------------------------------------------------------------
  // `main`
  // ---------------------------------------------------------------------------

  /** The arguments `main` acts on. */
  datatype Args = Args(
    sceneFile: Option<string>,
    sceneName: Option<string>,
    preset: Option<string>,
    listPresets: bool,
    cli: Settings,
    dryRun: bool)

  const QUALITIES: seq<string> := ["l", "m", "h", "k"]
  const FORMATS: seq<string> := ["gif", "webm", "mp4", "mov"]

  /** The argument parser's choices: a preset from the table, one of the
      four qualities, and one of the four formats when a format is given. */
  predicate ValidChoices(args: Args) {
    && (args.preset.None? || FindPreset(PRESETS, args.preset.value).Some?)
    && args.cli.quality in QUALITIES
    && (args.cli.format.None? || args.cli.format.value in FORMATS)
  }

  /** What a run does: its exit status and the command it would run. */
  datatype Outcome = Outcome(exit: int, command: Option<seq<string>>)

  /** The status the argument parser exits with on a bad choice. */
  const USAGE_ERROR := 2

  /** `main`: the parser's choices, the preset list, the usage error for a
      missing scene, the missing-file error, then the command, run unless
      it is a dry run. `manimExit` is how `manim` ends: its status, or
      `None` when it cannot be started. */
  function Run(args: Args, fileExists: bool, manimExit: Option<int>): (o: Outcome)
    ensures !ValidChoices(args) ==> o == Outcome(USAGE_ERROR, None)
    ensures ValidChoices(args) && args.listPresets ==> o == Outcome(0, None)
    ensures ValidChoices(args) && !args.listPresets && !(Given(args.sceneFile) && Given(args.sceneName)) ==>
              o == Outcome(1, None)
    ensures o.command.Some? <==> ValidChoices(args) && !args.listPresets && Given(args.sceneFile)
                                 && Given(args.sceneName) && fileExists
    ensures o.command.Some? ==> |o.command.value| >= 4 && o.command.value[0] == "manim"
                                && o.command.value[|o.command.value| - 2..] == [args.sceneFile.value, args.sceneName.value]
    ensures o.command.Some? && args.dryRun ==> o.exit == 0
    ensures o.command.Some? && !args.dryRun ==> o.exit == manimExit.GetOr(1)
    ensures o.command.None? ==> o.exit != 0 || (ValidChoices(args) && args.listPresets)
  {
    if !ValidChoices(args) then Outcome(USAGE_ERROR, None)
    else if args.listPresets then Outcome(0, None)
    else if !Given(args.sceneFile) || !Given(args.sceneName) then Outcome(1, None)
    else if !fileExists then Outcome(1, None)
    else match ChooseSettings(args.preset, args.cli)
      case Err(_) => Outcome(USAGE_ERROR, None)
      case Ok(s) =>
        var cmd := BuildCommand(args.sceneFile.value, args.sceneName.value, s);
        if args.dryRun then Outcome(0, Some(cmd))
        else Outcome(manimExit.GetOr(1), Some(cmd))
  }

  /** The command a run executes is the one built from the preset's
      settings when a preset is chosen. */
  lemma RunUsesPreset(args: Args, fileExists: bool, manimExit: Option<int>)
    requires Run(args, fileExists, manimExit).command.Some?
    requires args.preset.Some?
    ensures var p := FindPreset(PRESETS, args.preset.value).value;
            var cmd := Run(args, fileExists, manimExit).command.value;
            cmd[1] == "-q" + p.quality && cmd[2..4] == ["--fps", IntToString(p.fps)]
  {
    var p := FindPreset(PRESETS, args.preset.value).value;
    var i :| 0 <= i < |PRESETS| && PRESETS[i] == (args.preset.value, p);
    PresetsSetFps(i);
    var st := ChooseSettings(args.preset, args.cli).value;
    assert st.quality == p.quality && st.fps == Some(p.fps);
    BuildCommandFps(args.sceneFile.value, args.sceneName.value, st);
  }

  /** A command with a frame rate passes it right after the quality. */
  lemma BuildCommandFps(sceneFile: string, sceneName: string, s: Settings)
    requires HasFps(s)
    ensures var cmd := BuildCommand(sceneFile, sceneName, s);
            cmd[1] == "-q" + s.quality && cmd[2..4] == ["--fps", IntToString(s.fps.value)]
  {
    var rest := FormatPart(s) + (TransparentPart(s) + (DirPart(s) + FilePart(s)));
    var cmd := BuildCommand(sceneFile, sceneName, s);
    assert cmd == ["manim", "-q" + s.quality, "--fps", IntToString(s.fps.value)] + (rest + [sceneFile, sceneName]);
  }

  /** `list_presets`: one line per preset, its name padded to twelve
      columns. */
  function PresetLine(name: string, description: string): string {
    "  " + LJust(name, 12) + " - " + description
  }

  function PresetLines(): seq<string> {
    seq(|PRESETS|, i requires 0 <= i < |PRESETS| => PresetLine(PRESETS[i].0, PRESETS[i].1.description))
  }

  /** Every preset name fits its column, so the descriptions line up. */
  lemma PresetLinesAligned(i: nat)
    requires i < |PresetLines()|
    ensures var line := PresetLines()[i];
            && |line| == 17 + |PRESETS[i].1.description|
            && line[2..2 + |PRESETS[i].0|] == PRESETS[i].0
            && line[14..17] == " - "
            && line[17..] == PRESETS[i].1.description
  {
    var name := PRESETS[i].0;
    var d := PRESETS[i].1.description;
    assert |name| <= 12;
    var pad := LJust(name, 12);
    assert |pad| == 12;
    var line := "  " + pad + " - " + d;
    assert line == ("  " + pad) + (" - " + d);
    assert line[2..14] == pad;
    assert pad[..|name|] == name;
    assert line[2..2 + |name|] == pad[..|name|];
  }
}

=== FILE: sp_pages.dfy ===
/**
  The page helpers of the SharePoint plugin: the split of a site URL into
  tenant and site path, the `.aspx` page-name rule, tag stripping, the
  quoting of text put into generated PnP PowerShell commands, the reading
  of a page's canvas into web parts, their grouping into sections, and the
  plain table output. HTTP calls and authentication are outside the model;
  JSON decoding and encoding are parameters.
 */
module SpPages {
  import opened Wrappers
  import opened Text
  import opened Numerals
  import opened Values
  import DbOutput
  // ---------------------------------------------------------------------------
  // `parse_site_url`, and the part of `urllib.parse.urlparse` it relies on
  // ---------------------------------------------------------------------------

  /** The longest prefix of `s` holding none of `stops`. */
  function TakeUntil(s: string, stops: set<char>): (r: string)
    ensures |r| <= |s| && r == s[..|r|]
    ensures forall i :: 0 <= i < |r| ==> r[i] !in stops
    ensures |r| < |s| ==> s[|r|] in stops
  {
    if |s| == 0 || s[0] in stops then [] else [s[0]] + TakeUntil(s[1..], stops)
  }

  /** The prefix ends at the first stop character. */
  lemma {:induction false} TakeUntilAt(a: string, b: string, stops: set<char>)
    requires forall i :: 0 <= i < |a| ==> a[i] !in stops
    requires |b| == 0 || b[0] in stops
    ensures TakeUntil(a + b, stops) == a
    decreases |a|
  {
    if |a| == 0 {
      assert a + b == b;
    } else {
      assert (a + b)[1..] == a[1..] + b;
      TakeUntilAt(a[1..], b, stops);
      assert [a[0]] + a[1..] == a;
    }
  }

  /** The text after the last `c` in `s` (`s.rpartition(c)[2]`), all of `s`
      when it holds none. */
  function AfterLast(s: string, c: char): (r: string)
    ensures |r| <= |s| && r == s[|s| - |r|..]
    ensures c !in r
    ensures |r| < |s| ==> s[|s| - |r| - 1] == c
  {
    if c !in s then s else AfterLast(s[1..], c)
  }

  /** `urlsplit` first strips the C0 control characters and the space from
      the front of the URL, and then deletes every tab, carriage return
      and line feed. */
  predicate Safe(c: char) {
    c !in {'\t', '\r', '\n'}
  }

  /** No tab, carriage return or line feed. */
  predicate AllSafe(s: string) {
    forall i :: 0 <= i < |s| ==> Safe(s[i])
  }

  /** The characters `Safe` keeps, in order. */
  function Clean(s: string): (r: string)
    ensures AllSafe(r)
    ensures forall c :: c in r ==> c in s
  {
    Filter(s, Safe)
  }

  /** `url.lstrip` of the C0 controls and the space. */
  function StripControls(s: string): (r: string)
    ensures |r| <= |s| && r == s[|s| - |r|..]
    ensures forall i :: 0 <= i < |s| - |r| ==> s[i] <= ' '
    ensures |r| == 0 || r[0] > ' '
  {
    if |s| == 0 || s[0] > ' ' then s else StripControls(s[1..])
  }

  /** Cleaning keeps a safe first character and drops an unsafe one. */
  lemma CleanFirst(s: string)
    ensures |s| > 0 && Safe(s[0]) ==> Clean(s) == [s[0]] + Clean(s[1..])
    ensures |s| > 0 && !Safe(s[0]) ==> Clean(s) == Clean(s[1..])
  {
  }

  /** The URL `urlsplit` goes on to split. */
  function CleanUrl(url: string): (r: string)
    ensures AllSafe(r)
    ensures |r| == 0 || r[0] > ' '
  {
    var s := StripControls(url);
    CleanFirst(s);
    Clean(s)
  }

  /** Cleaning only deletes characters. */
  lemma CleanUrlKeeps(url: string)
    ensures forall c :: c in CleanUrl(url) ==> c in url
  {
    var s := StripControls(url);
    assert forall c :: c in s ==> c in url;
  }

  /** Leading controls and spaces are dropped and the rest is cleaned. */
  lemma CleanUrlOf(lead: string, s: string)
    requires forall i :: 0 <= i < |lead| ==> lead[i] <= ' '
    requires |s| == 0 || s[0] > ' '
    ensures CleanUrl(lead + s) == Clean(s)
    decreases |lead|
  {
    if |lead| > 0 {
      assert (lead + s)[1..] == lead[1..] + s;
      CleanUrlOf(lead[1..], s);
    } else {
      assert lead + s == s;
    }
  }

  /** Cleaning is idempotent, so a URL already cleaned parses the same. */
  lemma CleanUrlIdempotent(url: string)
    ensures CleanUrl(CleanUrl(url)) == CleanUrl(url)
  {
    var r := CleanUrl(url);
    assert StripControls(r) == r;
  }

  predicate SchemeChar(c: char) {
    IsAsciiLetter(c) || IsDigit(c) || c == '+' || c == '-' || c == '.'
  }

  /** The scheme, lower-cased, and what follows it: the scheme is the text
      before the first `:` when it is a letter followed by letters, digits,
      `+`, `-` and `.`; otherwise the scheme is empty and the whole URL
      follows. */
  function SplitScheme(url: string): (r: (string, string))
    ensures |r.1| <= |url| && r.1 == url[|url| - |r.1|..]
    ensures |r.0| == 0 ==> r.1 == url
    ensures |r.0| > 0 ==> |url| == |r.0| + 1 + |r.1| && url[|r.0|] == ':'
  {
    var i := TakeUntil(url, {':'});
    if 0 < |i| < |url| && IsAsciiLetter(url[0]) && (forall k :: 0 <= k < |i| ==> SchemeChar(i[k]))
    then (Lower(i), url[|i| + 1..])
    else ("", url)
  }

  lemma SchemeHttps(rest: string)
    ensures SplitScheme("https://" + rest) == ("https", "//" + rest)
  {
    var url := "https://" + rest;
    assert url == "https" + url[5..];
    TakeUntilAt("https", url[5..], {':'});
    assert url[6..] == "//" + rest;
    assert Lower("https") == "https";
  }

  /** `_splitnetloc`: the network location and the text after it. */
  function SplitNetloc(rest: string): (r: (string, string))
    ensures StartsWith(rest, "//") ==> rest == "//" + r.0 + r.1
    ensures !StartsWith(rest, "//") ==> r == ("", rest)
  {
    if StartsWith(rest, "//") then
      var n := TakeUntil(rest[2..], {'/', '?', '#'});
      assert rest == "//" + n + rest[2 + |n|..];
      (n, rest[2 + |n|..])
    else ("", rest)
  }

  lemma NetlocOf(host: string, tail: string)
    requires forall i :: 0 <= i < |host| ==> host[i] !in {'/', '?', '#'}
    requires |tail| == 0 || tail[0] in {'/', '?', '#'}
    ensures SplitNetloc("//" + host + tail) == (host, tail)
  {
    var rest := "//" + host + tail;
    assert rest[..2] == "//";
    assert rest[2..] == host + tail;
    TakeUntilAt(host, tail, {'/', '?', '#'});
  }

  /** What `ipaddress.ip_address` makes of a text: an IPv4 address, an IPv6
      address, or neither (it raises). */
  datatype AddressKind = IPv4 | IPv6 | NoAddress

  /** The `ValueError`s `urlsplit` raises for a network location with
      brackets. */
  datatype UrlError =
    | InvalidIPv6Url     // "Invalid IPv6 URL"
    | InvalidIPvFuture   // "IPvFuture address is invalid"
    | BracketedIPv4      // "An IPv4 address cannot be in brackets"
    | NotAnAddress       // raised by `ipaddress.ip_address`

  predicate IsHexDigit(c: char) {
    IsDigit(c) || 'a' <= c <= 'f' || 'A' <= c <= 'F'
  }

  /** `v`, hex digits, a `.` and at least one more character. */
  predicate IsIPvFuture(host: string) {
    && |host| > 0 && host[0] == 'v'
    && var d := TakeUntil(host[1..], {'.'});
       && 0 < |d| && (forall i :: 0 <= i < |d| ==> IsHexDigit(d[i]))
       && |d| + 2 < |host|
  }

  /** `_check_bracketed_host`: a host starting with `v` must be an IPvFuture
      literal; any other must be an IPv6 address. */
  function CheckBracketedHost(host: string, address: string -> AddressKind): (e: Option<UrlError>)
    ensures e.None? <==> (if |host| > 0 && host[0] == 'v' then IsIPvFuture(host) else address(host) == IPv6)
  {
    if |host| > 0 && host[0] == 'v' then
      if IsIPvFuture(host) then None else Some(InvalidIPvFuture)
    else
      match address(host)
      case IPv6 => None
      case IPv4 => Some(BracketedIPv4)
      case NoAddress => Some(NotAnAddress)
  }

  /** `_check_bracketed_netloc`: after any `user@`, an opening bracket must
      come first and only a `:port` may follow the closing one; the host
      inside is then checked. */
  function CheckBracketedNetloc(netloc: string, address: string -> AddressKind): Option<UrlError> {
    var hostPort := AfterLast(netloc, '@');
    var before := TakeUntil(hostPort, {'['});
    if |before| < |hostPort| then
      var bracketed := hostPort[|before| + 1..];
      var host := TakeUntil(bracketed, {']'});
      var port := if |host| < |bracketed| then bracketed[|host| + 1..] else "";
      if |before| > 0 || (|port| > 0 && port[0] != ':') then Some(InvalidIPv6Url)
      else CheckBracketedHost(host, address)
    else
      CheckBracketedHost(TakeUntil(hostPort, {']'}), address)
  }

  /** The checks `urlsplit` makes on the network location: an unmatched
      bracket is refused, and a bracketed host is checked. */
  function CheckNetloc(netloc: string, address: string -> AddressKind): (e: Option<UrlError>)
    ensures '[' !in netloc && ']' !in netloc ==> e.None?
    ensures ('[' in netloc) != (']' in netloc) ==> e == Some(InvalidIPv6Url)
  {
    if ('[' in netloc) != (']' in netloc) then Some(InvalidIPv6Url)
    else if '[' in netloc then CheckBracketedNetloc(netloc, address)
    else None
  }

  /** The schemes whose last path segment may carry `;` parameters. */
  const USES_PARAMS: set<string> :=
    {"", "ftp", "hdl", "prospero", "http", "imap", "https", "shttp", "rtsp",
     "rtsps", "rtspu", "sip", "sips", "mms", "sftp", "tel"}

  /** `_splitparams(path)[0]`: the path without the parameters that follow
      a `;` in its last segment. */
  function DropParams(path: string): (r: string)
    ensures |r| <= |path| && r == path[..|r|]
    ensures ';' !in path ==> r == path
  {
    var seg := AfterLast(path, '/');
    var k := |path| - |seg|;
    var keep := TakeUntil(seg, {';'});
    assert |keep| < |seg| ==> path[k + |keep|] == ';';
    path[..k + |keep|]
  }

  /** The text after a final `c` is all that follows it. */
  lemma {:induction false} AfterLastOf(dir: string, t: string, c: char)
    requires c !in t
    requires |dir| == 0 || dir[|dir| - 1] == c
    ensures AfterLast(dir + t, c) == t
    decreases |dir|
  {
    if |dir| == 0 {
      assert dir + t == t;
    } else {
      assert (dir + t)[|dir| - 1] == c;
      assert (dir + t)[1..] == dir[1..] + t;
      AfterLastOf(dir[1..], t, c);
    }
  }

  /** The parameters after a `;` in the last segment are cut, and a `;` in
      an earlier segment stays. */
  lemma DropParamsOf(dir: string, seg: string, params: string)
    requires |dir| == 0 || dir[|dir| - 1] == '/'
    requires '/' !in seg && ';' !in seg && '/' !in params
    ensures DropParams(dir + seg + ";" + params) == dir + seg
  {
    var last := seg + [';'] + params;
    assert dir + seg + ";" + params == dir + last;
    DropParamsLast(dir, last, seg, params);
  }

  lemma DropParamsLast(dir: string, last: string, seg: string, params: string)
    requires |dir| == 0 || dir[|dir| - 1] == '/'
    requires '/' !in seg && ';' !in seg && '/' !in params
    requires last == seg + [';'] + params
    ensures DropParams(dir + last) == dir + seg
  {
    assert '/' !in last;
    AfterLastOf(dir, last, '/');
    ParamsStart(seg, params);
    DropParamsAt(dir + last, dir, last, seg);
    PrefixOfJoin(dir, last, seg);
  }

  lemma ParamsStart(seg: string, params: string)
    requires ';' !in seg
    ensures TakeUntil(seg + [';'] + params, {';'}) == seg
  {
    assert seg + [';'] + params == seg + ([';'] + params);
    TakeUntilAt(seg, [';'] + params, {';'});
  }

  lemma DropParamsAt(path: string, dir: string, last: string, seg: string)
    requires path == dir + last
    requires AfterLast(path, '/') == last
    requires TakeUntil(last, {';'}) == seg
    ensures DropParams(path) == path[..|dir| + |seg|]
  {
  }

  lemma PrefixOfJoin(dir: string, last: string, seg: string)
    requires |seg| <= |last| && seg == last[..|seg|]
    ensures (dir + last)[..|dir| + |seg|] == dir + seg
  {
  }

  /** A host in brackets, followed by nothing or a `:port`, is checked as
      a host. */
  lemma BracketedHostChecked(host: string, port: string, address: string -> AddressKind)
    requires '@' !in host && '@' !in port && ']' !in host
    requires |port| == 0 || port[0] == ':'
    ensures CheckBracketedNetloc("[" + host + "]" + port, address) == CheckBracketedHost(host, address)
  {
    var inner := host + ([']'] + port);
    var netloc := ['['] + inner;
    assert "[" + host + "]" + port == netloc;
    assert '@' !in netloc;
    TakeUntilAt(host, [']'] + port, {']'});
    assert inner[|host| + 1..] == port;
    BracketedParts(netloc, inner, host, port, address);
  }

  lemma BracketedParts(netloc: string, inner: string, host: string, port: string, address: string -> AddressKind)
    requires '@' !in netloc && netloc == ['['] + inner
    requires TakeUntil(inner, {']'}) == host && |host| < |inner|
    requires inner[|host| + 1..] == port
    requires |port| == 0 || port[0] == ':'
    ensures CheckBracketedNetloc(netloc, address) == CheckBracketedHost(host, address)
  {
    assert TakeUntil(netloc, {'['}) == [];
    assert netloc[1..] == inner;
  }

  /** Text between the user part and the opening bracket is refused. */
  lemma TextBeforeBracketRejected(before: string, rest: string, address: string -> AddressKind)
    requires |before| > 0 && '[' !in before
    requires '@' !in before && '@' !in rest
    ensures CheckBracketedNetloc(before + "[" + rest, address) == Some(InvalidIPv6Url)
  {
    var netloc := before + "[" + rest;
    assert netloc == before + ("[" + rest);
    TakeUntilAt(before, "[" + rest, {'['});
  }

  /** What `urlsplit` takes apart before it looks at the query: the
      lower-cased scheme, the network location, and the text after it. */
  datatype UrlParts = UrlParts(scheme: string, netloc: string, tail: string)

  function SplitUrl(url: string): UrlParts {
    var split := SplitScheme(CleanUrl(url));
    var loc := SplitNetloc(split.1);
    UrlParts(split.0, loc.0, loc.1)
  }

  /** `parse_site_url`: `urlparse` the URL, and give back the first
      `.`-separated label of its network location and its path. A
      `ValueError` from `urlparse` is the error. */
  function ParseSiteUrl(url: string, address: string -> AddressKind): (r: Result<(string, string), UrlError>)
    ensures r.Ok? ==> '.' !in r.value.0 && '?' !in r.value.1 && '#' !in r.value.1
  {
    ParseParts(SplitUrl(url), address)
  }

  /** The checks and cuts `parse_site_url` makes once the URL is split. */
  function ParseParts(u: UrlParts, address: string -> AddressKind): (r: Result<(string, string), UrlError>)
    ensures r.Ok? ==> '.' !in r.value.0 && '?' !in r.value.1 && '#' !in r.value.1
  {
    var check := CheckNetloc(u.netloc, address);
    if check.Some? then Err(check.value)
    else
      var path := TakeUntil(u.tail, {'?', '#'});
      Ok((TakeUntil(u.netloc, {'.'}), if u.scheme in USES_PARAMS then DropParams(path) else path))
  }

  /** The network location and the tail are cut from the cleaned URL, so
      they hold no tab, carriage return or line feed, and the network
      location holds only characters of the URL. */
  lemma SplitUrlSafe(url: string)
    ensures AllSafe(SplitUrl(url).netloc) && AllSafe(SplitUrl(url).tail)
  {
    RestSafe(url);
    NetlocParts(SplitScheme(CleanUrl(url)).1);
  }

  lemma SplitUrlWithin(url: string)
    ensures forall c :: c in SplitUrl(url).netloc ==> c in url
  {
    RestWithin(url);
    NetlocParts(SplitScheme(CleanUrl(url)).1);
  }

  lemma RestSafe(url: string)
    ensures AllSafe(SplitScheme(CleanUrl(url)).1)
  {
    var clean := CleanUrl(url);
    var rest := SplitScheme(clean).1;
    SafeSlice(clean, |clean| - |rest|, |clean|);
  }

  lemma RestWithin(url: string)
    ensures forall c :: c in SplitScheme(CleanUrl(url)).1 ==> c in url
  {
    var clean := CleanUrl(url);
    var rest := SplitScheme(clean).1;
    CleanUrlKeeps(url);
    assert forall c :: c in rest ==> c in clean;
  }

  lemma NetlocParts(rest: string)
    ensures var loc := SplitNetloc(rest);
            && (AllSafe(rest) ==> AllSafe(loc.0) && AllSafe(loc.1))
            && (forall c :: c in loc.0 ==> c in rest)
  {
    var loc := SplitNetloc(rest);
    if StartsWith(rest, "//") {
      assert loc.0 == rest[2..2 + |loc.0|];
      assert loc.1 == rest[2 + |loc.0|..];
      if AllSafe(rest) {
        SafeSlice(rest, 2, 2 + |loc.0|);
        SafeSlice(rest, 2 + |loc.0|, |rest|);
      }
    }
  }

  /** The tenant and path hold no tab, carriage return or line feed. */
  lemma ParsedPartsSafe(url: string, address: string -> AddressKind)
    ensures var r := ParseSiteUrl(url, address);
            r.Ok? ==> AllSafe(r.value.0) && AllSafe(r.value.1)
  {
    SplitUrlSafe(url);
    PartsSafe(SplitUrl(url), address);
  }

  lemma PartsSafe(u: UrlParts, address: string -> AddressKind)
    requires AllSafe(u.netloc) && AllSafe(u.tail)
    ensures var r := ParseParts(u, address);
            r.Ok? ==> AllSafe(r.value.0) && AllSafe(r.value.1)
  {
    var path := TakeUntil(u.tail, {'?', '#'});
    CutsSafe(u.netloc, u.tail);
    var r := ParseParts(u, address);
    if r.Ok? {
      assert r.value.0 == TakeUntil(u.netloc, {'.'});
      assert r.value.1 == path || r.value.1 == DropParams(path);
    }
  }

  lemma CutsSafe(netloc: string, tail: string)
    requires AllSafe(netloc) && AllSafe(tail)
    ensures AllSafe(TakeUntil(netloc, {'.'}))
    ensures var path := TakeUntil(tail, {'?', '#'});
            AllSafe(path) && AllSafe(DropParams(path))
  {
    SafeSlice(netloc, 0, |TakeUntil(netloc, {'.'})|);
    var path := TakeUntil(tail, {'?', '#'});
    SafeSlice(tail, 0, |path|);
    SafeSlice(path, 0, |DropParams(path)|);
  }

  /** A URL without brackets always parses. */
  lemma ParseWithoutBrackets(url: string, address: string -> AddressKind)
    requires '[' !in url && ']' !in url
    ensures ParseSiteUrl(url, address).Ok?
  {
    SplitUrlWithin(url);
  }

  lemma SafeSlice(s: string, lo: int, hi: int)
    requires AllSafe(s) && 0 <= lo <= hi <= |s|
    ensures AllSafe(s[lo..hi])
  {
  }

  lemma SharePointHost(tenant: string)
    requires forall i :: 0 <= i < |tenant| ==> tenant[i] !in {'.', '/', '?', '#'}
    ensures var host := tenant + ".sharepoint.com";
            forall i :: 0 <= i < |host| ==> host[i] !in {'/', '?', '#'}
  {
    var host := tenant + ".sharepoint.com";
    forall i | 0 <= i < |host|
      ensures host[i] !in {'/', '?', '#'}
    {
      if i >= |tenant| {
        assert host[i] == ".sharepoint.com"[i - |tenant|];
      }
    }
  }

  /** A site URL `https://<tenant>.sharepoint.com<path>`, after any leading
      controls and spaces and before any query or fragment, splits into
      its tenant and path with tabs, carriage returns and line feeds
      deleted and any `;` parameters cut from the path. Without brackets
      in the tenant that always succeeds; an unmatched bracket is an
      error; matched brackets succeed exactly when the bracketed host
      passes the checks. */
  lemma ParseSharePointUrl(lead: string, tenant: string, path: string, suffix: string, address: string -> AddressKind)
    requires forall i :: 0 <= i < |lead| ==> lead[i] <= ' '
    requires forall i :: 0 <= i < |tenant| ==> tenant[i] !in {'.', '/', '?', '#'}
    requires |path| == 0 || path[0] == '/'
    requires forall i :: 0 <= i < |path| ==> path[i] !in {'?', '#'}
    requires |suffix| == 0 || suffix[0] in {'?', '#'}
    ensures var r := ParseSiteUrl(lead + "https://" + tenant + ".sharepoint.com" + path + suffix, address);
            var check := CheckBracketedNetloc(Clean(tenant) + ".sharepoint.com", address);
            && ('[' !in tenant && ']' !in tenant ==> r == Ok((Clean(tenant), DropParams(Clean(path)))))
            && (('[' in tenant) != (']' in tenant) ==> r == Err(InvalidIPv6Url))
            && ('[' in tenant && ']' in tenant ==>
                  r == if check.Some? then Err(check.value) else Ok((Clean(tenant), DropParams(Clean(path)))))
  {
    var url := lead + "https://" + tenant + ".sharepoint.com" + path + suffix;
    var host := Clean(tenant) + ".sharepoint.com";
    SharePointSplit(lead, tenant, path, suffix);
    ParseHttpsParts(url, host, Clean(path) + Clean(suffix), address);
    BracketsOfHost(tenant);
  }

  /** An `https` URL is parsed from its network location and tail. */
  lemma ParseHttpsParts(url: string, host: string, tail: string, address: string -> AddressKind)
    requires SplitUrl(url) == UrlParts("https", host, tail)
    ensures var check := CheckNetloc(host, address);
            var parts := (TakeUntil(host, {'.'}), DropParams(TakeUntil(tail, {'?', '#'})));
            ParseSiteUrl(url, address) == if check.Some? then Err(check.value) else Ok(parts)
  {
    assert "https" in USES_PARAMS;
  }

  /** How `urlsplit` takes a SharePoint site URL apart. */
  lemma SharePointSplit(lead: string, tenant: string, path: string, suffix: string)
    requires forall i :: 0 <= i < |lead| ==> lead[i] <= ' '
    requires forall i :: 0 <= i < |tenant| ==> tenant[i] !in {'.', '/', '?', '#'}
    requires |path| == 0 || path[0] == '/'
    requires forall i :: 0 <= i < |path| ==> path[i] !in {'?', '#'}
    requires |suffix| == 0 || suffix[0] in {'?', '#'}
    ensures var host := Clean(tenant) + ".sharepoint.com";
            var tail := Clean(path) + Clean(suffix);
            && SplitUrl(lead + "https://" + tenant + ".sharepoint.com" + path + suffix) == UrlParts("https", host, tail)
            && TakeUntil(host, {'.'}) == Clean(tenant)
            && TakeUntil(tail, {'?', '#'}) == Clean(path)
  {
    CleanSharePointUrl(lead, tenant, path, suffix);
    SharePointParts(lead + "https://" + tenant + ".sharepoint.com" + path + suffix, tenant, path, suffix);
    PathBeforeQuery(path, suffix);
  }

  lemma CleanSharePointUrl(lead: string, tenant: string, path: string, suffix: string)
    requires forall i :: 0 <= i < |lead| ==> lead[i] <= ' '
    ensures CleanUrl(lead + "https://" + tenant + ".sharepoint.com" + path + suffix)
         == "https://" + ((Clean(tenant) + ".sharepoint.com") + (Clean(path) + Clean(suffix)))
  {
    SharePointTextSafe();
    CleanUrlParts(lead, "https://", tenant, ".sharepoint.com", path, suffix);
  }

  lemma SharePointParts(url: string, tenant: string, path: string, suffix: string)
    requires forall i :: 0 <= i < |tenant| ==> tenant[i] !in {'.', '/', '?', '#'}
    requires |path| == 0 || path[0] == '/'
    requires forall i :: 0 <= i < |path| ==> path[i] !in {'?', '#'}
    requires |suffix| == 0 || suffix[0] in {'?', '#'}
    requires CleanUrl(url) == "https://" + ((Clean(tenant) + ".sharepoint.com") + (Clean(path) + Clean(suffix)))
    ensures SplitUrl(url) == UrlParts("https", Clean(tenant) + ".sharepoint.com", Clean(path) + Clean(suffix))
    ensures TakeUntil(Clean(tenant) + ".sharepoint.com", {'.'}) == Clean(tenant)
  {
    CleanTenantHost(tenant);
    CleanPathStart(path, suffix);
    HttpsSplit(url, Clean(tenant) + ".sharepoint.com", Clean(path) + Clean(suffix));
    TenantLabel(Clean(tenant));
  }

  /** The cleaned path ends where the query or fragment starts. */
  lemma PathBeforeQuery(path: string, suffix: string)
    requires |path| == 0 || path[0] == '/'
    requires forall i :: 0 <= i < |path| ==> path[i] !in {'?', '#'}
    requires |suffix| == 0 || suffix[0] in {'?', '#'}
    ensures TakeUntil(Clean(path) + Clean(suffix), {'?', '#'}) == Clean(path)
  {
    CleanPathStart(path, suffix);
    TakeUntilAt(Clean(path), Clean(suffix), {'?', '#'});
  }

  /** The first label of a SharePoint host is the tenant. */
  lemma TenantLabel(t: string)
    requires forall i :: 0 <= i < |t| ==> t[i] != '.'
    ensures TakeUntil(t + ".sharepoint.com", {'.'}) == t
  {
    TakeUntilAt(t, ".sharepoint.com", {'.'});
  }

  /** An `https` URL whose host holds no `/`, `?` or `#` has that host as
      its network location. */
  lemma HttpsSplit(url: string, host: string, tail: string)
    requires CleanUrl(url) == "https://" + (host + tail)
    requires forall i :: 0 <= i < |host| ==> host[i] !in {'/', '?', '#'}
    requires |tail| == 0 || tail[0] in {'/', '?', '#'}
    ensures SplitUrl(url) == UrlParts("https", host, tail)
  {
    SchemeHttps(host + tail);
    assert "//" + (host + tail) == "//" + host + tail;
    NetlocOf(host, tail);
  }

  /** Cleaning works piecewise. */
  lemma CleanAppend(a: string, b: string)
    ensures Clean(a + b) == Clean(a) + Clean(b)
  {
    FilterAppend(a, b, Safe);
  }

  lemma CleanSafeText(s: string)
    requires AllSafe(s)
    ensures Clean(s) == s
  {
  }

  /** Cleaning a URL cleans each of its parts; the fixed parts are
      already clean. */
  lemma CleanParts(a: string, tenant: string, b: string, path: string, suffix: string)
    requires AllSafe(a) && AllSafe(b)
    ensures Clean(a + tenant + b + path + suffix) == a + Clean(tenant) + b + Clean(path) + Clean(suffix)
  {
    CleanSafeText(a);
    CleanSafeText(b);
    CleanAppend(a, tenant);
    CleanAppend(a + tenant, b);
    CleanAppend(a + tenant + b, path);
    CleanAppend(a + tenant + b + path, suffix);
  }

  /** The same after the leading controls and spaces are stripped. */
  lemma CleanUrlParts(lead: string, a: string, tenant: string, b: string, path: string, suffix: string)
    requires forall i :: 0 <= i < |lead| ==> lead[i] <= ' '
    requires AllSafe(a) && AllSafe(b) && |a| > 0 && a[0] > ' '
    ensures CleanUrl(lead + a + tenant + b + path + suffix) == a + ((Clean(tenant) + b) + (Clean(path) + Clean(suffix)))
  {
    var s := a + tenant + b + path + suffix;
    assert lead + a + tenant + b + path + suffix == lead + s;
    CleanUrlOf(lead, s);
    CleanParts(a, tenant, b, path, suffix);
    Regroup(a, Clean(tenant), b, Clean(path), Clean(suffix));
  }

  lemma Regroup<T>(a: seq<T>, t: seq<T>, b: seq<T>, p: seq<T>, x: seq<T>)
    ensures a + t + b + p + x == a + ((t + b) + (p + x))
  {
  }

  lemma SharePointTextSafe()
    ensures AllSafe("https://") && "https://"[0] > ' '
    ensures AllSafe(".sharepoint.com")
  {
  }

  lemma CleanTenantHost(tenant: string)
    requires forall i :: 0 <= i < |tenant| ==> tenant[i] !in {'.', '/', '?', '#'}
    ensures var host := Clean(tenant) + ".sharepoint.com";
            forall i :: 0 <= i < |host| ==> host[i] !in {'/', '?', '#'}
    ensures forall i :: 0 <= i < |Clean(tenant)| ==> Clean(tenant)[i] != '.'
  {
    var t := Clean(tenant);
    forall i | 0 <= i < |t|
      ensures t[i] !in {'.', '/', '?', '#'}
    {
      assert t[i] in t;
    }
    SharePointHost(t);
  }

  /** The cleaned path still starts the tail, which holds its query or
      fragment after it. */
  lemma CleanPathStart(path: string, suffix: string)
    requires |path| == 0 || path[0] == '/'
    requires forall i :: 0 <= i < |path| ==> path[i] !in {'?', '#'}
    requires |suffix| == 0 || suffix[0] in {'?', '#'}
    ensures var tail := Clean(path) + Clean(suffix);
            |tail| == 0 || tail[0] in {'/', '?', '#'}
    ensures forall i :: 0 <= i < |Clean(path)| ==> Clean(path)[i] !in {'?', '#'}
    ensures |Clean(suffix)| == 0 || Clean(suffix)[0] in {'?', '#'}
  {
    var p := Clean(path);
    forall i | 0 <= i < |p|
      ensures p[i] !in {'?', '#'}
    {
      assert p[i] in p;
    }
    if |suffix| > 0 {
      assert suffix == [suffix[0]] + suffix[1..];
    }
    if |path| > 0 {
      assert path == [path[0]] + path[1..];
      assert (p + Clean(suffix))[0] == p[0];
    } else {
      assert p + Clean(suffix) == Clean(suffix);
    }
  }

  /** Cleaning keeps the brackets of the tenant, and the host has no others. */
  lemma BracketsOfHost(tenant: string)
    ensures var host := Clean(tenant) + ".sharepoint.com";
            && ('[' in host <==> '[' in tenant)
            && (']' in host <==> ']' in tenant)
  {
    FilterMembers(tenant, Safe);
    assert '[' !in ".sharepoint.com" && ']' !in ".sharepoint.com";
  }

  /** Controls and spaces before the URL do not change what it parses to. */
  lemma LeadingControlsIgnored(lead: string, url: string, address: string -> AddressKind)
    requires forall i :: 0 <= i < |lead| ==> lead[i] <= ' '
    ensures ParseSiteUrl(lead + url, address) == ParseSiteUrl(url, address)
  {
    CleanUrlPrefix(lead, url);
  }

  lemma {:induction false} CleanUrlPrefix(lead: string, url: string)
    requires forall i :: 0 <= i < |lead| ==> lead[i] <= ' '
    ensures CleanUrl(lead + url) == CleanUrl(url)
    decreases |lead|
  {
    if |lead| > 0 {
      assert (lead + url)[1..] == lead[1..] + url;
      CleanUrlPrefix(lead[1..], url);
    } else {
      assert lead + url == url;
    }
  }

  /** A tab, carriage return or line feed anywhere in the URL does not
      change what it parses to. */
  lemma UnsafeCharacterIgnored(a: string, c: char, b: string, address: string -> AddressKind)
    requires !Safe(c)
    ensures ParseSiteUrl(a + [c] + b, address) == ParseSiteUrl(a + b, address)
  {
    CleanUrlDelete(a, c, b);
  }

  lemma {:induction false} CleanUrlDelete(a: string, c: char, b: string)
    requires !Safe(c)
    ensures CleanUrl(a + [c] + b) == CleanUrl(a + b)
    decreases |a|
  {
    if |a| == 0 {
      assert a + [c] + b == [c] + b;
      assert ([c] + b)[1..] == b;
      assert a + b == b;
    } else if a[0] <= ' ' {
      assert (a + [c] + b)[1..] == a[1..] + [c] + b;
      assert (a + b)[1..] == a[1..] + b;
      CleanUrlDelete(a[1..], c, b);
    } else {
      assert (a + [c] + b)[0] == a[0] && (a + b)[0] == a[0];
      CleanDelete(a, c, b);
    }
  }

  /** Cleaning deletes an unsafe character wherever it stands. */
  lemma CleanDelete(a: string, c: char, b: string)
    requires !Safe(c)
    ensures Clean(a + [c] + b) == Clean(a + b)
  {
    CleanAppend(a + [c], b);
    CleanAppend(a, [c]);
    CleanAppend(a, b);
    CleanFirst([c]);
    assert [c][1..] == [];
  }

  // ---------------------------------------------------------------------------
  // Page names
  // ---------------------------------------------------------------------------

  const ASPX: string := ".aspx"

  /** The page name with `.aspx` appended unless it already ends so. */
  function EnsureAspx(name: string): (r: string)
    ensures EndsWith(r, ASPX)
    ensures EndsWith(name, ASPX) ==> r == name
    ensures !EndsWith(name, ASPX) ==> r == name + ASPX
  {
    if EndsWith(name, ASPX) then name
    else
      var r := name + ASPX;
      assert r[|r| - 5..] == ASPX;
      r
  }

  /** Normalising twice is normalising once, and a name with or without
      its extension names the same page. */
  lemma EnsureAspxIdempotent(name: string)
    ensures EnsureAspx(EnsureAspx(name)) == EnsureAspx(name)
    ensures EnsureAspx(name + ASPX) == name + ASPX
  {
    var r := name + ASPX;
    assert r[|r| - 5..] == ASPX;
  }

  // ---------------------------------------------------------------------------
  // `strip_html`
  // ---------------------------------------------------------------------------

  /** Where a tag opening at `s[0]` closes: the first `>` after it, when at
      least one other character lies between. */
  function TagEnd(s: string): (k: Option<nat>)
    requires |s| > 0 && s[0] == '<'
    ensures k.Some? ==> 2 <= k.value < |s| && s[k.value] == '>' && forall j :: 1 <= j < k.value ==> s[j] != '>'
    ensures k.None? ==> (|s| > 1 && s[1] == '>') || forall j :: 1 <= j < |s| ==> s[j] != '>'
  {
    var run := TakeUntil(s[1..], {'>'});
    if |run| == 0 || |run| == |s| - 1 then None
    else
      assert s[1 + |run|] == s[1..][|run|];
      assert forall j :: 1 <= j < 1 + |run| ==> s[j] == run[j - 1];
      Some(1 + |run|)
  }

  /** `re.sub(r'<[^>]+>', '', s)`: from left to right, each `<`, run of
      non-`>` characters and `>` is removed. */
  function RemoveTags(s: string): (r: string)
    ensures |r| <= |s|
    ensures forall i :: 0 <= i < |r| ==> r[i] in s
    decreases |s|
  {
    if |s| == 0 then []
    else if s[0] == '<' && TagEnd(s).Some? then
      var r := RemoveTags(s[TagEnd(s).value + 1..]);
      assert forall i :: 0 <= i < |r| ==> r[i] in s by {
        forall i | 0 <= i < |r| ensures r[i] in s {
          var j :| 0 <= j < |s[TagEnd(s).value + 1..]| && s[TagEnd(s).value + 1..][j] == r[i];
          assert s[TagEnd(s).value + 1 + j] == r[i];
        }
      }
      r
    else
      var r := [s[0]] + RemoveTags(s[1..]);
      assert forall i :: 0 <= i < |r| ==> r[i] in s by {
        forall i | 0 <= i < |r| ensures r[i] in s {
          if i > 0 {
            var j :| 0 <= j < |s[1..]| && s[1..][j] == r[i];
            assert s[j + 1] == r[i];
          }
        }
      }
      r
  }

  /** `strip_html`. */
  function StripHtml(html: string): string {
    Strip(RemoveTags(html))
  }

  /** Text without `<` is only trimmed. */
  lemma {:induction false} RemoveTagsPlain(s: string)
    requires '<' !in s
    ensures RemoveTags(s) == s
    decreases |s|
  {
    if |s| > 0 {
      assert '<' !in s[1..];
      RemoveTagsPlain(s[1..]);
    }
  }

  lemma StripHtmlPlain(s: string)
    requires '<' !in s
    ensures StripHtml(s) == Strip(s)
  {
    RemoveTagsPlain(s);
  }

  /** A `<` left in the result is never the start of a tag: it is followed
      at once by `>`, or by no `>` at all. */
  predicate NoTag(r: string) {
    forall i :: 0 <= i < |r| && r[i] == '<' ==> (i + 1 < |r| && r[i + 1] == '>') || '>' !in r[i + 1..]
  }

  lemma {:induction false} RemoveTagsHead(s: string)
    requires |s| > 0 && s[0] != '<'
    ensures |RemoveTags(s)| > 0 && RemoveTags(s)[0] == s[0]
  {
  }

  lemma {:induction false} RemoveTagsLeavesNoTag(s: string)
    ensures NoTag(RemoveTags(s))
    decreases |s|
  {
    if |s| == 0 {
    } else if s[0] == '<' && TagEnd(s).Some? {
      RemoveTagsLeavesNoTag(s[TagEnd(s).value + 1..]);
    } else {
      RemoveTagsLeavesNoTag(s[1..]);
      NoTagKeptStep(s);
    }
  }

  /** A character kept in front of a tag-free rest leaves no tag. */
  lemma NoTagKeptStep(s: string)
    requires |s| > 0 && !(s[0] == '<' && TagEnd(s).Some?)
    requires NoTag(RemoveTags(s[1..]))
    ensures NoTag(RemoveTags(s))
  {
    RemoveTagsKept(s);
    KeptHead(s);
    NoTagCons(s[0], RemoveTags(s[1..]));
  }

  /** An unmatched `<` is followed, once tags are removed, by `>` or by no `>` at all. */
  lemma KeptHead(s: string)
    requires |s| > 0 && !(s[0] == '<' && TagEnd(s).Some?)
    ensures var tail := RemoveTags(s[1..]);
            s[0] == '<' ==> (|tail| > 0 && tail[0] == '>') || '>' !in tail
  {
    if s[0] == '<' {
      if |s| > 1 && s[1] == '>' {
        RemoveTagsHead(s[1..]);
      } else {
        NoCloseKept(s[1..]);
      }
    }
  }

  lemma RemoveTagsKept(s: string)
    requires |s| > 0 && !(s[0] == '<' && TagEnd(s).Some?)
    ensures RemoveTags(s) == [s[0]] + RemoveTags(s[1..])
  {
  }

  lemma NoCloseKept(s: string)
    requires forall j :: 0 <= j < |s| ==> s[j] != '>'
    ensures '>' !in RemoveTags(s)
  {
  }

  lemma NoTagCons(c: char, tail: string)
    requires NoTag(tail)
    requires c == '<' ==> (|tail| > 0 && tail[0] == '>') || '>' !in tail
    ensures NoTag([c] + tail)
  {
    var r := [c] + tail;
    forall i | 0 <= i < |r| && r[i] == '<'
      ensures (i + 1 < |r| && r[i + 1] == '>') || '>' !in r[i + 1..]
    {
      if i == 0 {
        assert r[1..] == tail;
      } else {
        assert r[i] == tail[i - 1];
        assert r[i + 1..] == tail[i..];
      }
    }
  }

  /** A tag is removed whole, whatever it holds besides `>`. */
  lemma RemoveTagsTag(t: string, rest: string)
    requires |t| > 0 && '>' !in t
    ensures RemoveTags("<" + t + ">" + rest) == RemoveTags(rest)
  {
    var s := "<" + t + ">" + rest;
    assert s[1..] == t + (">" + rest);
    TakeUntilAt(t, ">" + rest, {'>'});
    assert TagEnd(s) == Some(1 + |t|);
    assert s[|t| + 2..] == rest;
  }

  // ---------------------------------------------------------------------------
  // Generated PnP PowerShell commands
  // ---------------------------------------------------------------------------

  /** `text.replace('"', '`"')`: PowerShell's escaped quote. */
  function EscapeQuotes(text: string): (r: string)
    ensures '"' !in text ==> r == text
  {
    ReplaceChar(text, '"', "`\"")
  }

  /** The reverse reading: `` `" `` back to `"`. */
  function UnescapeQuotes(s: string): string
    decreases |s|
  {
    if |s| >= 2 && s[0] == '`' && s[1] == '"' then "\"" + UnescapeQuotes(s[2..])
    else if |s| == 0 then []
    else [s[0]] + UnescapeQuotes(s[1..])
  }

  lemma {:induction false} EscapeHead(text: string)
    requires |text| > 0
    ensures EscapeQuotes(text) == (if text[0] == '"' then "`\"" else [text[0]]) + EscapeQuotes(text[1..])
  {
  }

  /** Escaping never begins with a quote. */
  lemma EscapeNoLeadingQuote(text: string)
    ensures |EscapeQuotes(text)| > 0 ==> EscapeQuotes(text)[0] != '"'
  {
    if |text| > 0 {
      EscapeHead(text);
    }
  }

  /** No information is lost: the escaped text reads back as the text. */
  lemma {:induction false} EscapeRoundTrip(text: string)
    ensures UnescapeQuotes(EscapeQuotes(text)) == text
    decreases |text|
  {
    if |text| > 0 {
      EscapeHead(text);
      EscapeRoundTrip(text[1..]);
      var e := EscapeQuotes(text[1..]);
      if text[0] == '"' {
        assert ("`\"" + e)[2..] == e;
      } else {
        EscapeNoLeadingQuote(text[1..]);
        assert ([text[0]] + e)[1..] == e;
      }
      assert [text[0]] + text[1..] == text;
    }
  }

  /** Every quote of the escaped text is preceded by a backtick. That
      backtick may itself be the second half of an escaped backtick, so
      this alone does not keep the text inside its argument; see
      `EscapeQuotesLetsTextOut`. */
  lemma {:induction false} EscapedQuotesGuarded(text: string)
    ensures var r := EscapeQuotes(text);
            forall i :: 0 <= i < |r| && r[i] == '"' ==> i > 0 && r[i - 1] == '`'
    decreases |text|
  {
    if |text| > 0 {
      EscapeHead(text);
      EscapedQuotesGuarded(text[1..]);
      EscapeNoLeadingQuote(text[1..]);
      var e := EscapeQuotes(text[1..]);
      var h := if text[0] == '"' then "`\"" else [text[0]];
      var r := h + e;
      forall i | 0 <= i < |r| && r[i] == '"'
        ensures i > 0 && r[i - 1] == '`'
      {
        if i >= |h| {
          assert r[i] == e[i - |h|];
          if i > |h| {
            assert r[i - 1] == e[i - 1 - |h|];
          }
        }
      }
    }
  }

  // ---------------------------------------------------------------------------
  // How PowerShell reads a double-quoted argument
  // ---------------------------------------------------------------------------

  /** The characters PowerShell takes as a double quote: the ASCII one and
      the three typographic ones. */
  predicate IsPsQuote(c: char) {
    c == '"' || c == '\U{201C}' || c == '\U{201D}' || c == '\U{201E}'
  }

  /** What a backtick followed by `c` stands for: a control character for
      the escape letters, `c` itself otherwise. */
  function BacktickChar(c: char): char {
    match c
    case '0' => '\0'
    case 'a' => '\U{7}'
    case 'b' => '\U{8}'
    case 'e' => '\U{1B}'
    case 'f' => '\U{C}'
    case 'n' => '\n'
    case 'r' => '\r'
    case 't' => '\t'
    case 'v' => '\U{B}'
    case _ => c
  }

  /** A `$` before one of these starts a variable or subexpression. */
  predicate Expands(c: char) {
    IsAsciiLetter(c) || IsDigit(c) || c in "_({?^$"
  }

  /** Reads the inside of a double-quoted string, `s` starting just after
      the opening quote: the literal value and the index of the closing
      quote, or `None` when the string never closes or holds an expansion
      (its value then depends on the session, not on the text). */
  function PsRead(s: string): (r: Option<(string, nat)>)
    ensures r.Some? ==> r.value.1 < |s| && IsPsQuote(s[r.value.1])
    decreases |s|
  {
    if |s| == 0 then None
    else if s[0] == '`' then
      if |s| < 2 then None
      else
        match PsRead(s[2..])
        case None => None
        case Some((v, e)) => Some(([BacktickChar(s[1])] + v, e + 2))
    else if IsPsQuote(s[0]) then
      if |s| >= 2 && IsPsQuote(s[1]) then
        match PsRead(s[2..])
        case None => None
        case Some((v, e)) => Some(([s[0]] + v, e + 2))
      else Some(("", 0))
    else if s[0] == '$' && |s| >= 2 && Expands(s[1]) then None
    else
      match PsRead(s[1..])
      case None => None
      case Some((v, e)) => Some(([s[0]] + v, e + 1))
  }

  lemma PsReadPlain(c: char, rest: string)
    requires c != '`' && c != '$' && !IsPsQuote(c)
    ensures PsRead([c] + rest) == if PsRead(rest).None? then None
                                  else Some(([c] + PsRead(rest).value.0, PsRead(rest).value.1 + 1))
  {
    assert ([c] + rest)[1..] == rest;
  }

  lemma PsReadBacktick(c: char, rest: string)
    ensures PsRead(['`', c] + rest) == if PsRead(rest).None? then None
                                       else Some(([BacktickChar(c)] + PsRead(rest).value.0, PsRead(rest).value.1 + 2))
  {
    assert (['`', c] + rest)[2..] == rest;
  }

  lemma PsReadClose(tail: string)
    requires tail == "" || !IsPsQuote(tail[0])
    ensures PsRead("\"" + tail) == Some(("", 0))
  {
    assert |"\"" + tail| >= 2 ==> ("\"" + tail)[1] == tail[0];
  }

  lemma EscapeBacktickQuote()
    ensures EscapeQuotes("`\" x") == "``\" x"
  {
    var t := "`\" x";
    EscapeHead(t);
    EscapeHead(t[1..]);
    assert t[2..] == " x";
    assert EscapeQuotes(" x") == " x" by {
      assert forall i :: 0 <= i < |" x"| ==> " x"[i] != '"';
    }
  }

  /** A backtick in the text is left as it is, so a text ending in a
      backtick before a quote turns the quote's escape into an escaped
      backtick: `` `" x `` becomes `` ``" x ``, whose quote closes the
      `-Text` argument after one character and hands ` x` to PowerShell. */
  lemma EscapeQuotesLetsTextOut()
    ensures EscapeQuotes("`\" x") == "``\" x"
    ensures PsRead(EscapeQuotes("`\" x") + "\" -Section 1") == Some(("`", 2))
  {
    EscapeBacktickQuote();
    var tail := " x\" -Section 1";
    assert "``\" x" + "\" -Section 1" == ['`', '`'] + ("\"" + tail);
    PsReadEscapedBacktick(tail);
  }

  lemma PsReadEscapedBacktick(tail: string)
    requires tail == "" || !IsPsQuote(tail[0])
    ensures PsRead(['`', '`'] + ("\"" + tail)) == Some(("`", 2))
  {
    PsReadClose(tail);
    PsReadBacktick('`', "\"" + tail);
    assert BacktickChar('`') == '`';
    assert [BacktickChar('`')] + "" == "`";
  }

  /** A `$` is left as it is, so a subexpression in the text is run rather
      than shown. */
  lemma EscapeQuotesLeavesExpansion()
    ensures EscapeQuotes("$(pwd)") == "$(pwd)"
    ensures PsRead(EscapeQuotes("$(pwd)") + "\"") == None
  {
    var t := "$(pwd)";
    assert '"' !in t by {
      assert forall i :: 0 <= i < |t| ==> t[i] != '"';
    }
    var s := t + "\"";
    assert s[0] == '$' && s[1] == '(';
    PsReadExpansion(s);
  }

  lemma PsReadExpansion(s: string)
    requires |s| >= 2 && s[0] == '$' && Expands(s[1])
    ensures PsRead(s) == None
  {
  }

  /** The characters a double-quoted argument treats specially. */
  predicate PsSpecial(c: char) {
    c == '`' || c == '$' || IsPsQuote(c)
  }

  /** The escaping the generated commands need: a backtick before every
      backtick, `$` and quote. */
  function EscapePs(text: string): (r: string)
    ensures |r| >= |text|
    ensures (forall i :: 0 <= i < |text| ==> !PsSpecial(text[i])) ==> r == text
    decreases |text|
  {
    if |text| == 0 then ""
    else (if PsSpecial(text[0]) then ['`', text[0]] else [text[0]]) + EscapePs(text[1..])
  }

  lemma EscapePsCons(text: string)
    requires |text| > 0
    ensures EscapePs(text) == (if PsSpecial(text[0]) then ['`', text[0]] else [text[0]]) + EscapePs(text[1..])
  {
  }

  lemma SpecialKept(c: char)
    requires PsSpecial(c)
    ensures BacktickChar(c) == c
  {
  }

  /** What follows the escaped text: the closing quote, then anything that
      does not start with another quote. */
  predicate ClosesArgument(close: string) {
    |close| > 0 && close[0] == '"' && (|close| == 1 || !IsPsQuote(close[1]))
  }

  lemma EscapePsReadsBackSpecial(text: string, close: string)
    requires |text| > 0 && PsSpecial(text[0])
    requires PsRead(EscapePs(text[1..]) + close) == Some((text[1..], |EscapePs(text[1..])|))
    ensures PsRead(EscapePs(text) + close) == Some((text, |EscapePs(text)|))
  {
    var c := text[0];
    var e := EscapePs(text[1..]);
    EscapePsCons(text);
    assert EscapePs(text) == ['`', c] + e;
    AppendAssoc(['`', c], e, close);
    PsReadBacktick(c, e + close);
    SpecialKept(c);
    assert PsRead(['`', c] + (e + close)) == Some(([c] + text[1..], |e| + 2));
    assert [c] + text[1..] == text;
  }

  lemma EscapePsReadsBackPlain(text: string, close: string)
    requires |text| > 0 && !PsSpecial(text[0])
    requires PsRead(EscapePs(text[1..]) + close) == Some((text[1..], |EscapePs(text[1..])|))
    ensures PsRead(EscapePs(text) + close) == Some((text, |EscapePs(text)|))
  {
    var e := EscapePs(text[1..]);
    EscapePsCons(text);
    AppendAssoc([text[0]], e, close);
    PsReadPlain(text[0], e + close);
    assert [text[0]] + text[1..] == text;
  }

  lemma {:induction false} EscapePsReadsBackClosed(text: string, close: string)
    requires ClosesArgument(close)
    ensures PsRead(EscapePs(text) + close) == Some((text, |EscapePs(text)|))
    decreases |text|
  {
    if |text| == 0 {
      assert EscapePs(text) + close == "\"" + close[1..];
      PsReadClose(close[1..]);
    } else {
      EscapePsReadsBackClosed(text[1..], close);
      if PsSpecial(text[0]) {
        EscapePsReadsBackSpecial(text, close);
      } else {
        EscapePsReadsBackPlain(text, close);
      }
    }
  }

  /** With `EscapePs`, the argument reads back as exactly the text and
      closes at the quote put after it, whatever the text holds. */
  lemma EscapePsReadsBack(text: string, tail: string)
    requires tail == "" || !IsPsQuote(tail[0])
    ensures PsRead(EscapePs(text) + "\"" + tail) == Some((text, |EscapePs(text)|))
  {
    var close := "\"" + tail;
    assert ClosesArgument(close) by {
      assert |close| > 1 ==> close[1] == tail[0];
    }
    EscapePsReadsBackClosed(text, close);
    AppendAssoc(EscapePs(text), "\"", tail);
  }

  /** The two escapings differ only on texts with a backtick, a `$` or a
      typographic quote. */
  lemma {:induction false} EscapesAgree(text: string)
    requires forall i :: 0 <= i < |text| ==> text[i] == '"' || !PsSpecial(text[i])
    ensures EscapeQuotes(text) == EscapePs(text)
    decreases |text|
  {
    if |text| > 0 {
      EscapeHead(text);
      assert forall i :: 0 <= i < |text[1..]| ==> text[1..][i] == text[i + 1];
      EscapesAgree(text[1..]);
    }
  }

  function ConnectCommand(site: string): string {
    "# Connect to SharePoint site with PnP PowerShell\n"
      + "# Install module first: Install-Module PnP.PowerShell -Scope CurrentUser\n\n"
      + "Connect-PnPOnline -Url \"" + site + "\" -Interactive"
  }

  function EditTextCommand(site: string, page: string, instanceId: string, text: string): string {
    var p := EnsureAspx(page);
    "# Connect first\nConnect-PnPOnline -Url \"" + site + "\" -Interactive\n\n"
      + "# Update the text web part\nSet-PnPPageTextPart -Page \"" + p + "\" -InstanceId \"" + instanceId
      + "\" -Text \"" + EscapeQuotes(text) + "\"\n\n"
      + "# Publish the page\nSet-PnPPage -Identity \"" + p + "\" -Publish"
  }

  function AddSectionCommand(page: string, layout: string, order: int): string {
    "# Add a new section to the page\nAdd-PnPPageSection -Page \"" + EnsureAspx(page)
      + "\" -SectionTemplate " + layout + " -Order " + IntToString(order)
  }

  function AddTextCommand(page: string, text: string, section: int, column: int): string {
    "# Add text web part\nAdd-PnPPageTextPart -Page \"" + EnsureAspx(page) + "\" -Text \""
      + EscapeQuotes(text) + "\" -Section " + IntToString(section) + " -Column " + IntToString(column)
  }

  /** A page named with or without `.aspx` gets the same commands. */
  lemma CommandsIgnoreExtension(site: string, page: string, instanceId: string, text: string,
                                layout: string, order: int, section: int, column: int)
    ensures EditTextCommand(site, page, instanceId, text) == EditTextCommand(site, EnsureAspx(page), instanceId, text)
    ensures AddSectionCommand(page, layout, order) == AddSectionCommand(EnsureAspx(page), layout, order)
    ensures AddTextCommand(page, text, section, column) == AddTextCommand(EnsureAspx(page), text, section, column)
  {
    EnsureAspxIdempotent(page);
  }

  // ---------------------------------------------------------------------------
  // `parse_canvas_content`
  // ---------------------------------------------------------------------------

  /** A canvas control's `position`; missing indices read as 0. */
  datatype Position = Position(sectionIndex: Option<int>, controlIndex: Option<int>, zoneIndex: Option<int>)

  /** A canvas control's `webPartData`: the HTML of a text part, and the
      title and properties of a web part, the properties carried as their
      JSON text. */
  datatype WebPartData = WebPartData(innerHtml: Option<string>, title: Option<string>, propertiesJson: Option<string>)

  /** One item of `CanvasContent1`. */
  datatype CanvasItem = CanvasItem(
    id: Option<string>,
    webPartId: Option<string>,
    controlType: Option<int>,
    position: Option<Position>,
    data: Option<WebPartData>)

  /** What a parsed control carries besides its place. */
  datatype Content =
    | TextPart(html: string, plainText: string)
    | WebPartContent(title: string, properties: string)
    | RawItem(item: CanvasItem)

  /** A parsed control. */
  datatype WebPart = WebPart(
    instanceId: Option<string>,
    webPartType: Value,
    section: int,
    column: int,
    order: int,
    content: Content)

  const NO_PROPERTIES: string := "{}"

  function Index(p: Option<Position>, pick: Position -> Option<int>): int {
    if p.Some? then pick(p.value).GetOr(0) else 0
  }

  function DataOf(item: CanvasItem): WebPartData {
    item.data.GetOr(WebPartData(None, None, None))
  }

  /** One control: text parts (type 4) keep their HTML and its plain text,
      web parts (type 3) their title and properties, anything else the
      item itself. */
  function ParseItem(item: CanvasItem, dumps: string -> string): (wp: WebPart)
    ensures wp.instanceId == item.id
    ensures wp.section == Index(item.position, (p: Position) => p.sectionIndex)
    ensures item.controlType == Some(4) ==>
              (wp.webPartType == VStr("Text")
               && wp.content == TextPart(DataOf(item).innerHtml.GetOr(""), StripHtml(DataOf(item).innerHtml.GetOr(""))))
    ensures item.controlType == Some(3) ==> wp.content.WebPartContent? && wp.content.title == DataOf(item).title.GetOr("")
    ensures item.controlType != Some(3) && item.controlType != Some(4) ==> wp.content == RawItem(item)
    ensures item.controlType != Some(4) && item.webPartId.Some? && item.webPartId.value != "" ==>
              wp.webPartType == VStr(item.webPartId.value)
  {
    var kind :=
      if item.webPartId.Some? && item.webPartId.value != "" then VStr(item.webPartId.value)
      else if item.controlType.Some? then VInt(item.controlType.value) else VNone;
    var section := Index(item.position, (p: Position) => p.sectionIndex);
    var column := Index(item.position, (p: Position) => p.controlIndex);
    var order := Index(item.position, (p: Position) => p.zoneIndex);
    if item.controlType == Some(4) then
      var inner := DataOf(item).innerHtml.GetOr("");
      WebPart(item.id, VStr("Text"), section, column, order, TextPart(inner, StripHtml(inner)))
    else if item.controlType == Some(3) then
      var d := DataOf(item);
      WebPart(item.id, kind, section, column, order,
              WebPartContent(d.title.GetOr(""), dumps(d.propertiesJson.GetOr(NO_PROPERTIES))))
    else WebPart(item.id, kind, section, column, order, RawItem(item))
  }

  /** `parse_canvas_content`: nothing for an empty or undecodable canvas,
      otherwise one web part per item, in order. */
  function ParseCanvas(canvas: string, decode: string -> Option<seq<CanvasItem>>, dumps: string -> string): (wps: seq<WebPart>)
    ensures canvas == "" ==> wps == []
    ensures canvas != "" && decode(canvas).None? ==> wps == []
    ensures canvas != "" && decode(canvas).Some? ==>
              |wps| == |decode(canvas).value|
              && forall i :: 0 <= i < |wps| ==> wps[i] == ParseItem(decode(canvas).value[i], dumps)
  {
    if canvas == "" then []
    else match decode(canvas)
      case None => []
      case Some(items) => seq(|items|, i requires 0 <= i < |items| => ParseItem(items[i], dumps))
  }

  // ---------------------------------------------------------------------------
  // Section grouping in `get_page_sections`
  // ---------------------------------------------------------------------------

  /** A section and its web parts. */
  datatype Section = Section(index: int, parts: seq<WebPart>)

  /** The section indices, in order of first appearance. */
  function Indices(wps: seq<WebPart>): (ks: seq<int>)
    ensures forall i, j :: 0 <= i < j < |ks| ==> ks[i] != ks[j]
    ensures forall i :: 0 <= i < |wps| ==> wps[i].section in ks
    ensures forall j :: 0 <= j < |ks| ==> exists i :: 0 <= i < |wps| && wps[i].section == ks[j]
  {
    if |wps| == 0 then []
    else
      var front := wps[..|wps| - 1];
      assert forall i :: 0 <= i < |front| ==> front[i] == wps[i];
      var ks := Indices(front);
      if wps[|wps| - 1].section in ks then ks else ks + [wps[|wps| - 1].section]
  }

  /** The web parts of one section, in order. */
  function InSection(wps: seq<WebPart>, k: int): (r: seq<WebPart>)
    ensures forall i :: 0 <= i < |r| ==> r[i].section == k
  {
    if |wps| == 0 then []
    else InSection(wps[..|wps| - 1], k) + (if wps[|wps| - 1].section == k then [wps[|wps| - 1]] else [])
  }

  /** The grouping the code computes, stated directly: one section per
      index in order of first appearance, holding its web parts in order. */
  function Grouped(wps: seq<WebPart>): (ss: seq<Section>)
    ensures |ss| == |Indices(wps)|
    ensures forall j :: 0 <= j < |ss| ==> ss[j] == Section(Indices(wps)[j], InSection(wps, Indices(wps)[j]))
  {
    var ks := Indices(wps);
    seq(|ks|, j requires 0 <= j < |ks| => Section(ks[j], InSection(wps, ks[j])))
  }

  lemma InSectionAbsent(wps: seq<WebPart>, k: int)
    requires k !in Indices(wps)
    ensures InSection(wps, k) == []
  {
    if |wps| > 0 {
      assert wps[..|wps| - 1][..|wps| - 1] == wps[..|wps| - 1];
      assert k !in Indices(wps[..|wps| - 1]);
      InSectionAbsent(wps[..|wps| - 1], k);
    }
  }

  /** Where the group of a section index is, if it has one. */
  function FindGroup(groups: seq<Section>, k: int): (j: Option<nat>)
    ensures j.Some? ==> j.value < |groups| && groups[j.value].index == k
    ensures j.None? ==> forall i :: 0 <= i < |groups| ==> groups[i].index != k
  {
    if |groups| == 0 then None
    else if groups[|groups| - 1].index == k then Some(|groups| - 1)
    else FindGroup(groups[..|groups| - 1], k)
  }

  /** One step of the loop: append to the web part's section, opening
      the section at the end when it is new. */
  function Insert(groups: seq<Section>, wp: WebPart): (r: seq<Section>)
    ensures |r| == |groups| || |r| == |groups| + 1
  {
    match FindGroup(groups, wp.section)
    case Some(j) => groups[j := Section(wp.section, groups[j].parts + [wp])]
    case None => groups + [Section(wp.section, [wp])]
  }

  lemma InSectionSnoc(front: seq<WebPart>, wp: WebPart, k: int)
    ensures InSection(front + [wp], k) == InSection(front, k) + (if wp.section == k then [wp] else [])
  {
    assert (front + [wp])[..|front|] == front;
  }

  /** Inserting the next web part into the grouping of those before it
      gives the grouping of all of them. */
  lemma GroupedSnoc(front: seq<WebPart>, wp: WebPart)
    ensures Grouped(front + [wp]) == Insert(Grouped(front), wp)
  {
    var next := front + [wp];
    assert next[..|next| - 1] == front;
    match FindGroup(Grouped(front), wp.section)
    case Some(j) => GroupedSnocKnown(front, wp, j);
    case None => GroupedSnocNew(front, wp);
  }

  lemma GroupedSnocKnown(front: seq<WebPart>, wp: WebPart, j: nat)
    requires FindGroup(Grouped(front), wp.section) == Some(j)
    ensures Grouped(front + [wp]) == Grouped(front)[j := Section(wp.section, Grouped(front)[j].parts + [wp])]
  {
    var next := front + [wp];
    var ks := Indices(front);
    var g := Grouped(front);
    var r := g[j := Section(wp.section, g[j].parts + [wp])];
    assert Indices(next) == ks by {
      assert next[..|next| - 1] == front;
      assert ks[j] == wp.section;
    }
    forall i | 0 <= i < |ks|
      ensures r[i] == Section(ks[i], InSection(next, ks[i]))
    {
      InSectionSnoc(front, wp, ks[i]);
    }
  }

  lemma IndicesSnocNew(front: seq<WebPart>, wp: WebPart)
    requires wp.section !in Indices(front)
    ensures Indices(front + [wp]) == Indices(front) + [wp.section]
  {
    assert (front + [wp])[..|front|] == front;
  }

  lemma InSectionNew(front: seq<WebPart>, wp: WebPart)
    requires wp.section !in Indices(front)
    ensures InSection(front + [wp], wp.section) == [wp]
  {
    InSectionAbsent(front, wp.section);
    InSectionSnoc(front, wp, wp.section);
  }

  lemma GroupedSnocNew(front: seq<WebPart>, wp: WebPart)
    requires FindGroup(Grouped(front), wp.section).None?
    ensures Grouped(front + [wp]) == Grouped(front) + [Section(wp.section, [wp])]
  {
    var next := front + [wp];
    var ks := Indices(front);
    var g := Grouped(front);
    var r := g + [Section(wp.section, [wp])];
    assert wp.section !in ks;
    IndicesSnocNew(front, wp);
    InSectionNew(front, wp);
    var gn := Grouped(next);
    assert |gn| == |r|;
    forall i | 0 <= i < |r|
      ensures r[i] == gn[i]
    {
      if i < |ks| {
        InSectionSnoc(front, wp, ks[i]);
      }
    }
  }

  /** The grouping loop of `get_page_sections`: a dictionary keyed by
      section index, filled in order and listed in insertion order. */
  method GroupSections(wps: seq<WebPart>) returns (groups: seq<Section>)
    ensures groups == Grouped(wps)
  {
    groups := [];
    var n := 0;
    while n < |wps|
      invariant n <= |wps|
      invariant groups == Grouped(wps[..n])
    {
      assert wps[..n + 1] == wps[..n] + [wps[n]];
      GroupedSnoc(wps[..n], wps[n]);
      groups := Insert(groups, wps[n]);
      n := n + 1;
    }
    assert wps[..n] == wps;
  }

  /** Each web part is in the group of its own index and in no other. */
  lemma GroupedPlacesEachOnce(wps: seq<WebPart>, i: nat)
    requires i < |wps|
    ensures var ss := Grouped(wps);
            && (exists j :: 0 <= j < |ss| && ss[j].index == wps[i].section && wps[i] in ss[j].parts)
            && forall j :: 0 <= j < |ss| && ss[j].index != wps[i].section ==> wps[i] !in ss[j].parts
  {
    var ss := Grouped(wps);
    var k := wps[i].section;
    assert k in Indices(wps);
    var j :| 0 <= j < |Indices(wps)| && Indices(wps)[j] == k;
    InSectionHas(wps, i);
    assert ss[j].index == k && wps[i] in ss[j].parts;
  }

  lemma {:induction false} InSectionHas(wps: seq<WebPart>, i: nat)
    requires i < |wps|
    ensures wps[i] in InSection(wps, wps[i].section)
    decreases |wps|
  {
    if i < |wps| - 1 {
      var front := wps[..|wps| - 1];
      assert front[i] == wps[i];
      InSectionHas(front, i);
    }
  }

  // ---------------------------------------------------------------------------
  // `format_output`
  // ---------------------------------------------------------------------------

  const CELL_WIDTH: nat := 20

  /** `str(x)[:20]`. */
  function Clip(s: string): (r: string)
    ensures |r| <= CELL_WIDTH && |r| <= |s| && r == s[..|r|]
    ensures |s| <= CELL_WIDTH ==> r == s
  {
    Prefix(s, CELL_WIDTH)
  }

  function HeaderCells(keys: seq<string>): (cs: seq<string>)
    ensures |cs| == |keys| && forall i :: 0 <= i < |keys| ==> cs[i] == Clip(keys[i])
  {
    seq(|keys|, i requires 0 <= i < |keys| => Clip(keys[i]))
  }

  /** `str(item.get(k, ""))[:20]`: a missing key is empty, `None` reads
      "None". */
  function RowCells(item: DbOutput.Record, keys: seq<string>): (cs: seq<string>)
    ensures |cs| == |keys|
    ensures forall i :: 0 <= i < |keys| ==> cs[i] == Clip(match DbOutput.Get(item, keys[i]) case None => "" case Some(v) => Render(v))
  {
    seq(|keys|, i requires 0 <= i < |keys| =>
      Clip(match DbOutput.Get(item, keys[i]) case None => "" case Some(v) => Render(v)))
  }

  /** The list of dictionaries the commands print, or anything else. */
  datatype Output = Records(items: seq<DbOutput.Record>) | Other

  /** `format_output`: JSON, or a table keyed on the first item's keys for
      a non-empty list of dictionaries, or `str(data)`. */
  function FormatOutput(data: Output, format: string, json: Output -> string, str: Output -> string): (r: string)
    ensures format == "json" ==> r == json(data)
    ensures format != "json" && (format != "table" || data.Other? || |data.items| == 0) ==> r == str(data)
    ensures format == "table" && data.Records? && |data.items| > 0 ==> r == Join("\n", TableLines(data.items))
  {
    if format == "json" then json(data)
    else if format == "table" && data.Records? && |data.items| > 0 then Join("\n", TableLines(data.items))
    else str(data)
  }

  /** Header, a dash rule as long as the header, and one line per item. */
  function TableLines(items: seq<DbOutput.Record>): (ls: seq<string>)
    requires |items| > 0
    ensures |ls| == |items| + 2
    ensures |ls[1]| == |ls[0]| && forall c :: c in ls[1] ==> c == '-'
  {
    var keys := Firsts(items[0]);
    var header := Join(" | ", HeaderCells(keys));
    [header, Repeat('-', |header|)]
      + seq(|items|, i requires 0 <= i < |items| => Join(" | ", RowCells(items[i], keys)))
  }

  /** Every line of the table joins one clipped cell per key of the first
      item, so no cell is wider than twenty characters. */
  lemma TableCellsClipped(items: seq<DbOutput.Record>, i: nat)
    requires 0 < |items| && i < |items|
    ensures var keys := Firsts(items[0]);
            && TableLines(items)[i + 2] == Join(" | ", RowCells(items[i], keys))
            && forall c :: 0 <= c < |keys| ==> |RowCells(items[i], keys)[c]| <= CELL_WIDTH
  {
  }
}

=== FILE: statusline.dfy ===
/**
  The integer arithmetic of the status line: progress bars, their colours,
  and the duration and time-remaining strings. Every quantity is a Python
  `int`; `//` and `%` with a positive divisor floor exactly as Dafny's `/`
  and `%` do.
 */
module Statusline {
  import opened Wrappers
  import opened Text
  import opened Numerals

  /** `■` and `□`. */
  const FULL: char := '\U{25A0}'
  const EMPTY: char := '\U{25A1}'

  /** The bar width every caller uses. */
  const BAR_WIDTH: int := 8

  /** Red thresholds: the context bar warns early, the usage bars late. */
  const CONTEXT_RED: int := 40
  const USAGE_RED: int := 80

  // ---------------------------------------------------------------------------
  // Bars
  // ---------------------------------------------------------------------------

  /** The filled block count of `make_bar`: the ceiling of `pct` percent of
      `width`, at least one block for any usage, at most `width`. */
  function Filled(pct: int, width: int): (n: int)
    ensures width >= 0 ==> 0 <= n <= width
    ensures pct <= 0 ==> n == 0
    ensures pct > 0 && width >= 1 ==> n >= 1
    ensures pct >= 100 && width >= 0 ==> n == width
    // below the clamp, `n` is the least count whose blocks cover `pct`%
    ensures pct > 0 && 0 <= n < width ==> (n - 1) * 100 < pct * width <= n * 100
    ensures pct > 0 && width >= 1 && n == width ==> (width - 1) * 100 < pct * width
  {
    if pct <= 0 then 0
    else
      var c := (pct * width + 99) / 100;
      var atLeastOne := if c > 1 then c else 1;
      if atLeastOne < width then atLeastOne else width
  }

  /** More usage never shows fewer blocks. */
  lemma FilledMonotone(p1: int, p2: int, width: int)
    requires p1 <= p2 && width >= 0
    ensures Filled(p1, width) <= Filled(p2, width)
  {
    if p1 > 0 {
      assert p1 * width <= p2 * width by {
        MulMonotone(p1, p2, width);
      }
    }
  }

  lemma MulMonotone(a: int, b: int, w: int)
    requires a <= b && w >= 0
    ensures a * w <= b * w
  {
    assert b * w - a * w == (b - a) * w;
  }

  /** `make_bar`: `width` symbols, the filled ones first. */
  function MakeBar(pct: int, width: int): (r: string)
    ensures width >= 0 ==> |r| == width
    ensures width < 0 ==> r == ""
    ensures forall i :: 0 <= i < |r| ==> r[i] == (if i < Filled(pct, width) then FULL else EMPTY)
  {
    var n := Filled(pct, width);
    Repeat(FULL, n) + Repeat(EMPTY, width - n)
  }

  /** A bar of positive width shows a filled block exactly when there is
      any usage, and is all filled exactly at full usage. */
  lemma BarShowsUsage(pct: int, width: int)
    requires width >= 1
    ensures FULL in MakeBar(pct, width) <==> pct > 0
    ensures EMPTY !in MakeBar(pct, width) <==> Filled(pct, width) == width
    ensures pct >= 100 ==> EMPTY !in MakeBar(pct, width)
  {
    var r := MakeBar(pct, width);
    if pct > 0 {
      assert r[0] == FULL;
    }
    if Filled(pct, width) < width {
      assert r[width - 1] == EMPTY;
    }
  }

  // ---------------------------------------------------------------------------
  // Colours
  // ---------------------------------------------------------------------------

  datatype Color = Green | Yellow | Red

  function Severity(c: Color): nat {
    match c
    case Green => 0
    case Yellow => 1
    case Red => 2
  }

  /** `bar_color`: green below half the threshold, yellow up to it, red
      from it on. */
  function BarColor(pct: int, redThreshold: int): (c: Color)
    ensures c == Green <==> pct < redThreshold / 2
    ensures c == Yellow <==> redThreshold / 2 <= pct < redThreshold
    ensures c == Red <==> pct >= redThreshold / 2 && pct >= redThreshold
  {
    if pct < redThreshold / 2 then Green
    else if pct < redThreshold then Yellow
    else Red
  }

  /** With a non-negative threshold the colour only escalates as usage
      grows. */
  lemma BarColorMonotone(p1: int, p2: int, redThreshold: int)
    requires p1 <= p2 && redThreshold >= 0
    ensures Severity(BarColor(p1, redThreshold)) <= Severity(BarColor(p2, redThreshold))
  {
  }

  /** The bands of the three bars: context 0-19 / 20-39 / 40+, session and
      weekly usage 0-39 / 40-79 / 80+. */
  lemma ColorBands(pct: int)
    ensures BarColor(pct, CONTEXT_RED) == (if pct < 20 then Green else if pct < 40 then Yellow else Red)
    ensures BarColor(pct, USAGE_RED) == (if pct < 40 then Green else if pct < 80 then Yellow else Red)
  {
  }

  // ---------------------------------------------------------------------------
  // Durations
  // ---------------------------------------------------------------------------

  /** Reads a rendered duration back as seconds: `{h}h{m}m`, `{m}m` or
      `{n}s` with decimal fields (a zero-padded minute field reads too). */
  function ReadDuration(t: string): Option<int> {
    if |t| == 0 then None
    else
      var body := t[..|t| - 1];
      if t[|t| - 1] == 's' then
        if |body| > 0 && AllDigits(body) then Some(ParseNat(body)) else None
      else if t[|t| - 1] == 'm' then
        var parts := SplitOn(body, 'h');
        if |parts| == 1 && |body| > 0 && AllDigits(body) then
          Some(ParseNat(body) * 60)
        else if |parts| == 2 && |parts[0]| > 0 && |parts[1]| > 0
                && AllDigits(parts[0]) && AllDigits(parts[1]) then
          Some(ParseNat(parts[0]) * 3600 + ParseNat(parts[1]) * 60)
        else None
      else None
  }

  lemma ReadSeconds(a: string)
    requires |a| > 0 && AllDigits(a)
    ensures ReadDuration(a + "s") == Some(ParseNat(a))
  {
    assert (a + "s")[..|a|] == a;
  }

  lemma ReadMinutes(a: string)
    requires |a| > 0 && AllDigits(a)
    ensures ReadDuration(a + "m") == Some(ParseNat(a) * 60)
  {
    assert (a + "m")[..|a|] == a;
    NotInDigits(a, 'h');
    SplitOnJoin('h', [a]);
  }

  lemma ReadHoursMinutes(a: string, b: string)
    requires |a| > 0 && AllDigits(a) && |b| > 0 && AllDigits(b)
    ensures ReadDuration(a + "h" + b + "m") == Some(ParseNat(a) * 3600 + ParseNat(b) * 60)
  {
    var body := a + "h" + b;
    var t := body + "m";
    assert t[..|t| - 1] == body && t[|t| - 1] == 'm';
    assert body == Join("h", [a, b]) by {
      assert Join("h", [a, b]) == a + "h" + Join("h", [b]);
    }
    NotInDigits(a, 'h');
    NotInDigits(b, 'h');
    SplitOnJoin('h', [a, b]);
    ReadDurationHm(t, a, b);
  }

  /** The `{h}h{m}m` branch of the reading, once the split is known. */
  lemma ReadDurationHm(t: string, a: string, b: string)
    requires |t| > 0 && t[|t| - 1] == 'm' && SplitOn(t[..|t| - 1], 'h') == [a, b]
    requires |a| > 0 && AllDigits(a) && |b| > 0 && AllDigits(b)
    ensures ReadDuration(t) == Some(ParseNat(a) * 3600 + ParseNat(b) * 60)
  {
    var body := t[..|t| - 1];
    var parts := SplitOn(body, 'h');
    assert |parts| == 2 && parts[0] == a && parts[1] == b;
    assert t[|t| - 1] != 's';
  }

  /** A duration cut to whole minutes once it reaches a minute. */
  function WholeMinutes(s: int): int {
    if s >= 60 then s / 60 * 60 else s
  }

  /** `{h}h{m}m`, `{m}m` or `{s}s` for `s` seconds, as `format_duration`
      and `get_context_time_remaining` render them. */
  function RenderSeconds(s: int): string {
    if s >= 3600 then NatToString(s / 3600) + "h" + NatToString((s % 3600) / 60) + "m"
    else if s >= 60 then NatToString(s / 60) + "m"
    else IntToString(s) + "s"
  }

  /** A rendered non-negative duration reads back as the duration cut to
      whole minutes: hours and minutes are never rounded up or lost. */
  lemma RenderSecondsReads(s: int)
    requires s >= 0
    ensures ReadDuration(RenderSeconds(s)) == Some(WholeMinutes(s))
  {
    if s >= 3600 {
      HoursReads(s);
    } else if s >= 60 {
      ParseNatToString(s / 60);
      ReadMinutes(NatToString(s / 60));
    } else {
      ParseNatToString(s);
      ReadSeconds(NatToString(s));
    }
  }

  lemma HoursReads(s: int)
    requires s >= 3600
    ensures ReadDuration(RenderSeconds(s)) == Some(s / 60 * 60)
  {
    var h := s / 3600;
    var m := (s % 3600) / 60;
    ParseNatToString(h);
    ParseNatToString(m);
    ReadHoursMinutes(NatToString(h), NatToString(m));
    assert RenderSeconds(s) == NatToString(h) + "h" + NatToString(m) + "m";
    HoursMinutesArith(s);
  }

  /** Whole hours and the whole minutes of the rest make the whole minutes. */
  lemma HoursMinutesArith(s: int)
    requires s >= 0
    ensures (s / 3600) * 3600 + ((s % 3600) / 60) * 60 == s / 60 * 60
  {
    var q := s / 3600;
    var r := s % 3600;
    var t := r / 60;
    var u := r % 60;
    assert s == (60 * q + t) * 60 + u;
    assert s / 60 == 60 * q + t;
  }

  /** The three spellings of a duration: seconds, minutes, or hours and
      minutes. */
  datatype Shape = Secs(n: nat) | Mins(m: nat) | HoursMins(h: nat, m: nat)

  /** The seconds a spelling stands for. */
  function ShapeSeconds(d: Shape): nat {
    match d
    case Secs(n) => n
    case Mins(m) => m * 60
    case HoursMins(h, m) => h * 3600 + m * 60
  }

  /** The text of a spelling, every field in `str` form; with `padded` the
      minutes after an hour field take two digits, as `{minutes:02d}`
      writes them. */
  function Show(d: Shape, padded: bool): string {
    match d
    case Secs(n) => NatToString(n) + "s"
    case Mins(m) => NatToString(m) + "m"
    case HoursMins(h, m) => NatToString(h) + "h" + (if padded then Pad2(m) else NatToString(m)) + "m"
  }

  /** The spellings the code chooses. Unpadded: seconds under a minute,
      minutes from one to 59, an hour field from one hour on. Padded (the
      session countdown): no seconds field, minutes from 0 to 59, an hour
      field from one hour on. Minutes beside an hour field stay under 60. */
  predicate InRange(d: Shape, padded: bool) {
    match d
    case Secs(n) => !padded && n < 60
    case Mins(m) => m < 60 && (padded || m >= 1)
    case HoursMins(h, m) => h >= 1 && m < 60
  }

  /** A text in one of the spellings the code chooses. */
  ghost predicate Canonical(t: string, padded: bool) {
    exists d :: InRange(d, padded) && t == Show(d, padded)
  }

  /** Every spelling reads back as the seconds it stands for. */
  lemma ShowReads(d: Shape, padded: bool)
    ensures ReadDuration(Show(d, padded)) == Some(ShapeSeconds(d))
  {
    match d
    case Secs(n) =>
      ParseNatToString(n);
      ReadSeconds(NatToString(n));
    case Mins(m) =>
      ParseNatToString(m);
      ReadMinutes(NatToString(m));
    case HoursMins(h, m) =>
      var field := if padded then Pad2(m) else NatToString(m);
      assert Show(d, padded) == NatToString(h) + "h" + field + "m";
      assert ParseNat(field) == m by {
        if padded {
          ParsePad2(m);
        } else {
          ParseNatToString(m);
        }
      }
      ReadHoursField(h, m, field);
  }

  /** `{h}h{field}m` reads back when the minute field spells `m`. */
  lemma {:induction false} ReadHoursField(h: nat, m: nat, field: string)
    requires |field| > 0 && AllDigits(field) && ParseNat(field) == m
    ensures ReadDuration(NatToString(h) + "h" + field + "m") == Some(h * 3600 + m * 60)
  {
    var a := NatToString(h);
    ParseNatToString(h);
    ReadHoursMinutes(a, field);
  }

  /** Two spellings in range for the same number of seconds are the same
      spelling. */
  lemma ShapesDistinct(d1: Shape, d2: Shape, padded: bool)
    requires InRange(d1, padded) && InRange(d2, padded)
    requires ShapeSeconds(d1) == ShapeSeconds(d2)
    ensures d1 == d2
  {
    if d1.HoursMins? && d2.HoursMins? {
      var t1, t2 := d1.h * 60 + d1.m, d2.h * 60 + d2.m;
      assert t1 * 60 == ShapeSeconds(d1) && t2 * 60 == ShapeSeconds(d2);
      assert t1 == t2;
      assert d1.h == t1 / 60 && d1.m == t1 % 60;
      assert d2.h == t2 / 60 && d2.m == t2 % 60;
    }
  }

  /** Two spellings in range read as the same duration exactly when they
      are the same text. */
  lemma ShowUnique(d1: Shape, d2: Shape, padded: bool)
    requires InRange(d1, padded) && InRange(d2, padded)
    ensures ReadDuration(Show(d1, padded)) == ReadDuration(Show(d2, padded)) <==> Show(d1, padded) == Show(d2, padded)
  {
    ShowReads(d1, padded);
    ShowReads(d2, padded);
    if ShapeSeconds(d1) == ShapeSeconds(d2) {
      ShapesDistinct(d1, d2, padded);
    }
  }

  /** The reading is one-to-one on the spellings the code chooses: a text
      in range is the only one in range that reads as its duration, so
      "90m", "0h05m" or "1h030m" never stand in for "1h30m" or "5m". */
  lemma CanonicalUnique(t1: string, t2: string, padded: bool)
    requires Canonical(t1, padded) && Canonical(t2, padded)
    ensures ReadDuration(t1) == ReadDuration(t2) <==> t1 == t2
  {
    var d1 :| InRange(d1, padded) && t1 == Show(d1, padded);
    var d2 :| InRange(d2, padded) && t2 == Show(d2, padded);
    ShowUnique(d1, d2, padded);
  }

  /** A rendered non-negative duration is in the unpadded spellings. */
  lemma RenderCanonical(s: int)
    requires s >= 0
    ensures Canonical(RenderSeconds(s), false)
  {
    var d := if s >= 3600 then HoursMins(s / 3600, (s % 3600) / 60)
             else if s >= 60 then Mins(s / 60)
             else Secs(s);
    assert InRange(d, false);
    assert RenderSeconds(s) == Show(d, false);
  }

  /** `format_duration`: whole seconds of `ms`, rendered. */
  function FormatDuration(ms: int): (r: string)
    ensures ms >= 0 ==> ReadDuration(r) == Some(WholeMinutes(ms / 1000))
    ensures |r| > 0 && (r[|r| - 1] == 's' <==> ms / 1000 < 60)
    ensures ms >= 0 ==> Canonical(r, false)
  {
    var s := ms / 1000;
    assert s >= 0 ==> ReadDuration(RenderSeconds(s)) == Some(WholeMinutes(s)) && Canonical(RenderSeconds(s), false) by {
      if s >= 0 {
        RenderSecondsReads(s);
        RenderCanonical(s);
      }
    }
    RenderSeconds(s)
  }

  // ---------------------------------------------------------------------------
  // Remaining time
  // ---------------------------------------------------------------------------

  /** The minutes left of the 300-minute session window at `pct` usage. */
  function SessionMinutes(pct: int): int {
    3 * (100 - pct)
  }

  /** `get_session_remaining` as written. */
  function SessionRemaining(pct: int): (r: string)
    ensures |r| >= 5
    ensures 0 <= pct <= 100 ==> |r| == 5
    ensures 0 <= pct <= 100 ==> ReadDuration(Strip(r)) == Some(SessionMinutes(pct) * 60)
    ensures Canonical(Strip(r), true)
  {
    SessionFacts(pct);
    RJust(SessionText(pct), 5)
  }

  /** The countdown before it is right-justified: `{h}h{mm}m` from one
      hour on, `{m}m` below. */
  function SessionText(pct: int): string {
    var rem := (100 - pct) * 300 / 100;
    var hours := rem / 60;
    var minutes := rem % 60;
    if hours > 0 then NatToString(hours) + "h" + Pad2(minutes) + "m" else NatToString(minutes) + "m"
  }

  lemma {:induction false} SessionFacts(pct: int)
    ensures var r := RJust(SessionText(pct), 5);
            && |r| >= 5
            && (0 <= pct <= 100 ==> |r| == 5)
            && (0 <= pct <= 100 ==> ReadDuration(Strip(r)) == Some(SessionMinutes(pct) * 60))
            && Canonical(Strip(r), true)
  {
    var rem := (100 - pct) * 300 / 100;
    var hours := rem / 60;
    var minutes := rem % 60;
    var shown := SessionText(pct);
    SessionShown(pct, hours, minutes, shown);
    SessionCanonical(hours, minutes, shown);
  }

  /** The remaining session minutes split into hours and minutes. */
  lemma SessionSplit(pct: int, hours: int, minutes: nat)
    requires 0 <= pct <= 100
    requires hours == (100 - pct) * 300 / 100 / 60 && minutes == (100 - pct) * 300 / 100 % 60
    ensures 0 <= hours <= 5 && minutes < 60
    ensures SessionMinutes(pct) == hours * 60 + minutes
    ensures SessionMinutes(pct) * 60 == hours * 3600 + minutes * 60
  {
    var rem := (100 - pct) * 300 / 100;
    assert rem == 3 * (100 - pct);
    assert rem == hours * 60 + minutes;
  }

  /** Whatever the usage, the countdown is spelled the padded way. */
  lemma {:induction false} SessionCanonical(hours: int, minutes: nat, shown: string)
    requires minutes < 60
    requires shown == if hours > 0 then NatToString(hours) + "h" + Pad2(minutes) + "m" else NatToString(minutes) + "m"
    ensures Canonical(shown, true)
    ensures Strip(RJust(shown, 5)) == shown
  {
    var d := if hours > 0 then HoursMins(hours, minutes) else Mins(minutes);
    assert InRange(d, true) && shown == Show(d, true);
    assert IsDigit(shown[0]) && shown[|shown| - 1] == 'm';
    StripRJust(shown, 5);
  }

  lemma SessionShown(pct: int, hours: int, minutes: nat, shown: string)
    requires hours == (100 - pct) * 300 / 100 / 60 && minutes == (100 - pct) * 300 / 100 % 60
    requires shown == if hours > 0 then NatToString(hours) + "h" + Pad2(minutes) + "m" else NatToString(minutes) + "m"
    ensures |shown| > 0 && !IsSpace(shown[0]) && !IsSpace(shown[|shown| - 1])
    ensures 0 <= pct <= 100 ==> |shown| <= 5
    ensures 0 <= pct <= 100 ==> ReadDuration(shown) == Some(SessionMinutes(pct) * 60)
  {
    assert IsDigit(shown[0]);
    if 0 <= pct <= 100 {
      SessionSplit(pct, hours, minutes);
      NatToStringSmall(minutes);
      if hours > 0 {
        assert hours <= 5;
        NatToStringSmall(hours);
        ParseNatToString(hours);
        ParsePad2(minutes);
        ReadHoursMinutes(NatToString(hours), Pad2(minutes));
        assert shown == NatToString(hours) + "h" + Pad2(minutes) + "m";
      } else {
        ParseNatToString(minutes);
        ReadMinutes(NatToString(minutes));
      }
    }
  }

  /** `get_context_time_remaining`'s estimate: a quarter of the remaining
      window's tokens, produced at 75 tokens per second. */
  function ContextSeconds(pct: int, size: int): int {
    size * (100 - pct) / 100 / 4 / 75
  }

  /** `get_context_time_remaining`. */
  function ContextTimeRemaining(pct: int, size: int): (r: string)
    ensures ContextSeconds(pct, size) <= 0 ==> r == "0s"
    ensures ReadDuration(r) == Some(WholeMinutes(if ContextSeconds(pct, size) > 0 then ContextSeconds(pct, size) else 0))
    ensures Canonical(r, false)
  {
    var secs := ContextSeconds(pct, size);
    if secs > 0 then
      RenderSecondsReads(secs);
      RenderCanonical(secs);
      RenderSeconds(secs)
    else
      ReadSeconds("0");
      assert InRange(Secs(0), false) && "0s" == Show(Secs(0), false);
      "0s"
  }

  /** The `ctx_pct` expression: the share of the window in use, floored and
      capped at 100; zero for a non-positive window size. */
  function ContextPercent(total: int, size: int): (pct: int)
    ensures size <= 0 ==> pct == 0
    ensures total >= 0 ==> 0 <= pct <= 100
    ensures size > 0 && pct < 100 ==> pct * size <= total * 100 < (pct + 1) * size
    ensures size > 0 && total * 100 >= 100 * size ==> pct == 100
  {
    if size > 0 then
      var q := total * 100 / size;
      if q < 100 then q else 100
    else 0
  }

  // ---------------------------------------------------------------------------
  // Usage beyond the window
  // ---------------------------------------------------------------------------

  /** As written, usage above 100% makes the floored remaining minutes
      negative, and `%` wraps them into a positive minute count. */
  lemma SessionOverrunShowsTime()
    ensures SessionRemaining(101) == "  57m"
  {
    assert (100 - 101) * 300 / 100 == -3;
    assert -3 / 60 == -1 && -3 % 60 == 57;
    assert NatToString(57) == NatToString(5) + [DigitChar(7)] == "57";
    assert Repeat(' ', 2) == [' '] + Repeat(' ', 1) == "  ";
    assert RJust("57m", 5) == "  57m";
  }

  /** Remaining session time with usage capped at 100%. */
  function SessionRemainingCapped(pct: int): (r: string)
    ensures |r| == 5 || pct < 0
    ensures pct >= 100 ==> ReadDuration(Strip(r)) == Some(0)
    ensures 0 <= pct <= 100 ==> r == SessionRemaining(pct)
  {
    var capped := if pct > 100 then 100 else pct;
    assert pct >= 100 ==> capped == 100 && SessionMinutes(capped) * 60 == 0;
    SessionRemaining(capped)
  }
}

=== FILE: text.dfy ===
/**
  Models of the Python `str` (and `bytes`) operations the scripts rely on.
  Case mapping and whitespace are restricted to ASCII: `Lower` maps only
  A-Z, and `IsSpace` accepts only the ASCII characters that `str.isspace`
  accepts.
 */
module Text {
  import opened Wrappers

  // ---------------------------------------------------------------------------
  // Whitespace and `str.strip`
  // ---------------------------------------------------------------------------

  /** ASCII characters for which Python's `str.isspace()` holds: TAB, LF, VT,
      FF, CR, the four information separators 0x1C-0x1F, and SPACE. */
  predicate IsSpace(c: char) {
    var n := c as int;
    n == 32 || (9 <= n <= 13) || (28 <= n <= 31)
  }

  /** `s.strip() == ''`: every character is whitespace. */
  predicate IsBlank(s: string) {
    forall i :: 0 <= i < |s| ==> IsSpace(s[i])
  }

  /** `s.lstrip()`: drops the leading whitespace and nothing else. */
  function StripLeft(s: string): (r: string)
    ensures |r| <= |s| && r == s[|s| - |r|..]
    ensures |r| > 0 ==> !IsSpace(r[0])
    ensures forall i :: 0 <= i < |s| - |r| ==> IsSpace(s[i])
  {
    if |s| > 0 && IsSpace(s[0]) then StripLeft(s[1..]) else s
  }

  /** `s.rstrip()`: drops the trailing whitespace and nothing else. */
  function StripRight(s: string): (r: string)
    ensures |r| <= |s| && r == s[..|r|]
    ensures |r| > 0 ==> !IsSpace(r[|r| - 1])
    ensures forall i :: |r| <= i < |s| ==> IsSpace(s[i])
  {
    if |s| > 0 && IsSpace(s[|s| - 1]) then StripRight(s[..|s| - 1]) else s
  }

  /** `s.strip()`. The result is empty exactly for blank input, it neither
      starts nor ends with whitespace, and an already trimmed string is
      returned unchanged (so stripping is idempotent). */
  function Strip(s: string): (r: string)
    ensures (r == "") == IsBlank(s)
    ensures |r| > 0 ==> !IsSpace(r[0]) && !IsSpace(r[|r| - 1])
    ensures |r| <= |s|
    ensures (|s| == 0 || (!IsSpace(s[0]) && !IsSpace(s[|s| - 1]))) ==> r == s
  {
    StripRight(StripLeft(s))
  }

  /** Trimming adds no character. */
  lemma StripAvoids(s: string, c: char)
    requires c !in s
    ensures c !in Strip(s)
  {
    var l := StripLeft(s);
    assert forall k :: 0 <= k < |l| ==> l[k] == s[|s| - |l| + k];
    var r := StripRight(l);
    assert forall k :: 0 <= k < |r| ==> r[k] == l[k];
  }

  lemma StripIdempotent(s: string)
    ensures Strip(Strip(s)) == Strip(s)
  {
  }

  // ---------------------------------------------------------------------------
  // ASCII case mapping
  // ---------------------------------------------------------------------------

  function LowerChar(c: char): char {
    if 'A' <= c <= 'Z' then (c as int + 32) as char else c
  }

  /** `s.lower()` on ASCII letters. */
  function Lower(s: string): (r: string)
    ensures |r| == |s|
    ensures forall i :: 0 <= i < |s| ==> r[i] == LowerChar(s[i])
  {
    seq(|s|, i requires 0 <= i < |s| => LowerChar(s[i]))
  }

  predicate IsDigit(c: char) {
    '0' <= c <= '9'
  }

  predicate IsAsciiLetter(c: char) {
    ('a' <= c <= 'z') || ('A' <= c <= 'Z')
  }

  // ---------------------------------------------------------------------------
  // Prefixes, suffixes and factors (`startswith`, `endswith`, `in`, `find`)
  // ---------------------------------------------------------------------------

  /** The keys of an association list, in order: `[k for k, _ in ps]`. */
  function Firsts<A, B>(ps: seq<(A, B)>): (ks: seq<A>)
    ensures |ks| == |ps| && forall i :: 0 <= i < |ps| ==> ks[i] == ps[i].0
  {
    seq(|ps|, i requires 0 <= i < |ps| => ps[i].0)
  }

  predicate StartsWith<T(==)>(s: seq<T>, p: seq<T>) {
    |p| <= |s| && s[..|p|] == p
  }

  predicate EndsWith<T(==)>(s: seq<T>, p: seq<T>) {
    |p| <= |s| && s[|s| - |p|..] == p
  }

  lemma AppendAssoc<T>(a: seq<T>, b: seq<T>, c: seq<T>)
    ensures (a + b) + c == a + (b + c)
  {
  }

  /** `sub` occurs in `s` starting at index `i`. */
  predicate IsFactorAt<T(==)>(s: seq<T>, sub: seq<T>, i: int) {
    0 <= i && i + |sub| <= |s| && s[i..i + |sub|] == sub
  }

  /** Leftmost occurrence of `sub` in `s` at or after `k`. */
  function IndexOfFrom<T(==)>(s: seq<T>, sub: seq<T>, k: nat): (r: Option<nat>)
    decreases |s| - k
    ensures r.Some? ==> k <= r.value && IsFactorAt(s, sub, r.value)
    ensures r.Some? ==> forall j :: k <= j < r.value ==> !IsFactorAt(s, sub, j)
    ensures r.None? ==> forall j :: k <= j ==> !IsFactorAt(s, sub, j)
  {
    if k + |sub| > |s| then None
    else if s[k..k + |sub|] == sub then Some(k)
    else IndexOfFrom(s, sub, k + 1)
  }

  /** `s.find(sub)`, with `None` for -1. */
  function IndexOf<T(==)>(s: seq<T>, sub: seq<T>): Option<nat> {
    IndexOfFrom(s, sub, 0)
  }

  /** The first occurrence is the one with none before it. */
  lemma IndexOfIs<T>(s: seq<T>, sub: seq<T>, k: nat)
    requires IsFactorAt(s, sub, k)
    requires forall j :: 0 <= j < k ==> !IsFactorAt(s, sub, j)
    ensures IndexOf(s, sub) == Some(k)
  {
  }

  /** Python's `sub in s`. */
  predicate Contains<T(==)>(s: seq<T>, sub: seq<T>) {
    IndexOf(s, sub).Some?
  }

  lemma ContainsWitness<T>(s: seq<T>, sub: seq<T>, i: int)
    requires IsFactorAt(s, sub, i)
    ensures Contains(s, sub)
  {
  }

  lemma ContainsChar<T>(s: seq<T>, c: T)
    ensures Contains(s, [c]) <==> c in s
  {
    if c in s {
      var i :| 0 <= i < |s| && s[i] == c;
      assert IsFactorAt(s, [c], i);
    }
    if Contains(s, [c]) {
      var i := IndexOf(s, [c]).value;
      assert s[i..i + 1] == [c];
      assert s[i] == c;
    }
  }

  // ---------------------------------------------------------------------------
  // `str.replace`
  // ---------------------------------------------------------------------------

  /** `s.replace(pat, rep)`: non-overlapping occurrences, left to right. */
  function Replace<T(==)>(s: seq<T>, pat: seq<T>, rep: seq<T>): seq<T>
    requires |pat| > 0
    decreases |s|
  {
    if |s| < |pat| then s
    else if s[..|pat|] == pat then rep + Replace(s[|pat|..], pat, rep)
    else [s[0]] + Replace(s[1..], pat, rep)
  }

  /** Replacing a pattern that does not occur changes nothing. */
  lemma {:induction false} ReplaceAbsent<T>(s: seq<T>, pat: seq<T>, rep: seq<T>)
    requires |pat| > 0
    requires !Contains(s, pat)
    ensures Replace(s, pat, rep) == s
    decreases |s|
  {
    if |s| >= |pat| {
      assert !IsFactorAt(s, pat, 0);
      ContainsTail(s, pat);
      ReplaceAbsent(s[1..], pat, rep);
    }
  }

  /** An occurrence in the tail is an occurrence in the whole. */
  lemma ContainsTail<T>(s: seq<T>, pat: seq<T>)
    requires |s| > 0
    ensures Contains(s[1..], pat) ==> Contains(s, pat)
  {
    if Contains(s[1..], pat) {
      var j := IndexOf(s[1..], pat).value;
      assert s[1..][j..j + |pat|] == s[j + 1..j + 1 + |pat|];
      assert IsFactorAt(s, pat, j + 1);
    }
  }

  /** `s.replace(c, rep)` for a one-character pattern: each `c` becomes
      `rep` and every other character is kept. */
  function ReplaceChar<T(==)>(s: seq<T>, c: T, rep: seq<T>): (r: seq<T>)
    ensures r == Replace(s, [c], rep)
    ensures c !in rep ==> c !in r
    ensures c !in s ==> r == s
  {
    if |s| == 0 then []
    else (if s[0] == c then rep else [s[0]]) + ReplaceChar(s[1..], c, rep)
  }

  /** Replacing a character introduces no character foreign to the text and
      the replacement. */
  lemma {:induction false} ReplaceCharAvoids<T>(s: seq<T>, c: T, rep: seq<T>, d: T)
    requires d !in s && d !in rep
    ensures d !in ReplaceChar(s, c, rep)
  {
    if |s| > 0 {
      ReplaceCharAvoids(s[1..], c, rep, d);
    }
  }

  // ---------------------------------------------------------------------------
  // `sep.join`, `str.split`, padding, repetition and slicing
  // ---------------------------------------------------------------------------

  /** `sep.join(parts)`. */
  function Join<T>(sep: seq<T>, parts: seq<seq<T>>): seq<T> {
    if |parts| == 0 then []
    else if |parts| == 1 then parts[0]
    else parts[0] + sep + Join(sep, parts[1..])
  }

  function SumLengths<T>(parts: seq<seq<T>>): nat {
    if |parts| == 0 then 0 else |parts[0]| + SumLengths(parts[1..])
  }

  /** A join starts with its first part. */
  lemma JoinHead<T>(sep: seq<T>, parts: seq<seq<T>>)
    requires |parts| > 0
    ensures |parts[0]| <= |Join(sep, parts)| && Join(sep, parts)[..|parts[0]|] == parts[0]
  {
    if |parts| > 1 {
      var rest := sep + Join(sep, parts[1..]);
      assert Join(sep, parts) == parts[0] + rest;
      assert (parts[0] + rest)[..|parts[0]|] == parts[0];
    }
  }

  lemma {:induction false} JoinLength<T>(sep: seq<T>, parts: seq<seq<T>>)
    requires |parts| > 0
    ensures |Join(sep, parts)| == SumLengths(parts) + |sep| * (|parts| - 1)
  {
    if |parts| > 1 {
      JoinLength(sep, parts[1..]);
    }
  }

  /** Joining with a separator no part contains introduces no other
      occurrence of the separator character. */
  lemma {:induction false} JoinAvoids<T>(sep: seq<T>, parts: seq<seq<T>>, c: T)
    requires c !in sep
    requires forall i :: 0 <= i < |parts| ==> c !in parts[i]
    ensures c !in Join(sep, parts)
  {
    if |parts| > 1 {
      JoinAvoids(sep, parts[1..], c);
    }
  }

  /** In a join of several parts, the first part ends at the first separator. */
  lemma FirstSeparator<T>(c: T, parts: seq<seq<T>>)
    requires |parts| > 1 && c !in parts[0]
    ensures |parts[0]| < |Join([c], parts)| && Join([c], parts)[|parts[0]|] == c
    ensures forall i :: 0 <= i < |parts[0]| ==> Join([c], parts)[i] == parts[0][i] != c
  {
  }

  /** Joining with a one-character separator that no part contains loses
      nothing: equal joins come from equal part lists. */
  lemma {:induction false} JoinInjective<T>(c: T, a: seq<seq<T>>, b: seq<seq<T>>)
    requires |a| >= 1 && |b| >= 1
    requires forall i :: 0 <= i < |a| ==> c !in a[i]
    requires forall i :: 0 <= i < |b| ==> c !in b[i]
    requires Join([c], a) == Join([c], b)
    ensures a == b
  {
    var s := Join([c], a);
    if |a| > 1 && |b| > 1 {
      // The first separator of `s` ends both first parts.
      FirstSeparator(c, a);
      FirstSeparator(c, b);
      assert |a[0]| == |b[0]|;
      assert a[0] == s[..|a[0]|] == b[0];
      assert Join([c], a[1..]) == s[|a[0]| + 1..] == Join([c], b[1..]);
      JoinInjective(c, a[1..], b[1..]);
    }
  }

  /** `s.split(c)` for a one-character separator: never empty, no piece
      contains the separator, and joining the pieces back gives `s`. */
  function SplitOn<T(==)>(s: seq<T>, c: T): (r: seq<seq<T>>)
    ensures |r| >= 1
    ensures forall i :: 0 <= i < |r| ==> c !in r[i]
    ensures Join([c], r) == s
  {
    if |s| == 0 then [[]]
    else
      var rest := SplitOn(s[1..], c);
      if s[0] == c then
        [[]] + rest
      else
        assert Join([c], [[s[0]] + rest[0]] + rest[1..]) == [s[0]] + Join([c], rest);
        [[s[0]] + rest[0]] + rest[1..]
  }

  /** The maximal non-whitespace prefix of `s`. */
  function WordPrefix(s: string): (r: string)
    ensures |r| <= |s| && r == s[..|r|]
    ensures forall i :: 0 <= i < |r| ==> !IsSpace(r[i])
    ensures |r| < |s| ==> IsSpace(s[|r|])
  {
    if |s| == 0 || IsSpace(s[0]) then "" else [s[0]] + WordPrefix(s[1..])
  }

  predicate IsWord(w: string) {
    |w| > 0 && forall i :: 0 <= i < |w| ==> !IsSpace(w[i])
  }

  /** `s.split()` with no argument: the maximal runs of non-whitespace. */
  function Words(s: string): (r: seq<string>)
    ensures forall i :: 0 <= i < |r| ==> IsWord(r[i])
    decreases |s|
  {
    var t := StripLeft(s);
    if |t| == 0 then []
    else
      var w := WordPrefix(t);
      [w] + Words(t[|w|..])
  }

  lemma {:induction false} WordPrefixOfWord(w: string, rest: string)
    requires IsWord(w)
    requires |rest| == 0 || IsSpace(rest[0])
    ensures WordPrefix(w + rest) == w
    decreases |w|
  {
    if |w| > 1 {
      assert (w + rest)[1..] == w[1..] + rest;
      WordPrefixOfWord(w[1..], rest);
    } else {
      assert (w + rest)[1..] == rest;
    }
  }

  /** A word followed by whitespace (or nothing) is split off first. */
  lemma WordsCons(w: string, rest: string)
    requires IsWord(w)
    requires |rest| == 0 || IsSpace(rest[0])
    ensures Words(w + rest) == [w] + Words(rest)
  {
    var s := w + rest;
    assert StripLeft(s) == s;
    WordPrefixOfWord(w, rest);
    assert s[|w|..] == rest;
  }

  /** Leading whitespace does not change the words. */
  lemma WordsSpace(c: char, s: string)
    requires IsSpace(c)
    ensures Words([c] + s) == Words(s)
  {
    assert ([c] + s)[1..] == s;
    assert StripLeft([c] + s) == StripLeft(s);
  }

  /** Splitting a space-joined list of words gives the words back. */
  lemma {:induction false} WordsOfJoin(ws: seq<string>)
    requires forall i :: 0 <= i < |ws| ==> IsWord(ws[i])
    ensures Words(Join(" ", ws)) == ws
  {
    if |ws| == 1 {
      WordsCons(ws[0], "");
      assert ws[0] + "" == ws[0];
    } else if |ws| > 1 {
      assert ws == [ws[0]] + ws[1..];
      var tail := Join(" ", ws[1..]);
      assert Join(" ", ws) == ws[0] + ([' '] + tail) by {
        assert Join(" ", ws) == ws[0] + " " + tail;
      }
      assert IsSpace(' ');
      WordsCons(ws[0], [' '] + tail);
      WordsSpace(' ', tail);
      WordsOfJoin(ws[1..]);
    }
  }

  /** `s * n` for a one-element sequence: empty when `n <= 0`. */
  function Repeat<T>(x: T, n: int): (r: seq<T>)
    ensures |r| == if n > 0 then n else 0
    ensures forall i :: 0 <= i < |r| ==> r[i] == x
    decreases n
  {
    if n <= 0 then [] else [x] + Repeat(x, n - 1)
  }

  /** `s.ljust(w)`: `s` followed by spaces up to width `w`. */
  function LJust(s: string, w: int): (r: string)
    ensures |r| == if |s| >= w then |s| else w
    ensures r[..|s|] == s
    ensures forall i :: |s| <= i < |r| ==> r[i] == ' '
  {
    s + Repeat(' ', w - |s|)
  }

  /** `s.rjust(w)`: spaces up to width `w`, then `s`. */
  function RJust(s: string, w: int): (r: string)
    ensures |r| == if |s| >= w then |s| else w
    ensures r[|r| - |s|..] == s
    ensures forall i :: 0 <= i < |r| - |s| ==> r[i] == ' '
  {
    Repeat(' ', w - |s|) + s
  }

  /** The characters of `s` that `keep` accepts, in order: `re.sub` with a
      negated character class and an empty replacement. */
  function Filter<T(==,!new)>(s: seq<T>, keep: T -> bool): (r: seq<T>)
    ensures |r| <= |s|
    ensures forall i :: 0 <= i < |r| ==> keep(r[i])
    ensures (forall i :: 0 <= i < |s| ==> keep(s[i])) ==> r == s
    ensures forall c :: c in r ==> c in s
  {
    if |s| == 0 then []
    else if keep(s[0]) then [s[0]] + Filter(s[1..], keep)
    else Filter(s[1..], keep)
  }

  /** An element is kept iff it occurs and `keep` accepts it. */
  lemma {:induction false} FilterMembers<T(!new)>(s: seq<T>, keep: T -> bool)
    ensures forall c :: c in Filter(s, keep) <==> c in s && keep(c)
  {
    if |s| > 0 {
      FilterMembers(s[1..], keep);
      assert s == [s[0]] + s[1..];
    }
  }

  /** Filtering works piecewise, so the kept characters keep their order. */
  lemma {:induction false} FilterAppend<T(!new)>(a: seq<T>, b: seq<T>, keep: T -> bool)
    ensures Filter(a + b, keep) == Filter(a, keep) + Filter(b, keep)
  {
    if |a| > 0 {
      assert (a + b)[0] == a[0];
      assert (a + b)[1..] == a[1..] + b;
      FilterAppend(a[1..], b, keep);
    } else {
      assert a + b == b;
    }
  }

  /** An occurrence of a pattern that avoids `c` lies wholly on one side of
      a `c` in the text. */
  lemma FactorAroundChar<T>(a: seq<T>, c: T, b: seq<T>, sub: seq<T>, p: int)
    requires |sub| > 0 && c !in sub
    requires IsFactorAt(a + [c] + b, sub, p)
    ensures (p + |sub| <= |a| && IsFactorAt(a, sub, p)) || (p > |a| && IsFactorAt(b, sub, p - |a| - 1))
  {
    var s := a + [c] + b;
    assert s[|a|] == c;
    assert forall k :: p <= k < p + |sub| ==> s[k] == sub[k - p];
    if p + |sub| <= |a| {
      assert s[p..p + |sub|] == a[p..p + |sub|];
    } else if p > |a| {
      assert s[p..p + |sub|] == b[p - |a| - 1..p - |a| - 1 + |sub|];
    }
  }

  /** Trimming a right-justified string gives back the trimmed original. */
  lemma StripRJust(s: string, w: int)
    requires |s| > 0 && !IsSpace(s[0]) && !IsSpace(s[|s| - 1])
    ensures Strip(RJust(s, w)) == s
  {
    var x := RJust(s, w);
    var pad := |x| - |s|;
    var l := StripLeft(x);
    assert |l| == |s| by {
      if |l| < |s| {
        assert x[pad] == s[0];
      }
    }
    assert l == s;
  }

  /** `s[:n]` for `n >= 0`. */
  function Prefix<T>(s: seq<T>, n: nat): (r: seq<T>)
    ensures |r| == if |s| <= n then |s| else n
    ensures r == s[..|r|]
  {
    if |s| <= n then s else s[..n]
  }

  /** Splitting a join on its separator gives the parts back when no part
      contains the separator. */
  lemma SplitOnJoin<T>(c: T, parts: seq<seq<T>>)
    requires |parts| >= 1
    requires forall i :: 0 <= i < |parts| ==> c !in parts[i]
    ensures SplitOn(Join([c], parts), c) == parts
  {
    JoinInjective(c, SplitOn(Join([c], parts), c), parts);
  }
}

=== FILE: values.dfy ===
/**
  Scalar values as they arrive from JSON responses and SDK objects, with
  Python's `str()` rendering and truthiness. Floating-point values are not
  part of the model.
 */
module Values {
  import opened Numerals

  datatype Value = VNone | VStr(s: string) | VInt(i: int) | VBool(b: bool)

  /** `str(v)`. */
  function Render(v: Value): (r: string)
    ensures v.VStr? ==> r == v.s
    ensures v.VInt? ==> |r| >= 1
  {
    match v
    case VNone => "None"
    case VStr(s) => s
    case VInt(i) => IntToString(i)
    case VBool(b) => if b then "True" else "False"
  }

  /** `bool(v)`. */
  predicate Truthy(v: Value) {
    match v
    case VNone => false
    case VStr(s) => s != ""
    case VInt(i) => i != 0
    case VBool(b) => b
  }

  /** A string value renders as itself, so a falsy value other than `None`
      renders as `""`, `"0"` or `"False"`. */
  lemma FalsyRendering(v: Value)
    requires !Truthy(v) && !v.VNone?
    ensures Render(v) in {"", "0", "False"}
  {
  }
}

=== FILE: wrappers.dfy ===
/** Failure-compatible wrappers shared by every module of the model. */
module Wrappers {

  /** An optional value: Python's `None` or a present value. */
  datatype Option<+T> = None | Some(value: T) {

    /** Returns the value in `Some`, or `default` when `None`. */
    function GetOr(default: T): T {
      match this
      case Some(v) => v
      case None => default
    }
  }

  /** A value or an error; models a Python function that may raise. */
  datatype Result<+R, +E> = Ok(value: R) | Err(error: E) {

    function ToOption(): Option<R> {
      match this
      case Ok(v) => Some(v)
      case Err(_) => None
    }
  }
}
